=== FILE: README.md ===
# ESMLib3 record codec, modelled in Dafny

ESMLib3 reads and writes the TES3 plugin format (`.esm` / `.esp`): a file is a
sequence of records, each a 16-byte header (four-character tag, body size,
a reserved word, flags) followed by sub-records, each an 8-byte header (tag,
size) followed by its payload. This project models the library's codec core as
pure functions over byte sequences with an explicit cursor, and proves what
the library promises about it.

What is modelled:

- **The reader** (`EsmReader`, `ReaderContext`): the record/sub-record state
  machine with its cursor, the bytes left in the current record and
  sub-record, the cached sub-record name, the look-ahead helpers
  (`IsNextSub`, `SkipRecord`, `cacheSubName`, `getContext`/`RestoreContext`), the typed
  readers (`getHT`, `getHNT`, `getHNOT`, strings, RefIds, form identifiers)
  and every error each of them raises. A failure is a `Result` value.
- **The writer** (`EsmWriter`): the open-frame stack with sizes that are
  patched afterwards, the counted record, and the typed writers. `RoundTrip`
  proves that what the writer emits is read back by the reader.
- **Identifiers** (`RefIds`, `Tags`, `Text`): the RefId union, its equality,
  string form, hash key and wire form; four-character tag packing; strings
  through a single-byte code page.
- **The file header** (`FileHeader`, `FormatVersions`) and the record
  dispatch table with raw pass-through (`Records`), with the concrete loader
  the read loop runs (`Loaders`): each record type decoded here goes to its
  own decoder, and every other type keeps its body as bytes.
- **The record decoders** (`Npcs`, `Layout`, `AiPackages`, `Cells`,
  `Dialogues`, `DialInfos`, `Factions`, `LevelledLists`, `MagicEffects`,
  `Skills`, `Regions`, `Ingredients`, `Variants`): their sub-record loops,
  required-field checks, defaults and, where the library has one, the save
  that mirrors the load.

Each operation has a partner: a round-trip lemma (save then load), an
invariant it keeps, or an independent reference definition, connected by an
all-inputs lemma.

## Model

| member | source | states |
|---|---|---|
| Bytes.FromToLE | ESMLib3/EsmWriter.cs:288-292 | a value below 256^len written as len little-endian bytes is read back as itself |
| Bytes.ToFromLE | ESMLib3/EsmReader.cs:250 | bytes read as a little-endian value are written back as the same bytes |
| Bytes.U32RoundTrip | ESMLib3/EsmWriter.cs:288-292 | a u32 written by the writer is read back as the same value |
| Bytes.U64RoundTrip | ESMLib3/EsmWriter.cs:276-280 | a u64 written by the writer is read back as the same value |
| Bytes.U16RoundTrip | ESMLib3/EsmWriter.cs:300-304 | a u16 written by the writer is read back as the same value |
| Bytes.SignedRoundTrips | ESMLib3/EsmWriter.cs:282-286 | the two's-complement reading and writing of 16- and 32-bit values are inverse |
| Text.DecodeEncode | ESMLib3/EsmWriter.cs:203 | a string of byte-sized characters is decoded back from its encoding |
| Text.EncodeDecode | ESMLib3/EsmReader.cs:328 | decoding then encoding gives the same bytes |
| Text.TakeUntilNul | ESMLib3/EsmReader.cs:326 | the decoded bytes are the longest nul-free prefix: no nul inside, and a nul right after unless the input ended |
| Text.TakeUntilNulPadded | ESMLib3/EsmWriter.cs:332-333 | a nul-free string padded with zeros is cut back to itself |
| Text.NatToStringRoundTrip | ESMLib3/RefIds/FormId.cs:33-41 | the digits of a number in a base are digits of that base whose value is the number |
| Text.NatToStringInjective | ESMLib3/RefIds/FormId.cs:33-41 | two numbers with the same digits are equal |
| Text.DecimalInjective | ESMLib3/RefIds/ESM3ExteriorCellRefId.cs:21 | two integers with the same decimal text are equal |
| Tags.FourCC | ESMLib3/Extensions.cs:7-13 | a name is accepted iff it has exactly 4 characters |
| Tags.FourCCBytes | ESMLib3/Extensions.cs:12 | for byte-sized characters the tag is the little-endian reading of the characters, first character lowest |
| Tags.ToMagic | ESMLib3/Extensions.cs:15-18 | the four characters are the tag's little-endian bytes, with non-ASCII bytes as '?' |
| Tags.MagicRoundTrip | ESMLib3/Extensions.cs:15-18 | an ASCII tag is recovered by packing its name |
| Tags.FourCCRoundTrip | ESMLib3/Extensions.cs:7-13 | an ASCII name is recovered from its tag |
| Tags.FourCCInjective | ESMLib3/Extensions.cs:7-13 | two ASCII names with the same tag are the same name |
| Tags.NameValue | ESMLib3/Extensions.cs:12 | the tag of an ASCII name is its first character plus 256 times the second, 65536 times the third and 2^24 times the fourth |
| Tags.TagConstantsA | ESMLib3/RecordName.cs:5-42 | each named constant from TES3 to CSND is the tag of its own name, e.g. TES3 = 0x33534554 |
| Tags.TagConstantsB | ESMLib3/RecordName.cs:43-80 | each named constant from HSND to AI_T is the tag of its own name |
| Tags.TagConstantsC | ESMLib3/RecordName.cs:81-118 | each named constant from AI_F to NNAM is the tag of its own name |
| Tags.TagConstantsD | ESMLib3/RecordName.cs:119-155 | each named constant from LEVC to SLFD is the tag of its own name |
| RefIds.TypeOfByte | ESMLib3/RefIds/RefIdType.cs:3-12 | a type byte names a variant iff it is below 7, and the variant's byte is that byte |
| RefIds.TypeByteRoundTrip | ESMLib3/RefIds/RefIdType.cs:3-12 | every variant's byte names that variant again |
| RefIds.TypeOf | ESMLib3/RefIds/StringRefId.cs:5 | no value reports the unsized-string type (a string identifier reports the sized one), and only Empty reports Empty |
| RefIds.StringRefId | ESMLib3/EsmReader.cs:362 | the string factory the readers, Cell and Skill call: a non-empty string gives a string identifier holding it, and the empty string gives the empty identifier |
| RefIds.EqualsIsValueEquality | ESMLib3/RefIds/FormId.cs:14-18 | every variant's Equals holds exactly for a non-null value of the same variant with the same fields (FormId: same index and content file) |
| RefIds.Equals | ESMLib3/RefIds/EmptyRefId.cs:7-10 | a variant equals another identifier only when it is non-null and reports the same type, and then exactly when it is the same value |
| RefIds.EmptyIsNotUnsetFormId | ESMLib3/RefIds/EmptyRefId.cs:7-10 | Empty equals only Empty-typed values, so it differs from a zero or unset FormId either way round |
| RefIds.ComparerIsValueEquality | ESMLib3/RefIdDictionary.cs:9-17 | the dictionary comparer: the same object, or two non-null values of one type that are Equal; null differs from non-null; in all, value equality |
| RefIds.ComparerEquals | ESMLib3/RefIdDictionary.cs:9-17 | the comparer holds exactly for two null references or two equal values |
| RefIds.ComparerDifferentTypes | ESMLib3/RefIdDictionary.cs:14 | keys with different type tags are never equal |
| RefIds.HashCode | ESMLib3/RefIds/EmptyRefId.cs:12-15 | the empty identifier hashes to 0 |
| RefIds.IndexKeyInjective | ESMLib3/RefIds/IndexRefId.cs:17-20 | the index variant's hash key keeps both the record type and the value |
| RefIds.ExteriorCellKeyIgnoresX | ESMLib3/RefIds/ESM3ExteriorCellRefId.cs:16-19 | as written, an exterior cell with negative y has the same hash key and hash for every x |
| RefIds.FormIdKeyIgnoresIndex | ESMLib3/RefIds/FormId.cs:20-23 | as written, every FormId with content file -1 has the same hash key whatever its index |
| RefIds.PackWrittenNegative | ESMLib3/RefIds/FormId.cs:22 | as written, OR-ing a negative low word sign-extends it over the high word |
| RefIds.HashKey | ESMLib3/RefIds/ESM3ExteriorCellRefId.cs:16-19 | with the low word zero-extended, only Empty has no key |
| RefIds.HashKeyWritten | ESMLib3/RefIds/FormId.cs:22 | as written, only Empty has no key, and a generated or index identifier, or a form or cell identifier whose low half is not negative, gets the key of the corrected packing |
| RefIds.HashKeyInjective | ESMLib3/RefIds/FormId.cs:20-23 | with the low word zero-extended, two values of one variant with the same key are equal |
| RefIds.FormIdText | ESMLib3/RefIds/FormId.cs:25-42 | fails iff the content file is set and the index has a nonzero top byte; else "0x" + hex(index or cf<<24), or "@0x" + hex(index or (-cf-1)<<32) |
| RefIds.FormIdTextInjective | ESMLib3/RefIds/FormId.cs:25-42 | two FormIds with the same text are equal |
| RefIds.ToText | ESMLib3/RefIds/StringRefId.cs:26 | the text of Empty is "", of a string identifier its value; only a FormId whose text fails fails |
| RefIds.ExteriorCellForm | ESMLib3/RefIds/ESM3ExteriorCellRefId.cs:21 | an exterior cell's text is "#x y" |
| RefIds.ExteriorCellTextInjective | ESMLib3/RefIds/ESM3ExteriorCellRefId.cs:21 | two exterior cells with the same text have the same coordinates |
| RefIds.IndexTextInjective | ESMLib3/RefIds/IndexRefId.cs:22-25 | two index identifiers with ASCII record types and the same "TAG:0xhex" text are equal |
| RefIds.GeneratedTextInjective | ESMLib3/RefIds/GeneratedRefId.cs:20 | two generated identifiers with the same hex text are equal |
| ReaderContext.Cleared | ESMLib3/EsmReader.cs:82-91 | clearing zeroes the three counters, the cache flag and both tags and empties the file name, keeping the rest |
| ReaderContext.ClearedIdempotent | ESMLib3/EsmReader.cs:82-91 | clearing twice is clearing once |
| FileHeader.Blank | ESMLib3/Header.cs:96-105 | blank resets the version to TES3, type, strings and record count to zero and empty, the format version to Current, and clears the masters; game data and script blocks stay |
| FileHeader.BlankForgets | ESMLib3/Header.cs:96-105 | blanking is idempotent and forgets every field it resets |
| FileHeader.LoadFormAsWritten | ESMLib3/Header.cs:49 | as written, without FORM the format version is whatever the header held before, and the reader follows it |
| FileHeader.LoadForm | ESMLib3/Header.cs:40-49 | as intended, the format version is 0 unless a leading FORM sub-record sets it, and the reader reads on at that version |
| FileHeader.LoadHedr | ESMLib3/Header.cs:51-59 | HEDR is optional: when another sub-record comes next nothing changes; only the header data can change |
| FileHeader.LoadMasters | ESMLib3/Header.cs:61-67 | every MAST adds one master after the ones already there |
| FileHeader.MasterNeedsData | ESMLib3/Header.cs:61-67 | a MAST not followed by a DATA sub-record fails the load |
| FileHeader.LoadGameData | ESMLib3/Header.cs:69-79 | GMDT is optional and only the game data changes, with a 64-byte cell and 32-byte player name |
| FileHeader.LoadScriptBlock | ESMLib3/Header.cs:81-93 | a script block is captured only when its sub-record is present with size > 0; otherwise the previous one stays |
| FileHeader.LoadRest | ESMLib3/Header.cs:51-93 | the sub-records after FORM keep the format version and only add masters |
| FileHeader.LoadAsWritten | ESMLib3/Header.cs:47-94 | the whole header load as written leaves the reader at the loaded format version |
| FileHeader.Load | ESMLib3/Header.cs:47-94 | the corrected load: an empty header record gives format version 0 |
| FileHeader.OpenHeaderRecord | ESMLib3/EsmReader.cs:42-52 | a file opens only when it starts with a TES3 record header, whose size becomes leftRec |
| FileHeader.Open | ESMLib3/EsmReader.cs:42-52 | opening reads the header record and leaves the reader at the header's format version |
| FileHeader.EmptyHeaderVersion | ESMLib3/Header.cs:40-49 | an empty TES3 record: as written the file is read at version 1, as intended at version 0 |
| FileHeader.EmptyHeaderRecord | ESMLib3/EsmReader.cs:42-52 | a 16-byte empty TES3 record opens with nothing left in the record |
| Variants.GlobalType | ESMLib3/Variant.cs:30-41 | a global's type letter is accepted iff it is "s", "l" or "f" |
| Variants.ValueTag | ESMLib3/Variant.cs:43-87 | a global has no value-tag dispatch, and no format tags Unknown, None or Long values |
| Variants.GlobalLetterRoundTrip | ESMLib3/Variant.cs:30-41 | each global type's letter maps back to that type |
| Variants.ValueTagInjective | ESMLib3/Variant.cs:43-87 | within a format, one sub-record tag stands for one value type |
| Variants.ReadType | ESMLib3/Variant.cs:26-89 | a global's type comes from FNAM and any other letter fails; a setting with no sub-records left is None; otherwise the sub-record's tag picks the type and an unaccepted tag fails; the result is never Unknown |
| Variants.ReadStringValue | ESMLib3/Variant.cs:152-162 | a string value is rejected for the Global, Info and Local formats; a setting reads it as the sub-record's string |
| Variants.ReadIntValue | ESMLib3/Variant.cs:115-150 | a global's short or long comes from an FLTV float; settings and infos accept only Int (i32); locals accept Short (i16) and Int (i32) |
| Variants.ReadI32Value | ESMLib3/Variant.cs:134-140 | only an Int type is read, as the i32 at the start of the payload |
| Variants.ReadFloatValue | ESMLib3/Variant.cs:107-113 | a global's float is the FLTV sub-record; other formats read the float at the start of the current sub-record |
| Variants.ReadValue | ESMLib3/Variant.cs:91-104 | the value is read by the routine for its type, and nothing is read for None |
| Variants.Read | ESMLib3/Variant.cs:26-105 | succeeds iff type and value are read; only a setting can hold a string, and the type is None exactly when no value was read |
| Variants.OnlySettingsHoldText | ESMLib3/Variant.cs:154-159 | a global, info or local variant never holds a string |
| Variants.ReadRoundTrip | ESMLib3/Variant.cs:26-105 | every storable variant laid out in its format's sub-records is read back as itself |
| Variants.GlobalRoundTrip | ESMLib3/Variant.cs:30-41 | a global laid out as FNAM letter then FLTV value is read back as itself |
| Layout.ReadParts | ESMLib3/Records/NPC.cs:153-166 | a fixed list of field widths reads exactly their sum of bytes, split in order, and fails at the end of the stream |
| Layout.ReadPartsAt | ESMLib3/Records/NPC.cs:153-166 | fields laid out back to back are read back as the same fields |
| Npcs.FullOf | ESMLib3/Records/NPC.cs:150-167 | the 52-byte form gives a block with 8 attributes and 27 skills |
| Npcs.AutoOf | ESMLib3/Records/NPC.cs:168-181 | the 12-byte form zeroes every field it does not read: attributes, skills, health, mana, fatigue and both unknowns |
| Npcs.FullRoundTrip | ESMLib3/Records/NPC.cs:273-290 | the 52-byte form the save writes decodes back to the same block |
| Npcs.FullBytesRoundTrip | ESMLib3/Records/NPC.cs:150-167 | 52 bytes decoded and written again are the same bytes |
| Npcs.AutoRoundTrip | ESMLib3/Records/NPC.cs:291-302 | the 12-byte form keeps level, disposition, reputation, rank and gold and zeroes the rest |
| Npcs.NpdtPayload | ESMLib3/Records/NPC.cs:273-302 | the save writes no NPDT for an unset block, 12 bytes for the auto-calculated form and 52 for the full one |
| Npcs.FlagsOf | ESMLib3/Records/NPC.cs:188-190 | the blood type decoded from the FLAG word is below 64 |
| Npcs.FlagRoundTrip | ESMLib3/Records/NPC.cs:304 | (blood << 10) + flags decodes back to the flags and blood type when blood < 64 |
| Npcs.FlagWordKeeps | ESMLib3/Records/NPC.cs:188-190 | a loaded FLAG word is saved back unchanged iff its top two bytes and bits 8-9 are zero |
| Npcs.AiDataRoundTrip | ESMLib3/Records/NPC.cs:200-209 | the AIDT fields the save writes are read back as the same fields |
| Npcs.IdField | ESMLib3/Records/NPC.cs:119-146 | NAME, RNAM, CNAM, ANAM, BNAM, KNAM and SCRI each set their own identifier and nothing else |
| Npcs.SetId | ESMLib3/Records/NPC.cs:119-146 | the identifier field a tag names gets the new identifier, and every other field, identifier or not, is kept |
| Npcs.ReadNpdt | ESMLib3/Records/NPC.cs:147-184 | NPDT must be 12 or 52 bytes, otherwise load fails; each size is read in its form |
| Npcs.ReadFull | ESMLib3/Records/NPC.cs:150-167 | the full form needs 52 bytes and keeps the sub-record counters |
| Npcs.ReadAuto | ESMLib3/Records/NPC.cs:168-181 | the auto-calculated form needs 12 bytes and keeps the sub-record counters |
| Npcs.ReadFlags | ESMLib3/Records/NPC.cs:185-193 | FLAG is the decoding of the i32 in its payload |
| Npcs.DataField | ESMLib3/Records/NPC.cs:147-210 | NPDT sets the block and its form, FLAG the flags and blood type, AIDT only the AI data |
| Npcs.ListField | ESMLib3/Records/NPC.cs:194-199 | NPCS appends one spell and NPCO one inventory entry, changing nothing else |
| Npcs.TransportField | ESMLib3/Records/NPC.cs:211-214 | DODT appends a destination; DNAM names the cell of the last one |
| Npcs.PackageField | ESMLib3/Records/NPC.cs:215-222 | AI package tags and CNDT go to the package list |
| Npcs.LoadField | ESMLib3/Records/NPC.cs:117-229 | each tag sets its field only, an unknown tag fails, and DELE only skips its payload |
| Npcs.LoadSubs | ESMLib3/Records/NPC.cs:114-230 | the loop reads sub-records until the record is used up; the seen-flags only ever become true |
| Npcs.Start | ESMLib3/Records/NPC.cs:100-109 | a load starts with the lists and AI data cleared and the record flags taken from the header |
| Npcs.Load | ESMLib3/Records/NPC.cs:99-238 | the load succeeds exactly when the loop does and saw NAME, and either DELE or both NPDT and FLAG; each missing sub-record fails with its own error; a live record has a well-formed block |
| Npcs.WriteRequired | ESMLib3/Records/NPC.cs:256 | a required identifier that is null fails; otherwise it is written as a nul-terminated sub-record |
| Npcs.WriteScript | ESMLib3/Records/NPC.cs:271 | a null script fails; an Empty one writes nothing |
| Npcs.WriteIds | ESMLib3/Records/NPC.cs:266-270 | the five required identifiers are written in order and fail at the first null |
| Npcs.RequiredIds | ESMLib3/Records/NPC.cs:266-270 | race, class, faction, head and hair are the required identifiers, race first |
| Npcs.SaveBody | ESMLib3/Records/NPC.cs:264-304 | the live body fails at a null race, and succeeds on a top-level writer when every required identifier and the script are set |
| Npcs.SaveNames | ESMLib3/Records/NPC.cs:264-265 | the optional model and name never fail at top level |
| Npcs.SaveData | ESMLib3/Records/NPC.cs:273-304 | NPDT in the record's form (none when unset), then FLAG as (blood << 10) + flags |
| Npcs.Save | ESMLib3/Records/NPC.cs:254-321 | NAME first; a deleted record writes only NAME and DELE; a live one fails because the inventory save is not implemented |
| Npcs.NpdtRoundTrip | ESMLib3/Records/NPC.cs:147-184 | an NPDT sub-record as saved is read back as the same block in the same form, the 12-byte form as what it keeps |
| Npcs.FlagsAtRoundTrip | ESMLib3/Records/NPC.cs:185-193 | a FLAG sub-record as saved is read back as the same flags and blood type |
| Npcs.DeletedRoundTrip | ESMLib3/Records/NPC.cs:232-237 | a record holding only NAME and DELE loads as deleted with that identifier |
| Npcs.SaveLoadDeleted | ESMLib3/Records/NPC.cs:256-262 | the bytes a deleted save writes load back as a deleted record with the same identifier |
| AiPackages.TypeTag | ESMLib3/Structs/AIPackage.cs:9 | every package carries one of the five AI package tags |
| AiPackages.Create | ESMLib3/Structs/AIPackage.cs:11-28 | creation succeeds exactly for AI_W, AI_T, AI_E, AI_F and AI_A, records the tag it was asked for, and otherwise fails naming the tag |
| AiPackages.CreateTypeTag | ESMLib3/Structs/AIPackage.cs:13-25 | creating from a package's own tag gives a package of the same shape; escort and follow both give a target package |
| AiPackages.ReadWander | ESMLib3/Structs/AIPackageList.cs:22-36 | AI_W reads 14 bytes: distance, duration, time of day, eight idle bytes and the repeat flag |
| AiPackages.ReadCoords | ESMLib3/Structs/AIPackageList.cs:42-44 | three coordinates take 12 bytes and fail only at the end of the stream |
| AiPackages.ReadTravel | ESMLib3/Structs/AIPackageList.cs:37-50 | AI_T reads 13 bytes and then skips three bytes of padding without checking them |
| AiPackages.ReadTarget | ESMLib3/Structs/AIPackageList.cs:51-66 | AI_E and AI_F read 47 bytes, skip one byte of padding, and start with no cell name |
| AiPackages.ReadActivate | ESMLib3/Structs/AIPackageList.cs:67-77 | AI_A reads a 32-byte name and the repeat flag |
| AiPackages.ReadPackage | ESMLib3/Structs/AIPackageList.cs:22-77 | each package tag is read in its own layout and yields a package of that tag |
| AiPackages.Add | ESMLib3/Structs/AIPackageList.cs:10-78 | CNDT with no package fails, CNDT after a non-target package fails, otherwise it names the cell of the last package; a package tag appends one package; any other tag changes nothing |
| AiPackages.PayloadBytes | ESMLib3/Structs/AIPackageList.cs:86-136 | the payload fails exactly when a target's id or an activate's name is longer than 32 characters |
| AiPackages.CellBytes | ESMLib3/Structs/AIPackageList.cs:137 | CNDT is written only after a target package whose cell name is not empty |
| AiPackages.SavePackage | ESMLib3/Structs/AIPackageList.cs:84-142 | one package is its sub-record, followed by CNDT for a target with a cell |
| AiPackages.ListBytes | ESMLib3/Structs/AIPackageList.cs:80-144 | the list fails exactly when some package's payload fails |
| AiPackages.Save | ESMLib3/Structs/AIPackageList.cs:80-144 | the list is written package by package in order |
| AiPackages.WanderRoundTrip | ESMLib3/Structs/AIPackageList.cs:86-98 | the AI_W payload as saved is read back as the same wander package |
| AiPackages.TravelRoundTrip | ESMLib3/Structs/AIPackageList.cs:100-112 | the AI_T payload as saved, padding included, is read back as the same travel package |
| AiPackages.TargetRoundTrip | ESMLib3/Structs/AIPackageList.cs:123-136 | the AI_E or AI_F payload as saved is read back as the same target with no cell name |
| AiPackages.ActivateRoundTrip | ESMLib3/Structs/AIPackageList.cs:113-122 | the AI_A payload as saved is read back as the same activate package |
| AiPackages.PayloadRoundTrip | ESMLib3/Structs/AIPackageList.cs:80-144 | any storable package's payload is read back as the same package under its own tag |
| Cells.CellId | ESMLib3/Records/Cell.cs:291-302 | a cell is named by its grid position exactly when the Interior flag is clear, and by its name otherwise |
| Cells.CellIdInjective | ESMLib3/Records/Cell.cs:291-302 | two cells with the same identifier are both exterior at the same grid position or both interior with the same name |
| Cells.ReadCellData | ESMLib3/Records/Cell.cs:105-111 | DATA of the cell reads three 32-bit words and stays inside its sub-record |
| Cells.LoadHead | ESMLib3/Records/Cell.cs:95-123 | the head loop stops at the end of the record or with the first foreign tag cached; the DATA and deleted marks only become true; no references are read |
| Cells.HeadLeavesNameCached | ESMLib3/Records/Cell.cs:118-121 | after the head loop the next sub-record name is cached, so the body loop reads it without touching the stream |
| Cells.LoadNameAndData | ESMLib3/Records/Cell.cs:89-129 | a head without DATA fails; otherwise the cell gets the identifier its DATA and name determine |
| Cells.HeadRoundTrip | ESMLib3/Records/Cell.cs:89-129 | NAME and DATA as written are read back as the same name and grid data, with the following tag left cached |
| Cells.WaterLevel | ESMLib3/Records/Cell.cs:154-168 | a finite WHGT sets the water level; a non-finite one sets the float maximum for an unnamed cell and leaves a named cell's level as it was |
| Cells.FloatMaxFinite | ESMLib3/Records/Cell.cs:161 | the level substituted for a non-finite WHGT is itself finite |
| Cells.ReadWord | ESMLib3/Records/Cell.cs:148 | a one-word sub-record reads its first 32-bit word |
| Cells.SettingField | ESMLib3/Records/Cell.cs:145-190 | INTV and NAM0 before the first reference set the water level and the reference counter; after it INTV goes to the reference and NAM0 is skipped; the head never changes |
| Cells.FrameField | ESMLib3/Records/Cell.cs:191-214 | FRMR closes the open reference with its deleted mark and opens a new one with the read index; DELE marks the open reference deleted |
| Cells.ReadRefValue | ESMLib3/Records/Cell.cs:215-277 | each reference tag is read as a word, an identifier, six floats, a string or a signed byte, as its layout says |
| Cells.RefField | ESMLib3/Records/Cell.cs:215-277 | a reference field with no open reference fails; otherwise it sets that one field of the open reference and nothing else |
| Cells.BodyField | ESMLib3/Records/Cell.cs:143-284 | an unknown tag fails; only FRMR adds to the list of references, which only grows |
| Cells.LoadBody | ESMLib3/Records/Cell.cs:140-285 | the body loop reads to the end of the record and only appends references |
| Cells.CloseRefs | ESMLib3/Records/Cell.cs:287-288 | the reference still open at the end is appended with its deleted mark |
| Cells.Load | ESMLib3/Records/Cell.cs:82-87 | the load succeeds exactly when the head (NAME and DATA) and then the body succeed; a failed head fails the load; a loaded cell keeps the head's identifier, name, grid data and deleted mark and appends to the references |
| Cells.FramesRoundTrip | ESMLib3/Records/Cell.cs:191-214 | a run of FRMR sub-records as written loads as one reference per index, in order |
| Cells.CellRoundTrip | ESMLib3/Records/Cell.cs:82-129 | a cell written as NAME, DATA and FRMR sub-records loads back with that name, grid data, identifier and references |
| Dialogues.IdTag | ESMLib3/Records/Dialogue.cs:34-37 | the identifier sits under NAME up to the last NAME-only format version and under ID__ after it |
| Dialogues.ReadId | ESMLib3/Records/Dialogue.cs:29-37 | old formats read the identifier as a NAME string and keep it as text too; newer formats read a typed identifier under the tag of their version |
| Dialogues.NameField | ESMLib3/Records/Dialogue.cs:44-46 | a NAME met in the loop is read as its string payload and stays inside its sub-record |
| Dialogues.NameFieldAsWritten | ESMLib3/Records/Dialogue.cs:45 | the loop's NAME read as written asks for the NAME header a second time and stays inside its sub-record when it succeeds |
| Dialogues.SizeReadAsName | ESMLib3/Records/Dialogue.cs:45 | the as-written read takes the size word for a second tag and fails unless the size happens to spell NAME |
| Dialogues.NameInLoopAsWrittenFails | ESMLib3/Records/Dialogue.cs:44-46 | a well-formed NAME string in the loop is read by the corrected field and rejected by the as-written one |
| Dialogues.DataField | ESMLib3/Records/Dialogue.cs:47-57 | a one-byte DATA gives the signed topic type; any other size is skipped whole and gives the Unknown type |
| Dialogues.Field | ESMLib3/Records/Dialogue.cs:42-64 | (corrected NAME read of line 45) NAME sets the text name, DATA the type, DELE the deleted mark; any other tag fails; the identifier never changes |
| Dialogues.LoadFields | ESMLib3/Records/Dialogue.cs:39-65 | (corrected NAME read of line 45) the loop reads to the end of the record, keeps the identifier and only ever sets the deleted mark |
| Dialogues.Load | ESMLib3/Records/Dialogue.cs:26-72 | (corrected NAME read of line 45) the load succeeds exactly when the identifier is read, the loop succeeds and, for a live record of the middle format versions, the identifier has a text form; such a record takes its text name from its identifier |
| Dialogues.NameFromId | ESMLib3/Records/Dialogue.cs:69-71 | the text name is taken from the identifier exactly for a live record whose format version is above the last string-identifier version and at most the last NAME-only version |
| Dialogues.DataAt | ESMLib3/Records/Dialogue.cs:47-51 | a one-byte DATA as written is read back as the same type |
| Dialogues.OldFormatRoundTrip | ESMLib3/Records/Dialogue.cs:29-33 | an old-format record of NAME and DATA loads as the string identifier, the same name and the same type |
| Dialogues.NewFormatRoundTrip | ESMLib3/Records/Dialogue.cs:34-71 | (corrected NAME read of line 45) a newer-format record loads with the written identifier; in the middle versions its text name is the identifier's text |
| DialInfos.ReadIds | ESMLib3/Records/DialInfo.cs:91-101 | INAM, PNAM and NNAM are read first, in that order; the quest status and faction-less mark are reset and nothing else changes |
| DialInfos.ReadData | ESMLib3/Records/DialInfo.cs:108-118 | DATA reads 12 bytes: two 32-bit words and four signed bytes |
| DialInfos.SetId | ESMLib3/Records/DialInfo.cs:119-138 | each identifier tag sets its own field; FNAM also marks the info faction-less when the faction is FFFF, and nothing else changes |
| DialInfos.IdField | ESMLib3/Records/DialInfo.cs:119-138 | an identifier sub-record sets its field to the identifier read and keeps the three link identifiers |
| DialInfos.TextField | ESMLib3/Records/DialInfo.cs:139-144 | SNAM sets the sound, NAME the response, BNAM the result script |
| DialInfos.SelectField | ESMLib3/Records/DialInfo.cs:145-150 | SCVR appends one select rule made of its string and the variant read after it, keeping the earlier ones |
| DialInfos.QuestTag | ESMLib3/Records/DialInfo.cs:216-227 | every quest status but none has its own quest tag |
| DialInfos.QuestOfTag | ESMLib3/Records/DialInfo.cs:154-165 | each quest tag maps to a status whose tag it is |
| DialInfos.QuestTagRoundTrip | ESMLib3/Records/DialInfo.cs:154-165 | a status written as its tag is read back as the same status |
| DialInfos.QuestField | ESMLib3/Records/DialInfo.cs:154-165 | a quest tag sets the status and skips the whole rest of the record, not just its sub-record |
| DialInfos.DataField | ESMLib3/Records/DialInfo.cs:108-118 | DATA sets the data block and nothing else |
| DialInfos.DeleteField | ESMLib3/Records/DialInfo.cs:166-169 | DELE marks the info deleted |
| DialInfos.TagSetsDisjoint | ESMLib3/Records/DialInfo.cs:106-172 | the tags of the switch's cases are all distinct |
| DialInfos.Field | ESMLib3/Records/DialInfo.cs:106-172 | each tag goes to its handler, and any other tag fails |
| DialInfos.LoadFields | ESMLib3/Records/DialInfo.cs:103-173 | the loop reads to the end of the record and keeps the link identifiers |
| DialInfos.Load | ESMLib3/Records/DialInfo.cs:91-176 | the load succeeds exactly when the link identifiers are read and the loop succeeds; unreadable link identifiers fail the load; a loaded info keeps them and only appends select rules |
| DialInfos.WriteRequired | ESMLib3/Records/DialInfo.cs:180-182 | a null link identifier fails; otherwise it is written as a nul-terminated sub-record |
| DialInfos.WriteOptionalAsWritten | ESMLib3/Records/DialInfo.cs:199-204 | as written a null condition identifier fails; otherwise it is written unless Empty |
| DialInfos.WriteOptional | ESMLib3/Records/DialInfo.cs:199-204 | corrected, a condition identifier never loaded writes nothing, like an Empty one; a set one is written as before |
| DialInfos.DataBytes | ESMLib3/Records/DialInfo.cs:190-198 | the DATA payload is 12 bytes |
| DialInfos.SaveQuest | ESMLib3/Records/DialInfo.cs:216-227 | no status writes nothing; any other writes its tag with the single byte 1 |
| DialInfos.SaveSelects | ESMLib3/Records/DialInfo.cs:208-212 | no select rules write nothing |
| DialInfos.WriteThreeAsWritten | ESMLib3/Records/DialInfo.cs:199-204 | as written, on a writer able to write them, a null one among three condition identifiers fails |
| DialInfos.WriteThree | ESMLib3/Records/DialInfo.cs:199-204 | corrected, three condition identifiers never fail on a top-level writer, and write nothing when none is set |
| DialInfos.SaveConditionsAsWritten | ESMLib3/Records/DialInfo.cs:199-204 | as written any null condition identifier fails the save with a null reference |
| DialInfos.SaveConditions | ESMLib3/Records/DialInfo.cs:199-204 | corrected, the conditions never fail on a top-level writer and write nothing when none is set |
| DialInfos.SaveTexts | ESMLib3/Records/DialInfo.cs:205-212 | sound, response and select rules only append, and without rules never fail on a top-level writer |
| DialInfos.SaveRest | ESMLib3/Records/DialInfo.cs:205-227 | what follows the conditions only appends, and without rules never fails on a top-level writer |
| DialInfos.SaveLive | ESMLib3/Records/DialInfo.cs:190-227 | corrected, the body of a live info never fails on a top-level writer in the tagged identifier format when it has no select rules |
| DialInfos.SaveLiveAsWritten | ESMLib3/Records/DialInfo.cs:190-227 | the body of a live info as written only appends to the output |
| DialInfos.SaveAsWritten | ESMLib3/Records/DialInfo.cs:178-228 | as written, the save fails when a link identifier is null and only appends to the output |
| DialInfos.SaveIds | ESMLib3/Records/DialInfo.cs:180-182 | any null link identifier fails the save |
| DialInfos.Save | ESMLib3/Records/DialInfo.cs:178-228 | corrected, the save fails when a link identifier is null and only appends to the output |
| DialInfos.IdsWritten | ESMLib3/Records/DialInfo.cs:180-182 | set link identifiers are written as INAM, PNAM and NNAM in order |
| DialInfos.SaveDeleted | ESMLib3/Records/DialInfo.cs:184-188 | a deleted info writes only its three link identifiers and DELE |
| DialInfos.IdsRoundTrip | ESMLib3/Records/DialInfo.cs:93-101 | the link identifiers as written are read back as the same identifiers |
| DialInfos.QuestRoundTrip | ESMLib3/Records/DialInfo.cs:154-165 | a quest sub-record as written is loaded as the same status |
| DialInfos.DataRoundTrip | ESMLib3/Records/DialInfo.cs:108-118 | the DATA payload as written is read back as the same block |
| DialInfos.DeletedRoundTrip | ESMLib3/Records/DialInfo.cs:166-169 | link identifiers followed by DELE load as a deleted info with those identifiers |
| DialInfos.SaveLoadDeleted | ESMLib3/Records/DialInfo.cs:178-188 | the bytes a deleted save writes load back as a deleted info with the same link identifiers |
| DialInfos.LiveHeadWritten | ESMLib3/Records/DialInfo.cs:178-198 | a live info's save writes INAM, PNAM, NNAM and then DATA |
| DialInfos.SaveLiveHead | ESMLib3/Records/DialInfo.cs:178-228 | the corrected save of a live info with its link identifiers set starts with those identifiers and DATA, and without select rules it succeeds |
| DialInfos.LiveIdsRoundTrip | ESMLib3/Records/DialInfo.cs:93-101 | the link identifiers at the front of a live info read back, leaving the reader at DATA |
| DialInfos.DataStep | ESMLib3/Records/DialInfo.cs:103-118 | DATA as written is the next sub-record the loop meets and sets the saved block |
| DialInfos.LiveHeadRoundTrip | ESMLib3/Records/DialInfo.cs:91-118 | link identifiers and DATA as written read back as the same identifiers and data |
| DialInfos.SaveLoadLiveHead | ESMLib3/Records/DialInfo.cs:91-198 | what the corrected save writes for a live info loads back with the same link identifiers, and its first sub-record after them sets the same data |
| DialInfos.PlainSaved | ESMLib3/Records/DialInfo.cs:178-228 | an info with nothing set after DATA is saved as its link identifiers and DATA alone |
| DialInfos.PlainLoaded | ESMLib3/Records/DialInfo.cs:91-176 | a record of link identifiers and DATA alone loads as those identifiers and that data, not deleted |
| DialInfos.SaveLoadPlain | ESMLib3/Records/DialInfo.cs:91-228 | an info with nothing set after DATA, saved and loaded, gives back its identifiers and data, not deleted |
| DialInfos.PlainRecordSaveFails | ESMLib3/Records/DialInfo.cs:178-228 | an info loaded from link identifiers and DATA alone cannot be saved as written and can be by the corrected save |
| EsmReader.Ahead | ESMLib3/EsmReader.cs:511 | a read of n bytes yields min(n, bytes left) bytes, exactly the next n when they are all there |
| EsmReader.ReadExact | ESMLib3/EsmReader.cs:200-202 | a fixed-width read succeeds iff all n bytes remain, returns them and moves the cursor by n; otherwise end of stream |
| EsmReader.ReadU32 | ESMLib3/EsmReader.cs:250 | a u32 is the little-endian value of the next 4 bytes; fails iff fewer than 4 remain |
| EsmReader.ReadI32 | ESMLib3/EsmReader.cs:406 | an i32 is the two's-complement reading of the next 4 bytes; fails iff fewer than 4 remain |
| EsmReader.ReadU64 | ESMLib3/EsmReader.cs:420 | a u64 is the little-endian value of the next 8 bytes; fails iff fewer than 8 remain |
| EsmReader.ReadU8 | ESMLib3/EsmReader.cs:376 | one byte is read as is; fails iff none remains |
| EsmReader.ReadU16 | ESMLib3/Records/Abstraction/LevelledListBase.cs:63 | a u16 is the little-endian value of the next 2 bytes; fails iff fewer than 2 remain |
| EsmReader.ReadI16 | ESMLib3/Structs/AIPackageList.cs:27-28 | an i16 is the two's-complement reading of the next 2 bytes; fails iff fewer than 2 remain |
| EsmReader.ReadI8 | ESMLib3/Records/DialInfo.cs:113-116 | an i8 is the two's-complement reading of the next byte; fails iff none remains |
| EsmReader.ReadF32 | ESMLib3/Records/Ingredient.cs:63 | a float is the 32-bit pattern of the next 4 little-endian bytes, read like a u32; fails iff fewer than 4 remain |
| EsmReader.ReadF32s | ESMLib3/Records/Cell.cs:222-227 | n floats in a row are the n words of the next 4n bytes and move the cursor by 4n; fails iff fewer remain |
| EsmReader.SkipBytes | ESMLib3/EsmReader.cs:480-483 | skipping moves the cursor forward by n bytes and changes nothing else |
| EsmReader.ReadBytes | ESMLib3/EsmReader.cs:511 | a byte-array read fails iff the count is negative and is otherwise a short read up to the end of the stream |
| EsmReader.GetRecordName | ESMLib3/EsmReader.cs:168-190 | fails when no file bytes remain or the previous record has unread bytes; on success the tag is the next u32, leftFile drops by 4 and the sub-record cache is cleared |
| EsmReader.HasMoreRecs | ESMLib3/EsmReader.cs:220 | the file has more records exactly while some of its bytes are left |
| EsmReader.HasMoreSubs | ESMLib3/EsmReader.cs:221 | the record has more sub-records exactly while some of its bytes are left |
| EsmReader.SeekBack | ESMLib3/EsmReader.cs:175-179 | the backtrack over an overrun record moves the cursor back by the overrun, and fails before the start of the stream |
| EsmReader.GetRecHeader | ESMLib3/EsmReader.cs:192-211 | fails when fewer than 12 file bytes remain, when the previous record has unread bytes, or when the size exceeds the rest of the file; otherwise leftRec = size, flags are the third word and leftFile drops by 12 + size |
| EsmReader.SkipRecord | ESMLib3/EsmReader.cs:213-218 | moves past the rest of the record, leaves leftRec 0 and the cache clear, and keeps leftFile and the record flags |
| EsmReader.GetRawRecord | ESMLib3/EsmReader.cs:503-512 | returns the rest of the record, fails on a negative count, and leaves leftRec and leftSub 0 with the cache clear |
| EsmReader.GetSubName | ESMLib3/EsmReader.cs:242-252 | a cached name is used without reading; otherwise the next u32 is the name and leftRec drops by 4 |
| EsmReader.IsNextSub | ESMLib3/EsmReader.cs:230-240 | false without reading when no record bytes remain; otherwise true iff the next name matches, and a mismatch stays cached |
| EsmReader.IsNextSubKeepsMismatch | ESMLib3/EsmReader.cs:230-252 | after a mismatch the next GetSubName returns the cached name without moving the cursor |
| EsmReader.IsNextSubTwice | ESMLib3/EsmReader.cs:230-240 | asking twice for a name that did not match reads nothing the second time |
| EsmReader.GetSubNameIs | ESMLib3/EsmReader.cs:254-259 | succeeds iff the next sub-record name is the expected one |
| EsmReader.GetSubHeader | ESMLib3/EsmReader.cs:301-310 | fails if leftRec < 4; otherwise leftSub is the next u32 and leftRec drops by 4 + leftSub |
| EsmReader.SkipHSub | ESMLib3/EsmReader.cs:474-483 | reads a sub-record size and moves the cursor past that many payload bytes |
| EsmReader.CacheSubName | ESMLib3/EsmReader.cs:495 | marks the current name to be returned again by the next GetSubName, reading nothing |
| EsmReader.GetString | ESMLib3/EsmReader.cs:324-329 | reads size bytes (a short read at the end) and decodes them up to the first nul |
| EsmReader.GetMaybeFixedStringSize | ESMLib3/EsmReader.cs:312-322 | up to version 22 a fixed-width string; above it a u32 length that must not exceed leftSub, then the string |
| EsmReader.GetHString | ESMLib3/EsmReader.cs:331-345 | a sub-record's payload as a string; up to version 23 an empty sub-record followed by a nul byte consumes that byte and gives "" |
| EsmReader.GetHNString | ESMLib3/EsmReader.cs:347-351 | the named sub-record must come next, and its payload is read as a string |
| EsmReader.ApplyContentFileMapping | ESMLib3/EsmReader.cs:450-461 | without a mapping or a content file the FormId is kept; otherwise an unmapped content file gives none and a mapped one is replaced |
| EsmReader.ResolveFormId | ESMLib3/EsmReader.cs:402-416 | an unmapped or zero/unset FormId decodes to Empty; one with a content file to Form; a generated one fails |
| EsmReader.GetRefIdImpl | ESMLib3/EsmReader.cs:374-440 | the tagged reference-identifier payload stays in the current sub-record and leaves the counters alone |
| EsmReader.GetRefIdPayload | ESMLib3/EsmReader.cs:378-437 | each type byte's payload is read in place, leaving the counters alone |
| EsmReader.GetSizedStringRefId | ESMLib3/EsmReader.cs:382-394 | a sized string payload is read in place, leaving the counters alone |
| EsmReader.RefIdImplErrors | ESMLib3/EsmReader.cs:374-440 | an unknown type byte fails; a sized string needs size >= 5 and a stored length <= size - 5; an unsized string needs size >= 1 |
| EsmReader.GetRefIdSized | ESMLib3/EsmReader.cs:359-364 | up to version 23 a plain string identifier of the given size; above it the tagged form |
| EsmReader.GetRefId | ESMLib3/EsmReader.cs:366-372 | up to version 23 the identifier is the sub-record's string; above it the tagged form over the whole payload |
| EsmReader.GetHNRefId | ESMLib3/EsmReader.cs:353-357 | the named sub-record must come next and holds the identifier |
| EsmReader.GetHNORefId | ESMLib3/EsmReader.cs:442-448 | when another sub-record comes next, the identifier is Empty and that name stays cached |
| EsmReader.GetMaybeFixedRefIdSize | ESMLib3/EsmReader.cs:487-493 | up to version 23 a possibly-fixed string identifier; above it the tagged form over leftSub bytes |
| EsmReader.GetHNU32 | ESMLib3/EsmReader.cs:291-299 | the named sub-record comes next and its payload starts with the value |
| EsmReader.GetHNI32 | ESMLib3/EsmReader.cs:291-299 | the signed reading of the same named u32 sub-record |
| EsmReader.GetHNU64 | ESMLib3/EsmReader.cs:291-299 | the named sub-record comes next and its payload starts with the u64 value |
| EsmReader.GetHNU16 | ESMLib3/Records/Abstraction/LevelledListBase.cs:63 | a u16 read by name fails when another sub-record comes next |
| EsmReader.GetHNU16Value | ESMLib3/Records/Abstraction/LevelledListBase.cs:63 | a u16 read by name is the little-endian value at the front of the sub-record's payload, and the cursor stops right after it |
| EsmReader.GetHNOU32 | ESMLib3/EsmReader.cs:261-280 | an optional u32 sub-record: none without reading when the record is used up |
| EsmReader.GetSubPayload | ESMLib3/EsmReader.cs:282-289 | the sub-record's payload, exactly leftSub bytes |
| EsmReader.GetContext | ESMLib3/EsmReader.cs:497-501 | the snapshot is the context with the current file position |
| EsmReader.RestoreContext | ESMLib3/EsmReader.cs:32-40 | installs the snapshot wholesale and seeks to its position; another file is opened only when the file name differs |
| EsmReader.SaveRestoreRoundTrip | ESMLib3/EsmReader.cs:32-40 | restoring a snapshot just taken gives back the same reader |
| EsmReader.OpenRaw | ESMLib3/EsmReader.cs:66-73 | opening starts at position 0 with leftFile the file length and the counters, cache and version reset |
| EsmWriter.Grow | ESMLib3/EsmWriter.cs:261-268 | counting touches only the sizes: every open frame keeps its name, position and kind |
| EsmWriter.GrowTwice | ESMLib3/EsmWriter.cs:261-268 | counting a then b is counting a + b |
| EsmWriter.Emit | ESMLib3/EsmWriter.cs:324-340 | a counted write appends the bytes, adds their count to every open frame and keeps every frame's size equal to the bytes after its header |
| EsmWriter.EmitTwice | ESMLib3/EsmWriter.cs:324-340 | two writes in a row are one write of both |
| EsmWriter.StartRecord | ESMLib3/EsmWriter.cs:54-68 | writes name, size 0, 0 and flags, counts the record and opens a frame whose size field is just after the name |
| EsmWriter.StartSubRecord | ESMLib3/EsmWriter.cs:70-83 | with the guard as intended, opening fails iff more than one frame is open; otherwise writes name and size 0 and opens a frame |
| EsmWriter.StartSubRecordAsWritten | ESMLib3/EsmWriter.cs:73-74 | the guard as written fails iff at most one frame is open |
| EsmWriter.AsWrittenRejectsSubRecordInRecord | ESMLib3/EsmWriter.cs:73-74 | as written no sub-record can be opened inside a freshly opened record; as intended it can |
| EsmWriter.EndRecord | ESMLib3/EsmWriter.cs:85-100 | fails iff no frame is open or the name differs from the top frame's; otherwise patches the size in place without counting it and pops exactly that frame |
| EsmWriter.WriteBytes | ESMLib3/EsmWriter.cs:324-340 | with a length, fails if the value is longer and otherwise writes exactly length bytes, zero-padded; without one writes the value |
| EsmWriter.HStringBytes | ESMLib3/EsmWriter.cs:193-208 | an empty string with size 0 is one 0 byte; otherwise the encoded string, zero-padded to size when one is given |
| EsmWriter.WriteHString | ESMLib3/EsmWriter.cs:193-208 | fails iff the string is longer than a positive size; otherwise emits its padded encoding |
| EsmWriter.WriteHCString | ESMLib3/EsmWriter.cs:210-215 | emits one trailing nul: the 0 byte of the empty string or the nul after a non-empty one |
| EsmWriter.WriteStringWithSize | ESMLib3/EsmWriter.cs:246-254 | a u32 length then the bytes; fails when the length does not fit 32 bits |
| EsmWriter.WriteMaybeFixedSizeString | ESMLib3/EsmWriter.cs:224-233 | up to version 22 fixed-width; above it length-prefixed |
| EsmWriter.SubRecordLayout | ESMLib3/EsmWriter.cs:116-121 | opening, writing a payload and closing a sub-record emits name, payload length and payload |
| EsmWriter.OpenSubRecordState | ESMLib3/EsmWriter.cs:70-83 | after opening and writing a payload the new frame's size is the payload length and the outer frames grew by 8 + payload |
| EsmWriter.WriteHNT | ESMLib3/EsmWriter.cs:116-121 | a named sub-record around a payload: fails iff more than one frame is open |
| EsmWriter.WriteHNString | ESMLib3/EsmWriter.cs:109-114 | the named sub-record of a padded string |
| EsmWriter.WriteHNCString | ESMLib3/EsmWriter.cs:217-222 | the named sub-record of a nul-terminated string |
| EsmWriter.WriteHNOString | ESMLib3/EsmWriter.cs:410-414 | nothing for an empty string, the named sub-record otherwise |
| EsmWriter.WriteHNOCString | ESMLib3/EsmWriter.cs:404-408 | nothing for an empty string, the named nul-terminated sub-record otherwise |
| EsmWriter.WriteDeleted | ESMLib3/EsmWriter.cs:399-402 | the deletion marker is a DELE sub-record holding 4 zero bytes |
| EsmWriter.WireType | ESMLib3/EsmWriter.cs:394-397 | only an unsized string identifier is written with the unsized-string type byte |
| EsmWriter.RefIdWire | ESMLib3/EsmWriter.cs:394-397 | the tagged form starts with the type byte of its variant |
| EsmWriter.WriteHRefId | ESMLib3/EsmWriter.cs:383-392 | up to version 23 the identifier's text as a string, failing when it has none; above it the tagged form |
| EsmWriter.WriteHCRefId | ESMLib3/EsmWriter.cs:372-381 | up to version 23 the identifier's text nul-terminated; above it the tagged form |
| EsmWriter.HRefIdBytes | ESMLib3/EsmWriter.cs:383-392 | the payload fails only below version 24 for an identifier without text |
| EsmWriter.WriteHNRefId | ESMLib3/EsmWriter.cs:354-359 | the named sub-record around the identifier's payload |
| EsmWriter.WriteHNRefIdSized | ESMLib3/EsmWriter.cs:361-370 | up to version 23 a named fixed-size string of the identifier's text; above it the tagged sub-record |
| EsmWriter.WriteHNCRefId | ESMLib3/EsmWriter.cs:347-352 | the named sub-record of the identifier: its text nul-terminated up to version 23, the tagged form above |
| EsmWriter.WriteHNORefId | ESMLib3/EsmWriter.cs:422-426 | nothing for Empty, the named sub-record otherwise |
| EsmWriter.WriteHNOCRefId | ESMLib3/EsmWriter.cs:416-420 | nothing for Empty, the named nul-terminated sub-record otherwise |
| EsmWriter.WriteMaybeFixedSizeRefId | ESMLib3/EsmWriter.cs:235-244 | up to version 23 the identifier's text as a possibly-fixed string; above it the sized tagged form |
| EsmWriter.WriteFormId | ESMLib3/EsmWriter.cs:428-438 | a wide FormId writes index and content file (8 bytes), a narrow one 4 bytes, inside the named sub-record |
| EsmWriter.RecordLayout | ESMLib3/EsmWriter.cs:54-100 | opening a record, writing its body and closing it emits name, body length, 0, flags, body, and counts one record |
| EsmWriter.SaveRecord | ESMLib3/EsmWriter.cs:46-51 | one record of the file written at top level, leaving no frame open |
| EsmWriter.SaveRecords | ESMLib3/EsmWriter.cs:46-51 | every record written in order, one count each, leaving no frame open |
| EsmWriter.Save | ESMLib3/EsmWriter.cs:30-52 | a file is the TES3 header record, whose body is the header saved with the number of records stored in it, then every record; the writer counts the header and every record |
| RoundTrip.PlainTextRecovered | ESMLib3/EsmReader.cs:324-329 | a nul-free string padded with zeros decodes back to itself |
| RoundTrip.RecHeaderRoundTrip | ESMLib3/EsmReader.cs:192-211 | a header of size, 0, flags in front of a body is read back as that size and those flags, leaving the cursor on the body |
| RoundTrip.RecordHeaderRoundTrip | ESMLib3/EsmWriter.cs:54-68 | the bytes a record is written as are read back as its name, flags and body length |
| RoundTrip.SubRecordRoundTrip | ESMLib3/EsmWriter.cs:116-121 | a written sub-record is read back as its name and payload length, with the cursor on the payload |
| RoundTrip.HNStringRoundTrip | ESMLib3/EsmWriter.cs:109-114 | a named string sub-record is read back as the same string by the named string reader |
| RoundTrip.HNCStringRoundTrip | ESMLib3/EsmWriter.cs:217-222 | a named nul-terminated string sub-record is read back as the same string |
| RoundTrip.HNU32RoundTrip | ESMLib3/EsmWriter.cs:144-149 | a named u32 sub-record is read back as the same value, 12 bytes on |
| RoundTrip.FormPayloadRoundTrip | ESMLib3/EsmReader.cs:402-416 | a FormId with a content file is read back as itself when no mapping applies |
| RoundTrip.IndexPayloadRoundTrip | ESMLib3/EsmReader.cs:423-429 | an index payload is read back as the same record type and value |
| RoundTrip.CellPayloadRoundTrip | ESMLib3/EsmReader.cs:430-436 | an exterior-cell payload is read back as the same coordinates |
| RoundTrip.GeneratedPayloadRoundTrip | ESMLib3/EsmReader.cs:418-422 | a generated payload is read back as the same u64 |
| RoundTrip.UnsizedPayloadRoundTrip | ESMLib3/EsmReader.cs:395-401 | an unsized string payload is read back as the same string identifier |
| RoundTrip.SizedPayloadRoundTrip | ESMLib3/EsmReader.cs:382-394 | a sized string payload is read back as the same string identifier |
| RoundTrip.RefIdWireRoundTrip | ESMLib3/EsmReader.cs:374-440 | every identifier's tagged form is read back as the same identifier, using exactly its bytes |
| RoundTrip.RefIdSizedStringRoundTrip | ESMLib3/EsmReader.cs:382-394 | the sized tagged form of a string identifier is read back as the same identifier |
| RoundTrip.HNRefIdRoundTrip | ESMLib3/EsmWriter.cs:354-359 | above version 23 a named identifier sub-record is read back as the same identifier |
| RoundTrip.HNRefIdTextRoundTrip | ESMLib3/EsmWriter.cs:383-392 | up to version 23 a named identifier written as text is read back as the same string identifier |
| RoundTrip.WriteThenReadHNString | ESMLib3/EsmWriter.cs:109-114 | reading the bytes the named string writer appended gives the string back |
| RoundTrip.WriteThenReadHNRefId | ESMLib3/EsmWriter.cs:354-359 | reading the bytes the named identifier writer appended gives the identifier back |
| Factions.SignedRoundTrip | ESMLib3/Records/Faction.cs:51-62 | reading a 32-bit word as signed and writing it back as unsigned is lossless both ways |
| Factions.RanksRoundTrip | ESMLib3/Records/Faction.cs:53-58 | ten rank blocks laid out as five words each are read back as the same blocks |
| Factions.RanksWordsRoundTrip | ESMLib3/Records/Faction.cs:53-58 | words grouped into rank blocks and laid out again are the same words |
| Factions.FadtOf | ESMLib3/Records/Faction.cs:48-62 | 60 words give two attributes, ten rank blocks, seven skills and the hidden flag |
| Factions.FadtRoundTrip | ESMLib3/Records/Faction.cs:48-62 | a well-formed FADT block laid out as words decodes back to the same block |
| Factions.FadtWordsRoundTrip | ESMLib3/Records/Faction.cs:48-62 | 60 words decoded and laid out again are the same words |
| Factions.ReadFadt | ESMLib3/Records/Faction.cs:48-65 | FADT reads 240 bytes and fails at the end of the stream, or when the hidden flag is above 1, naming the flag |
| Factions.FadtAt | ESMLib3/Records/Faction.cs:48-65 | a FADT as written is read back as the same block when its hidden flag is at most 1, and rejected otherwise |
| Factions.React | ESMLib3/Records/Faction.cs:118-125 | an ANAM/INTV pair adds the faction and keeps the lower of the old and new reactions, leaving every other faction alone |
| Factions.ReactAll | ESMLib3/Records/Faction.cs:118-125 | the pairs read, applied in order, add exactly the factions they name, never raise a reaction already held, and leave each named faction at or below every reaction read for it |
| Factions.ReactAllMinimum | ESMLib3/Records/Faction.cs:118-125 | after any sequence of pairs each faction holds the lowest reaction read for it, and only factions that were read or already present appear |
| Factions.ReactAsWritten | ESMLib3/Records/Faction.cs:81 | the table as written appends every pair as a new entry, since its keys compare by reference |
| Factions.ReactionMinimumLost | ESMLib3/Records/Faction.cs:123-124 | two reactions 5 and 3 to one faction leave both entries in the table as written and only 3 in the corrected one |
| Factions.RankField | ESMLib3/Records/Faction.cs:108-113 | an RNAM beyond the tenth fails; otherwise it fills the next rank name and advances the counter |
| Factions.ReactionField | ESMLib3/Records/Faction.cs:118-125 | ANAM is followed by an INTV and updates the reaction table; no reaction ever rises |
| Factions.LoadField | ESMLib3/Records/Faction.cs:99-132 | each tag sets its own field and seen-mark, an unknown tag fails, and only RNAM moves the rank counter |
| Factions.LoadSubs | ESMLib3/Records/Faction.cs:95-133 | the loop reads to the end of the record; marks only become true and the rank counter only grows |
| Factions.EleventhRankFails | ESMLib3/Records/Faction.cs:109-110 | once ten ranks are read, another RNAM fails the load |
| Factions.Load | ESMLib3/Records/Faction.cs:87-139 | the load succeeds exactly when the loop does and saw NAME, and FADT or DELE; a missing NAME or FADT fails with its own error; the record flags come from the header |
| LevelledLists.ReadItems | ESMLib3/Records/Abstraction/LevelledListBase.cs:59-66 | n entries read give exactly n items and stay inside the record |
| LevelledLists.ReadList | ESMLib3/Records/Abstraction/LevelledListBase.cs:50-69 | INDX gives as many items as its count says; a negative count fails |
| LevelledLists.DataField | ESMLib3/Records/Abstraction/LevelledListBase.cs:44-49 | DATA sets only the flags and NNAM only the chance of none |
| LevelledLists.LoadField | ESMLib3/Records/Abstraction/LevelledListBase.cs:38-84 | INDX replaces the items and marks the list read; an unknown tag before the list clears the items and skips the rest of the record, and after it fails |
| LevelledLists.LoadSubs | ESMLib3/Records/Abstraction/LevelledListBase.cs:35-85 | the loop reads to the end of the record and its marks only become true |
| LevelledLists.Load | ESMLib3/Records/Abstraction/LevelledListBase.cs:28-89 | the load succeeds exactly when the loop succeeds and saw NAME; a loop failure is the load's failure; a list without NAME fails; otherwise it is what the loop read, with the record flags from the header |
| LevelledLists.UnknownEndsRecord | ESMLib3/Records/Abstraction/LevelledListBase.cs:74-80 | an unknown tag before INDX ends the loop with no items, whatever follows |
| LevelledLists.ReadItemsAt | ESMLib3/Records/Abstraction/LevelledListBase.cs:59-66 | entries written as identifier and INTV level pairs are read back as the same items |
| LevelledLists.ListAt | ESMLib3/Records/Abstraction/LevelledListBase.cs:50-69 | an INDX count followed by that many entries is read back as the same list |
| MagicEffects.ModifiableFlags | ESMLib3/Records/MagicEffect.cs:55-58 | the modifiable flags are exactly spellmaking, enchanting and negative light |
| MagicEffects.HardcodedFixedOnly | ESMLib3/Records/MagicEffect.cs:9-20 | the table of hard-coded flags has 143 entries and none of them sets a modifiable flag |
| MagicEffects.FixedFlags | ESMLib3/Records/MagicEffect.cs:158-159 | the fixed flags for an index never include a modifiable flag |
| MagicEffects.MergeHardcoded | ESMLib3/Records/MagicEffect.cs:155-160 | the merge keeps the record's modifiable flags and takes every other bit from the table for an index in range, and clears them otherwise |
| MagicEffects.MergeIdempotent | ESMLib3/Records/MagicEffect.cs:155-160 | merging twice gives the same flags as merging once |
| MagicEffects.MergeIgnoresFixedBits | ESMLib3/Records/MagicEffect.cs:157 | two records that agree on the modifiable flags merge to the same flags |
| MagicEffects.IndexToRefId | ESMLib3/Records/MagicEffect.cs:125-131 | index -1 gives the Empty identifier, any other index an MGEF index identifier holding it as unsigned |
| MagicEffects.IndexToRefIdInjective | ESMLib3/Records/MagicEffect.cs:125-131 | different indices give different identifiers |
| MagicEffects.SchoolsAreSkills | ESMLib3/Records/MagicEffect.cs:83-91 | each magic school is one of the skill identifiers |
| MagicEffects.SchoolsDistinct | ESMLib3/Records/MagicEffect.cs:83-91 | the six schools are pairwise different |
| MagicEffects.SchoolOfIndex | ESMLib3/Records/MagicEffect.cs:208-213 | an index outside 0 to 5 gives the Empty identifier, any other a school |
| MagicEffects.IndexOfSchool | ESMLib3/Records/MagicEffect.cs:215-223 | a school gives its position, anything else -1 |
| MagicEffects.SchoolIndexRoundTrip | ESMLib3/Records/MagicEffect.cs:208-223 | a school index turned into a skill and back is the same index |
| MagicEffects.SchoolRefIdRoundTrip | ESMLib3/Records/MagicEffect.cs:208-223 | a school turned into an index and back is the same school |
| MagicEffects.EncodeData | ESMLib3/Records/MagicEffect.cs:229-240 | MEDT is 36 bytes |
| MagicEffects.DecodeData | ESMLib3/Records/MagicEffect.cs:143-153 | the decoded school is Empty or one of the six schools |
| MagicEffects.DataRoundTrip | ESMLib3/Records/MagicEffect.cs:143-153 | an MEDT block with a known school, as written, decodes to the same block |
| MagicEffects.TailField | ESMLib3/Records/MagicEffect.cs:165-202 | each tail tag sets a texture, a sound, a visual effect or the description and never the index, identifier, data or flags; an unknown tag fails |
| MagicEffects.LoadTail | ESMLib3/Records/MagicEffect.cs:162-203 | the tail loop reads to the end of the record and fails at an unknown tag |
| MagicEffects.LoadHead | ESMLib3/Records/MagicEffect.cs:138-153 | INDX and MEDT are read first, and the school is known or Empty |
| MagicEffects.VersionData | ESMLib3/Records/MagicEffect.cs:155-160 | only in the default format version are the fixed flags replaced from the table; nothing else changes |
| MagicEffects.Load | ESMLib3/Records/MagicEffect.cs:133-206 | the load succeeds exactly when the head (INDX and MEDT) and then the tail succeed, and a failed head is the load's failure; a loaded effect has the index read, the identifier made from it, the record flags of the header and the data as the format version adjusts it |
| MagicEffects.HeadRoundTrip | ESMLib3/Records/MagicEffect.cs:138-153 | INDX and MEDT as written are read back as the same index and data |
| MagicEffects.WriteOptionalAsWritten | ESMLib3/Records/MagicEffect.cs:244-252 | an identifier never loaded is null and fails the optional write |
| MagicEffects.WriteOptional | ESMLib3/Records/MagicEffect.cs:244-252 | an absent or Empty identifier writes nothing |
| MagicEffects.SavedIds | ESMLib3/Records/MagicEffect.cs:244-252 | eight identifiers are saved, the bolt sound first |
| MagicEffects.WriteIds | ESMLib3/Records/MagicEffect.cs:244-252 | as written the save fails at a first identifier that is null; corrected it succeeds on a top-level writer |
| MagicEffects.SaveHead | ESMLib3/Records/MagicEffect.cs:227-240 | the head fails only inside an open sub-record, and writes INDX and MEDT first |
| MagicEffects.SaveTextures | ESMLib3/Records/MagicEffect.cs:242-243 | the textures never fail on a top-level writer |
| MagicEffects.SaveTail | ESMLib3/Records/MagicEffect.cs:242-254 | as written a null bolt sound fails the save; corrected the tail succeeds |
| MagicEffects.SaveAsWritten | ESMLib3/Records/MagicEffect.cs:225-255 | as written an effect whose bolt sound was never loaded cannot be saved |
| MagicEffects.Save | ESMLib3/Records/MagicEffect.cs:225-255 | the corrected save succeeds on a top-level writer and starts with INDX and MEDT |
| MagicEffects.SaveLoadHead | ESMLib3/Records/MagicEffect.cs:133-160 | the head a save writes loads back as the same index and data |
| MagicEffects.HeadOnlyRecordSaveFails | ESMLib3/Records/MagicEffect.cs:225-255 | an effect loaded from INDX and MEDT alone cannot be saved as written and can be by the corrected save |
| Skills.Find | ESMLib3/Records/Skill.cs:97-106 | the search returns the first position at or after the start that holds the identifier, or -1 exactly when there is none |
| Skills.FindDistinct | ESMLib3/Records/Skill.cs:97-106 | in a table without repeats each entry is found at its own position |
| Skills.SkillsDistinct | ESMLib3/Records/Skill.cs:37-66 | the table holds 27 pairwise different skills |
| Skills.IndexToRefId | ESMLib3/Records/Skill.cs:89-95 | an index outside 0 to 26 gives the Empty identifier, any other a skill of the table |
| Skills.RefIdToIndex | ESMLib3/Records/Skill.cs:97-106 | a skill gives its position in the table, anything else -1 |
| Skills.IndexRoundTrip | ESMLib3/Records/Skill.cs:89-106 | an index turned into a skill and back is the same index |
| Skills.RefIdRoundTrip | ESMLib3/Records/Skill.cs:89-106 | a skill turned into an index and back is the same skill |
| Skills.LoadSubs | ESMLib3/Records/Skill.cs:116-141 | the loop reads to the end of the record; once seen, the index and data stay seen |
| Skills.Load | ESMLib3/Records/Skill.cs:108-151 | the load succeeds exactly when the loop does and saw an INDX inside the table and SKDT; a missing INDX, an INDX outside the table and a missing SKDT each fail with their own error; a loaded skill is the table entry of its INDX |
| Regions.Weather | ESMLib3/Records/Region.cs:58-75 | the weather table always has ten chances: the bytes read, with the two cold-weather chances zero for the 8-byte form |
| Regions.WeatherField | ESMLib3/Records/Region.cs:58-75 | WEAT must be 8 or 10 bytes, otherwise the load fails naming the size; it replaces only the weather table |
| Regions.SoundField | ESMLib3/Records/Region.cs:82-88 | SNAM appends one sound, named by a string of at most 32 bytes, and keeps the earlier ones |
| Regions.ColorField | ESMLib3/Records/Region.cs:79-81 | CNAM sets only the map colour |
| Regions.IdField | ESMLib3/Records/Region.cs:51-54 | NAME sets the identifier and BNAM the sleep list, nothing else |
| Regions.NameField | ESMLib3/Records/Region.cs:55-57 | FNAM sets only the display name |
| Regions.TagsDistinct | ESMLib3/Records/Region.cs:49-95 | the tags of the switch's cases are all distinct |
| Regions.Field | ESMLib3/Records/Region.cs:49-95 | each tag goes to its handler, marks follow NAME and DELE, only SNAM adds sounds, and any other tag fails |
| Regions.LoadFields | ESMLib3/Records/Region.cs:46-96 | the loop reads to the end of the record, its marks only become true and the sound list only grows |
| Regions.Load | ESMLib3/Records/Region.cs:38-100 | the sound list starts empty; the load succeeds exactly when the loop does and saw NAME, even for a deleted record |
| Regions.WeatherRoundTrip | ESMLib3/Records/Region.cs:58-75 | a WEAT of 8 or 10 bytes is read back as those chances, padded to ten |
| Regions.WeatherSizeRejected | ESMLib3/Records/Region.cs:73-74 | a WEAT of any other size is rejected naming its size |
| Regions.DeletedOnlyFails | ESMLib3/Records/Region.cs:98-99 | a record holding only DELE fails for want of NAME |
| Regions.NameOnlyClearsSounds | ESMLib3/Records/Region.cs:43 | a record holding only NAME loads with that identifier and an empty sound list, whatever the region held before |
| Ingredients.Normalised | ESMLib3/Records/Ingredient.cs:94-109 | an effect that is not an attribute effect gets attribute -1, one that is not a skill effect gets skill -1, and no slot keeps both |
| Ingredients.NormalisedIdempotent | ESMLib3/Records/Ingredient.cs:94-109 | normalising twice changes nothing more than normalising once |
| Ingredients.Normalise | ESMLib3/Records/Ingredient.cs:95-109 | the loop over the four slots computes the normalised data |
| Ingredients.ReadFour | ESMLib3/Records/Ingredient.cs:65-70 | four 32-bit values take 16 bytes |
| Ingredients.ReadData | ESMLib3/Records/Ingredient.cs:60-71 | IRDT reads 56 bytes and stays inside its sub-record |
| Ingredients.RefField | ESMLib3/Records/Ingredient.cs:50-53 | NAME sets the identifier and marks it seen; SCRI sets only the script |
| Ingredients.TextField | ESMLib3/Records/Ingredient.cs:54-59 | MODL, FNAM and ITEX each set their own string and nothing else |
| Ingredients.DataField | ESMLib3/Records/Ingredient.cs:60-73 | IRDT sets the data as read and marks it seen |
| Ingredients.TagsDistinct | ESMLib3/Records/Ingredient.cs:48-86 | the tags of the switch's cases are all distinct |
| Ingredients.Field | ESMLib3/Records/Ingredient.cs:48-86 | each tag goes to its handler, the marks follow NAME, IRDT and DELE, and any other tag fails |
| Ingredients.LoadFields | ESMLib3/Records/Ingredient.cs:45-87 | the loop reads to the end of the record and its marks only become true |
| Ingredients.Load | ESMLib3/Records/Ingredient.cs:38-110 | NAME is required, and IRDT unless the record is deleted; a loaded ingredient is what the loop read with its data normalised |
| Ingredients.FourRoundTrip | ESMLib3/Records/Ingredient.cs:65-70 | four values as written are read back as the same values |
| Ingredients.DataRoundTrip | ESMLib3/Records/Ingredient.cs:60-71 | an IRDT as written is read back as the same data |
| Records.KindOfA | ESMLib3/RecordBase.cs:20-146 | the first group of record names is recognised exactly, each as the kind whose tag it is |
| Records.KindOfB | ESMLib3/RecordBase.cs:20-146 | the second group of record names is recognised exactly, each as the kind whose tag it is |
| Records.KindOfC | ESMLib3/RecordBase.cs:20-146 | the third group of record names is recognised exactly, each as the kind whose tag it is |
| Records.KindOfD | ESMLib3/RecordBase.cs:20-146 | the fourth group of record names is recognised exactly, each as the kind whose tag it is |
| Records.KindOf | ESMLib3/RecordBase.cs:18-146 | a recognised record name maps to the kind whose tag it is, and a name is unrecognised exactly when no kind is stored under it, so the table misses no kind |
| Records.Create | ESMLib3/RecordBase.cs:15-154 | creation fails exactly for names the table does not know, and a created record carries the name it was made from |
| Records.CreateInjective | ESMLib3/RecordBase.cs:15-154 | two names that create the same kind of record are the same name |
| Records.Decide | ESMLib3/EsmReader.cs:114-145 | with no keep-list a known name is loaded typed and an unknown one is skipped, kept raw or rejected as the settings say; with a keep-list a listed name must be known, and an unlisted one is kept raw or skipped |
| Records.RawLoad | ESMLib3/Records/RawRecord.cs:11-15 | a raw record is never deleted and holds exactly the rest of the record's bytes, leaving the reader at the record's end |
| Records.RawSave | ESMLib3/Records/RawRecord.cs:17-20 | a raw record is saved as its bytes unchanged |
| Records.RawRoundTrip | ESMLib3/Records/RawRecord.cs:11-20 | the bytes of a record loaded raw and saved are the same bytes |
| Records.ReadRecord | ESMLib3/EsmReader.cs:108-152 | one step reads one record header and moves strictly forward in the file; a record it keeps is one the settings admit, and one it drops is one they skip |
| Records.ReadAll | ESMLib3/EsmReader.cs:108-152 | the loop reads until no record is left, keeping the records already gathered and admitting only records the settings allow |
| Records.Read | ESMLib3/EsmReader.cs:98-157 | every record read is one the settings admit, and a file with no records reads as none |
| Records.ReadAllStep | ESMLib3/EsmReader.cs:149-151 | a record the loop keeps is appended after those already gathered, and the loop goes on from where that record ended |
| Records.CapturedHeader | ESMLib3/EsmReader.cs:110-112 | the header of the first record of a file written as a list of records reads back as that record's name, flags and size, leaving the reader at its body with the rest of the file after it |
| Records.CapturedBody | ESMLib3/Records/RawRecord.cs:11-15 | the body of such a record, read raw, is exactly its bytes and not deleted, and the reader is left at the next record |
| Records.CapturedStep | ESMLib3/EsmReader.cs:108-152 | with an empty keep-list and skipped records kept raw, one step returns the first record's name, flags and body as a raw entry and stops at the next record |
| Records.CapturedLoop | ESMLib3/EsmReader.cs:108-152 | the loop over such a file appends every remaining record, raw, in order |
| Records.ReadCaptured | ESMLib3/EsmReader.cs:98-157 | with an empty keep-list and skipped records kept raw, a file written as a list of records reads back as exactly those names, flags and bodies, in order and none missing, whatever the typed loader |
| Loaders.Opaque | ESMLib3/Records/RawRecord.cs:11-15 | a record type whose decoder is outside the model keeps its body as bytes: never deleted, the whole rest of the record, the reader left at the record's end; a reader already past the end fails with a negative count |
| Loaders.LoadActor | ESMLib3/TypedRecord.cs:8-12 | an NPC, faction, skill or magic-effect record goes through its own decoder, started from a new record, stays inside the record and gives a record of that type |
| Loaders.LoadItem | ESMLib3/TypedRecord.cs:8-12 | a region, ingredient or levelled-list record goes through its own decoder (the item or creature list as the name says), stays inside the record and gives a record of that type |
| Loaders.LoadPlace | ESMLib3/TypedRecord.cs:8-12 | a cell, dialogue or response record goes through its own decoder, stays inside the record and gives a record of that type |
| Loaders.LoadDecoded | ESMLib3/RecordBase.cs:15-154 | every record type this model decodes is sent to a decoder of that type |
| Loaders.Load | ESMLib3/EsmReader.cs:147-149 | loading a record never leaves it and ends at or past its end, with a record of the type being loaded; a type whose decoder is outside the model is never deleted and, on a record that fits a 32-bit signed count, keeps exactly the body's bytes |
| Loaders.LoadStaysInRecord | ESMLib3/EsmReader.cs:108-152 | the loader meets what the read loop needs of any loader: it never leaves the record it starts in |
| Loaders.ReadCapturedFile | ESMLib3/EsmReader.cs:98-157 | read through this loader with an empty keep-list and skipped records kept raw, a file written as a list of records reads back as those names, flags and bodies |

## Left out

- The stream and file-system handling inside `open` and `openRaw`, and `Seek` and `Dispose`: the input is an in-memory byte sequence and a `Reader` value is always an open file, so the "not open" error of `Read` (ESMLib3/EsmReader.cs:100-101) does not arise.
- Text code pages (ESMLib3/EsmEncoding.cs): decoding and encoding are modelled as the Latin-1 identity (byte b is character b; a character above 255 encodes as `?`).
- Floating point: floats are opaque 32-bit patterns. `WHGT` finiteness is a predicate on the bits, and the Global float-to-integer cast is kept as the untouched float bits (`Truncated`).
- The translation readers (ESMLib3/Translation): tab-separated text files outside the codec.
- The per-type decoders that are fixed field lists (Weapon, Armor, Creature, Global, GameSetting and the rest): `Loaders.Load` sends those record types to `Loaders.Opaque`, which keeps the body as bytes the way a raw record does instead of decoding its fields.
- Loaders.ReadCapturedFile: a whole file is proved to read back through the loader only on the raw-capture path; that a typed record of a decoded type reads back through `Records.Read` is not proved, and rests on each decoder's own round-trip lemmas.
- The `PartReferenceList` and `EffectList` payloads, and the `InventoryList`, `SpellList` and `Transport` payloads of the records left out (Creature, Container and the like): those records are not modelled, so the lists are not decoded. The NPC, the one modelled record that carries an inventory, spells and destinations, decodes them field by field: `NPCO` as a count and an identifier, `NPCS` as an identifier, `DODT` as six floats and `DNAM` as the cell name of the last destination (`Npcs.ListField`, `Npcs.TransportField`).
- `Save` methods that only raise "not implemented" (Cell, Dialogue, Faction, levelled lists, Region, Ingredient, Skill) are not modelled. A live NPC save fails with `NotImplemented`, because the inventory save it calls raises that error.
- Data holders with no behaviour (`CellRef`, `MovedCellRef`, `AIData`, the enums, the exception classes, `EsmData`, `ReadSettings`) appear only as the datatypes the decoders fill.
- C# null strings are modelled as the empty string.
- Every save is modelled over the corrected sub-record guard of ESMLib3/EsmWriter.cs:73-74 (see Findings): with the guard as written no sub-record could be opened inside a record at all, so no save would get past its first field. "As written" in a save row means as written in the record's own code, on top of that corrected guard.
- DialInfos.Save: the round trip through the corrected save is proved for the link identifiers and `DATA` of every live info, and in full only for an info with nothing set after `DATA`; that the condition identifiers, texts, select rules and result script of any other info read back is not proved, and of them only the quest marker has a round trip of its own (`QuestRoundTrip`).
- MagicEffects.Save: the round trip through the corrected save is proved for `INDX` and `MEDT` only; that the textures, the eight identifiers and `DESC` of the tail read back is not proved.
- EsmWriter.Save: the header record's body comes from a parameter standing for `Header.Save`, which is not part of this model; the contract ties the record count it is given to the number of records, not the bytes it writes.
- RefIds.StringRefId: the static factory `RefId.StringRefId`, called at ESMLib3/EsmReader.cs:362-490, ESMLib3/Records/Cell.cs:299 and ESMLib3/Records/Skill.cs:9-35, is not part of this model's source files. Its mapping of the empty string to the empty identifier is taken from the format's description of identifiers, not from code; the `StringRefId` constructor (ESMLib3/RefIds/StringRefId.cs:13), which keeps "" as a string, is not what those callers use.
- `RefId.Save`, `GetRefIdString`, `IsEmpty` (used at ESMLib3/EsmWriter.cs:418 and :424), `Header.Save`, `Variant.Write` and `toUint32` are not part of this model. The writer uses the mirror images of the readers instead: a sized string RefId gets type byte 1, an unsized one type byte 2, and a narrow form identifier writes its index.
- DialInfos.Load: an `FNAM` equal to "FFFF" is compared by value with the string identifier "FFFF" (the library compares a RefId against a string constant).
- MagicEffects.IndexOfSchool: the library finds the school by reference comparison of RefId objects; the model compares by value, which is what every caller relies on.
- Dialogues.NameField: its own contract states only that the cursor advances; what it reads is stated by `Dialogues.NameInLoopAsWrittenFails`.
- Dialogues.NameFieldAsWritten: its own contract states only that the cursor advances; the failure on a real input is stated by `Dialogues.NameInLoopAsWrittenFails`.
- Where the code and the format's written description disagree, the code is followed (the one place the description stands in for code is the string factory above, whose code is missing): the empty RefId is not equal to a zero form identifier, and the form identifier's fields and predicates are those of ESMLib3/RefIds/FormId.cs:7-12 (the reader at ESMLib3/EsmReader.cs:405-411 refers to them under other names).

## Findings

| source | as written | input that shows it | evidently intended | confidence | as-written member | corrected member |
|---|---|---|---|---|---|---|
| ESMLib3/EsmWriter.cs:73-74 | opening a sub-record fails whenever at most one frame is open | start a record on a fresh writer, then open any sub-record in it | fail only when a sub-record is already open (sub-record nesting is what is unsupported) | not executed; high | EsmWriter.StartSubRecordAsWritten, EsmWriter.AsWrittenRejectsSubRecordInRecord | EsmWriter.StartSubRecord |
| ESMLib3/Header.cs:49 | without `FORM`, the format version stays at the value `blank` set at open, Current (1) | a 16-byte `TES3` record with an empty body | the version defaults to 0, as the field initialiser at Header.cs:40 says | not executed; medium | FileHeader.LoadFormAsWritten, FileHeader.EmptyHeaderVersion | FileHeader.LoadForm |
| ESMLib3/RefIds/ESM3ExteriorCellRefId.cs:18 | the hash key ORs a sign-extended `y` into the shifted `x`, so a negative `y` hides `x` | cells (1, -1) and (2, -1) | `y` packed as its unsigned 32 bits | not executed; medium | RefIds.ExteriorCellKeyIgnoresX | RefIds.HashKey, RefIds.HashKeyInjective |
| ESMLib3/RefIds/FormId.cs:22 | the same packing with the content file as low half: content file -1 hides the index | form identifiers (1, -1) and (2, -1) | the content file packed as its unsigned 32 bits | not executed; medium | RefIds.FormIdKeyIgnoresIndex | RefIds.HashKey, RefIds.HashKeyInjective |
| ESMLib3/Records/MagicEffect.cs:244-252 | optional RefId fields the load never set are null, and writing them dereferences null, provided `IsEmpty` (declared in no file of this model) is an instance member | an `MGEF` record with only `INDX` and `MEDT`, loaded and saved | an unset field is written as absent | not executed; plausible | MagicEffects.SaveAsWritten, MagicEffects.HeadOnlyRecordSaveFails | MagicEffects.Save |
| ESMLib3/Records/DialInfo.cs:199-204 | the condition identifiers the load never set (actor, race, class, faction, cell, player faction) are null, and writing them dereferences null, provided `IsEmpty` (declared in no file of this model) is an instance member | an `INFO` record with only `INAM`, `PNAM`, `NNAM` and `DATA`, loaded and saved | an unset condition is written as absent | not executed; plausible | DialInfos.SaveAsWritten, DialInfos.PlainRecordSaveFails | DialInfos.Save |
| ESMLib3/Records/Faction.cs:123-124 | the reaction table is keyed by RefId objects compared by reference, so a repeated faction is a new key and the minimum is never taken | `ANAM` Redoran, `INTV` 5, then `ANAM` Redoran, `INTV` 3 | one entry per faction holding the minimum, 3 | not executed; high | Factions.ReactAsWritten, Factions.ReactionMinimumLost | Factions.React, Factions.ReactAllMinimum |
| ESMLib3/Records/Dialogue.cs:45 | after the loop has read the `NAME` tag, a named-string read takes the size word for a second tag | a `DIAL` record whose identifier is followed by a `NAME` sub-record | read the current sub-record's string | not executed; medium | Dialogues.NameFieldAsWritten, Dialogues.NameInLoopAsWrittenFails | Dialogues.NameField |

=== FILE: ai_packages.dfy ===
/** The AI packages of an actor: wander, travel, escort, follow and
    activate, each one sub-record, with an optional CNDT cell name attached
    to the escort or follow package just before it. */
module AiPackages {
  import opened Bytes
  import opened Wrappers
  import opened Errors
  import opened Tags
  import opened Text
  import opened EsmReader
  import W = EsmWriter
  import RoundTrip

  datatype TargetKind = Escort | Follow

  /** Positions are floats, kept as their bit patterns. A string the
      library leaves null is the empty string here. */
  datatype Package =
    | Wander(distance: i16, duration: i16, timeOfDay: byte, idle: seq<byte>, shouldRepeat: byte)
    | Travel(x: u32, y: u32, z: u32, shouldRepeat: byte)
    | Target(kind: TargetKind, x: u32, y: u32, z: u32, duration: i16, id: string, shouldRepeat: byte, cellName: string)
    | Activate(name: string, shouldRepeat: byte)

  /** The sub-record name a package is stored under. */
  function TypeTag(p: Package): (t: Tag)
    ensures t in PACKAGE_TAGS
  {
    match p
    case Wander(_, _, _, _, _) => AI_W
    case Travel(_, _, _, _) => AI_T
    case Target(k, _, _, _, _, _, _, _) => if k == Escort then AI_E else AI_F
    case Activate(_, _) => AI_A
  }

  const PACKAGE_TAGS: set<Tag> := {AI_W, AI_T, AI_E, AI_F, AI_A}

  /** `AIPackage.Create`: a blank package of the kind a tag names. */
  function Create(tag: Tag): (res: Result<Package, Error>)
    ensures res.Success? <==> tag in PACKAGE_TAGS
    ensures res.Success? ==> TypeTag(res.value) == tag
    ensures res.Failure? ==> res.error == UnknownAiPackage(tag)
  {
    if tag == AI_W then Success(Wander(0, 0, 0, Zeros(8), 0))
    else if tag == AI_T then Success(Travel(0, 0, 0, 0))
    else if tag == AI_E then Success(Target(Escort, 0, 0, 0, 0, "", 0, ""))
    else if tag == AI_F then Success(Target(Follow, 0, 0, 0, 0, "", 0, ""))
    else if tag == AI_A then Success(Activate("", 0))
    else Failure(UnknownAiPackage(tag))
  }

  /** Every package's tag creates a package of its own kind. */
  lemma CreateTypeTag(p: Package)
    ensures Create(TypeTag(p)).Success?
    ensures TypeTag(Create(TypeTag(p)).value) == TypeTag(p)
    ensures Create(TypeTag(p)).value.Target? <==> p.Target?
  {
  }

  // Loading.

  /** The AI_W payload: distance, duration, time of day, eight idle chances, repeat flag. */
  function ReadWander(h: Reader): (res: Result<Step<Package>, Error>)
    ensures res.Success? <==> h.pos + 14 <= |h.data|
    ensures res.Success? ==> res.value.r == h.(pos := h.pos + 14) && res.value.v.Wander? && |res.value.v.idle| == 8
  {
    var d :- ReadI16(h);
    var u :- ReadI16(d.r);
    var t :- ReadU8(u.r);
    var idle :- ReadExact(t.r, 8);
    var rep :- ReadU8(idle.r);
    Success(Step(rep.r, Wander(d.v, u.v, t.v, idle.v, rep.v)))
  }

  /** The AI_T payload: three coordinates, the repeat flag, three bytes of padding skipped. */
  /** Three coordinates, each a float kept as its bit pattern. */
  function ReadCoords(h: Reader): (res: Result<Step<(u32, u32, u32)>, Error>)
    ensures res.Success? <==> h.pos + 12 <= |h.data|
    ensures res.Success? ==> res.value.r == h.(pos := h.pos + 12)
  {
    var x :- ReadF32(h);
    var y :- ReadF32(x.r);
    var z :- ReadF32(y.r);
    Success(Step(z.r, (x.v, y.v, z.v)))
  }

  function ReadTravel(h: Reader): (res: Result<Step<Package>, Error>)
    ensures res.Success? <==> h.pos + 13 <= |h.data|
    ensures res.Success? ==> res.value.r == h.(pos := h.pos + 16) && res.value.v.Travel?
  {
    var c :- ReadCoords(h);
    var rep :- ReadU8(c.r);
    Success(Step(SkipBytes(rep.r, 3), Travel(c.v.0, c.v.1, c.v.2, rep.v)))
  }

  /** The AI_E and AI_F payload: three coordinates, duration, a 32-byte
      identifier, the repeat flag, one byte of padding skipped. */
  function ReadTarget(h: Reader, kind: TargetKind): (res: Result<Step<Package>, Error>)
    ensures res.Success? <==> h.pos + 47 <= |h.data|
    ensures res.Success? ==> res.value.r == h.(pos := h.pos + 48) && res.value.v.Target? && res.value.v.kind == kind
    ensures res.Success? ==> res.value.v.cellName == ""
  {
    var c :- ReadCoords(h);
    var d :- ReadI16(c.r);
    var id := GetString(d.r, 32).value;
    var rep :- ReadU8(id.r);
    Success(Step(SkipBytes(rep.r, 1), Target(kind, c.v.0, c.v.1, c.v.2, d.v, id.v, rep.v, "")))
  }

  /** The AI_A payload: a 32-byte name and the repeat flag. */
  function ReadActivate(h: Reader): (res: Result<Step<Package>, Error>)
    ensures res.Success? <==> h.pos + 33 <= |h.data|
    ensures res.Success? ==> res.value.r == h.(pos := h.pos + 33) && res.value.v.Activate?
  {
    var name := GetString(h, 32).value;
    var rep :- ReadU8(name.r);
    Success(Step(rep.r, Activate(name.v, rep.v)))
  }

  /** The payload of the package a tag names, read after its sub-record header. */
  function ReadPackage(h: Reader, tag: Tag): (res: Result<Step<Package>, Error>)
    requires tag in PACKAGE_TAGS
    ensures res.Success? ==> TypeTag(res.value.v) == tag && SameFile(h, res.value.r) && res.value.r.ctx == h.ctx
    ensures res.Success? && res.value.v.Target? ==> res.value.v.cellName == ""
  {
    if tag == AI_W then ReadWander(h)
    else if tag == AI_T then ReadTravel(h)
    else if tag == AI_E then ReadTarget(h, Escort)
    else if tag == AI_F then ReadTarget(h, Follow)
    else ReadActivate(h)
  }

  /** `AIPackageList.Add`, after the sub-record name has been read: a package
      sub-record appends a package of its kind; CNDT names the cell of the
      last package, which must exist and be an escort or follow package; any
      other sub-record leaves list and reader alone. */
  function Add(r: Reader, list: seq<Package>): (res: Result<Step<seq<Package>>, Error>)
    ensures res.Success? ==> InRecord(r, res.value.r)
    ensures r.ctx.subName == CNDT && list == [] ==> res == Failure(CellWithoutPackage)
    ensures r.ctx.subName == CNDT && list != [] && !list[|list| - 1].Target? ==> res == Failure(CellWithoutTarget)
    ensures r.ctx.subName == CNDT && res.Success? ==>
              GetHString(r).Success? && Consumed(r, res.value.r) && |res.value.v| == |list| > 0
              && res.value.v[..|list| - 1] == list[..|list| - 1]
              && res.value.v[|list| - 1] == list[|list| - 1].(cellName := GetHString(r).value.v)
    ensures r.ctx.subName in PACKAGE_TAGS && res.Success? ==>
              Consumed(r, res.value.r) && |res.value.v| == |list| + 1 && res.value.v[..|list|] == list
              && TypeTag(res.value.v[|list|]) == r.ctx.subName
    ensures r.ctx.subName != CNDT && r.ctx.subName !in PACKAGE_TAGS ==> res == Success(Step(r, list))
  {
    var n := r.ctx.subName;
    if n == CNDT then
      if list == [] then Failure(CellWithoutPackage)
      else if !list[|list| - 1].Target? then Failure(CellWithoutTarget)
      else
        var s :- GetHString(r);
        Success(Step(s.r, list[..|list| - 1] + [list[|list| - 1].(cellName := s.v)]))
    else if n in PACKAGE_TAGS then
      var h :- GetSubHeader(r);
      var p :- ReadPackage(h, n);
      Success(Step(p.r, list + [p.v]))
    else Success(Step(r, list))
  }

  // Saving.

  /** The payload `Save` writes for a package; a 32-byte string field that
      is longer fails. */
  function PayloadBytes(p: Package): (b: Result<seq<byte>, Error>)
    ensures b.Failure? <==> (p.Target? && |p.id| > 32) || (p.Activate? && |p.name| > 32)
  {
    match p
    case Wander(d, u, t, idle, rep) =>
      Success(LE16(U16OfI16(d)) + LE16(U16OfI16(u)) + [t] + idle + [rep])
    case Travel(x, y, z, rep) =>
      Success(CoordBytes(x, y, z) + [rep] + Zeros(3))
    case Target(_, x, y, z, d, id, rep, _) =>
      if |id| > 32 then Failure(ValueTooLong)
      else Success(CoordBytes(x, y, z) + LE16(U16OfI16(d)) + W.HStringBytes(id, 32) + [rep, 0])
    case Activate(name, rep) =>
      if |name| > 32 then Failure(ValueTooLong)
      else Success(W.HStringBytes(name, 32) + [rep])
  }

  /** The sub-record of an escort or follow package's cell: present only
      when the cell name is not empty. */
  function CellBytes(p: Package): (b: seq<byte>)
    ensures b == [] <==> !p.Target? || p.cellName == ""
  {
    if p.Target? && p.cellName != "" then W.SubRecordBytes(CNDT, EncodeText(p.cellName) + [0]) else []
  }

  function CoordBytes(x: u32, y: u32, z: u32): seq<byte>
  {
    LE32(x) + LE32(y) + LE32(z)
  }

  /** One package as `Save` writes it: its sub-record, then for escort and
      follow packages the CNDT sub-record when a cell is named. */
  function SavePackage(w: W.Writer, p: Package): (res: Result<W.Writer, Error>)
    requires W.Valid(w)
    ensures res.Failure? <==> |w.frames| > 1 || PayloadBytes(p).Failure?
    ensures res.Success? ==>
              res.value == W.Emit(w, W.SubRecordBytes(TypeTag(p), PayloadBytes(p).value) + CellBytes(p))
  {
    if |w.frames| > 1 then Failure(WriterState)
    else
      var pay :- PayloadBytes(p);
      var w1 := W.WriteHNT(w, TypeTag(p), pay).value;
      if p.Target? then
        var w2 := W.WriteHNOCString(w1, CNDT, p.cellName).value;
        W.EmitTwice(w, W.SubRecordBytes(TypeTag(p), pay), CellBytes(p));
        Success(w2)
      else
        assert CellBytes(p) == [];
        assert W.SubRecordBytes(TypeTag(p), pay) + [] == W.SubRecordBytes(TypeTag(p), pay);
        Success(w1)
  }

  /** The bytes of a whole list, or the first failure. */
  function ListBytes(list: seq<Package>): (b: Result<seq<byte>, Error>)
    ensures b.Failure? <==> exists k :: 0 <= k < |list| && PayloadBytes(list[k]).Failure?
  {
    if list == [] then Success([])
    else
      var pay :- PayloadBytes(list[0]);
      var rest :- ListBytes(list[1..]);
      Success(W.SubRecordBytes(TypeTag(list[0]), pay) + CellBytes(list[0]) + rest)
  }

  /** `AIPackageList.Save`: the packages in order. */
  function Save(w: W.Writer, list: seq<Package>): (res: Result<W.Writer, Error>)
    requires W.Valid(w)
    ensures res.Failure? <==> ListBytes(list).Failure? || (|w.frames| > 1 && list != [])
    ensures res.Success? ==> res.value == W.Emit(w, ListBytes(list).value)
    decreases |list|
  {
    if list == [] then
      assert w.out + [] == w.out;
      Success(w)
    else
      var w1 :- SavePackage(w, list[0]);
      var w2 :- Save(w1, list[1..]);
      W.EmitTwice(w, W.SubRecordBytes(TypeTag(list[0]), PayloadBytes(list[0]).value) + CellBytes(list[0]), ListBytes(list[1..]).value);
      Success(w2)
  }

  // Saved packages read back.

  /** The packages a load can produce and a save can write: eight idle
      chances, and strings of plain text that fit their 32-byte fields. An
      escort or follow package's cell travels in its own sub-record, so its
      payload carries none. */
  predicate Storable(p: Package)
  {
    match p
    case Wander(_, _, _, idle, _) => |idle| == 8
    case Travel(_, _, _, _) => true
    case Target(_, _, _, _, _, id, _, cell) => |id| <= 32 && RoundTrip.PlainText(id) && cell == ""
    case Activate(name, _) => |name| <= 32 && RoundTrip.PlainText(name)
  }

  lemma AtU16(r: Reader, v: i16)
    requires RoundTrip.At(r, LE16(U16OfI16(v)))
    ensures ReadI16(r) == Success(Step(r.(pos := r.pos + 2), v))
  {
    U16RoundTrip(U16OfI16(v));
    SignedRoundTrips(0, 0, 0, v);
  }

  /** A 32-byte string field reads back as the string written. */
  lemma FixedStringAt(r: Reader, s: string)
    requires |s| <= 32 && RoundTrip.PlainText(s)
    requires RoundTrip.At(r, W.HStringBytes(s, 32))
    ensures GetString(r, 32) == Success(Step(r.(pos := r.pos + 32), s))
  {
    var b := W.HStringBytes(s, 32);
    assert b == EncodeText(s) + Zeros(32 - |s|);
    RoundTrip.AheadAt(r, b);
    RoundTrip.PlainTextRecovered(s, 32 - |s|);
  }

  lemma WanderRoundTrip(h: Reader, d: i16, u: i16, t: byte, idle: seq<byte>, rep: byte)
    requires |idle| == 8
    requires RoundTrip.At(h, LE16(U16OfI16(d)) + LE16(U16OfI16(u)) + [t] + idle + [rep])
    ensures ReadWander(h) == Success(Step(h.(pos := h.pos + 14), Wander(d, u, t, idle, rep)))
  {
    var a := LE16(U16OfI16(d));
    var b := LE16(U16OfI16(u));
    RoundTrip.AtSplit(h, a + b + [t] + idle, [rep]);
    RoundTrip.AtSplit(h, a + b + [t], idle);
    RoundTrip.AtSplit(h, a + b, [t]);
    RoundTrip.AtSplit(h, a, b);
    AtU16(h, d);
    AtU16(h.(pos := h.pos + 2), u);
  }

  lemma TravelRoundTrip(h: Reader, x: u32, y: u32, z: u32, rep: byte)
    requires RoundTrip.At(h, CoordBytes(x, y, z) + [rep] + Zeros(3))
    ensures ReadTravel(h) == Success(Step(h.(pos := h.pos + 16), Travel(x, y, z, rep)))
  {
    RoundTrip.AtSplit(h, CoordBytes(x, y, z) + [rep], Zeros(3));
    RoundTrip.AtSplit(h, CoordBytes(x, y, z), [rep]);
    CoordsAt(h, x, y, z);
  }

  /** Three coordinates written as words read back. */
  lemma CoordsAt(h: Reader, x: u32, y: u32, z: u32)
    requires RoundTrip.At(h, CoordBytes(x, y, z))
    ensures ReadCoords(h) == Success(Step(h.(pos := h.pos + 12), (x, y, z)))
  {
    RoundTrip.AtSplit(h, LE32(x) + LE32(y), LE32(z));
    RoundTrip.AtSplit(h, LE32(x), LE32(y));
    RoundTrip.AtU32(h, x);
    RoundTrip.AtU32(h.(pos := h.pos + 4), y);
    RoundTrip.AtU32(h.(pos := h.pos + 8), z);
  }

  lemma ReadTargetOf(h: Reader, kind: TargetKind, x: u32, y: u32, z: u32, d: i16, id: string, rep: byte)
    requires ReadCoords(h) == Success(Step(h.(pos := h.pos + 12), (x, y, z)))
    requires ReadI16(h.(pos := h.pos + 12)) == Success(Step(h.(pos := h.pos + 14), d))
    requires GetString(h.(pos := h.pos + 14), 32) == Success(Step(h.(pos := h.pos + 46), id))
    requires h.pos + 47 <= |h.data| && h.data[h.pos + 46] == rep
    ensures ReadTarget(h, kind) == Success(Step(h.(pos := h.pos + 48), Target(kind, x, y, z, d, id, rep, "")))
  {
  }

  lemma TargetRoundTrip(h: Reader, kind: TargetKind, x: u32, y: u32, z: u32, d: i16, id: string, rep: byte)
    requires |id| <= 32 && RoundTrip.PlainText(id)
    requires RoundTrip.At(h, CoordBytes(x, y, z) + LE16(U16OfI16(d)) + W.HStringBytes(id, 32) + [rep, 0])
    ensures ReadTarget(h, kind) == Success(Step(h.(pos := h.pos + 48), Target(kind, x, y, z, d, id, rep, "")))
  {
    var c := CoordBytes(x, y, z);
    var e := LE16(U16OfI16(d));
    var s := W.HStringBytes(id, 32);
    assert c + e + s + [rep, 0] == c + e + s + [rep] + [0];
    RoundTrip.AtSplit(h, c + e + s + [rep], [0]);
    ByteAfter(h, c + e + s, rep);
    RoundTrip.AtSplit(h, c + e + s, [rep]);
    RoundTrip.AtSplit(h, c + e, s);
    RoundTrip.AtSplit(h, c, e);
    CoordsAt(h, x, y, z);
    AtU16(h.(pos := h.pos + 12), d);
    FixedStringAt(h.(pos := h.pos + 14), id);
    ReadTargetOf(h, kind, x, y, z, d, id, rep);
  }

  lemma ReadActivateOf(h: Reader, name: string, rep: byte)
    requires GetString(h, 32) == Success(Step(h.(pos := h.pos + 32), name))
    requires h.pos + 33 <= |h.data| && h.data[h.pos + 32] == rep
    ensures ReadActivate(h) == Success(Step(h.(pos := h.pos + 33), Activate(name, rep)))
  {
  }

  /** The byte after a prefix is the byte written there. */
  lemma ByteAfter(r: Reader, a: seq<byte>, x: byte)
    requires RoundTrip.At(r, a + [x])
    ensures r.pos + |a| < |r.data| && r.data[r.pos + |a|] == x
  {
    assert (a + [x])[|a|] == x;
  }

  lemma {:induction false} ActivateRoundTrip(h: Reader, name: string, rep: byte)
    requires |name| <= 32 && RoundTrip.PlainText(name)
    requires RoundTrip.At(h, W.HStringBytes(name, 32) + [rep])
    ensures ReadActivate(h) == Success(Step(h.(pos := h.pos + 33), Activate(name, rep)))
  {
    var s := W.HStringBytes(name, 32);
    RoundTrip.AtSplit(h, s, [rep]);
    FixedStringAt(h, name);
    ActivateAfterName(h, s, name, rep);
  }

  /** The repeat byte after a name already read. */
  lemma {:induction false} ActivateAfterName(h: Reader, s: seq<byte>, name: string, rep: byte)
    requires |s| == 32 && RoundTrip.At(h, s + [rep])
    requires GetString(h, 32) == Success(Step(h.(pos := h.pos + 32), name))
    ensures ReadActivate(h) == Success(Step(h.(pos := h.pos + 33), Activate(name, rep)))
  {
    ByteAfter(h, s, rep);
    ReadActivateOf(h, name, rep);
  }

  lemma WanderPayloadRoundTrip(h: Reader, p: Package)
    requires p.Wander? && Storable(p) && RoundTrip.At(h, PayloadBytes(p).value)
    ensures ReadPackage(h, TypeTag(p)).Success? && ReadPackage(h, TypeTag(p)).value.v == p
  {
    WanderRoundTrip(h, p.distance, p.duration, p.timeOfDay, p.idle, p.shouldRepeat);
    assert ReadPackage(h, TypeTag(p)) == ReadWander(h);
  }

  lemma TravelPayloadRoundTrip(h: Reader, p: Package)
    requires p.Travel? && Storable(p) && RoundTrip.At(h, PayloadBytes(p).value)
    ensures ReadPackage(h, TypeTag(p)).Success? && ReadPackage(h, TypeTag(p)).value.v == p
  {
    TravelRoundTrip(h, p.x, p.y, p.z, p.shouldRepeat);
    assert ReadPackage(h, TypeTag(p)) == ReadTravel(h);
  }

  lemma ReadPackageTarget(h: Reader, k: TargetKind)
    ensures ReadPackage(h, TypeTag(Target(k, 0, 0, 0, 0, "", 0, ""))) == ReadTarget(h, k)
  {
    if k == Escort {
      assert TypeTag(Target(k, 0, 0, 0, 0, "", 0, "")) == AI_E;
    } else {
      assert TypeTag(Target(k, 0, 0, 0, 0, "", 0, "")) == AI_F;
    }
  }

  lemma TargetPayloadRoundTrip(h: Reader, p: Package)
    requires p.Target? && Storable(p) && RoundTrip.At(h, PayloadBytes(p).value)
    ensures ReadPackage(h, TypeTag(p)).Success? && ReadPackage(h, TypeTag(p)).value.v == p
  {
    assert PayloadBytes(p).value == CoordBytes(p.x, p.y, p.z) + LE16(U16OfI16(p.duration)) + W.HStringBytes(p.id, 32) + [p.shouldRepeat, 0];
    TargetRoundTrip(h, p.kind, p.x, p.y, p.z, p.duration, p.id, p.shouldRepeat);
    assert p == Target(p.kind, p.x, p.y, p.z, p.duration, p.id, p.shouldRepeat, "");
    ReadPackageTarget(h, p.kind);
  }

  lemma ActivatePayloadRoundTrip(h: Reader, p: Package)
    requires p.Activate? && Storable(p) && RoundTrip.At(h, PayloadBytes(p).value)
    ensures ReadPackage(h, TypeTag(p)).Success? && ReadPackage(h, TypeTag(p)).value.v == p
  {
    ActivateRoundTrip(h, p.name, p.shouldRepeat);
    assert ReadPackage(h, TypeTag(p)) == ReadActivate(h);
  }

  /** Every storable package's payload, read after the header of its own
      sub-record, gives the package back. */
  lemma PayloadRoundTrip(h: Reader, p: Package)
    requires Storable(p) && RoundTrip.At(h, PayloadBytes(p).value)
    ensures ReadPackage(h, TypeTag(p)).Success? && ReadPackage(h, TypeTag(p)).value.v == p
  {
    if p.Wander? {
      WanderPayloadRoundTrip(h, p);
    } else if p.Travel? {
      TravelPayloadRoundTrip(h, p);
    } else if p.Target? {
      TargetPayloadRoundTrip(h, p);
    } else {
      ActivatePayloadRoundTrip(h, p);
    }
  }
}

=== FILE: bits.dfy ===
/** Bitwise operations on naturals, for the shifts, ors and xors the
    library applies to integers. A natural stands for its binary digits. */
module Bits {
  import opened Bytes

  function Pow2(k: nat): (r: nat)
    ensures r > 0
  {
    if k == 0 then 1 else 2 * Pow2(k - 1)
  }

  lemma Pow2Values()
    ensures Pow2(8) == 0x100 && Pow2(16) == 0x1_0000 && Pow2(24) == 0x100_0000
    ensures Pow2(32) == TWO_32 && Pow2(64) == TWO_64
  {
    assert Pow2(4) == 16;
    assert Pow2(8) == 0x100;
    assert Pow2(12) == 0x1000;
    assert Pow2(16) == 0x1_0000;
    assert Pow2(20) == 0x10_0000;
    assert Pow2(24) == 0x100_0000;
    assert Pow2(28) == 0x1000_0000;
    assert Pow2(32) == TWO_32;
    assert Pow2(40) == 0x100_0000_0000;
    assert Pow2(48) == 0x1_0000_0000_0000;
    assert Pow2(56) == 0x100_0000_0000_0000;
  }

  /** `(uint)x << k`: the shift keeps the low 32 bits. */
  function Shl32(x: nat, k: nat): u32
  {
    (x * Pow2(k)) % TWO_32
  }

  /** Bitwise or, one bit at a time from the lowest. */
  function Or(a: nat, b: nat): nat
    decreases a + b
  {
    if a == 0 then b
    else if b == 0 then a
    else Or(a / 2, b / 2) * 2 + (if a % 2 == 1 || b % 2 == 1 then 1 else 0)
  }

  /** Bitwise exclusive or, one bit at a time from the lowest. */
  function Xor(a: nat, b: nat): nat
    decreases a + b
  {
    if a == 0 then b
    else if b == 0 then a
    else Xor(a / 2, b / 2) * 2 + (if a % 2 != b % 2 then 1 else 0)
  }

  lemma {:induction false} XorBound(a: nat, b: nat, k: nat)
    requires a < Pow2(k) && b < Pow2(k)
    ensures Xor(a, b) < Pow2(k)
    decreases k
  {
    if k > 0 && a != 0 && b != 0 {
      XorBound(a / 2, b / 2, k - 1);
    }
  }

  /** Or adds when the operands' bits do not overlap: `b` fits below bit `k`. */
  lemma {:induction false} OrDisjoint(a: nat, b: nat, k: nat)
    requires b < Pow2(k)
    ensures Or(a * Pow2(k), b) == a * Pow2(k) + b
    decreases k
  {
    if k > 0 && a != 0 && b != 0 {
      var p := Pow2(k - 1);
      var m := a * p;
      assert a * Pow2(k) == 2 * m by {
        assert Pow2(k) == 2 * p;
      }
      OrDisjoint(a, b / 2, k - 1);
      assert Or(2 * m, b) == Or(m, b / 2) * 2 + b % 2;
    }
  }

  /** Or with a word of ones below bit `k` is that word. */
  lemma {:induction false} OrOnes(a: nat, k: nat)
    requires a < Pow2(k)
    ensures Or(a, Pow2(k) - 1) == Pow2(k) - 1
    decreases k
  {
    if k > 0 && a != 0 {
      OrOnes(a / 2, k - 1);
      assert (Pow2(k) - 1) / 2 == Pow2(k - 1) - 1;
    }
  }

  /** Or works on the bits above `k` and the bits below `k` separately. */
  lemma {:induction false} OrShift(a: nat, b: nat, lo: nat, k: nat)
    requires lo < Pow2(k)
    ensures Or(a * Pow2(k), b * Pow2(k) + lo) == Or(a, b) * Pow2(k) + lo
    decreases k
  {
    if k > 0 {
      assert lo / 2 < Pow2(k - 1);
      OrShift(a, b, lo / 2, k - 1);
      OrShiftStep(a, b, lo, Pow2(k - 1), Pow2(k));
    }
  }

  lemma OrShiftStep(a: nat, b: nat, lo: nat, p: nat, q: nat)
    requires p > 0 && q == 2 * p && lo < q
    requires Or(a * p, b * p + lo / 2) == Or(a, b) * p + lo / 2
    ensures Or(a * q, b * q + lo) == Or(a, b) * q + lo
  {
    if a == 0 {
      assert a * q == 0;
    } else if b == 0 && lo == 0 {
      assert b * q + lo == 0;
    } else {
      OrShiftInner(a, b, lo, p, q);
    }
  }

  lemma OrShiftInner(a: nat, b: nat, lo: nat, p: nat, q: nat)
    requires p > 0 && q == 2 * p && lo < q
    requires a != 0 && (b != 0 || lo != 0)
    requires Or(a * p, b * p + lo / 2) == Or(a, b) * p + lo / 2
    ensures Or(a * q, b * q + lo) == Or(a, b) * q + lo
  {
    var x, y := a * q, b * q + lo;
    ShiftHalves(a, b, lo, p, q);
    var o := Or(a, b);
    OrUnfold(x, y);
    assert Or(x, y) == (o * p + lo / 2) * 2 + lo % 2;
    Regroup(o, p, q, lo);
  }

  lemma Regroup(o: nat, p: nat, q: nat, lo: nat)
    requires q == 2 * p
    ensures (o * p + lo / 2) * 2 + lo % 2 == o * q + lo
  {
  }

  lemma OrUnfold(x: nat, y: nat)
    requires x != 0 && y != 0
    ensures Or(x, y) == Or(x / 2, y / 2) * 2 + (if x % 2 == 1 || y % 2 == 1 then 1 else 0)
  {
  }

  lemma ShiftHalves(a: nat, b: nat, lo: nat, p: nat, q: nat)
    requires p > 0 && q == 2 * p && lo < q
    ensures (a * q) / 2 == a * p && (a * q) % 2 == 0
    ensures (b * q + lo) / 2 == b * p + lo / 2 && (b * q + lo) % 2 == lo % 2
    ensures lo / 2 < p
    ensures a != 0 ==> a * q != 0
    ensures b != 0 || lo != 0 ==> b * q + lo != 0
  {
    assert a * q == 2 * (a * p);
    assert b * q + lo == 2 * (b * p + lo / 2) + lo % 2;
  }
}

=== FILE: bytes.dfy ===
/** Fixed-width integers and their little-endian wire form.
    Integers are unbounded in Dafny; the widths of the original library's
    `byte`, `short`, `int`, `long` (and their unsigned forms) are subset types,
    and every conversion between a signed and an unsigned view is written out. */
module Bytes {

  type byte = x: int | 0 <= x < 0x100
  type u16 = x: int | 0 <= x < 0x1_0000
  type u32 = x: int | 0 <= x < 0x1_0000_0000
  type u64 = x: int | 0 <= x < 0x1_0000_0000_0000_0000
  type i8 = x: int | -0x80 <= x < 0x80
  type i16 = x: int | -0x8000 <= x < 0x8000
  type i32 = x: int | -0x8000_0000 <= x < 0x8000_0000

  const TWO_32: int := 0x1_0000_0000
  const TWO_64: int := 0x1_0000_0000_0000_0000

  /** 256 to the power `n`: one past the largest value `n` bytes can hold. */
  function Pow256(n: nat): (r: nat)
    ensures r > 0
  {
    if n == 0 then 1 else 256 * Pow256(n - 1)
  }

  lemma Pow256Widths()
    ensures Pow256(1) == 0x100
    ensures Pow256(2) == 0x1_0000
    ensures Pow256(4) == TWO_32
    ensures Pow256(8) == TWO_64
  {
    assert Pow256(2) == 0x1_0000;
    assert Pow256(4) == TWO_32;
  }

  /** The value of a little-endian byte string: the first byte is the least significant. */
  function FromLE(s: seq<byte>): nat
  {
    if |s| == 0 then 0 else s[0] + 256 * FromLE(s[1..])
  }

  /** The `len`-byte little-endian form of `n`, keeping only the low `len` bytes. */
  function ToLE(n: nat, len: nat): (s: seq<byte>)
    ensures |s| == len
  {
    if len == 0 then [] else [n % 256] + ToLE(n / 256, len - 1)
  }

  lemma {:induction false} FromLEBound(s: seq<byte>)
    ensures FromLE(s) < Pow256(|s|)
  {
    if |s| > 0 {
      FromLEBound(s[1..]);
    }
  }

  /** Decoding undoes encoding for every value that fits the width. */
  lemma {:induction false} FromToLE(n: nat, len: nat)
    requires n < Pow256(len)
    ensures FromLE(ToLE(n, len)) == n
  {
    if len > 0 {
      FromToLE(n / 256, len - 1);
      assert ToLE(n, len)[1..] == ToLE(n / 256, len - 1);
    }
  }

  /** Encoding undoes decoding: a byte string is determined by its value and its length. */
  lemma {:induction false} ToFromLE(s: seq<byte>)
    ensures ToLE(FromLE(s), |s|) == s
  {
    if |s| > 0 {
      ToFromLE(s[1..]);
      assert FromLE(s) % 256 == s[0];
      assert FromLE(s) / 256 == FromLE(s[1..]);
    }
  }

  lemma ToLEAppend(n: nat, len: nat)
    requires len > 0
    ensures ToLE(n, len) == [n % 256] + ToLE(n / 256, len - 1)
  {
  }

  function U16Of(b: seq<byte>): u16
    requires |b| == 2
  {
    FromLEBound(b); Pow256Widths();
    FromLE(b)
  }

  function U32Of(b: seq<byte>): u32
    requires |b| == 4
  {
    FromLEBound(b); Pow256Widths();
    FromLE(b)
  }

  function U64Of(b: seq<byte>): u64
    requires |b| == 8
  {
    FromLEBound(b); Pow256Widths();
    FromLE(b)
  }

  function LE16(v: u16): (s: seq<byte>)
    ensures |s| == 2
  {
    ToLE(v, 2)
  }

  function LE32(v: u32): (s: seq<byte>)
    ensures |s| == 4
  {
    ToLE(v, 4)
  }

  function LE64(v: u64): (s: seq<byte>)
    ensures |s| == 8
  {
    ToLE(v, 8)
  }

  lemma U32RoundTrip(v: u32)
    ensures U32Of(LE32(v)) == v
  {
    Pow256Widths();
    FromToLE(v, 4);
  }

  lemma U16RoundTrip(v: u16)
    ensures U16Of(LE16(v)) == v
  {
    Pow256Widths();
    FromToLE(v, 2);
  }

  lemma U64RoundTrip(v: u64)
    ensures U64Of(LE64(v)) == v
  {
    Pow256Widths();
    FromToLE(v, 8);
  }

  lemma LE32RoundTrip(b: seq<byte>)
    requires |b| == 4
    ensures LE32(U32Of(b)) == b
  {
    ToFromLE(b);
  }

  /** 32-bit values laid end to end, four little-endian bytes each: the
      layout of the fixed structures written with one `Write` per field. */
  function Words(vs: seq<u32>): (s: seq<byte>)
    ensures |s| == 4 * |vs|
  {
    if vs == [] then [] else LE32(vs[0]) + Words(vs[1..])
  }

  /** A byte string read as consecutive 32-bit values; a trailing part
      shorter than four bytes is not read. */
  function WordsOf(b: seq<byte>): (vs: seq<u32>)
    ensures |vs| == |b| / 4
  {
    if |b| < 4 then [] else [U32Of(b[..4])] + WordsOf(b[4..])
  }

  /** Reading laid-out values gives them back. */
  lemma {:induction false} WordsRoundTrip(vs: seq<u32>)
    ensures WordsOf(Words(vs)) == vs
  {
    if vs != [] {
      var b := Words(vs);
      assert b[..4] == LE32(vs[0]);
      assert b[4..] == Words(vs[1..]);
      U32RoundTrip(vs[0]);
      WordsRoundTrip(vs[1..]);
    }
  }

  /** Laying out the values read from whole words gives the bytes back. */
  lemma {:induction false} WordsOfRoundTrip(b: seq<byte>)
    requires |b| % 4 == 0
    ensures Words(WordsOf(b)) == b
  {
    if |b| >= 4 {
      LE32RoundTrip(b[..4]);
      WordsOfRoundTrip(b[4..]);
      assert b == b[..4] + b[4..];
    }
  }

  /** Word `k` of a byte string: bytes 4k to 4k + 3 read as one value. */
  function WordAt(b: seq<byte>, k: nat): u32
    requires 4 * k + 4 <= |b|
  {
    U32Of(b[4 * k..4 * k + 4])
  }

  /** Word `k` of laid-out values is value `k`. */
  lemma {:induction false} WordsAt(vs: seq<u32>, k: nat)
    requires k < |vs|
    ensures Words(vs)[4 * k..4 * k + 4] == LE32(vs[k])
    ensures WordAt(Words(vs), k) == vs[k]
  {
    if k == 0 {
      assert Words(vs)[..4] == LE32(vs[0]);
    } else {
      WordsAt(vs[1..], k - 1);
      assert Words(vs)[4 * k..4 * k + 4] == Words(vs[1..])[4 * (k - 1)..4 * (k - 1) + 4];
    }
    U32RoundTrip(vs[k]);
  }

  /** Every word of laid-out values is the value at its position. */
  lemma WordsAll(vs: seq<u32>)
    ensures forall k :: 0 <= k < |vs| ==> WordAt(Words(vs), k) == vs[k]
  {
    forall k | 0 <= k < |vs|
      ensures WordAt(Words(vs), k) == vs[k]
    {
      WordsAt(vs, k);
    }
  }

  /** The two's-complement reading of an unsigned value (a C# unchecked cast). */
  function I8OfU8(u: byte): i8 { if u < 0x80 then u else u - 0x100 }
  function I16OfU16(u: u16): i16 { if u < 0x8000 then u else u - 0x1_0000 }
  function I32OfU32(u: u32): i32 { if u < 0x8000_0000 then u else u - TWO_32 }

  /** The unsigned bit pattern of a signed value. */
  function U8OfI8(v: i8): byte { if v >= 0 then v else v + 0x100 }
  function U16OfI16(v: i16): u16 { if v >= 0 then v else v + 0x1_0000 }
  function U32OfI32(v: i32): u32 { if v >= 0 then v else v + TWO_32 }

  lemma SignedRoundTrips(u: u32, v: i32, w: u16, x: i16)
    ensures U32OfI32(I32OfU32(u)) == u && I32OfU32(U32OfI32(v)) == v
    ensures U16OfI16(I16OfU16(w)) == w && I16OfU16(U16OfI16(x)) == x
  {
  }

  /** An unchecked cast of any integer to a 32-bit unsigned value keeps its low 32 bits. */
  function WrapU32(x: int): u32 { x % TWO_32 }

  /** An unchecked cast of any integer to a 32-bit signed value. */
  function WrapI32(x: int): i32 { I32OfU32(x % TWO_32) }

  function Zeros(n: nat): (s: seq<byte>)
    ensures |s| == n
    ensures forall i :: 0 <= i < n ==> s[i] == 0
  {
    seq(n, _ => 0)
  }

  function Min(a: int, b: int): int { if a <= b then a else b }
}

=== FILE: cell.dfy ===
/** Cells (`CELL`): a name and position head, then the cell's own
    settings mixed with the references placed in it. A reference starts at
    each `FRMR` sub-record and collects the sub-records after it until the
    next `FRMR` or the end of the record. */
module Cells {
  import opened Bytes
  import opened Wrappers
  import opened Errors
  import opened Tags
  import opened RefIds
  import opened EsmReader
  import opened RoundTrip
  import W = EsmWriter

  /** Bit 0 of the cell flags marks an interior cell. */
  const INTERIOR: nat := 0x01

  datatype CellData = CellData(flags: i32, x: i32, y: i32)

  /** The water level, a float. An `INTV` sub-record gives it as an integer
      (the conversion to float is not modelled); `WHGT` gives the float's bits. */
  datatype Water = IntLevel(n: i32) | FloatLevel(bits: u32)

  datatype Ambient = Ambient(ambient: u32, sunlight: u32, fog: u32, fogDensity: u32)

  /** A value a reference's sub-record carries; floats are kept as bit patterns. */
  datatype Field = Word(w: u32) | Id(id: RefId) | Text(s: string) | Floats(fs: seq<u32>) | SignedByte(b: i8)

  /** One reference placed in the cell: its number, the identifier of the
      object it places, and the last value of each sub-record that filled
      it in, by sub-record name (`XSCL` the scale, `DATA` the position,
      `DODT` the door destination, which also makes the door teleport,
      `ANAM` the owner, and so on). A name that is absent leaves the field
      at its default. */
  datatype CellRef = CellRef(refNum: FormId, refId: RefId, fields: map<Tag, Field>)

  /** A reference as `FRMR` creates it: every field at the object's
      default, since the reset to the documented blank values is not called. */
  const NEW_REF: CellRef := CellRef(DEFAULT_FORM_ID, Empty, map[])

  predicate Teleports(cr: CellRef)
  {
    DODT in cr.fields
  }

  datatype Cell = Cell(
    id: RefId, name: string, data: CellData, hasAmbi: bool, hasWaterHeight: bool, water: Water,
    ambi: Ambient, region: Option<RefId>, mapColor: i32, refNumCounter: i32, refs: seq<(CellRef, bool)>)

  const NEW_CELL: Cell := Cell(Empty, "", CellData(0, 0, 0), false, false, FloatLevel(0),
                               Ambient(0, 0, 0, 0), None, 0, 0, [])

  // The identifier.

  predicate IsExterior(d: CellData)
  {
    (U32OfI32(d.flags) / INTERIOR) % 2 == 0
  }

  /** `generateIdForCell`: an interior cell is known by its name, an
      exterior one by its grid position. */
  function CellId(d: CellData, name: string): (id: RefId)
    ensures id.ExteriorCell? <==> IsExterior(d)
    ensures id.ExteriorCell? ==> id.x == d.x && id.y == d.y
    ensures !IsExterior(d) ==> (id.Empty? <==> name == "") && (id.Str? ==> id.value == name)
  {
    if !IsExterior(d) then StringRefId(name) else ExteriorCell(d.x, d.y)
  }

  /** Cells with the same identifier are the same exterior grid square or
      interior cells of the same name. */
  lemma CellIdInjective(d1: CellData, n1: string, d2: CellData, n2: string)
    requires CellId(d1, n1) == CellId(d2, n2)
    ensures IsExterior(d1) <==> IsExterior(d2)
    ensures IsExterior(d1) ==> d1.x == d2.x && d1.y == d2.y
    ensures !IsExterior(d1) ==> n1 == n2
  {
  }

  // The head: name, data and deletion, up to the first other sub-record.

  const HEAD_TAGS: set<Tag> := {NAME, DATA, DELE}

  datatype HeadScan = HeadScan(cell: Cell, hasData: bool, deleted: bool)

  /** `DATA` in the head: flags and grid position, three 32-bit values. */
  function ReadCellData(r1: Reader): (res: Result<Step<CellData>, Error>)
    ensures res.Success? ==> Consumed(r1, res.value.r) && GetSubHeader(r1).Success?
    ensures res.Success? ==> res.value.r == GetSubHeader(r1).value.(pos := GetSubHeader(r1).value.pos + 12)
  {
    var h :- GetSubHeader(r1);
    var f :- ReadI32(h);
    var x :- ReadI32(f.r);
    var y :- ReadI32(x.r);
    Success(Step(y.r, CellData(f.v, x.v, y.v)))
  }

  /** `loadNameAndData`'s loop. It stops at the first sub-record it does
      not know and leaves that name cached for the body loop. */
  function LoadHead(r: Reader, sc: HeadScan): (res: Result<Step<HeadScan>, Error>)
    ensures res.Success? ==> InRecord(r, res.value.r)
    ensures res.Success? ==> res.value.r.ctx.leftRec <= 0
                             || (res.value.r.ctx.subCached && res.value.r.ctx.subName !in HEAD_TAGS)
    ensures res.Success? ==> (sc.hasData ==> res.value.v.hasData) && (sc.deleted ==> res.value.v.deleted)
    ensures res.Success? ==> res.value.v.cell.refs == sc.cell.refs
    ensures !HasMoreSubs(r) ==> res == Success(Step(r, sc))
    decreases r.ctx.leftRec
  {
    if !HasMoreSubs(r) then Success(Step(r, sc))
    else
      var r1 :- GetSubName(r);
      var t := r1.ctx.subName;
      if t == NAME then
        var s :- GetHString(r1);
        LoadHead(s.r, sc.(cell := sc.cell.(name := s.v)))
      else if t == DATA then
        var d :- ReadCellData(r1);
        LoadHead(d.r, sc.(cell := sc.cell.(data := d.v), hasData := true))
      else if t == DELE then
        var r2 :- SkipHSub(r1);
        LoadHead(r2, sc.(deleted := true))
      else Success(Step(CacheSubName(r1), sc))
  }

  /** After the head stops on an unknown sub-record, the body's first
      `GetSubName` hands back that same name without reading. */
  lemma HeadLeavesNameCached(r: Reader, sc: HeadScan)
    requires LoadHead(r, sc).Success? && HasMoreSubs(LoadHead(r, sc).value.r)
    ensures var r2 := LoadHead(r, sc).value.r;
            GetSubName(r2) == Success(r2.(ctx := r2.ctx.(subCached := false)))
            && r2.ctx.subName !in HEAD_TAGS
  {
  }

  /** The head, with the identifier worked out from it; `DATA` is required. */
  function LoadNameAndData(r: Reader, c: Cell): (res: Result<Step<(Cell, bool)>, Error>)
    ensures LoadHead(r, HeadScan(c, false, false)).Success? && !LoadHead(r, HeadScan(c, false, false)).value.v.hasData ==>
              res == Failure(MissingSubrecord(DATA))
    ensures res.Success? ==> var h := LoadHead(r, HeadScan(c, false, false));
              h.Success? && h.value.v.hasData && res.value.r == h.value.r
              && res.value.v.0 == h.value.v.cell.(id := CellId(h.value.v.cell.data, h.value.v.cell.name))
              && res.value.v.1 == h.value.v.deleted
  {
    var h :- LoadHead(r, HeadScan(c, false, false));
    if !h.v.hasData then Failure(MissingSubrecord(DATA))
    else
      var cell := h.v.cell;
      Success(Step(h.r, (cell.(id := CellId(cell.data, cell.name)), h.v.deleted)))
  }

  // The head as the writer lays it out.

  /** `DATA`'s payload: the flags and the grid position. */
  function DataBytes(d: CellData): (b: seq<byte>)
    ensures |b| == 12
  {
    LE32(U32OfI32(d.flags)) + LE32(U32OfI32(d.x)) + LE32(U32OfI32(d.y))
  }

  /** A head with a name and grid data and no deletion mark. */
  function HeadBytes(name: string, d: CellData): seq<byte>
    requires |name| < 0x8000_0000
  {
    W.SubRecordBytes(NAME, W.HStringBytes(name, 0)) + W.SubRecordBytes(DATA, DataBytes(d))
  }

  lemma {:induction false} NameStep(r: Reader, sc: HeadScan, name: string) returns (n: Reader)
    requires PlainText(name) && |name| < 0x8000_0000
    requires At(r, W.SubRecordBytes(NAME, W.HStringBytes(name, 0)))
    requires !r.ctx.subCached && r.ctx.leftRec >= 8 + |W.HStringBytes(name, 0)|
    ensures LoadHead(r, sc) == LoadHead(n, sc.(cell := sc.cell.(name := name)))
    ensures n.pos == r.pos + 8 + |W.HStringBytes(name, 0)| && n.ctx.leftRec == r.ctx.leftRec - 8 - |W.HStringBytes(name, 0)|
    ensures SameFile(r, n) && n.ctx.leftFile == r.ctx.leftFile && !n.ctx.subCached
  {
    HNStringRoundTrip(r, NAME, name, 0);
    var r1 := GetSubName(r).value;
    assert GetSubNameIs(r, NAME).value == r1;
    n := GetHNString(r, NAME).value.r;
  }

  lemma {:induction false} DataStep(r: Reader, sc: HeadScan, d: CellData) returns (n: Reader)
    requires At(r, W.SubRecordBytes(DATA, DataBytes(d)))
    requires !r.ctx.subCached && r.ctx.leftRec >= 20
    ensures LoadHead(r, sc) == LoadHead(n, sc.(cell := sc.cell.(data := d), hasData := true))
    ensures n.pos == r.pos + 20 && n.ctx.leftRec == r.ctx.leftRec - 20
    ensures SameFile(r, n) && n.ctx.leftFile == r.ctx.leftFile && !n.ctx.subCached
  {
    SubRecordRoundTrip(r, DATA, DataBytes(d));
    var r1 := GetSubNameIs(r, DATA).value;
    var h := GetSubHeader(r1).value;
    AtSplit(h, LE32(U32OfI32(d.flags)), LE32(U32OfI32(d.x)) + LE32(U32OfI32(d.y)));
    AtSplit(h.(pos := h.pos + 4), LE32(U32OfI32(d.x)), LE32(U32OfI32(d.y)));
    AtI32(h, d.flags);
    AtI32(h.(pos := h.pos + 4), d.x);
    AtI32(h.(pos := h.pos + 8), d.y);
    assert ReadCellData(r1) == Success(Step(h.(pos := h.pos + 12), d));
    n := h.(pos := h.pos + 12);
  }

  lemma StopStep(r: Reader, sc: HeadScan, next: Tag)
    requires At(r, LE32(next)) && next !in HEAD_TAGS
    requires !r.ctx.subCached && r.ctx.leftRec > 0
    ensures LoadHead(r, sc).Success? && LoadHead(r, sc).value.v == sc
    ensures var n := LoadHead(r, sc).value.r;
            n.ctx.subCached && n.ctx.subName == next && n.pos == r.pos + 4 && n.ctx.leftRec == r.ctx.leftRec - 4
  {
    U32RoundTrip(next);
  }

  /** A head written as a name and grid data reads back as that name and
      data, with the identifier they determine, not deleted; the first
      sub-record after it is left for the body. */
  lemma {:induction false} HeadRoundTrip(r: Reader, c: Cell, name: string, d: CellData, next: Tag)
    requires PlainText(name) && |name| < 0x8000_0000 && next !in HEAD_TAGS
    requires At(r, HeadBytes(name, d) + LE32(next))
    requires !r.ctx.subCached && r.ctx.leftRec >= |HeadBytes(name, d)| + 4
    ensures LoadNameAndData(r, c).Success?
    ensures var res := LoadNameAndData(r, c).value;
            res.v.0.name == name && res.v.0.data == d && res.v.0.id == CellId(d, name) && !res.v.1
            && res.r.ctx.subCached && res.r.ctx.subName == next && res.r.pos == r.pos + |HeadBytes(name, d)| + 4
            && res.r.ctx.leftRec == r.ctx.leftRec - |HeadBytes(name, d)| - 4 && InRecord(r, res.r)
  {
    var a := W.SubRecordBytes(NAME, W.HStringBytes(name, 0));
    var b := W.SubRecordBytes(DATA, DataBytes(d));
    assert HeadBytes(name, d) + LE32(next) == a + (b + LE32(next));
    AtSplit(r, a, b + LE32(next));
    var sc0 := HeadScan(c, false, false);
    var n1 := NameStep(r, sc0, name);
    var sc1 := sc0.(cell := sc0.cell.(name := name));
    AtMoved(r.(pos := r.pos + |a|), n1, b + LE32(next));
    AtSplit(n1, b, LE32(next));
    var n2 := DataStep(n1, sc1, d);
    var sc2 := sc1.(cell := sc1.cell.(data := d), hasData := true);
    AtMoved(n1.(pos := n1.pos + |b|), n2, LE32(next));
    StopStep(n2, sc2, next);
  }

  // The body: cell settings and references.

  /** The body loop's state: the cell, the reference being collected (None
      before the first `FRMR`) and whether a `DELE` marked it. */
  datatype BodyScan = BodyScan(cell: Cell, current: Option<CellRef>, refDeleted: bool)

  /** The sub-records that fill in the reference being collected. */
  const REF_TAGS: set<Tag> := {XSCL, DATA, DODT, DNAM, ANAM, NAM9, FLTV, KNAM, CNAM, INDX, TNAM, XSOL, BNAM, XCHG, UNAM}

  /** The sub-records the body reads for the cell itself or to frame references. */
  const CELL_TAGS: set<Tag> := {INTV, WHGT, AMBI, RGNN, NAM5, NAM0, FRMR, DELE}

  lemma TagSetsDisjoint()
    ensures CELL_TAGS !! REF_TAGS
    ensures FRMR !in REF_TAGS && DELE !in REF_TAGS && SETTING_TAGS !! REF_TAGS
  {
  }

  /** A float bit pattern is finite unless its exponent bits are all set. */
  predicate Finite(bits: u32)
  {
    (bits / 0x80_0000) % 0x100 != 0xFF
  }

  /** The bits of the largest finite float. */
  const FLOAT_MAX: u32 := 0x7F7F_FFFF

  lemma FloatMaxFinite()
    ensures Finite(FLOAT_MAX)
  {
  }

  /** A 32-bit value filling the current sub-record, after its size. */
  function ReadWord(r1: Reader): (res: Result<Step<u32>, Error>)
    ensures res.Success? ==> Consumed(r1, res.value.r) && GetSubHeader(r1).Success?
    ensures res.Success? ==> ReadU32(GetSubHeader(r1).value).Success? && res == ReadU32(GetSubHeader(r1).value)
  {
    var h :- GetSubHeader(r1);
    ReadU32(h)
  }

  /** `WHGT`: a non-finite level is replaced by the largest float unless the
      cell has a name, in which case the level is left as it was. */
  function WaterLevel(c: Cell, bits: u32): (c2: Cell)
    ensures c2.hasWaterHeight
    ensures Finite(bits) ==> c2.water == FloatLevel(bits)
    ensures !Finite(bits) && c.name == "" ==> c2.water == FloatLevel(FLOAT_MAX)
    ensures !Finite(bits) && c.name != "" ==> c2.water == c.water
    ensures c2.refs == c.refs && c2.refNumCounter == c.refNumCounter
  {
    var c1 := c.(hasWaterHeight := true);
    if !Finite(bits) then (if c.name == "" then c1.(water := FloatLevel(FLOAT_MAX)) else c1)
    else c1.(water := FloatLevel(bits))
  }

  /** `c2` has the identifier, name and grid data of `c`. */
  predicate SameHead(c: Cell, c2: Cell)
  {
    c2.id == c.id && c2.name == c.name && c2.data == c.data
  }

  /** The cell's own settings. They leave the references alone; `INTV`
      is the water level before the first reference and the charge of the
      current reference after it, and `NAM0` is read only before the first
      reference and skipped after it. */
  function SettingField(r1: Reader, sc: BodyScan): (res: Result<Step<BodyScan>, Error>)
    requires r1.ctx.subName in SETTING_TAGS
    ensures res.Success? ==> Consumed(r1, res.value.r)
    ensures res.Success? ==> res.value.v.cell.refs == sc.cell.refs && res.value.v.refDeleted == sc.refDeleted
                             && res.value.v.current.Some? == sc.current.Some? && SameHead(sc.cell, res.value.v.cell)
    ensures res.Success? && r1.ctx.subName == NAM0 && sc.current.Some? ==> res.value.v == sc
    ensures res.Success? && r1.ctx.subName == NAM0 && sc.current.None? ==>
              ReadWord(r1).Success? && res.value.v.cell == sc.cell.(refNumCounter := I32OfU32(ReadWord(r1).value.v))
    ensures res.Success? && r1.ctx.subName == INTV && sc.current.None? ==>
              ReadWord(r1).Success? && res.value.v.cell == sc.cell.(water := IntLevel(I32OfU32(ReadWord(r1).value.v)), hasWaterHeight := true)
    ensures res.Success? && r1.ctx.subName == INTV && sc.current.Some? ==>
              res.value.v.cell == sc.cell && ReadWord(r1).Success?
              && res.value.v.current.value == sc.current.value.(fields := sc.current.value.fields[INTV := Word(ReadWord(r1).value.v)])
  {
    var t := r1.ctx.subName;
    var c := sc.cell;
    if t == AMBI then
      var h :- GetSubHeader(r1);
      var a :- ReadF32s(h, 4);
      Success(Step(a.r, sc.(cell := c.(ambi := Ambient(a.v[0], a.v[1], a.v[2], a.v[3]), hasAmbi := true))))
    else if t == RGNN then
      var id :- GetRefId(r1);
      Success(Step(id.r, sc.(cell := c.(region := Some(id.v)))))
    else if t == NAM0 && sc.current.Some? then
      var r2 :- SkipHSub(r1);
      Success(Step(r2, sc))
    else
      var v :- ReadWord(r1);
      var n := I32OfU32(v.v);
      Success(Step(v.r,
        if t == INTV then
          (if sc.current.None? then sc.(cell := c.(water := IntLevel(n), hasWaterHeight := true))
           else sc.(current := Some(sc.current.value.(fields := sc.current.value.fields[INTV := Word(v.v)]))))
        else if t == WHGT then sc.(cell := WaterLevel(c, v.v))
        else if t == NAM5 then sc.(cell := c.(mapColor := n))
        else sc.(cell := c.(refNumCounter := n))))
  }

  /** `FRMR` closes the reference being collected, with its deleted mark,
      and opens a new one with the index it carries and the identifier of
      an optional `NAME` after it. `DELE` marks the current reference. */
  function FrameField(r1: Reader, sc: BodyScan): (res: Result<Step<BodyScan>, Error>)
    requires r1.ctx.subName == FRMR || r1.ctx.subName == DELE
    ensures res.Success? ==> Consumed(r1, res.value.r)
    ensures res.Success? && r1.ctx.subName == FRMR ==>
              res.value.v.cell == sc.cell.(refs := sc.cell.refs + (if sc.current.Some? then [(sc.current.value, sc.refDeleted)] else []))
              && res.value.v.current.Some? && !res.value.v.refDeleted
              && ReadWord(r1).Success? && res.value.v.current.value.refNum.index == ReadWord(r1).value.v
    ensures res.Success? && r1.ctx.subName == DELE ==> res.value.v == sc.(refDeleted := true)
  {
    if r1.ctx.subName == FRMR then
      var c := sc.cell;
      var closed := if sc.current.Some? then c.refs + [(sc.current.value, sc.refDeleted)] else c.refs;
      var v :- ReadWord(r1);
      var id :- GetHNORefId(v.r, NAME);
      InRecordTransitive(r1, v.r, id.r);
      var started := NEW_REF.(refNum := NEW_REF.refNum.(index := v.v), refId := id.v);
      Success(Step(id.r, BodyScan(c.(refs := closed), Some(started), false)))
    else
      var r2 :- SkipHSub(r1);
      Success(Step(r2, sc.(refDeleted := true)))
  }

  /** The sub-records of a reference that carry one 32-bit value, and those that carry an identifier. */
  const REF_WORD_TAGS: set<Tag> := {XSCL, NAM9, FLTV, INDX, XCHG}
  const REF_ID_TAGS: set<Tag> := {ANAM, KNAM, CNAM, TNAM, XSOL}

  function WordValue(r1: Reader): (res: Result<Step<Field>, Error>)
    ensures res.Success? ==> Consumed(r1, res.value.r) && res.value.v.Word?
  {
    var v :- ReadWord(r1);
    Success(Step(v.r, Word(v.v)))
  }

  function IdValue(r1: Reader): (res: Result<Step<Field>, Error>)
    ensures res.Success? ==> Consumed(r1, res.value.r) && res.value.v.Id?
  {
    var id :- GetRefId(r1);
    Success(Step(id.r, Id(id.v)))
  }

  /** A position: three coordinates and three rotations. */
  function FloatsValue(r1: Reader): (res: Result<Step<Field>, Error>)
    ensures res.Success? ==> Consumed(r1, res.value.r) && res.value.v.Floats? && |res.value.v.fs| == 6
  {
    var h :- GetSubHeader(r1);
    var p :- ReadF32s(h, 6);
    Success(Step(p.r, Floats(p.v)))
  }

  function TextValue(r1: Reader): (res: Result<Step<Field>, Error>)
    ensures res.Success? ==> Consumed(r1, res.value.r) && res.value.v.Text?
  {
    var s :- GetHString(r1);
    Success(Step(s.r, Text(s.v)))
  }

  function ByteValue(r1: Reader): (res: Result<Step<Field>, Error>)
    ensures res.Success? ==> Consumed(r1, res.value.r) && res.value.v.SignedByte?
  {
    var h :- GetSubHeader(r1);
    var b :- ReadI8(h);
    Success(Step(b.r, SignedByte(b.v)))
  }

  /** The value of one reference sub-record, of the kind its name calls for. */
  function ReadRefValue(r1: Reader): (res: Result<Step<Field>, Error>)
    ensures res.Success? ==> Consumed(r1, res.value.r)
    ensures r1.ctx.subName in REF_WORD_TAGS ==> res == WordValue(r1)
    ensures r1.ctx.subName in REF_ID_TAGS ==> res == IdValue(r1)
    ensures r1.ctx.subName == DATA || r1.ctx.subName == DODT ==> res == FloatsValue(r1)
    ensures r1.ctx.subName == DNAM || r1.ctx.subName == BNAM ==> res == TextValue(r1)
  {
    var t := r1.ctx.subName;
    if t in REF_WORD_TAGS then WordValue(r1)
    else if t in REF_ID_TAGS then IdValue(r1)
    else if t == DATA || t == DODT then FloatsValue(r1)
    else if t == DNAM || t == BNAM then TextValue(r1)
    else ByteValue(r1)
  }

  /** A field of the current reference. With no reference open the value
      is still read, and then the load fails. */
  function RefField(r1: Reader, sc: BodyScan): (res: Result<Step<BodyScan>, Error>)
    ensures res.Success? ==> Consumed(r1, res.value.r)
    ensures sc.current.None? ==> res.Failure?
    ensures res.Success? ==> res.value.v.cell == sc.cell
    ensures ReadRefValue(r1).Failure? ==> res == Failure(ReadRefValue(r1).error)
    ensures ReadRefValue(r1).Success? && sc.current.Some? ==>
              res.Success? && res.value.v == sc.(current := Some(sc.current.value.(fields := sc.current.value.fields[r1.ctx.subName := ReadRefValue(r1).value.v])))
  {
    var f :- ReadRefValue(r1);
    if sc.current.None? then Failure(NullReference)
    else
      var cr := sc.current.value;
      Success(Step(f.r, sc.(current := Some(cr.(fields := cr.fields[r1.ctx.subName := f.v])))))
  }

  /** The body sub-records that are the cell's own settings. */
  const SETTING_TAGS: set<Tag> := {INTV, WHGT, AMBI, RGNN, NAM5, NAM0}

  /** One body sub-record. A reference field before any `FRMR` has no
      reference to go into and fails once it is read; an unknown name fails. */
  function BodyField(r1: Reader, sc: BodyScan): (res: Result<Step<BodyScan>, Error>)
    ensures res.Success? ==> Consumed(r1, res.value.r)
    ensures r1.ctx.subName !in CELL_TAGS && r1.ctx.subName !in REF_TAGS ==> res == Failure(UnknownSubrecord(r1.ctx.subName))
    ensures r1.ctx.subName == FRMR || r1.ctx.subName == DELE ==> res == FrameField(r1, sc)
    ensures r1.ctx.subName in SETTING_TAGS ==> res == SettingField(r1, sc)
    ensures r1.ctx.subName in REF_TAGS ==> res == RefField(r1, sc)
    ensures res.Success? && r1.ctx.subName != FRMR ==> res.value.v.cell.refs == sc.cell.refs
    ensures res.Success? ==> sc.cell.refs <= res.value.v.cell.refs && SameHead(sc.cell, res.value.v.cell)
  {
    var t := r1.ctx.subName;
    TagSetsDisjoint();
    if t == FRMR || t == DELE then FrameField(r1, sc)
    else if t in SETTING_TAGS then SettingField(r1, sc)
    else if t in REF_TAGS then RefField(r1, sc)
    else Failure(UnknownSubrecord(t))
  }

  /** `loadCell`'s loop. */
  function LoadBody(r: Reader, sc: BodyScan): (res: Result<Step<BodyScan>, Error>)
    ensures res.Success? ==> InRecord(r, res.value.r) && res.value.r.ctx.leftRec <= 0
    ensures res.Success? ==> sc.cell.refs <= res.value.v.cell.refs && SameHead(sc.cell, res.value.v.cell)
    ensures !HasMoreSubs(r) ==> res == Success(Step(r, sc))
    decreases r.ctx.leftRec
  {
    if !HasMoreSubs(r) then Success(Step(r, sc))
    else
      var r1 :- GetSubName(r);
      var f :- BodyField(r1, sc);
      LoadBody(f.r, f.v)
  }

  /** The last reference is closed when the record ends. */
  function CloseRefs(sc: BodyScan): (c: Cell)
    ensures sc.current.None? ==> c == sc.cell
    ensures sc.current.Some? ==> c == sc.cell.(refs := sc.cell.refs + [(sc.current.value, sc.refDeleted)])
  {
    if sc.current.Some? then sc.cell.(refs := sc.cell.refs + [(sc.current.value, sc.refDeleted)]) else sc.cell
  }

  /** `Load`: the head, then the body; the references are added to the ones
      the cell already holds. The deleted flag is the head's. */
  function Load(r: Reader, c: Cell): (res: Result<Step<(Cell, bool)>, Error>)
    ensures res.Success? ==> InRecord(r, res.value.r) && res.value.r.ctx.leftRec <= 0
    ensures LoadNameAndData(r, c).Failure? ==> res == Failure(LoadNameAndData(r, c).error)
    ensures res.Success? <==>
              LoadNameAndData(r, c).Success?
              && (var head := LoadNameAndData(r, c).value;
                  LoadBody(head.r, BodyScan(head.v.0.(hasAmbi := false, hasWaterHeight := false), None, false)).Success?)
    ensures res.Success? ==> LoadNameAndData(r, c).Success? && c.refs <= res.value.v.0.refs
    ensures res.Success? ==> var head := LoadNameAndData(r, c).value.v;
              res.value.v.1 == head.1 && res.value.v.0.id == head.0.id && res.value.v.0.name == head.0.name
              && res.value.v.0.data == head.0.data
  {
    var head :- LoadNameAndData(r, c);
    assert head.v.0.refs == c.refs;
    var start := head.v.0.(hasAmbi := false, hasWaterHeight := false);
    var body :- LoadBody(head.r, BodyScan(start, None, false));
    InRecordTransitive(r, head.r, body.r);
    var cell := CloseRefs(body.v);
    assert c.refs <= body.v.cell.refs <= cell.refs;
    Success(Step(body.r, (CloseRefs(body.v), head.v.1)))
  }

  // References as the writer lays them out.

  /** A reference with only its index given, as `FRMR` opens it. */
  function Placed(index: u32): CellRef
  {
    NEW_REF.(refNum := NEW_REF.refNum.(index := index))
  }

  /** References that carry nothing but their `FRMR` index. */
  function FrameBytes(indices: seq<u32>): (b: seq<byte>)
    ensures |b| == 12 * |indices|
  {
    if indices == [] then [] else W.SubRecordBytes(FRMR, LE32(indices[0])) + FrameBytes(indices[1..])
  }

  /** The references such a layout places, none deleted. */
  function PlacedAll(indices: seq<u32>): (refs: seq<(CellRef, bool)>)
    ensures |refs| == |indices|
  {
    if indices == [] then [] else [(Placed(indices[0]), false)] + PlacedAll(indices[1..])
  }

  lemma FrameBytesCons(indices: seq<u32>)
    requires indices != []
    ensures FrameBytes(indices) == LE32(FRMR) + (LE32(4) + LE32(indices[0]) + FrameBytes(indices[1..]))
  {
  }

  /** `r1` has just read the name `FRMR` of the layout of `indices`, which
      fills the rest of the record. */
  predicate AtFrame(r1: Reader, indices: seq<u32>)
  {
    indices != [] && r1.ctx.subName == FRMR && !r1.ctx.subCached
    && r1.ctx.leftRec == 8 + |FrameBytes(indices[1..])|
    && At(r1, LE32(4) + LE32(indices[0]) + FrameBytes(indices[1..]))
  }

  /** The index of a layout's `FRMR`, after which the reader stands at the rest. */
  lemma {:induction false} FrameIndexAt(r1: Reader, index: u32, rest: seq<byte>) returns (w: Reader)
    requires !r1.ctx.subCached && r1.ctx.leftRec == 8 + |rest| && At(r1, LE32(4) + LE32(index) + rest)
    ensures ReadWord(r1).Success? && ReadWord(r1).value.v == index && ReadWord(r1).value.r == w
    ensures w.pos == r1.pos + 8 && w.ctx.leftRec == |rest| && !w.ctx.subCached
    ensures At(w, rest) && InRecord(r1, w)
  {
    assert LE32(4) + LE32(index) + rest == LE32(4) + (LE32(index) + rest);
    AtSplit(r1, LE32(4), LE32(index) + rest);
    AtU32(r1, 4);
    var h := r1.(pos := r1.pos + 4, ctx := r1.ctx.(leftSub := 4, leftRec := |rest|));
    assert GetSubHeader(r1) == Success(h);
    AtSplit(h, LE32(index), rest);
    AtU32(h, index);
    w := h.(pos := h.pos + 4);
  }

  /** With more of the layout after it, a `FRMR`'s look-ahead for `NAME`
      finds the next `FRMR` and leaves it cached. */
  lemma NextFrameAt(w: Reader, rest: seq<u32>) returns (n: Reader)
    requires rest != [] && w.ctx.leftRec == |FrameBytes(rest)| && !w.ctx.subCached && At(w, FrameBytes(rest))
    ensures GetHNORefId(w, NAME) == Success(Step(n, Empty)) && InRecord(w, n)
    ensures n.ctx.subCached && HasMoreSubs(n) && GetSubName(n).Success? && AtFrame(GetSubName(n).value, rest)
  {
    FrameBytesCons(rest);
    AtSplit(w, LE32(FRMR), LE32(4) + LE32(rest[0]) + FrameBytes(rest[1..]));
    AtU32(w, FRMR);
    var w1 := GetSubName(w).value;
    n := w1.(ctx := w1.ctx.(subCached := true));
    assert GetSubName(n).value == w1;
  }

  /** One `FRMR` of the layout closes the current reference and opens the next. */
  lemma FrameAt(r1: Reader, sc: BodyScan, indices: seq<u32>) returns (n: Reader)
    requires AtFrame(r1, indices)
    ensures BodyField(r1, sc).Success? && BodyField(r1, sc).value.r == n
    ensures BodyField(r1, sc).value.v == BodyScan(CloseRefs(sc), Some(Placed(indices[0])), false)
    ensures indices[1..] == [] ==> !HasMoreSubs(n)
    ensures indices[1..] != [] ==> HasMoreSubs(n) && GetSubName(n).Success? && AtFrame(GetSubName(n).value, indices[1..])
  {
    var w := FrameIndexAt(r1, indices[0], FrameBytes(indices[1..]));
    if indices[1..] == [] {
      n := w;
      assert GetHNORefId(w, NAME) == Success(Step(w, Empty));
    } else {
      n := NextFrameAt(w, indices[1..]);
    }
  }

  /** One turn of the body loop over the layout. */
  lemma FrameLoadStep(r: Reader, sc: BodyScan, indices: seq<u32>) returns (n: Reader)
    requires HasMoreSubs(r) && GetSubName(r).Success? && AtFrame(GetSubName(r).value, indices)
    ensures LoadBody(r, sc) == LoadBody(n, BodyScan(CloseRefs(sc), Some(Placed(indices[0])), false))
    ensures |indices| == 1 ==> !HasMoreSubs(n)
    ensures |indices| > 1 ==> HasMoreSubs(n) && GetSubName(n).Success? && AtFrame(GetSubName(n).value, indices[1..])
  {
    n := FrameAt(GetSubName(r).value, sc, indices);
  }

  /** Opening the reference of one `FRMR` and closing the rest after it. */
  lemma PlacedStep(sc: BodyScan, indices: seq<u32>)
    requires indices != []
    ensures CloseRefs(BodyScan(CloseRefs(sc), Some(Placed(indices[0])), false)).refs + PlacedAll(indices[1..])
            == CloseRefs(sc).refs + PlacedAll(indices)
  {
    assert PlacedAll(indices) == [(Placed(indices[0]), false)] + PlacedAll(indices[1..]);
  }

  /** Each `FRMR` of the layout places one reference with its index, after
      the ones already collected. */
  lemma {:induction false} FramesRoundTrip(r: Reader, sc: BodyScan, indices: seq<u32>)
    requires HasMoreSubs(r) && GetSubName(r).Success? && AtFrame(GetSubName(r).value, indices)
    ensures LoadBody(r, sc).Success?
    ensures CloseRefs(LoadBody(r, sc).value.v).refs == CloseRefs(sc).refs + PlacedAll(indices)
    decreases |indices|
  {
    var sc1 := BodyScan(CloseRefs(sc), Some(Placed(indices[0])), false);
    var n := FrameLoadStep(r, sc, indices);
    PlacedStep(sc, indices);
    if |indices| > 1 {
      FramesRoundTrip(n, sc1, indices[1..]);
    } else {
      assert PlacedAll(indices[1..]) == [];
    }
  }

  /** `Load` is the head followed by the body loop and the closing of the last reference. */
  lemma LoadParts(r: Reader, c: Cell)
    requires LoadNameAndData(r, c).Success?
    requires var head := LoadNameAndData(r, c).value;
             LoadBody(head.r, BodyScan(head.v.0.(hasAmbi := false, hasWaterHeight := false), None, false)).Success?
    ensures var head := LoadNameAndData(r, c).value;
            var body := LoadBody(head.r, BodyScan(head.v.0.(hasAmbi := false, hasWaterHeight := false), None, false)).value;
            Load(r, c).Success? && Load(r, c).value.v == (CloseRefs(body.v), head.v.1)
  {
  }

  /** A cell written as a head and then references with only their index
      loads the head's name and data and appends one reference per `FRMR`,
      in order, to the ones the cell already holds. */
  lemma CellRoundTrip(r: Reader, c: Cell, name: string, d: CellData, indices: seq<u32>)
    requires PlainText(name) && |name| < 0x8000_0000 && indices != []
    requires At(r, HeadBytes(name, d) + FrameBytes(indices))
    requires !r.ctx.subCached && r.ctx.leftRec == |HeadBytes(name, d)| + |FrameBytes(indices)|
    ensures Load(r, c).Success?
    ensures var cell := Load(r, c).value.v.0;
            cell.name == name && cell.data == d && cell.id == CellId(d, name) && !Load(r, c).value.v.1
            && cell.refs == c.refs + PlacedAll(indices)
  {
    var head := HeadThenFrame(r, c, name, d, indices);
    var start := head.v.0.(hasAmbi := false, hasWaterHeight := false);
    FramesRoundTrip(head.r, BodyScan(start, None, false), indices);
    LoadParts(r, c);
  }

  /** After the head of such a cell the body loop meets the first `FRMR`. */
  lemma HeadThenFrame(r: Reader, c: Cell, name: string, d: CellData, indices: seq<u32>) returns (head: Step<(Cell, bool)>)
    requires PlainText(name) && |name| < 0x8000_0000 && indices != []
    requires At(r, HeadBytes(name, d) + FrameBytes(indices))
    requires !r.ctx.subCached && r.ctx.leftRec == |HeadBytes(name, d)| + |FrameBytes(indices)|
    ensures LoadNameAndData(r, c) == Success(head)
    ensures head.v.0.name == name && head.v.0.data == d && head.v.0.id == CellId(d, name) && !head.v.1
    ensures HasMoreSubs(head.r) && GetSubName(head.r).Success? && AtFrame(GetSubName(head.r).value, indices)
  {
    var hb := HeadBytes(name, d);
    var tail := LE32(4) + LE32(indices[0]) + FrameBytes(indices[1..]);
    HeadFrameSplit(r, hb, indices);
    HeadRoundTrip(r, c, name, d, FRMR);
    head := LoadNameAndData(r, c).value;
    var r1 := GetSubName(head.r).value;
    assert r1.data == r.data && r1.pos == r.pos + |hb| + 4;
    AtMoved(r.(pos := r.pos + |hb| + 4), r1, tail);
  }

  /** Three consecutive pieces: the first two together, then the third. */
  lemma AtThree(r: Reader, a: seq<byte>, b: seq<byte>, c: seq<byte>)
    requires At(r, a + (b + c))
    ensures At(r, a + b) && At(r.(pos := r.pos + |a| + |b|), c)
  {
    assert a + (b + c) == (a + b) + c;
    AtSplit(r, a + b, c);
  }

  /** The head, the first `FRMR` name, and the rest of the first frame onwards. */
  lemma {:induction false} HeadFrameSplit(r: Reader, hb: seq<byte>, indices: seq<u32>)
    requires indices != [] && At(r, hb + FrameBytes(indices))
    ensures At(r, hb + LE32(FRMR))
    ensures At(r.(pos := r.pos + |hb| + 4), LE32(4) + LE32(indices[0]) + FrameBytes(indices[1..]))
    ensures |FrameBytes(indices)| >= 4
  {
    FrameBytesCons(indices);
    AtThree(r, hb, LE32(FRMR), LE32(4) + LE32(indices[0]) + FrameBytes(indices[1..]));
  }
}

=== FILE: context.dfy ===
/** The reader's cursor state, kept apart from the stream so that a caller
    can save it and later resume reading at the same place. */
module ReaderContext {
  import opened Bytes
  import opened Tags

  /** `leftRec` is a signed 64-bit count: a sub-record that claims more bytes
      than its record holds drives it below zero. `leftSub` is unsigned.
      `subCached` says that `subName` was read but not yet used. `filePos`
      is only filled in when the context is handed out. */
  datatype Context = Context(
    leftRec: int,
    leftSub: u32,
    leftFile: int,
    recName: Tag,
    subName: Tag,
    fileSize: int,
    subCached: bool,
    fileName: string,
    index: i32,
    parentFileIndices: seq<i32>,
    filePos: int)

  /** The state of a reader that has nothing open. */
  const INITIAL: Context := Context(0, 0, 0, 0, 0, 0, false, "", 0, [], 0)

  /** Forget the open file: every counter, the cached flag and both names go
      back to zero. The file index, the parent indices and the saved position
      belong to the caller and are kept. */
  function Cleared(c: Context): (d: Context)
    ensures d.leftRec == 0 && d.leftSub == 0 && d.leftFile == 0
    ensures !d.subCached && d.recName == 0 && d.subName == 0 && d.fileName == ""
    ensures d.index == c.index && d.parentFileIndices == c.parentFileIndices
    ensures d.filePos == c.filePos && d.fileSize == c.fileSize
  {
    c.(fileName := "", leftFile := 0, leftRec := 0, leftSub := 0, subCached := false, recName := 0, subName := 0)
  }

  /** Clearing twice is clearing once. */
  lemma ClearedIdempotent(c: Context)
    ensures Cleared(Cleared(c)) == Cleared(c)
  {
  }
}

=== FILE: dial_info.dfy ===
/** Dialogue responses (`INFO`): the response's identifier and its
    neighbours in the topic's list, the conditions under which it is
    offered, its text, sound and script, and a journal quest status. */
module DialInfos {
  import opened Bytes
  import opened Wrappers
  import opened Errors
  import opened Tags
  import opened RefIds
  import opened FormatVersions
  import opened EsmReader
  import opened RoundTrip
  import W = EsmWriter
  import V = Variants

  /** `DATA`: the speaker's gender is -1 (any), 0 (male) or 1 (female). */
  datatype InfoData = InfoData(unknown1: i32, disposition: i32, rank: i8, gender: i8, pcRank: i8, unknown2: i8)

  const DEFAULT_DATA: InfoData := InfoData(0, 0, -1, -1, -1, 0)

  /** A selection rule and the value it compares against. */
  datatype Select = Select(rule: string, value: V.Variant)

  datatype QuestStatus = QsNone | QsName | QsFinished | QsRestart

  /** The identifiers are None while the library's fields are null; a null
      string is modelled as the empty string, which every writer treats the
      same way. */
  datatype Info = Info(
    id: Option<RefId>, prev: Option<RefId>, next: Option<RefId>,
    actor: Option<RefId>, race: Option<RefId>, cls: Option<RefId>, faction: Option<RefId>,
    pcFaction: Option<RefId>, cell: Option<RefId>,
    selects: seq<Select>, sound: string, response: string, resultScript: string,
    factionLess: bool, quest: QuestStatus, data: InfoData)

  const NEW_INFO: Info := Info(None, None, None, None, None, None, None, None, None,
                               [], "", "", "", false, QsNone, DEFAULT_DATA)

  /** The faction identifier that marks a response for NPCs in no faction. */
  const FACTIONLESS: RefId := Str("FFFF")

  // Loading.

  /** The three identifiers that open the record, in order. Loading also
      clears the quest status and the factionless mark. */
  function ReadIds(r: Reader, info: Info): (res: Result<Step<Info>, Error>)
    ensures res.Success? ==> Consumed(r, res.value.r)
    ensures GetHNRefId(r, INAM).Failure? ==> res.Failure?
    ensures res.Success? ==> var i2 := res.value.v;
              i2.id.Some? && i2.prev.Some? && i2.next.Some?
              && i2 == info.(id := i2.id, prev := i2.prev, next := i2.next, quest := QsNone, factionLess := false)
  {
    var x :- GetHNRefId(r, INAM);
    var p :- GetHNRefId(x.r, PNAM);
    var n :- GetHNRefId(p.r, NNAM);
    InRecordTransitive(r, x.r, p.r);
    InRecordTransitive(r, p.r, n.r);
    Success(Step(n.r, info.(id := Some(x.v), prev := Some(p.v), next := Some(n.v), quest := QsNone, factionLess := false)))
  }

  /** `DATA`: twelve bytes read after the size, whatever the size says. */
  function ReadData(r1: Reader): (res: Result<Step<InfoData>, Error>)
    ensures res.Success? ==> Consumed(r1, res.value.r) && GetSubHeader(r1).Success?
    ensures res.Success? ==> res.value.r.pos == GetSubHeader(r1).value.pos + 12
  {
    var h :- GetSubHeader(r1);
    var a :- ReadI32(h);
    var b :- ReadI32(a.r);
    var c :- ReadI8(b.r);
    var d :- ReadI8(c.r);
    var e :- ReadI8(d.r);
    var f :- ReadI8(e.r);
    Success(Step(f.r, InfoData(a.v, b.v, c.v, d.v, e.v, f.v)))
  }

  datatype Scan = Scan(info: Info, deleted: bool)

  /** `r2` is later in the same record than `r1`: either past more of it or
      at its end after the rest was skipped. */
  predicate Advanced(r1: Reader, r2: Reader)
  {
    SameFile(r1, r2) && r2.ctx.leftFile == r1.ctx.leftFile && r2.ctx.recName == r1.ctx.recName
    && r2.recordFlags == r1.recordFlags && (r2.ctx.leftRec < r1.ctx.leftRec || r2.ctx.leftRec == 0)
  }

  /** What the loop keeps: the identifiers read before it, the deleted mark
      once set, and the selection rules already held. */
  predicate Keeps(sc: Scan, sc2: Scan)
  {
    sc2.info.id == sc.info.id && sc2.info.prev == sc.info.prev && sc2.info.next == sc.info.next
    && (sc.deleted ==> sc2.deleted) && sc.info.selects <= sc2.info.selects
  }

  /** The sub-records holding one condition identifier each. */
  const ID_TAGS: set<Tag> := {ONAM, RNAM, CNAM, FNAM, ANAM, DNAM}

  /** Sets the condition identifier a sub-record names. */
  function SetId(info: Info, t: Tag, x: RefId): (i2: Info)
    requires t in ID_TAGS
    ensures t == FNAM ==> i2 == info.(faction := Some(x), factionLess := info.factionLess || x == FACTIONLESS)
    ensures t != FNAM ==> i2.faction == info.faction && i2.factionLess == info.factionLess
    ensures i2.id == info.id && i2.prev == info.prev && i2.next == info.next && i2.selects == info.selects
  {
    if t == ONAM then info.(actor := Some(x))
    else if t == RNAM then info.(race := Some(x))
    else if t == CNAM then info.(cls := Some(x))
    else if t == FNAM then info.(faction := Some(x), factionLess := info.factionLess || x == FACTIONLESS)
    else if t == ANAM then info.(cell := Some(x))
    else info.(pcFaction := Some(x))
  }

  /** A condition identifier; `FNAM` naming `FFFF` marks the response factionless. */
  function IdField(r1: Reader, sc: Scan): (res: Result<Step<Scan>, Error>)
    requires r1.ctx.subName in ID_TAGS
    ensures res.Success? ==> Consumed(r1, res.value.r)
    ensures res.Success? ==> GetRefId(r1).Success? && res.value.v == sc.(info := SetId(sc.info, r1.ctx.subName, GetRefId(r1).value.v))
    ensures res.Success? ==> Consumed(r1, res.value.r) && Keeps(sc, res.value.v)
  {
    var x :- GetRefId(r1);
    Success(Step(x.r, sc.(info := SetId(sc.info, r1.ctx.subName, x.v))))
  }

  const TEXT_TAGS: set<Tag> := {SNAM, NAME, BNAM}

  /** The sound file (`SNAM`), the response text (`NAME`) or the result script (`BNAM`). */
  function TextField(r1: Reader, sc: Scan): (res: Result<Step<Scan>, Error>)
    requires r1.ctx.subName in TEXT_TAGS
    ensures res.Success? ==> Consumed(r1, res.value.r) && GetHString(r1).Success?
    ensures res.Success? && r1.ctx.subName == SNAM ==> res.value.v == sc.(info := sc.info.(sound := GetHString(r1).value.v))
    ensures res.Success? && r1.ctx.subName == NAME ==> res.value.v == sc.(info := sc.info.(response := GetHString(r1).value.v))
    ensures res.Success? && r1.ctx.subName == BNAM ==> res.value.v == sc.(info := sc.info.(resultScript := GetHString(r1).value.v))
    ensures res.Success? ==> Consumed(r1, res.value.r) && Keeps(sc, res.value.v)
  {
    var s :- GetHString(r1);
    var t := r1.ctx.subName;
    Success(Step(s.r, sc.(info := if t == SNAM then sc.info.(sound := s.v)
                                  else if t == NAME then sc.info.(response := s.v)
                                  else sc.info.(resultScript := s.v))))
  }

  /** `SCVR`: a rule, then the value it compares against in the variant
      form of a response; each rule is appended to those already held. */
  function SelectField(r1: Reader, sc: Scan): (res: Result<Step<Scan>, Error>)
    ensures res.Success? ==> Consumed(r1, res.value.r)
    ensures res.Success? ==> |res.value.v.info.selects| == |sc.info.selects| + 1
                             && res.value.v.info.selects[..|sc.info.selects|] == sc.info.selects
                             && res.value.v == sc.(info := sc.info.(selects := res.value.v.info.selects))
    ensures res.Success? ==> GetHString(r1).Success? && V.Read(GetHString(r1).value.r, V.Info).Success?
                             && res.value.v.info.selects[|sc.info.selects|]
                                == Select(GetHString(r1).value.v, V.Read(GetHString(r1).value.r, V.Info).value.v)
    ensures res.Success? ==> Consumed(r1, res.value.r) && Keeps(sc, res.value.v)
  {
    var rule :- GetHString(r1);
    var v :- V.Read(rule.r, V.Info);
    InRecordTransitive(r1, rule.r, v.r);
    Success(Step(v.r, sc.(info := sc.info.(selects := sc.info.selects + [Select(rule.v, v.v)]))))
  }

  /** The sub-record that marks each quest status; None has none. */
  function QuestTag(q: QuestStatus): (t: Option<Tag>)
    ensures t.None? <==> q == QsNone
    ensures t.Some? ==> t.value in QUEST_TAGS
  {
    match q
    case QsNone => None
    case QsName => Some(QSTN)
    case QsFinished => Some(QSTF)
    case QsRestart => Some(QSTR)
  }

  const QUEST_TAGS: set<Tag> := {QSTN, QSTF, QSTR}

  /** The status a marker sets. */
  function QuestOfTag(t: Tag): (q: QuestStatus)
    requires t in QUEST_TAGS
    ensures q != QsNone && QuestTag(q) == Some(t)
  {
    if t == QSTN then QsName
    else if t == QSTF then QsFinished
    else QsRestart
  }

  /** Every status but None has a marker that reads back as that status. */
  lemma QuestTagRoundTrip(q: QuestStatus)
    ensures q != QsNone ==> QuestOfTag(QuestTag(q).value) == q
  {
  }

  /** A quest marker sets the status and skips the rest of the record. */
  function QuestField(r1: Reader, sc: Scan): (res: Step<Scan>)
    requires r1.ctx.subName in QUEST_TAGS
    ensures res.r.ctx.leftRec == 0 && !res.r.ctx.subCached
    ensures res.v == sc.(info := sc.info.(quest := QuestOfTag(r1.ctx.subName)))
    ensures 0 <= r1.ctx.leftRec < TWO_32 ==> res.r.pos == r1.pos + r1.ctx.leftRec
    ensures Advanced(r1, res.r) && Keeps(sc, res.v)
  {
    Step(SkipRecord(r1), sc.(info := sc.info.(quest := QuestOfTag(r1.ctx.subName))))
  }

  function DataField(r1: Reader, sc: Scan): (res: Result<Step<Scan>, Error>)
    ensures res.Success? ==> Consumed(r1, res.value.r)
    ensures res.Success? <==> ReadData(r1).Success?
    ensures res.Success? ==> res.value.v == sc.(info := sc.info.(data := ReadData(r1).value.v))
    ensures res.Success? ==> Consumed(r1, res.value.r) && Keeps(sc, res.value.v)
  {
    var d :- ReadData(r1);
    Success(Step(d.r, sc.(info := sc.info.(data := d.v))))
  }

  function DeleteField(r1: Reader, sc: Scan): (res: Result<Step<Scan>, Error>)
    ensures res.Success? ==> Consumed(r1, res.value.r) && res.value.v == sc.(deleted := true)
    ensures res.Success? <==> SkipHSub(r1).Success?
    ensures res.Success? ==> Consumed(r1, res.value.r) && Keeps(sc, res.value.v)
  {
    var r2 :- SkipHSub(r1);
    Success(Step(r2, sc.(deleted := true)))
  }

  lemma TagSetsDisjoint()
    ensures ID_TAGS !! TEXT_TAGS && ID_TAGS !! QUEST_TAGS && TEXT_TAGS !! QUEST_TAGS
    ensures SCVR !in ID_TAGS && SCVR !in TEXT_TAGS && SCVR !in QUEST_TAGS
    ensures DATA !in ID_TAGS && DATA !in TEXT_TAGS && DATA !in QUEST_TAGS && DATA != SCVR
    ensures DELE !in ID_TAGS && DELE !in TEXT_TAGS && DELE !in QUEST_TAGS && DELE != SCVR && DELE != DATA
  {
  }

  /** One sub-record after the identifiers; an unknown name fails. */
  function Field(r1: Reader, sc: Scan): (res: Result<Step<Scan>, Error>)
    ensures res.Success? ==> Advanced(r1, res.value.r) && Keeps(sc, res.value.v)
    ensures r1.ctx.subName in ID_TAGS ==> res == IdField(r1, sc)
    ensures r1.ctx.subName in TEXT_TAGS ==> res == TextField(r1, sc)
    ensures r1.ctx.subName == SCVR ==> res == SelectField(r1, sc)
    ensures r1.ctx.subName in QUEST_TAGS ==> res == Success(QuestField(r1, sc))
    ensures r1.ctx.subName == DATA ==> res == DataField(r1, sc)
    ensures r1.ctx.subName == DELE ==> res == DeleteField(r1, sc)
    ensures (r1.ctx.subName !in ID_TAGS + TEXT_TAGS + QUEST_TAGS && r1.ctx.subName !in {SCVR, DATA, DELE})
            ==> res == Failure(UnknownSubrecord(r1.ctx.subName))
  {
    TagSetsDisjoint();
    var t := r1.ctx.subName;
    if t in ID_TAGS then IdField(r1, sc)
    else if t in TEXT_TAGS then TextField(r1, sc)
    else if t == SCVR then SelectField(r1, sc)
    else if t in QUEST_TAGS then Success(QuestField(r1, sc))
    else if t == DATA then DataField(r1, sc)
    else if t == DELE then DeleteField(r1, sc)
    else Failure(UnknownSubrecord(t))
  }

  /** The loop over the rest of the record. */
  function LoadFields(r: Reader, sc: Scan): (res: Result<Step<Scan>, Error>)
    ensures res.Success? ==> InRecord(r, res.value.r) && res.value.r.ctx.leftRec <= 0
    ensures res.Success? ==> Keeps(sc, res.value.v)
    ensures !HasMoreSubs(r) ==> res == Success(Step(r, sc))
    decreases r.ctx.leftRec
  {
    if !HasMoreSubs(r) then Success(Step(r, sc))
    else
      var r1 :- GetSubName(r);
      var f :- Field(r1, sc);
      LoadFields(f.r, f.v)
  }

  /** `Load`: the identifiers, then the loop. */
  function Load(r: Reader, info: Info): (res: Result<Step<(Info, bool)>, Error>)
    ensures res.Success? ==> InRecord(r, res.value.r) && res.value.r.ctx.leftRec <= 0
    ensures ReadIds(r, info).Failure? ==> res == Failure(ReadIds(r, info).error)
    ensures res.Success? <==>
              ReadIds(r, info).Success?
              && (var head := ReadIds(r, info).value; LoadFields(head.r, Scan(head.v, false)).Success?)
    ensures res.Success? ==> ReadIds(r, info).Success?
    ensures res.Success? ==> var ids := ReadIds(r, info).value.v;
              res.value.v.0.id == ids.id && res.value.v.0.prev == ids.prev && res.value.v.0.next == ids.next
              && info.selects <= res.value.v.0.selects
  {
    var head :- ReadIds(r, info);
    var body :- LoadFields(head.r, Scan(head.v, false));
    InRecordTransitive(r, head.r, body.r);
    Success(Step(body.r, (body.v.info, body.v.deleted)))
  }

  // Saving.

  /** A required identifier: writing a null one fails. */
  function WriteRequired(w: W.Writer, t: Tag, x: Option<RefId>): (res: Result<W.Writer, Error>)
    requires W.Valid(w)
    ensures x.None? ==> res == Failure(NullReference)
    ensures x.Some? ==> res == W.WriteHNCRefId(w, t, x.value)
    ensures res.Success? ==> W.Valid(res.value) && W.Extends(w, res.value)
  {
    match x
    case None => Failure(NullReference)
    case Some(v) => W.WriteHNCRefId(w, t, v)
  }

  /** An optional identifier as the library writes it: written unless
      empty, and asking a null one whether it is empty fails. */
  function WriteOptionalAsWritten(w: W.Writer, t: Tag, x: Option<RefId>): (res: Result<W.Writer, Error>)
    requires W.Valid(w)
    ensures x.None? ==> res == Failure(NullReference)
    ensures x.Some? ==> res == W.WriteHNOCRefId(w, t, x.value)
    ensures res.Success? ==> W.Valid(res.value) && W.Extends(w, res.value)
  {
    match x
    case None => Failure(NullReference)
    case Some(v) => W.WriteHNOCRefId(w, t, v)
  }

  /** An optional identifier as intended: a condition the record never
      loaded is written like an empty one, that is not at all. */
  function WriteOptional(w: W.Writer, t: Tag, x: Option<RefId>): (res: Result<W.Writer, Error>)
    requires W.Valid(w)
    ensures x.None? ==> res == Success(w)
    ensures x.Some? ==> res == W.WriteHNOCRefId(w, t, x.value)
    ensures res.Success? ==> W.Valid(res.value) && W.Extends(w, res.value)
  {
    match x
    case None => Success(w)
    case Some(v) => W.WriteHNOCRefId(w, t, v)
  }

  function DataBytes(d: InfoData): (b: seq<byte>)
    ensures |b| == 12
  {
    LE32(U32OfI32(d.unknown1)) + LE32(U32OfI32(d.disposition))
    + [U8OfI8(d.rank), U8OfI8(d.gender), U8OfI8(d.pcRank), U8OfI8(d.unknown2)]
  }

  /** The quest marker: a one-byte sub-record holding 1, none for no status. */
  function SaveQuest(w: W.Writer, q: QuestStatus): (res: Result<W.Writer, Error>)
    requires W.Valid(w)
    ensures q == QsNone ==> res == Success(w)
    ensures q != QsNone && |w.frames| <= 1 ==> res == Success(W.Emit(w, W.SubRecordBytes(QuestTag(q).value, [1])))
    ensures res.Success? ==> W.Valid(res.value) && W.Extends(w, res.value)
  {
    match QuestTag(q)
    case None => Success(w)
    case Some(t) => W.WriteHNT(w, t, [1])
  }

  /** A rule and its value. The value is written in the layout the variant
      reader accepts; a value that layout cannot hold fails. */
  function SaveSelects(w: W.Writer, selects: seq<Select>): (res: Result<W.Writer, Error>)
    requires W.Valid(w)
    ensures res.Success? ==> W.Valid(res.value) && W.Extends(w, res.value)
    ensures selects == [] ==> res == Success(w)
    decreases |selects|
  {
    if selects == [] then Success(w)
    else
      var s := selects[0];
      var w1 :- W.WriteHNString(w, SCVR, s.rule, 0);
      if !V.Storable(V.Info, s.value) then Failure(UnsupportedVariant)
      else
        var w2 := W.Emit(w1, V.VariantBytes(V.Info, s.value));
        assert w.out <= w2.out;
        var w3 :- SaveSelects(w2, selects[1..]);
        Success(w3)
  }

  /** A condition the response does not set: never loaded, or empty. */
  predicate Unset(x: Option<RefId>)
  {
    x.None? || x.value.Empty?
  }

  /** Three condition identifiers in order, as the library writes them. */
  function WriteThreeAsWritten(w: W.Writer, t: (Tag, Tag, Tag), x: (Option<RefId>, Option<RefId>, Option<RefId>)): (res: Result<W.Writer, Error>)
    requires W.Valid(w)
    ensures res.Success? ==> W.Valid(res.value) && W.Extends(w, res.value)
    ensures |w.frames| <= 1 && w.version > MAX_STRING_REF_ID_FORMAT_VERSION && (x.0.None? || x.1.None? || x.2.None?) ==>
              res == Failure(NullReference)
  {
    var w1 :- WriteOptionalAsWritten(w, t.0, x.0);
    var w2 :- WriteOptionalAsWritten(w1, t.1, x.1);
    var w3 :- WriteOptionalAsWritten(w2, t.2, x.2);
    assert w.out <= w2.out;
    Success(w3)
  }

  /** Three condition identifiers in order, as intended. */
  function WriteThree(w: W.Writer, t: (Tag, Tag, Tag), x: (Option<RefId>, Option<RefId>, Option<RefId>)): (res: Result<W.Writer, Error>)
    requires W.Valid(w)
    ensures res.Success? ==> W.Valid(res.value) && W.Extends(w, res.value)
    ensures |w.frames| <= 1 && w.version > MAX_STRING_REF_ID_FORMAT_VERSION ==> res.Success?
    ensures Unset(x.0) && Unset(x.1) && Unset(x.2) ==> res == Success(w)
  {
    var w1 :- WriteOptional(w, t.0, x.0);
    var w2 :- WriteOptional(w1, t.1, x.1);
    var w3 :- WriteOptional(w2, t.2, x.2);
    assert w.out <= w2.out;
    Success(w3)
  }

  /** The condition identifiers as the library writes them, each only when
      not empty; on a writer that could write them, a null one fails. */
  function SaveConditionsAsWritten(w: W.Writer, info: Info): (res: Result<W.Writer, Error>)
    requires W.Valid(w)
    ensures res.Success? ==> W.Valid(res.value) && W.Extends(w, res.value)
    ensures (|w.frames| <= 1 && w.version > MAX_STRING_REF_ID_FORMAT_VERSION
             && (info.actor.None? || info.race.None? || info.cls.None? || info.faction.None?
                 || info.cell.None? || info.pcFaction.None?)) ==> res == Failure(NullReference)
  {
    var w3 :- WriteThreeAsWritten(w, (ONAM, RNAM, CNAM), (info.actor, info.race, info.cls));
    WriteThreeAsWritten(w3, (FNAM, ANAM, DNAM), (info.faction, info.cell, info.pcFaction))
  }

  /** The condition identifiers as intended: null and empty ones are left
      out, so on a writer outside any sub-record in the tagged identifier
      format they never fail, and with none set nothing is written. */
  function SaveConditions(w: W.Writer, info: Info): (res: Result<W.Writer, Error>)
    requires W.Valid(w)
    ensures res.Success? ==> W.Valid(res.value) && W.Extends(w, res.value)
    ensures |w.frames| <= 1 && w.version > MAX_STRING_REF_ID_FORMAT_VERSION ==> res.Success?
    ensures (Unset(info.actor) && Unset(info.race) && Unset(info.cls) && Unset(info.faction)
             && Unset(info.cell) && Unset(info.pcFaction)) ==> res == Success(w)
  {
    var w3 :- WriteThree(w, (ONAM, RNAM, CNAM), (info.actor, info.race, info.cls));
    WriteThree(w3, (FNAM, ANAM, DNAM), (info.faction, info.cell, info.pcFaction))
  }

  /** The sound, the response text and the selection rules. */
  function SaveTexts(w: W.Writer, info: Info): (res: Result<W.Writer, Error>)
    requires W.Valid(w)
    ensures res.Success? ==> W.Valid(res.value) && W.Extends(w, res.value)
    ensures |w.frames| <= 1 && info.selects == [] ==> res.Success?
  {
    var w1 :- W.WriteHNOCString(w, SNAM, info.sound);
    var w2 :- W.WriteHNOString(w1, NAME, info.response);
    var w3 :- SaveSelects(w2, info.selects);
    assert w.out <= w2.out;
    Success(w3)
  }

  /** Everything after the conditions. */
  function SaveRest(w: W.Writer, info: Info): (res: Result<W.Writer, Error>)
    requires W.Valid(w)
    ensures res.Success? ==> W.Valid(res.value) && W.Extends(w, res.value)
    ensures |w.frames| <= 1 && info.selects == [] ==> res.Success?
  {
    var w2 :- SaveTexts(w, info);
    var w3 :- W.WriteHNOString(w2, BNAM, info.resultScript);
    assert w.out <= w2.out;
    SaveQuest(w3, info.quest)
  }

  /** `Save` as the library writes it: the three identifiers, then either
      the deleted marker alone or the rest of the response, failing at a
      condition identifier the record never loaded. */
  function SaveAsWritten(w: W.Writer, info: Info, deleted: bool): (res: Result<W.Writer, Error>)
    requires W.Valid(w)
    ensures res.Success? ==> W.Valid(res.value) && W.Extends(w, res.value)
    ensures info.id.None? || info.prev.None? || info.next.None? ==> res.Failure?
  {
    var w3 :- SaveIds(w, info);
    if deleted then W.WriteDeleted(w3) else SaveLiveAsWritten(w3, info)
  }

  /** What follows the identifiers of a live response, as the library writes it. */
  function SaveLiveAsWritten(w: W.Writer, info: Info): (res: Result<W.Writer, Error>)
    requires W.Valid(w)
    ensures res.Success? ==> W.Valid(res.value) && W.Extends(w, res.value)
  {
    var w1 :- W.WriteHNT(w, DATA, DataBytes(info.data));
    var w2 :- SaveConditionsAsWritten(w1, info);
    assert w.out <= w1.out;
    SaveRest(w2, info)
  }

  /** `Save` as intended: the three identifiers, then either the deleted
      marker alone or the rest of the response, with null conditions left
      out like empty ones. */
  function Save(w: W.Writer, info: Info, deleted: bool): (res: Result<W.Writer, Error>)
    requires W.Valid(w)
    ensures res.Success? ==> W.Valid(res.value) && W.Extends(w, res.value)
    ensures info.id.None? || info.prev.None? || info.next.None? ==> res.Failure?
  {
    var w3 :- SaveIds(w, info);
    if deleted then W.WriteDeleted(w3) else SaveLive(w3, info)
  }

  /** What follows the identifiers of a live response, as intended. */
  function SaveLive(w: W.Writer, info: Info): (res: Result<W.Writer, Error>)
    requires W.Valid(w)
    ensures res.Success? ==> W.Valid(res.value) && W.Extends(w, res.value)
    ensures |w.frames| <= 1 && w.version > MAX_STRING_REF_ID_FORMAT_VERSION && info.selects == [] ==> res.Success?
  {
    var w1 :- W.WriteHNT(w, DATA, DataBytes(info.data));
    var w2 :- SaveConditions(w1, info);
    assert w.out <= w1.out;
    SaveRest(w2, info)
  }

  /** The three identifiers that open the record; none may be null. */
  function SaveIds(w: W.Writer, info: Info): (res: Result<W.Writer, Error>)
    requires W.Valid(w)
    ensures res.Success? ==> W.Valid(res.value) && W.Extends(w, res.value)
    ensures info.id.None? || info.prev.None? || info.next.None? ==> res.Failure?
  {
    var w1 :- WriteRequired(w, INAM, info.id);
    var w2 :- WriteRequired(w1, PNAM, info.prev);
    var w3 :- WriteRequired(w2, NNAM, info.next);
    assert w.out <= w2.out;
    Success(w3)
  }

  /** In the tagged identifier format the identifiers are written as they are. */
  lemma IdsWritten(w: W.Writer, info: Info)
    requires W.Valid(w) && |w.frames| <= 1 && w.version > MAX_STRING_REF_ID_FORMAT_VERSION
    requires info.id.Some? && info.prev.Some? && info.next.Some?
    ensures SaveIds(w, info) == Success(W.Emit(w, IdsBytes(info.id.value, info.prev.value, info.next.value)))
  {
    var w1 := W.Emit(w, W.SubRecordBytes(INAM, W.RefIdWire(info.id.value, false)));
    assert WriteRequired(w, INAM, info.id) == Success(w1);
    var w2 := W.Emit(w1, W.SubRecordBytes(PNAM, W.RefIdWire(info.prev.value, false)));
    assert WriteRequired(w1, PNAM, info.prev) == Success(w2);
    var w3 := W.Emit(w2, W.SubRecordBytes(NNAM, W.RefIdWire(info.next.value, false)));
    assert WriteRequired(w2, NNAM, info.next) == Success(w3);
    IdsLayout(w, info);
  }

  lemma IdsLayout(w: W.Writer, info: Info)
    requires info.id.Some? && info.prev.Some? && info.next.Some?
    ensures var a := W.SubRecordBytes(INAM, W.RefIdWire(info.id.value, false));
            var b := W.SubRecordBytes(PNAM, W.RefIdWire(info.prev.value, false));
            var c := W.SubRecordBytes(NNAM, W.RefIdWire(info.next.value, false));
            W.Emit(W.Emit(W.Emit(w, a), b), c) == W.Emit(w, IdsBytes(info.id.value, info.prev.value, info.next.value))
            && w.out <= W.Emit(w, a).out
  {
    var a := W.SubRecordBytes(INAM, W.RefIdWire(info.id.value, false));
    var b := W.SubRecordBytes(PNAM, W.RefIdWire(info.prev.value, false));
    var c := W.SubRecordBytes(NNAM, W.RefIdWire(info.next.value, false));
    W.EmitTwice(w, a, b);
    W.EmitTwice(w, a + b, c);
  }

  /** A deleted response as written: the identifiers and the marker. */
  function DeletedBytes(x: RefId, p: RefId, n: RefId): seq<byte>
  {
    IdsBytes(x, p, n) + W.SubRecordBytes(DELE, Zeros(4))
  }

  function IdsBytes(x: RefId, p: RefId, n: RefId): seq<byte>
  {
    W.SubRecordBytes(INAM, W.RefIdWire(x, false)) + W.SubRecordBytes(PNAM, W.RefIdWire(p, false))
    + W.SubRecordBytes(NNAM, W.RefIdWire(n, false))
  }

  /** A deleted response is written as its identifiers and the marker alone. */
  lemma SaveDeleted(w: W.Writer, info: Info)
    requires W.Valid(w) && |w.frames| <= 1 && w.version > MAX_STRING_REF_ID_FORMAT_VERSION
    requires info.id.Some? && info.prev.Some? && info.next.Some?
    ensures Save(w, info, true) == Success(W.Emit(w, DeletedBytes(info.id.value, info.prev.value, info.next.value)))
  {
    IdsWritten(w, info);
    W.EmitTwice(w, IdsBytes(info.id.value, info.prev.value, info.next.value), W.SubRecordBytes(DELE, Zeros(4)));
  }

  // Round trips.

  /** The three identifiers as they are written in the tagged identifier
      format read back unchanged. */
  lemma IdsRoundTrip(r: Reader, x: RefId, p: RefId, n: RefId, info: Info) returns (r2: Reader)
    requires r.version > MAX_STRING_REF_ID_FORMAT_VERSION && r.mapping.None?
    requires Canonical(x) && Canonical(p) && Canonical(n)
    requires At(r, IdsBytes(x, p, n)) && !r.ctx.subCached && r.ctx.leftRec >= |IdsBytes(x, p, n)|
    ensures ReadIds(r, info).Success? && r2 == ReadIds(r, info).value.r
    ensures ReadIds(r, info).value.v == info.(id := Some(x), prev := Some(p), next := Some(n), quest := QsNone, factionLess := false)
    ensures r2.pos == r.pos + |IdsBytes(x, p, n)| && r2.ctx.leftRec == r.ctx.leftRec - |IdsBytes(x, p, n)|
    ensures !r2.ctx.subCached && SameFile(r, r2)
  {
    var a := W.SubRecordBytes(INAM, W.RefIdWire(x, false));
    var b := W.SubRecordBytes(PNAM, W.RefIdWire(p, false));
    var c := W.SubRecordBytes(NNAM, W.RefIdWire(n, false));
    AtSplit(r, a + b, c);
    AtSplit(r, a, b);
    HNRefIdStep(r, INAM, x);
    var g1 := GetHNRefId(r, INAM).value.r;
    AtMoved(r.(pos := r.pos + |a|), g1, b);
    HNRefIdStep(g1, PNAM, p);
    var g2 := GetHNRefId(g1, PNAM).value.r;
    AtMoved(r.(pos := r.pos + |a + b|), g2, c);
    HNRefIdStep(g2, NNAM, n);
    r2 := GetHNRefId(g2, NNAM).value.r;
  }

  /** The name of the next sub-record is read as written. */
  lemma NameAt(r: Reader, t: Tag, rest: seq<byte>) returns (r1: Reader)
    requires At(r, LE32(t) + rest) && !r.ctx.subCached
    ensures GetSubName(r) == Success(r1)
    ensures r1.ctx.subName == t && r1.pos == r.pos + 4 && r1.ctx.leftRec == r.ctx.leftRec - 4
    ensures r1.ctx.leftFile == r.ctx.leftFile && r1.recordFlags == r.recordFlags && !r1.ctx.subCached
    ensures At(r1, rest) && SameFile(r, r1)
  {
    AtSplit(r, LE32(t), rest);
    AtU32(r, t);
    r1 := GetSubName(r).value;
  }

  /** A quest marker ends the loop: the status is set and whatever follows
      it in the record is skipped. */
  lemma QuestRoundTrip(r: Reader, sc: Scan, q: QuestStatus)
    requires q != QsNone
    requires At(r, W.SubRecordBytes(QuestTag(q).value, [1]))
    requires !r.ctx.subCached && 9 <= r.ctx.leftRec < TWO_32
    ensures LoadFields(r, sc).Success?
    ensures LoadFields(r, sc).value.v == sc.(info := sc.info.(quest := q))
    ensures LoadFields(r, sc).value.r.pos == r.pos + r.ctx.leftRec
  {
    var t := QuestTag(q).value;
    var r1 := NameAt(r, t, LE32(1) + [1]);
    var f := QuestField(r1, sc);
    assert Field(r1, sc) == Success(f);
    assert !HasMoreSubs(f.r);
  }

  /** `DATA` as it is written reads back unchanged. */
  lemma DataRoundTrip(r1: Reader, d: InfoData)
    requires At(r1, LE32(12) + DataBytes(d)) && r1.ctx.leftRec >= 16
    ensures ReadData(r1).Success? && ReadData(r1).value.v == d
    ensures ReadData(r1).value.r.pos == r1.pos + 16 && ReadData(r1).value.r.ctx.leftRec == r1.ctx.leftRec - 16
  {
    var b := DataBytes(d);
    SizeAt(r1, b);
    var h := GetSubHeader(r1).value;
    var small := [U8OfI8(d.rank), U8OfI8(d.gender), U8OfI8(d.pcRank), U8OfI8(d.unknown2)];
    assert b == LE32(U32OfI32(d.unknown1)) + (LE32(U32OfI32(d.disposition)) + small);
    AtSplit(h, LE32(U32OfI32(d.unknown1)), LE32(U32OfI32(d.disposition)) + small);
    AtI32(h, d.unknown1);
    var h1 := h.(pos := h.pos + 4);
    AtSplit(h1, LE32(U32OfI32(d.disposition)), small);
    AtI32(h1, d.disposition);
    SmallAt(h1.(pos := h1.pos + 4), d);
  }

  lemma SmallAt(r: Reader, d: InfoData)
    requires At(r, [U8OfI8(d.rank), U8OfI8(d.gender), U8OfI8(d.pcRank), U8OfI8(d.unknown2)])
    ensures ReadI8(r).Success? && ReadI8(r).value.v == d.rank
    ensures ReadI8(r.(pos := r.pos + 1)).Success? && ReadI8(r.(pos := r.pos + 1)).value.v == d.gender
    ensures ReadI8(r.(pos := r.pos + 2)).Success? && ReadI8(r.(pos := r.pos + 2)).value.v == d.pcRank
    ensures ReadI8(r.(pos := r.pos + 3)).Success? && ReadI8(r.(pos := r.pos + 3)).value.v == d.unknown2
  {
    var b := r.data[r.pos..r.pos + 4];
    assert b[0] == r.data[r.pos] && b[1] == r.data[r.pos + 1] && b[2] == r.data[r.pos + 2] && b[3] == r.data[r.pos + 3];
    assert I8OfU8(U8OfI8(d.rank)) == d.rank && I8OfU8(U8OfI8(d.gender)) == d.gender;
    assert I8OfU8(U8OfI8(d.pcRank)) == d.pcRank && I8OfU8(U8OfI8(d.unknown2)) == d.unknown2;
  }

  /** The deleted marker ends the loop with the record marked deleted. */
  lemma DeleteStep(r: Reader, sc: Scan)
    requires At(r, W.SubRecordBytes(DELE, Zeros(4)))
    requires !r.ctx.subCached && r.ctx.leftRec == 12
    ensures LoadFields(r, sc).Success? && LoadFields(r, sc).value.v == sc.(deleted := true)
  {
    SubRecordRoundTrip(r, DELE, Zeros(4));
    var r1 := GetSubName(r).value;
    var r2 := SkipHSub(r1).value;
    assert r2.ctx.leftRec == 0;
  }

  /** A deleted response as it is written loads back as deleted, with its
      identifiers, and with the quest status and factionless mark cleared. */
  lemma DeletedRoundTrip(r: Reader, x: RefId, p: RefId, n: RefId, info: Info)
    requires r.version > MAX_STRING_REF_ID_FORMAT_VERSION && r.mapping.None?
    requires Canonical(x) && Canonical(p) && Canonical(n)
    requires At(r, DeletedBytes(x, p, n)) && !r.ctx.subCached && r.ctx.leftRec == |DeletedBytes(x, p, n)|
    ensures Load(r, info).Success?
    ensures Load(r, info).value.v
            == (info.(id := Some(x), prev := Some(p), next := Some(n), quest := QsNone, factionLess := false), true)
  {
    IdsAt(r, x, p, n);
    var r2 := IdsRoundTrip(r, x, p, n, info);
    MarkerAt(r, r2, x, p, n);
    var sc := Scan(ReadIds(r, info).value.v, false);
    DeleteStep(r2, sc);
    LoadParts(r, info);
  }

  /** After the identifiers comes the deleted marker. */
  lemma MarkerAt(r: Reader, r2: Reader, x: RefId, p: RefId, n: RefId)
    requires At(r, DeletedBytes(x, p, n)) && r2.data == r.data && r2.pos == r.pos + |IdsBytes(x, p, n)|
    ensures At(r2, W.SubRecordBytes(DELE, Zeros(4)))
  {
    var m := W.SubRecordBytes(DELE, Zeros(4));
    assert DeletedBytes(x, p, n) == IdsBytes(x, p, n) + m;
    AtSplit(r, IdsBytes(x, p, n), m);
    AtMoved(r.(pos := r.pos + |IdsBytes(x, p, n)|), r2, m);
  }

  /** The identifiers are the front of the deleted record. */
  lemma IdsAt(r: Reader, x: RefId, p: RefId, n: RefId)
    requires At(r, DeletedBytes(x, p, n))
    ensures At(r, IdsBytes(x, p, n)) && |DeletedBytes(x, p, n)| == |IdsBytes(x, p, n)| + 12
  {
    AtSplit(r, IdsBytes(x, p, n), W.SubRecordBytes(DELE, Zeros(4)));
  }

  /** `Load` is the identifiers and then the loop. */
  lemma LoadParts(r: Reader, info: Info)
    requires ReadIds(r, info).Success?
    ensures var h := ReadIds(r, info).value;
            LoadFields(h.r, Scan(h.v, false)).Success? ==>
              Load(r, info).Success?
              && Load(r, info).value.v == (LoadFields(h.r, Scan(h.v, false)).value.v.info,
                                           LoadFields(h.r, Scan(h.v, false)).value.v.deleted)
  {
  }

  /** Saving a deleted response and loading it again gives back its
      identifiers and the deleted mark. */
  lemma SaveLoadDeleted(w: W.Writer, info: Info, r: Reader, other: Info)
    requires W.Valid(w) && |w.frames| <= 1 && w.version > MAX_STRING_REF_ID_FORMAT_VERSION
    requires info.id.Some? && info.prev.Some? && info.next.Some?
    requires Canonical(info.id.value) && Canonical(info.prev.value) && Canonical(info.next.value)
    requires Save(w, info, true).Success? && Save(w, info, true).value.out <= r.data && r.pos == |w.out|
    requires r.version == w.version && r.mapping.None?
    requires !r.ctx.subCached && r.ctx.leftRec == |DeletedBytes(info.id.value, info.prev.value, info.next.value)|
    ensures Load(r, other).Success?
    ensures var (loaded, deleted) := Load(r, other).value.v;
            deleted && loaded.id == info.id && loaded.prev == info.prev && loaded.next == info.next
  {
    var b := DeletedBytes(info.id.value, info.prev.value, info.next.value);
    SaveDeleted(w, info);
    WrittenAt(w, Save(w, info, true).value, b, r);
    DeletedRoundTrip(r, info.id.value, info.prev.value, info.next.value, other);
  }

  /** A live response as written begins with its identifiers and `DATA`. */
  function LiveHeadBytes(x: RefId, p: RefId, n: RefId, d: InfoData): seq<byte>
  {
    IdsBytes(x, p, n) + W.SubRecordBytes(DATA, DataBytes(d))
  }

  /** Saving a live response with its identifiers set, outside any
      sub-record and in the tagged identifier format, writes the identifiers
      and `DATA` first; without selection rules it cannot fail. */
  lemma SaveLiveHead(w: W.Writer, info: Info)
    requires W.Valid(w) && |w.frames| <= 1 && w.version > MAX_STRING_REF_ID_FORMAT_VERSION
    requires info.id.Some? && info.prev.Some? && info.next.Some?
    ensures info.selects == [] ==> Save(w, info, false).Success?
    ensures Save(w, info, false).Success? ==>
              W.Emit(w, LiveHeadBytes(info.id.value, info.prev.value, info.next.value, info.data)).out
              <= Save(w, info, false).value.out
  {
    var w4 := LiveHeadWritten(w, info);
    assert |w4.frames| <= 1;
    var w5 := SaveConditions(w4, info).value;
    assert Save(w, info, false) == SaveRest(w5, info);
  }

  /** The identifiers and `DATA`, as `Save` writes them for a live response. */
  lemma LiveHeadWritten(w: W.Writer, info: Info) returns (w4: W.Writer)
    requires W.Valid(w) && |w.frames| <= 1 && w.version > MAX_STRING_REF_ID_FORMAT_VERSION
    requires info.id.Some? && info.prev.Some? && info.next.Some?
    ensures w4 == W.Emit(w, LiveHeadBytes(info.id.value, info.prev.value, info.next.value, info.data))
    ensures W.Valid(w4) && W.Extends(w, w4)
    ensures SaveIds(w, info).Success? && W.WriteHNT(SaveIds(w, info).value, DATA, DataBytes(info.data)) == Success(w4)
  {
    var ids := IdsBytes(info.id.value, info.prev.value, info.next.value);
    var dat := W.SubRecordBytes(DATA, DataBytes(info.data));
    IdsWritten(w, info);
    W.EmitTwice(w, ids, dat);
    w4 := W.Emit(w, ids + dat);
  }

  /** The identifiers and `DATA` as they are written read back: the
      identifiers first, then `DATA` is the first sub-record the loop meets
      and it sets the data that was saved. */
  lemma LiveHeadRoundTrip(r: Reader, x: RefId, p: RefId, n: RefId, d: InfoData, info: Info, sc: Scan)
    requires r.version > MAX_STRING_REF_ID_FORMAT_VERSION && r.mapping.None?
    requires Canonical(x) && Canonical(p) && Canonical(n)
    requires At(r, LiveHeadBytes(x, p, n, d)) && !r.ctx.subCached && r.ctx.leftRec >= |LiveHeadBytes(x, p, n, d)|
    ensures ReadIds(r, info).Success?
    ensures ReadIds(r, info).value.v == info.(id := Some(x), prev := Some(p), next := Some(n), quest := QsNone, factionLess := false)
    ensures var r1 := GetSubName(ReadIds(r, info).value.r);
            r1.Success? && r1.value.ctx.subName == DATA
            && DataField(r1.value, sc).Success? && DataField(r1.value, sc).value.v == sc.(info := sc.info.(data := d))
            && DataField(r1.value, sc).value.r.ctx.leftRec == r.ctx.leftRec - |LiveHeadBytes(x, p, n, d)|
  {
    var r2 := LiveIdsRoundTrip(r, x, p, n, d, info);
    DataStep(r2, d, sc);
  }

  /** The identifiers at the front of a live response read back, leaving
      the reader at its `DATA`. */
  lemma LiveIdsRoundTrip(r: Reader, x: RefId, p: RefId, n: RefId, d: InfoData, info: Info) returns (r2: Reader)
    requires r.version > MAX_STRING_REF_ID_FORMAT_VERSION && r.mapping.None?
    requires Canonical(x) && Canonical(p) && Canonical(n)
    requires At(r, LiveHeadBytes(x, p, n, d)) && !r.ctx.subCached && r.ctx.leftRec >= |LiveHeadBytes(x, p, n, d)|
    ensures ReadIds(r, info).Success? && r2 == ReadIds(r, info).value.r
    ensures ReadIds(r, info).value.v == info.(id := Some(x), prev := Some(p), next := Some(n), quest := QsNone, factionLess := false)
    ensures At(r2, W.SubRecordBytes(DATA, DataBytes(d))) && !r2.ctx.subCached
    ensures r2.ctx.leftRec == r.ctx.leftRec - |IdsBytes(x, p, n)| && r2.ctx.leftRec >= 20
  {
    var ids := IdsBytes(x, p, n);
    AtSplit(r, ids, W.SubRecordBytes(DATA, DataBytes(d)));
    r2 := IdsRoundTrip(r, x, p, n, info);
    AtMoved(r.(pos := r.pos + |ids|), r2, W.SubRecordBytes(DATA, DataBytes(d)));
  }

  /** `DATA` as written is met by the loop and sets the saved data. */
  lemma DataStep(r2: Reader, d: InfoData, sc: Scan)
    requires At(r2, W.SubRecordBytes(DATA, DataBytes(d))) && !r2.ctx.subCached && r2.ctx.leftRec >= 20
    ensures var r1 := GetSubName(r2);
            r1.Success? && r1.value.ctx.subName == DATA
            && DataField(r1.value, sc).Success? && DataField(r1.value, sc).value.v == sc.(info := sc.info.(data := d))
            && DataField(r1.value, sc).value.r.ctx.leftRec == r2.ctx.leftRec - 20
  {
    assert W.SubRecordBytes(DATA, DataBytes(d)) == LE32(DATA) + (LE32(12) + DataBytes(d));
    var r1 := NameAt(r2, DATA, LE32(12) + DataBytes(d));
    DataRoundTrip(r1, d);
  }

  /** What `Save` writes first for a live response, `Load` reads back: its
      identifiers, and `DATA` as the first sub-record of the loop. */
  lemma SaveLoadLiveHead(w: W.Writer, info: Info, r: Reader, other: Info, sc: Scan)
    requires W.Valid(w) && |w.frames| <= 1 && w.version > MAX_STRING_REF_ID_FORMAT_VERSION
    requires info.id.Some? && info.prev.Some? && info.next.Some?
    requires Canonical(info.id.value) && Canonical(info.prev.value) && Canonical(info.next.value)
    requires Save(w, info, false).Success? && Save(w, info, false).value.out <= r.data && r.pos == |w.out|
    requires r.version == w.version && r.mapping.None?
    requires !r.ctx.subCached && r.ctx.leftRec >= |LiveHeadBytes(info.id.value, info.prev.value, info.next.value, info.data)|
    ensures ReadIds(r, other).Success?
    ensures var loaded := ReadIds(r, other).value.v;
            loaded.id == info.id && loaded.prev == info.prev && loaded.next == info.next
    ensures var r1 := GetSubName(ReadIds(r, other).value.r);
            r1.Success? && r1.value.ctx.subName == DATA
            && DataField(r1.value, sc).Success? && DataField(r1.value, sc).value.v.info.data == info.data
  {
    var b := LiveHeadBytes(info.id.value, info.prev.value, info.next.value, info.data);
    SaveLiveHead(w, info);
    PrefixAt(w.out, b, r);
    LiveHeadRoundTrip(r, info.id.value, info.prev.value, info.next.value, info.data, other, sc);
  }

  /** A response with no condition, text, rule or quest status set is saved
      as its identifiers and `DATA` alone, and loads back as itself: the
      identifiers and the data, with the record not deleted. */
  lemma SaveLoadPlain(w: W.Writer, info: Info, r: Reader, other: Info)
    requires W.Valid(w) && |w.frames| <= 1 && w.version > MAX_STRING_REF_ID_FORMAT_VERSION
    requires info.id.Some? && info.prev.Some? && info.next.Some?
    requires Canonical(info.id.value) && Canonical(info.prev.value) && Canonical(info.next.value)
    requires Unset(info.actor) && Unset(info.race) && Unset(info.cls) && Unset(info.faction)
             && Unset(info.cell) && Unset(info.pcFaction)
    requires info.sound == "" && info.response == "" && info.resultScript == "" && info.selects == [] && info.quest == QsNone
    requires w.out + LiveHeadBytes(info.id.value, info.prev.value, info.next.value, info.data) <= r.data && r.pos == |w.out|
    requires r.version == w.version && r.mapping.None?
    requires !r.ctx.subCached && r.ctx.leftRec == |LiveHeadBytes(info.id.value, info.prev.value, info.next.value, info.data)|
    ensures Save(w, info, false) == Success(W.Emit(w, LiveHeadBytes(info.id.value, info.prev.value, info.next.value, info.data)))
    ensures Load(r, other).Success?
    ensures Load(r, other).value.v
            == (other.(id := info.id, prev := info.prev, next := info.next, quest := QsNone, factionLess := false, data := info.data), false)
  {
    PlainSaved(w, info);
    PrefixAt(w.out, LiveHeadBytes(info.id.value, info.prev.value, info.next.value, info.data), r);
    PlainLoaded(r, info.id.value, info.prev.value, info.next.value, info.data, other);
  }

  /** A response with nothing set after `DATA` is written as its
      identifiers and `DATA` alone. */
  lemma PlainSaved(w: W.Writer, info: Info)
    requires W.Valid(w) && |w.frames| <= 1 && w.version > MAX_STRING_REF_ID_FORMAT_VERSION
    requires info.id.Some? && info.prev.Some? && info.next.Some?
    requires Unset(info.actor) && Unset(info.race) && Unset(info.cls) && Unset(info.faction)
             && Unset(info.cell) && Unset(info.pcFaction)
    requires info.sound == "" && info.response == "" && info.resultScript == "" && info.selects == [] && info.quest == QsNone
    ensures Save(w, info, false) == Success(W.Emit(w, LiveHeadBytes(info.id.value, info.prev.value, info.next.value, info.data)))
  {
    var w4 := LiveHeadWritten(w, info);
    assert SaveConditions(w4, info) == Success(w4);
    assert SaveTexts(w4, info) == Success(w4);
    assert SaveRest(w4, info) == Success(w4);
  }

  /** A record holding only the identifiers and `DATA` loads as those
      identifiers and that data, not deleted. */
  lemma PlainLoaded(r: Reader, x: RefId, p: RefId, n: RefId, d: InfoData, other: Info)
    requires r.version > MAX_STRING_REF_ID_FORMAT_VERSION && r.mapping.None?
    requires Canonical(x) && Canonical(p) && Canonical(n)
    requires At(r, LiveHeadBytes(x, p, n, d)) && !r.ctx.subCached && r.ctx.leftRec == |LiveHeadBytes(x, p, n, d)|
    ensures Load(r, other).Success?
    ensures Load(r, other).value.v
            == (other.(id := Some(x), prev := Some(p), next := Some(n), quest := QsNone, factionLess := false, data := d), false)
  {
    var r2 := LiveIdsRoundTrip(r, x, p, n, d, other);
    var sc := Scan(ReadIds(r, other).value.v, false);
    DataStep(r2, d, sc);
    var r1 := GetSubName(r2).value;
    var f := DataField(r1, sc).value;
    assert Field(r1, sc) == Success(f);
    assert !HasMoreSubs(f.r);
    LoadParts(r, other);
  }

  /** A record holding only the identifiers and `DATA` loads, leaving its
      condition identifiers unloaded; the library's save then fails on the
      first of them, while the corrected save writes the record. */
  lemma PlainRecordSaveFails(r: Reader, x: RefId, p: RefId, n: RefId, d: InfoData, w: W.Writer)
    requires r.version > MAX_STRING_REF_ID_FORMAT_VERSION && r.mapping.None?
    requires Canonical(x) && Canonical(p) && Canonical(n)
    requires At(r, LiveHeadBytes(x, p, n, d)) && !r.ctx.subCached && r.ctx.leftRec == |LiveHeadBytes(x, p, n, d)|
    requires W.Valid(w) && |w.frames| <= 1 && w.version > MAX_STRING_REF_ID_FORMAT_VERSION
    ensures Load(r, NEW_INFO).Success?
    ensures SaveAsWritten(w, Load(r, NEW_INFO).value.v.0, false) == Failure(NullReference)
    ensures Save(w, Load(r, NEW_INFO).value.v.0, false).Success?
  {
    PlainLoaded(r, x, p, n, d, NEW_INFO);
    var info := Load(r, NEW_INFO).value.v.0;
    var w4 := LiveHeadWritten(w, info);
    assert SaveConditionsAsWritten(w4, info) == Failure(NullReference);
    SaveLiveHead(w, info);
  }
}

=== FILE: dialogue.dfy ===
/** Dialogue topics (`DIAL`): an identifier whose sub-record depends on the
    format version, an optional display name, a one-byte topic type and a
    deletion mark. */
module Dialogues {
  import opened Bytes
  import opened Wrappers
  import opened Errors
  import opened Tags
  import opened RefIds
  import opened FormatVersions
  import opened EsmReader
  import opened RoundTrip
  import W = EsmWriter

  /** The topic types, stored as a signed byte. */
  const TOPIC: i8 := 0
  const VOICE: i8 := 1
  const GREETING: i8 := 2
  const PERSUASION: i8 := 3
  const JOURNAL: i8 := 4
  /** The type of a topic whose `DATA` is not one byte long (deleted topics). */
  const UNKNOWN: i8 := -1

  /** `stringId` is None while the library's field is null. */
  datatype Dialogue = Dialogue(id: RefId, stringId: Option<string>, dtype: i8)

  const NEW_DIALOGUE: Dialogue := Dialogue(Empty, None, 0)

  /** The sub-record that carries the identifier: `NAME` until version 25,
      `ID__` after. */
  function IdTag(version: u32): (t: Tag)
    ensures t == NAME <==> version <= MAX_NAME_IS_REF_ID_ONLY_FORMAT_VERSION
  {
    if version <= MAX_NAME_IS_REF_ID_ONLY_FORMAT_VERSION then NAME else ID__
  }

  /** The identifier, first in the record. Up to version 23 it is the text
      of `NAME`, which is also the display name; up to version 25 `NAME`
      holds it as a reference identifier; after that `ID__` does. */
  function ReadId(r: Reader, d: Dialogue): (res: Result<Step<Dialogue>, Error>)
    ensures res.Success? ==> Consumed(r, res.value.r) && res.value.v.dtype == d.dtype
    ensures r.version <= MAX_STRING_REF_ID_FORMAT_VERSION ==>
              (res.Success? <==> GetHNString(r, NAME).Success?)
              && (res.Success? ==> var s := GetHNString(r, NAME).value;
                                   res.value.r == s.r && res.value.v.stringId == Some(s.v)
                                   && res.value.v.id == StringRefId(s.v))
    ensures r.version > MAX_STRING_REF_ID_FORMAT_VERSION ==>
              (res.Success? <==> GetHNRefId(r, IdTag(r.version)).Success?)
              && (res.Success? ==> var x := GetHNRefId(r, IdTag(r.version)).value;
                                   res.value.r == x.r && res.value.v == d.(id := x.v))
  {
    if r.version <= MAX_STRING_REF_ID_FORMAT_VERSION then
      var s :- GetHNString(r, NAME);
      Success(Step(s.r, d.(stringId := Some(s.v), id := StringRefId(s.v))))
    else
      var x :- GetHNRefId(r, IdTag(r.version));
      Success(Step(x.r, d.(id := x.v)))
  }

  /** `NAME` after the identifier: the display name, the current
      sub-record's text. */
  function NameField(r1: Reader): (res: Result<Step<string>, Error>)
    ensures res.Success? ==> Consumed(r1, res.value.r)
  {
    GetHString(r1)
  }

  /** `NAME` after the identifier as the library reads it: the name was
      already read by the loop, and reading a named string reads the size
      field as a second name. */
  function NameFieldAsWritten(r1: Reader): (res: Result<Step<string>, Error>)
    ensures res.Success? ==> Consumed(r1, res.value.r)
  {
    GetHNString(r1, NAME)
  }

  /** `DATA`: a one-byte payload is the topic type; a payload of any other
      size is skipped and the type becomes unknown. */
  function DataField(r1: Reader): (res: Result<Step<i8>, Error>)
    ensures GetSubHeader(r1).Failure? ==> res.Failure?
    ensures res.Success? ==> Consumed(r1, res.value.r) && GetSubHeader(r1).Success?
    ensures res.Success? ==> var h := GetSubHeader(r1).value;
              res.value.r.pos == h.pos + h.ctx.leftSub
              && (h.ctx.leftSub == 1 ==> h.pos < |h.data| && res.value.v == I8OfU8(h.data[h.pos]))
              && (h.ctx.leftSub != 1 ==> res.value.v == UNKNOWN)
    ensures GetSubHeader(r1).Success? && GetSubHeader(r1).value.ctx.leftSub != 1 ==> res.Success?
  {
    var h :- GetSubHeader(r1);
    if h.ctx.leftSub == 1 then
      var b :- ReadI8(h);
      Success(Step(b.r, b.v))
    else Success(Step(SkipBytes(h, h.ctx.leftSub), UNKNOWN))
  }

  datatype Scan = Scan(dial: Dialogue, deleted: bool)

  /** One sub-record after the identifier; an unknown name fails. */
  function Field(r1: Reader, sc: Scan): (res: Result<Step<Scan>, Error>)
    ensures res.Success? ==> Consumed(r1, res.value.r) && res.value.v.dial.id == sc.dial.id
    ensures r1.ctx.subName !in {NAME, DATA, DELE} ==> res == Failure(UnknownSubrecord(r1.ctx.subName))
    ensures r1.ctx.subName == NAME ==>
              (res.Success? <==> NameField(r1).Success?)
              && (res.Success? ==> res.value.v == sc.(dial := sc.dial.(stringId := Some(NameField(r1).value.v))))
    ensures r1.ctx.subName == DATA ==>
              (res.Success? <==> DataField(r1).Success?)
              && (res.Success? ==> res.value.v == sc.(dial := sc.dial.(dtype := DataField(r1).value.v)))
    ensures r1.ctx.subName == DELE && res.Success? ==> res.value.v == sc.(deleted := true)
  {
    var t := r1.ctx.subName;
    if t == NAME then
      var s :- NameField(r1);
      Success(Step(s.r, sc.(dial := sc.dial.(stringId := Some(s.v)))))
    else if t == DATA then
      var k :- DataField(r1);
      Success(Step(k.r, sc.(dial := sc.dial.(dtype := k.v))))
    else if t == DELE then
      var r2 :- SkipHSub(r1);
      Success(Step(r2, sc.(deleted := true)))
    else Failure(UnknownSubrecord(t))
  }

  /** The loop over the rest of the record. */
  function LoadFields(r: Reader, sc: Scan): (res: Result<Step<Scan>, Error>)
    ensures res.Success? ==> InRecord(r, res.value.r) && res.value.r.ctx.leftRec <= 0
    ensures res.Success? ==> res.value.v.dial.id == sc.dial.id && (sc.deleted ==> res.value.v.deleted)
    ensures !HasMoreSubs(r) ==> res == Success(Step(r, sc))
    decreases r.ctx.leftRec
  {
    if !HasMoreSubs(r) then Success(Step(r, sc))
    else
      var r1 :- GetSubName(r);
      var f :- Field(r1, sc);
      LoadFields(f.r, f.v)
  }

  /** Between versions 24 and 25 the display name of a live topic is the
      identifier's text. */
  predicate NameFromId(version: u32, deleted: bool)
    ensures NameFromId(version, deleted) ==> !deleted && version > MAX_STRING_REF_ID_FORMAT_VERSION
    ensures NameFromId(version, deleted) <==> !deleted && MAX_STRING_REF_ID_FORMAT_VERSION < version <= MAX_NAME_IS_REF_ID_ONLY_FORMAT_VERSION
  {
    !deleted && MAX_STRING_REF_ID_FORMAT_VERSION < version <= MAX_NAME_IS_REF_ID_ONLY_FORMAT_VERSION
  }

  /** `Load`: the identifier, the other sub-records, then the display name
      where the identifier provides it. */
  function Load(r: Reader, d: Dialogue): (res: Result<Step<(Dialogue, bool)>, Error>)
    ensures res.Success? ==> InRecord(r, res.value.r) && res.value.r.ctx.leftRec <= 0
    ensures ReadId(r, d).Failure? ==> res == Failure(ReadId(r, d).error)
    ensures res.Success? <==>
              ReadId(r, d).Success?
              && (var head := ReadId(r, d).value;
                  var body := LoadFields(head.r, Scan(head.v, false));
                  body.Success? && (NameFromId(r.version, body.value.v.deleted) ==> ToText(body.value.v.dial.id).Success?))
    ensures res.Success? ==> ReadId(r, d).Success? && res.value.v.0.id == ReadId(r, d).value.v.id
    ensures res.Success? && NameFromId(r.version, res.value.v.1) ==>
              ToText(res.value.v.0.id).Success? && res.value.v.0.stringId == Some(ToText(res.value.v.0.id).value)
  {
    var head :- ReadId(r, d);
    var body :- LoadFields(head.r, Scan(head.v, false));
    InRecordTransitive(r, head.r, body.r);
    var dial := body.v.dial;
    if NameFromId(r.version, body.v.deleted) then
      var s :- ToText(dial.id);
      Success(Step(body.r, (dial.(stringId := Some(s)), body.v.deleted)))
    else Success(Step(body.r, (dial, body.v.deleted)))
  }

  // The library's reading of `NAME` inside the loop.

  /** Reading a second name where the size of a sub-record stands fails
      unless the size happens to equal the code of `NAME`. */
  lemma SizeReadAsName(r1: Reader, size: u32)
    requires !r1.ctx.subCached && At(r1, LE32(size)) && size != NAME
    ensures NameFieldAsWritten(r1) == Failure(UnexpectedSubrecord(NAME, size))
  {
    AtU32(r1, size);
  }

  /** The name of a `NAME` sub-record, read by the loop. */
  lemma NameAt(r: Reader, p: seq<byte>) returns (r1: Reader)
    requires At(r, W.SubRecordBytes(NAME, p)) && |p| < TWO_32 && !r.ctx.subCached
    ensures GetSubName(r) == Success(r1) && r1.ctx.subName == NAME && !r1.ctx.subCached
    ensures At(r1, LE32(|p|)) && GetSubNameIs(r, NAME) == Success(r1)
  {
    assert |p| % TWO_32 == |p|;
    AtSplit(r, LE32(NAME) + LE32(|p|), p);
    AtSplit(r, LE32(NAME), LE32(|p|));
    AtU32(r, NAME);
    r1 := GetSubName(r).value;
  }

  /** A display name written as `NAME` reads back through the corrected
      reading, while the library's reading takes the payload size for a
      sub-record name and fails. */
  lemma NameInLoopAsWrittenFails(r: Reader, s: string) returns (r1: Reader)
    requires PlainText(s) && |s| < 0x4000_0000
    requires At(r, W.SubRecordBytes(NAME, W.HStringBytes(s, 0)))
    requires !r.ctx.subCached && r.ctx.leftRec >= 8 + |W.HStringBytes(s, 0)|
    ensures GetSubName(r) == Success(r1) && r1.ctx.subName == NAME
    ensures NameField(r1).Success? && NameField(r1).value.v == s
    ensures NameFieldAsWritten(r1) == Failure(UnexpectedSubrecord(NAME, |W.HStringBytes(s, 0)|))
  {
    var p := W.HStringBytes(s, 0);
    r1 := NameAt(r, p);
    HNStringRoundTrip(r, NAME, s, 0);
    SizeReadAsName(r1, |p|);
  }

  // Round trips.

  /** `DATA` holding one type byte. */
  function DataBytes(t: i8): (b: seq<byte>)
    ensures |b| == 9
  {
    W.SubRecordBytes(DATA, [U8OfI8(t)])
  }

  /** A display name and a type byte. */
  function TailBytes(s: string, t: i8): seq<byte>
    requires |s| < 0x8000_0000
  {
    W.SubRecordBytes(NAME, W.HStringBytes(s, 0)) + DataBytes(t)
  }

  lemma DataAt(r1: Reader, t: i8)
    requires !r1.ctx.subCached && r1.ctx.leftRec >= 5 && At(r1, LE32(1) + [U8OfI8(t)])
    ensures DataField(r1).Success? && DataField(r1).value.v == t
    ensures DataField(r1).value.r.pos == r1.pos + 5 && DataField(r1).value.r.ctx.leftRec == r1.ctx.leftRec - 5
  {
    AtSplit(r1, LE32(1), [U8OfI8(t)]);
    AtU32(r1, 1);
  }

  /** The loop over a record that ends with a one-byte `DATA`. */
  lemma DataLoadStep(r: Reader, sc: Scan, t: i8)
    requires !r.ctx.subCached && r.ctx.leftRec == 9 && At(r, DataBytes(t))
    ensures LoadFields(r, sc).Success? && LoadFields(r, sc).value.v == sc.(dial := sc.dial.(dtype := t))
  {
    assert DataBytes(t) == LE32(DATA) + (LE32(1) + [U8OfI8(t)]);
    AtSplit(r, LE32(DATA), LE32(1) + [U8OfI8(t)]);
    AtU32(r, DATA);
    var r1 := GetSubName(r).value;
    DataAt(r1, t);
    var f := Field(r1, sc).value;
    assert !HasMoreSubs(f.r);
  }

  /** The loop over a record that has `NAME` and then `DATA` left. */
  lemma NameLoadStep(r: Reader, sc: Scan, s: string, t: i8)
    requires PlainText(s) && |s| < 0x8000_0000
    requires At(r, TailBytes(s, t))
    requires !r.ctx.subCached && r.ctx.leftRec == 8 + |W.HStringBytes(s, 0)| + 9
    ensures LoadFields(r, sc).Success?
    ensures LoadFields(r, sc).value.v == sc.(dial := sc.dial.(stringId := Some(s), dtype := t))
  {
    var a := W.SubRecordBytes(NAME, W.HStringBytes(s, 0));
    AtSplit(r, a, DataBytes(t));
    HNStringRoundTrip(r, NAME, s, 0);
    var r1 := GetSubName(r).value;
    assert GetSubNameIs(r, NAME).value == r1;
    var f := Field(r1, sc).value;
    assert f.r == GetHNString(r, NAME).value.r;
    AtMoved(r.(pos := r.pos + |a|), f.r, DataBytes(t));
    DataLoadStep(f.r, f.v, t);
  }

  /** Up to version 23: the identifier's text is the display name. */
  lemma OldFormatRoundTrip(r: Reader, d: Dialogue, s: string, t: i8)
    requires r.version <= MAX_STRING_REF_ID_FORMAT_VERSION
    requires PlainText(s) && |s| < 0x8000_0000
    requires At(r, W.SubRecordBytes(NAME, W.HStringBytes(s, 0)) + DataBytes(t))
    requires !r.ctx.subCached && r.ctx.leftRec == 8 + |W.HStringBytes(s, 0)| + 9
    ensures Load(r, d).Success?
    ensures Load(r, d).value.v == (Dialogue(StringRefId(s), Some(s), t), false)
  {
    var a := W.SubRecordBytes(NAME, W.HStringBytes(s, 0));
    AtSplit(r, a, DataBytes(t));
    HNStringRoundTrip(r, NAME, s, 0);
    var head := ReadId(r, d).value;
    AtMoved(r.(pos := r.pos + |a|), head.r, DataBytes(t));
    DataLoadStep(head.r, Scan(head.v, false), t);
  }

  lemma IdStep(r: Reader, d: Dialogue, x: RefId) returns (head: Step<Dialogue>)
    requires r.version > MAX_STRING_REF_ID_FORMAT_VERSION && r.mapping.None? && Canonical(x)
    requires At(r, W.SubRecordBytes(IdTag(r.version), W.RefIdWire(x, false)))
    requires !r.ctx.subCached && r.ctx.leftRec >= 8 + |W.RefIdWire(x, false)|
    ensures ReadId(r, d) == Success(head) && head.v == d.(id := x)
    ensures head.r.pos == r.pos + 8 + |W.RefIdWire(x, false)| && !head.r.ctx.subCached && SameFile(r, head.r)
    ensures head.r.ctx.leftRec == r.ctx.leftRec - 8 - |W.RefIdWire(x, false)|
  {
    HNRefIdStep(r, IdTag(r.version), x);
    head := ReadId(r, d).value;
  }

  /** After version 23: the identifier reads back from its sub-record; up to
      version 25 the display name is its text, and after that it is the
      `NAME` that follows. */
  lemma NewFormatRoundTrip(r: Reader, d: Dialogue, x: RefId, s: string, t: i8)
    requires r.version > MAX_STRING_REF_ID_FORMAT_VERSION && r.mapping.None? && Canonical(x)
    requires PlainText(s) && |s| < 0x8000_0000
    requires At(r, W.SubRecordBytes(IdTag(r.version), W.RefIdWire(x, false)) + TailBytes(s, t))
    requires !r.ctx.subCached
    requires r.ctx.leftRec == 8 + |W.RefIdWire(x, false)| + 8 + |W.HStringBytes(s, 0)| + 9
    ensures r.version > MAX_NAME_IS_REF_ID_ONLY_FORMAT_VERSION ==>
              Load(r, d).Success? && Load(r, d).value.v == (Dialogue(x, Some(s), t), false)
    ensures r.version <= MAX_NAME_IS_REF_ID_ONLY_FORMAT_VERSION ==>
              (Load(r, d).Success? <==> ToText(x).Success?)
              && (Load(r, d).Success? ==> Load(r, d).value.v == (Dialogue(x, Some(ToText(x).value), t), false))
  {
    var a := W.SubRecordBytes(IdTag(r.version), W.RefIdWire(x, false));
    var rest := TailBytes(s, t);
    AtSplit(r, a, rest);
    var head := IdStep(r, d, x);
    AtMoved(r.(pos := r.pos + |a|), head.r, rest);
    NameLoadStep(head.r, Scan(head.v, false), s, t);
  }
}

=== FILE: errors.dfy ===
/** The ways reading and writing a content file can fail. Each case stands
    for one exception the library throws; the payload names the value that
    was rejected where a caller can use it. */
module Errors {
  datatype Error =
    | EndOfStream                       // a fixed-width read ran past the end of the file
    | NoMoreRecords                     // a record name was requested at the end of the file
    | UnreadRecordBytes                 // the previous record was not fully consumed
    | TruncatedRecordHeader             // fewer than 12 bytes remain for a record header
    | TruncatedSubRecordHeader          // fewer than 4 bytes remain for a sub-record size
    | SizeMismatch(want: int, got: int) // a length field disagrees with the bytes available
    | UnexpectedSubrecord(expected: int, got: int)
    | UnknownRecord(tag: int)
    | UnknownSubrecord(tag: int)
    | MissingSubrecord(tag: int)
    | UnsupportedRefIdType(typeByte: int)
    | GeneratedFormId                   // a FormId whose content file is not known
    | SeekBeforeBegin
    | NegativeCount
    | InvalidValue(tag: int, value: int)
    | InvalidTagLength
    | InvalidFormIdIndex
    | ValueTooLong
    | WriterState                       // record framing used out of order
    | NullReference
    | NotImplemented
    | NotContentFile                    // the first record is not TES3
    | NotOpen                           // a read was requested before a file was opened
    | UnknownAiPackage(tag: int)        // an AI package type the factory does not know
    | CellWithoutPackage                // a CNDT sub-record before any AI package
    | CellWithoutTarget                 // a CNDT sub-record after a package that is not escort or follow
    | IllegalVariableType(typeId: string) // a global whose type letter is not s, l or f
    | UnsupportedVariant                // a value type the variable's format cannot hold
}

=== FILE: faction.dfy ===
/** The FACT record: the faction's identifier and name, up to ten rank
    names, the 240-byte FADT block of attribute, rank and skill
    requirements, and the reactions of the faction towards others. */
module Factions {
  import opened Bytes
  import opened Wrappers
  import opened Errors
  import opened Tags
  import opened RefIds
  import opened EsmReader
  import RoundTrip

  // The FADT block.

  /** What one rank requires: two attribute levels, the primary and the
      favoured skill level, and the reaction of the faction's members. */
  datatype RankData = RankData(attribute1: i32, attribute2: i32, primarySkill: i32, favouredSkill: i32, factReaction: i32)

  /** Two favoured attributes, ten ranks, seven skill indices (or -1) and
      the hidden flag. */
  datatype Fadt = Fadt(attributes: seq<i32>, ranks: seq<RankData>, skills: seq<i32>, isHidden: i32)

  const RANK_COUNT: nat := 10
  const FADT_SIZE: nat := 240

  /** The library's arrays have fixed lengths. */
  predicate WellFormed(d: Fadt)
  {
    |d.attributes| == 2 && |d.ranks| == RANK_COUNT && |d.skills| == 7
  }

  const BLANK_RANK: RankData := RankData(0, 0, 0, 0, 0)

  /** The block a new faction holds: every entry zero. */
  const BLANK_FADT: Fadt := Fadt([0, 0], [BLANK_RANK, BLANK_RANK, BLANK_RANK, BLANK_RANK, BLANK_RANK,
                                          BLANK_RANK, BLANK_RANK, BLANK_RANK, BLANK_RANK, BLANK_RANK], [0, 0, 0, 0, 0, 0, 0], 0)

  /** 32-bit words read as signed values, and back. */
  function Signed(vs: seq<u32>): (xs: seq<i32>)
    ensures |xs| == |vs|
  {
    seq(|vs|, k requires 0 <= k < |vs| => I32OfU32(vs[k]))
  }

  function Unsigned(xs: seq<i32>): (vs: seq<u32>)
    ensures |vs| == |xs|
  {
    seq(|xs|, k requires 0 <= k < |xs| => U32OfI32(xs[k]))
  }

  lemma SignedRoundTrip(vs: seq<u32>, xs: seq<i32>)
    ensures Unsigned(Signed(vs)) == vs
    ensures Signed(Unsigned(xs)) == xs
  {
    assert forall k :: 0 <= k < |vs| ==> Unsigned(Signed(vs))[k] == vs[k];
    assert forall k :: 0 <= k < |xs| ==> Signed(Unsigned(xs))[k] == xs[k];
  }

  function RankOf(ws: seq<u32>): RankData
    requires |ws| == 5
  {
    RankData(I32OfU32(ws[0]), I32OfU32(ws[1]), I32OfU32(ws[2]), I32OfU32(ws[3]), I32OfU32(ws[4]))
  }

  function RankWords(d: RankData): (ws: seq<u32>)
    ensures |ws| == 5
  {
    [U32OfI32(d.attribute1), U32OfI32(d.attribute2), U32OfI32(d.primarySkill), U32OfI32(d.favouredSkill),
     U32OfI32(d.factReaction)]
  }

  /** Consecutive runs of five words read as ranks; a shorter tail is not read. */
  function RanksOf(ws: seq<u32>): (rs: seq<RankData>)
    ensures |rs| == |ws| / 5
  {
    if |ws| < 5 then [] else [RankOf(ws[..5])] + RanksOf(ws[5..])
  }

  function RanksWords(rs: seq<RankData>): (ws: seq<u32>)
    ensures |ws| == 5 * |rs|
  {
    if rs == [] then [] else RankWords(rs[0]) + RanksWords(rs[1..])
  }

  lemma {:induction false} RanksRoundTrip(rs: seq<RankData>)
    ensures RanksOf(RanksWords(rs)) == rs
  {
    if rs != [] {
      var ws := RanksWords(rs);
      assert ws[..5] == RankWords(rs[0]);
      assert ws[5..] == RanksWords(rs[1..]);
      RanksRoundTrip(rs[1..]);
    }
  }

  lemma {:induction false} RanksWordsRoundTrip(ws: seq<u32>)
    requires |ws| % 5 == 0
    ensures RanksWords(RanksOf(ws)) == ws
  {
    if |ws| >= 5 {
      var rs := RanksOf(ws);
      assert rs[1..] == RanksOf(ws[5..]);
      RanksWordsRoundTrip(ws[5..]);
      assert RankWords(RankOf(ws[..5])) == ws[..5];
      assert ws == ws[..5] + ws[5..];
    }
  }

  /** The block from its sixty words, in the order `FADTstruct.Load` reads them. */
  function FadtOf(vs: seq<u32>): (d: Fadt)
    requires |vs| == FADT_SIZE / 4
    ensures WellFormed(d)
  {
    Fadt(Signed(vs[..2]), RanksOf(vs[2..52]), Signed(vs[52..59]), I32OfU32(vs[59]))
  }

  /** The sixty words of a block, in the same order. */
  function FadtWords(d: Fadt): (vs: seq<u32>)
    requires WellFormed(d)
    ensures |vs| == FADT_SIZE / 4
  {
    Unsigned(d.attributes) + RanksWords(d.ranks) + Unsigned(d.skills) + [U32OfI32(d.isHidden)]
  }

  /** A block survives being laid out and read back. */
  lemma FadtRoundTrip(d: Fadt)
    requires WellFormed(d)
    ensures FadtOf(FadtWords(d)) == d
  {
    var vs := FadtWords(d);
    assert vs[..2] == Unsigned(d.attributes);
    assert vs[2..52] == RanksWords(d.ranks);
    assert vs[52..59] == Unsigned(d.skills);
    SignedRoundTrip([], d.attributes);
    SignedRoundTrip([], d.skills);
    RanksRoundTrip(d.ranks);
  }

  /** Reading loses nothing: the words of any block come back from the
      value read. */
  lemma FadtWordsRoundTrip(vs: seq<u32>)
    requires |vs| == FADT_SIZE / 4
    ensures FadtWords(FadtOf(vs)) == vs
  {
    SignedRoundTrip(vs[..2], []);
    SignedRoundTrip(vs[52..59], []);
    RanksWordsRoundTrip(vs[2..52]);
    assert vs == vs[..2] + vs[2..52] + vs[52..59] + [vs[59]];
  }

  /** FADT: sixty 32-bit reads after the size field, whatever the size says;
      a hidden flag above 1 fails. */
  function ReadFadt(r1: Reader): (res: Result<Step<Fadt>, Error>)
    ensures res.Success? ==> Consumed(r1, res.value.r) && WellFormed(res.value.v) && res.value.v.isHidden <= 1
    ensures res.Success? ==>
              GetSubHeader(r1).Success? && var h := GetSubHeader(r1).value;
              h.pos + FADT_SIZE <= |h.data| && res.value.r == h.(pos := h.pos + FADT_SIZE) && Words(FadtWords(res.value.v)) == h.data[h.pos..h.pos + FADT_SIZE]
    ensures GetSubHeader(r1).Success? && GetSubHeader(r1).value.pos + FADT_SIZE > |r1.data| ==> res == Failure(EndOfStream)
    ensures GetSubHeader(r1).Success? && GetSubHeader(r1).value.pos + FADT_SIZE <= |r1.data| ==>
              var h := GetSubHeader(r1).value;
              var hidden := I32OfU32(WordAt(h.data[h.pos..h.pos + FADT_SIZE], 59));
              (res.Success? <==> hidden <= 1) && (res.Failure? ==> res.error == InvalidValue(FADT, hidden))
  {
    var h :- GetSubHeader(r1);
    var b :- ReadExact(h, FADT_SIZE);
    var vs := WordsOf(b.v);
    assert vs[59] == WordAt(b.v, 59) by { WordsOfAt(b.v, 59); }
    var d := FadtOf(vs);
    if d.isHidden > 1 then Failure(InvalidValue(FADT, d.isHidden))
    else
      FadtWordsRoundTrip(vs);
      WordsOfRoundTrip(b.v);
      Success(Step(b.r, d))
  }

  /** Word `k` of the values read from a byte string is word `k` of the string. */
  lemma {:induction false} WordsOfAt(b: seq<byte>, k: nat)
    requires 4 * k + 4 <= |b|
    ensures k < |WordsOf(b)| && WordsOf(b)[k] == WordAt(b, k)
  {
    if k > 0 {
      WordsOfAt(b[4..], k - 1);
      assert b[4..][4 * (k - 1)..4 * (k - 1) + 4] == b[4 * k..4 * k + 4];
    }
  }

  // The record.

  /** A field never loaded is `None` (the library's null). `ranks` is the
      library's ten-slot array of rank names. */
  datatype Faction = Faction(
    recordFlags: u32, id: Option<RefId>, name: Option<string>,
    reactions: map<RefId, i32>, data: Fadt, ranks: seq<Option<string>>)

  /** A faction as the dispatch table creates it. */
  const NEW_FACTION: Faction := Faction(0, None, None, map[], BLANK_FADT, [None, None, None, None, None, None, None, None, None, None])

  /** The shape the library's arrays give every faction. */
  predicate Valid(f: Faction)
  {
    |f.ranks| == RANK_COUNT
  }

  // Reactions.

  /** An ANAM/INTV pair: the reaction to `x` becomes `v` unless a lower one
      is already recorded. */
  function React(m: map<RefId, i32>, x: RefId, v: i32): (m2: map<RefId, i32>)
    ensures m2.Keys == m.Keys + {x}
    ensures m2[x] <= v && (x in m ==> m2[x] <= m[x])
    ensures m2[x] == v || (x in m && m2[x] == m[x])
    ensures forall k :: k in m && k != x ==> m2[k] == m[k]
  {
    if x !in m || m[x] > v then m[x := v] else m
  }

  /** Reactions in the order they were read, applied to a table. */
  function ReactAll(m: map<RefId, i32>, pairs: seq<(RefId, i32)>): (m2: map<RefId, i32>)
    ensures m2.Keys == m.Keys + set i | 0 <= i < |pairs| :: pairs[i].0
    ensures NoHigher(m2, m)
    ensures forall i :: 0 <= i < |pairs| ==> m2[pairs[i].0] <= pairs[i].1
    decreases |pairs|
  {
    if pairs == [] then m
    else
      assert forall i :: 1 <= i < |pairs| ==> pairs[i] == pairs[1..][i - 1];
      ReactAll(React(m, pairs[0].0, pairs[0].1), pairs[1..])
  }

  /** Whatever the order, each faction ends up with the lowest reaction
      read for it: no pair is below it, and it is one that was read (or was
      already in the table). */
  lemma {:induction false} ReactAllMinimum(m: map<RefId, i32>, pairs: seq<(RefId, i32)>, x: RefId)
    ensures x in ReactAll(m, pairs) <==> x in m || exists i :: 0 <= i < |pairs| && pairs[i].0 == x
    ensures x in ReactAll(m, pairs) ==>
              (forall i :: 0 <= i < |pairs| && pairs[i].0 == x ==> ReactAll(m, pairs)[x] <= pairs[i].1)
              && (x in m ==> ReactAll(m, pairs)[x] <= m[x])
              && ((x in m && ReactAll(m, pairs)[x] == m[x]) || exists i :: 0 <= i < |pairs| && pairs[i].0 == x && ReactAll(m, pairs)[x] == pairs[i].1)
    decreases |pairs|
  {
    if pairs != [] {
      var m1 := React(m, pairs[0].0, pairs[0].1);
      ReactAllMinimum(m1, pairs[1..], x);
      var m2 := ReactAll(m, pairs);
      assert m2 == ReactAll(m1, pairs[1..]);
      forall i | 1 <= i < |pairs| ensures pairs[i] == pairs[1..][i - 1] { }
      if x in m2 {
        if (exists i :: 0 <= i < |pairs[1..]| && pairs[1..][i].0 == x && m2[x] == pairs[1..][i].1) {
          var i :| 0 <= i < |pairs[1..]| && pairs[1..][i].0 == x && m2[x] == pairs[1..][i].1;
          assert pairs[i + 1].0 == x && m2[x] == pairs[i + 1].1;
        } else if x == pairs[0].0 && m1[x] == pairs[0].1 {
          assert m2[x] == pairs[0].1;
        }
      } else {
        assert x !in m1;
      }
    }
  }

  /** The reactions of one table never rise in the other. */
  predicate NoHigher(m2: map<RefId, i32>, m: map<RefId, i32>)
  {
    forall k :: k in m ==> k in m2 && m2[k] <= m[k]
  }

  // Loading.

  /** What the loop has gathered: the record, how many RNAM were read, and
      which of NAME, FADT and DELE it has seen. */
  datatype FactionScan = FactionScan(faction: Faction, rankCount: nat, hasName: bool, hasData: bool, deleted: bool)

  /** What a scan's counters promise about its record: at most ten rank
      names were read and each went to its own slot in turn. */
  predicate Marked(sc: FactionScan)
  {
    Valid(sc.faction) && sc.rankCount <= RANK_COUNT
    && (forall i :: 0 <= i < sc.rankCount ==> sc.faction.ranks[i].Some?)
    && (sc.hasName ==> sc.faction.id.Some?)
  }

  /** The sub-records the loader accepts. */
  const FACTION_TAGS: set<Tag> := {NAME, FNAM, RNAM, FADT, ANAM, DELE}

  /** RNAM: the next rank name, unless all ten slots are taken. */
  function RankField(r1: Reader, sc: FactionScan): (res: Result<Step<FactionScan>, Error>)
    requires Valid(sc.faction)
    ensures sc.rankCount >= RANK_COUNT ==> res == Failure(InvalidValue(RNAM, sc.rankCount))
    ensures sc.rankCount < RANK_COUNT ==> (res.Success? <==> GetHString(r1).Success?)
    ensures res.Success? ==> Consumed(r1, res.value.r) && res.value.r == GetHString(r1).value.r
    ensures res.Success? ==>
              res.value.v == sc.(rankCount := sc.rankCount + 1,
                                 faction := sc.faction.(ranks := sc.faction.ranks[sc.rankCount := Some(GetHString(r1).value.v)]))
  {
    if sc.rankCount >= RANK_COUNT then Failure(InvalidValue(RNAM, sc.rankCount))
    else
      var s :- GetHString(r1);
      var f := sc.faction;
      Success(Step(s.r, sc.(rankCount := sc.rankCount + 1, faction := f.(ranks := f.ranks[sc.rankCount := Some(s.v)]))))
  }

  /** ANAM and its INTV: the faction named and the reaction to it. */
  function ReactionField(r1: Reader, f: Faction): (res: Result<Step<Faction>, Error>)
    ensures res.Success? ==> Consumed(r1, res.value.r)
    ensures res.Success? ==>
              var x := GetRefId(r1);
              x.Success? && GetHNI32(x.value.r, INTV).Success?
              && res.value.v == f.(reactions := React(f.reactions, x.value.v, GetHNI32(x.value.r, INTV).value.v))
    ensures res.Success? ==> NoHigher(res.value.v.reactions, f.reactions)
  {
    var x :- GetRefId(r1);
    var v :- GetHNI32(x.r, INTV);
    InRecordTransitive(r1, x.r, v.r);
    Success(Step(v.r, f.(reactions := React(f.reactions, x.v, v.v))))
  }

  /** One sub-record of the loop, after its name was read. */
  function LoadField(r1: Reader, sc: FactionScan): (res: Result<Step<FactionScan>, Error>)
    requires Marked(sc)
    ensures r1.ctx.subName !in FACTION_TAGS ==> res == Failure(UnknownSubrecord(r1.ctx.subName))
    ensures r1.ctx.subName == RNAM ==> res == RankField(r1, sc)
    ensures r1.ctx.subName == FADT ==>
              (res.Success? <==> ReadFadt(r1).Success?)
              && (res.Success? ==> res.value.v.faction == sc.faction.(data := ReadFadt(r1).value.v) && res.value.v.hasData)
    ensures res.Success? ==>
              Consumed(r1, res.value.r) && Marked(res.value.v)
              && res.value.v.faction.recordFlags == sc.faction.recordFlags
              && NoHigher(res.value.v.faction.reactions, sc.faction.reactions)
              && res.value.v.hasName == (sc.hasName || r1.ctx.subName == NAME)
              && res.value.v.hasData == (sc.hasData || r1.ctx.subName == FADT)
              && res.value.v.deleted == (sc.deleted || r1.ctx.subName == DELE)
              && (r1.ctx.subName != RNAM ==> res.value.v.rankCount == sc.rankCount)
  {
    var t := r1.ctx.subName;
    var f := sc.faction;
    if t == NAME then
      var x :- GetRefId(r1);
      Success(Step(x.r, sc.(faction := f.(id := Some(x.v)), hasName := true)))
    else if t == FNAM then
      var s :- GetHString(r1);
      Success(Step(s.r, sc.(faction := f.(name := Some(s.v)))))
    else if t == RNAM then RankField(r1, sc)
    else if t == FADT then
      var d :- ReadFadt(r1);
      Success(Step(d.r, sc.(faction := f.(data := d.v), hasData := true)))
    else if t == ANAM then
      var g :- ReactionField(r1, f);
      Success(Step(g.r, sc.(faction := g.v)))
    else if t == DELE then
      var r2 :- SkipHSub(r1);
      Success(Step(r2, sc.(deleted := true)))
    else Failure(UnknownSubrecord(t))
  }

  /** The sub-record loop, until the record is used up. */
  function LoadSubs(r: Reader, sc: FactionScan): (res: Result<Step<FactionScan>, Error>)
    requires Marked(sc)
    ensures res.Success? ==> InRecord(r, res.value.r) && res.value.r.ctx.leftRec <= 0
    ensures res.Success? ==> Marked(res.value.v) && res.value.v.faction.recordFlags == sc.faction.recordFlags
    ensures res.Success? ==> NoHigher(res.value.v.faction.reactions, sc.faction.reactions)
    ensures res.Success? ==> (sc.hasName ==> res.value.v.hasName) && (sc.hasData ==> res.value.v.hasData)
                             && (sc.deleted ==> res.value.v.deleted) && sc.rankCount <= res.value.v.rankCount
    ensures !HasMoreSubs(r) ==> res == Success(Step(r, sc))
    decreases r.ctx.leftRec
  {
    if !HasMoreSubs(r) then Success(Step(r, sc))
    else
      var r1 :- GetSubName(r);
      var f :- LoadField(r1, sc);
      var rest := LoadSubs(f.r, f.v);
      if rest.Success? then
        InRecordTransitive(r, r1, f.r);
        InRecordTransitive(r, f.r, rest.value.r);
        rest
      else rest
  }

  /** `Faction.Load`: the record with its deleted flag. NAME is required;
      FADT is required unless the record is marked deleted. The rank names
      and reactions the object already held are kept. */
  function Load(r: Reader, f: Faction): (res: Result<Step<(Faction, bool)>, Error>)
    requires Valid(f)
    ensures res.Success? ==> InRecord(r, res.value.r) && res.value.r.ctx.leftRec <= 0
    ensures res.Success? ==> res.value.v.0.id.Some? && res.value.v.0.recordFlags == r.recordFlags && Valid(res.value.v.0)
    ensures res.Success? ==> NoHigher(res.value.v.0.reactions, f.reactions)
    ensures var loop := LoadSubs(r, FactionScan(f.(recordFlags := r.recordFlags), 0, false, false, false));
            res.Success? <==> loop.Success? && loop.value.v.hasName && (loop.value.v.hasData || loop.value.v.deleted)
    ensures var loop := LoadSubs(r, FactionScan(f.(recordFlags := r.recordFlags), 0, false, false, false));
            loop.Success? ==>
              (!loop.value.v.hasName ==> res == Failure(MissingSubrecord(NAME)))
              && (loop.value.v.hasName && !loop.value.v.deleted && !loop.value.v.hasData ==> res == Failure(MissingSubrecord(FADT)))
              && (res.Success? ==> res.value.v == (loop.value.v.faction, loop.value.v.deleted))
  {
    var sc :- LoadSubs(r, FactionScan(f.(recordFlags := r.recordFlags), 0, false, false, false));
    if !sc.v.hasName then Failure(MissingSubrecord(NAME))
    else if !sc.v.hasData && !sc.v.deleted then Failure(MissingSubrecord(FADT))
    else Success(Step(sc.r, (sc.v.faction, sc.v.deleted)))
  }

  // Round trips.

  /** A FADT sub-record holding a laid-out block reads back as that block,
      unless its hidden flag is above 1. */
  lemma FadtAt(r1: Reader, d: Fadt)
    requires WellFormed(d)
    requires RoundTrip.At(r1, LE32(FADT_SIZE) + Words(FadtWords(d))) && r1.ctx.leftRec >= 4 + FADT_SIZE
    ensures d.isHidden <= 1 ==> ReadFadt(r1).Success? && ReadFadt(r1).value.v == d
    ensures d.isHidden > 1 ==> ReadFadt(r1) == Failure(InvalidValue(FADT, d.isHidden))
  {
    var b := Words(FadtWords(d));
    RoundTrip.SizeAt(r1, b);
    var h := GetSubHeader(r1).value;
    assert h.data[h.pos..h.pos + FADT_SIZE] == b;
    WordsRoundTrip(FadtWords(d));
    FadtRoundTrip(d);
    WordsOfAt(b, 59);
  }

  /** An eleventh RNAM fails the load, whatever it holds. */
  lemma EleventhRankFails(r: Reader, sc: FactionScan)
    requires Marked(sc) && sc.rankCount == RANK_COUNT && HasMoreSubs(r)
    requires GetSubName(r).Success? && GetSubName(r).value.ctx.subName == RNAM
    ensures LoadSubs(r, sc) == Failure(InvalidValue(RNAM, RANK_COUNT))
  {
  }

  // The library as written.

  /** `mReactions` is a dictionary keyed by the identifier objects with the
      default comparer. The identifier types define `Equals(RefId)` but do
      not override `Equals(object)`, which that comparer calls, so keys
      compare by reference; every ANAM reads a new identifier object, which
      is therefore never found, and each pair becomes a new entry. */
  function ReactAsWritten(entries: seq<(RefId, i32)>, x: RefId, v: i32): (e2: seq<(RefId, i32)>)
    ensures |e2| == |entries| + 1 && e2[..|entries|] == entries && e2[|entries|] == (x, v)
  {
    entries + [(x, v)]
  }

  /** Two reactions to the same faction, 5 and then 3: the table as written
      keeps both, so the higher one is still there; the corrected table keeps
      only the minimum. */
  lemma ReactionMinimumLost()
    ensures var x := Str("Redoran");
            var e := ReactAsWritten(ReactAsWritten([], x, 5), x, 3);
            |e| == 2 && e[0] == (x, 5) && e[1] == (x, 3)
            && ReactAll(map[], [(x, 5), (x, 3)]) == map[x := 3]
  {
    var x := Str("Redoran");
    var pairs: seq<(RefId, i32)> := [(x, 5), (x, 3)];
    assert pairs[1..] == [(x, 3)] && pairs[1..][1..] == [];
    assert React(map[], x, 5) == map[x := 5];
    assert React(map[x := 5], x, 3) == map[x := 3];
    assert ReactAll(map[], pairs) == ReactAll(map[x := 5], pairs[1..]);
    assert ReactAll(map[x := 5], pairs[1..]) == ReactAll(map[x := 3], []);
  }
}

=== FILE: formats.dfy ===
/** The format versions at which the encodings change. */
module FormatVersions {
  import opened Bytes

  const DEFAULT_FORMAT_VERSION: u32 := 0
  const CURRENT_CONTENT_FORMAT_VERSION: u32 := 1
  const MAX_OLD_AI_PACKAGE_FORMAT_VERSION: u32 := 17
  const MAX_LIMITED_SIZE_STRINGS_FORMAT_VERSION: u32 := 22
  const MAX_STRING_REF_ID_FORMAT_VERSION: u32 := 23
  const MAX_NAME_IS_REF_ID_ONLY_FORMAT_VERSION: u32 := 25
  const CURRENT_SAVE_GAME_FORMAT_VERSION: u32 := 31

}

=== FILE: header.dfy ===
/** The header record (TES3): the format version, the file's metadata, its
    masters and, in saved games, the game-state blocks. */
module FileHeader {
  import opened Bytes
  import opened Wrappers
  import opened Errors
  import opened Tags
  import opened FormatVersions
  import opened ReaderContext
  import opened EsmReader

  datatype HeaderData = HeaderData(version: Tag, fileType: i32, author: string, desc: string, records: i32)

  datatype MasterData = MasterData(name: string, size: u64)

  /** The saved-game block. The three floats are kept as their raw bits. */
  datatype GameData = GameData(
    currentHealth: u32, maximumHealth: u32, hour: u32,
    unknown1: seq<byte>, currentCell: seq<byte>, unknown2: seq<byte>, playerName: seq<byte>)

  datatype Header = Header(
    data: HeaderData,
    formatVersion: u32,
    masters: seq<MasterData>,
    gameData: Option<GameData>,
    scrd: Option<seq<byte>>,
    scrs: Option<seq<byte>>)

  /** A freshly constructed header: every field at its default. */
  const NEW_HEADER: Header := Header(HeaderData(0, 0, "", "", 0), DEFAULT_FORMAT_VERSION, [], None, None, None)

  /** `blank`: the metadata and masters are reset and the format version
      becomes the current content version; the game-state blocks are kept. */
  function Blank(h: Header): (b: Header)
    ensures b.data == HeaderData(TES3, 0, "", "", 0) && b.masters == []
    ensures b.formatVersion == CURRENT_CONTENT_FORMAT_VERSION
    ensures b.gameData == h.gameData && b.scrd == h.scrd && b.scrs == h.scrs
  {
    h.(data := HeaderData(TES3, 0, "", "", 0), formatVersion := CURRENT_CONTENT_FORMAT_VERSION, masters := [])
  }

  /** Blanking twice is blanking once, and what blanking leaves depends only
      on the game-state blocks. */
  lemma BlankForgets(h1: Header, h2: Header)
    ensures Blank(Blank(h1)) == Blank(h1)
    ensures h1.gameData == h2.gameData && h1.scrd == h2.scrd && h1.scrs == h2.scrs ==> Blank(h1) == Blank(h2)
  {
  }

  /** The reader works at the header's format version. */
  function WithVersion(r: Reader, v: u32): (r2: Reader)
    ensures r2.version == v && r2.pos == r.pos && r2.ctx == r.ctx && r2.data == r.data
  {
    r.(version := v)
  }

  /** Whether `r` is `r0` later in the same record, at a possibly different format version. */
  predicate Later(r0: Reader, r: Reader)
  {
    r.data == r0.data && r.mapping == r0.mapping && r.ctx.leftFile == r0.ctx.leftFile
    && r.ctx.recName == r0.ctx.recName && r.recordFlags == r0.recordFlags && r.ctx.leftRec <= r0.ctx.leftRec
  }

  lemma InRecordIsLater(r0: Reader, r: Reader)
    requires InRecord(r0, r)
    ensures Later(r0, r)
  {
  }

  /** The optional leading FORM sub-record, as the library reads it: when it
      is absent the format version stays whatever it was. */
  function LoadFormAsWritten(r: Reader, h: Header): (res: Result<Step<Header>, Error>)
    ensures res.Success? ==> Later(r, res.value.r) && res.value.r.version == res.value.v.formatVersion
    ensures res.Success? ==> res.value.v == h.(formatVersion := res.value.v.formatVersion)
    ensures r.ctx.leftRec <= 0 ==> res == Success(Step(WithVersion(r, h.formatVersion), h))
  {
    var n :- IsNextSub(r, FORM);
    if !n.v then Success(Step(WithVersion(n.r, h.formatVersion), h))
    else
      var s :- GetSubHeader(n.r);
      var v :- ReadU32(s);
      Success(Step(WithVersion(v.r, v.v), h.(formatVersion := v.v)))
  }

  /** The optional FORM sub-record with the default restored when it is
      absent, as the format intends. */
  function LoadForm(r: Reader, h: Header): (res: Result<Step<Header>, Error>)
    ensures res.Success? ==> Later(r, res.value.r) && res.value.r.version == res.value.v.formatVersion
    ensures res.Success? ==> res.value.v == h.(formatVersion := res.value.v.formatVersion)
    ensures r.ctx.leftRec <= 0 ==> res == Success(Step(WithVersion(r, DEFAULT_FORMAT_VERSION), h.(formatVersion := DEFAULT_FORMAT_VERSION)))
    ensures (IsNextSub(r, FORM).Success? && !IsNextSub(r, FORM).value.v) ==>
              res.Success? && res.value.v.formatVersion == DEFAULT_FORMAT_VERSION
    ensures res.Success? && IsNextSub(r, FORM).Success? && IsNextSub(r, FORM).value.v ==>
              LoadFormAsWritten(r, h) == res
  {
    var n :- IsNextSub(r, FORM);
    if !n.v then Success(Step(WithVersion(n.r, DEFAULT_FORMAT_VERSION), h.(formatVersion := DEFAULT_FORMAT_VERSION)))
    else
      var s :- GetSubHeader(n.r);
      var v :- ReadU32(s);
      Success(Step(WithVersion(v.r, v.v), h.(formatVersion := v.v)))
  }

  /** The optional HEDR block; author and description are strings of 32 and
      256 bytes (length-prefixed from version 23). */
  function LoadHedr(r: Reader, h: Header): (res: Result<Step<Header>, Error>)
    ensures res.Success? ==> InRecord(r, res.value.r) && res.value.r.version == r.version
    ensures res.Success? ==> res.value.v == h.(data := res.value.v.data)
    ensures IsNextSub(r, HEDR).Success? && !IsNextSub(r, HEDR).value.v ==>
              res == Success(Step(IsNextSub(r, HEDR).value.r, h))
    ensures res.Success? && res.value.v.data != h.data ==> r.ctx.leftRec > 0
  {
    var n :- IsNextSub(r, HEDR);
    if !n.v then Success(Step(n.r, h))
    else
      var s :- GetSubHeader(n.r);
      var version :- ReadU32(s);
      var fileType :- ReadI32(version.r);
      var author :- GetMaybeFixedStringSize(fileType.r, 32);
      var desc :- GetMaybeFixedStringSize(author.r, 256);
      var records :- ReadI32(desc.r);
      Success(Step(records.r, h.(data := HeaderData(version.v, fileType.v, author.v, desc.v, records.v))))
  }

  /** MAST/DATA pairs for as long as MAST comes next; each master's name is
      followed by a DATA sub-record holding its size. */
  function LoadMasters(r: Reader, masters: seq<MasterData>): (res: Result<Step<seq<MasterData>>, Error>)
    ensures res.Success? ==> InRecord(r, res.value.r) && |res.value.v| >= |masters| && res.value.v[..|masters|] == masters
    ensures r.ctx.leftRec <= 0 ==> res == Success(Step(r, masters))
    decreases r.ctx.leftRec
  {
    var n :- IsNextSub(r, MAST);
    if !n.v then Success(Step(n.r, masters))
    else
      var name :- GetHString(n.r);
      var size :- GetHNU64(name.r, DATA);
      InRecordTransitive(r, n.r, name.r);
      InRecordTransitive(r, name.r, size.r);
      var rest :- LoadMasters(size.r, masters + [MasterData(name.v, size.v)]);
      InRecordTransitive(r, size.r, rest.r);
      assert (masters + [MasterData(name.v, size.v)])[..|masters|] == masters;
      Success(rest)
  }

  /** A MAST whose name is not followed by DATA fails the load. */
  lemma MasterNeedsData(r: Reader, masters: seq<MasterData>)
    requires IsNextSub(r, MAST).Success? && IsNextSub(r, MAST).value.v
    requires var n := IsNextSub(r, MAST).value.r;
             GetHString(n).Success? && GetSubNameIs(GetHString(n).value.r, DATA).Failure?
    ensures LoadMasters(r, masters).Failure?
  {
  }

  /** The optional GMDT block of a saved game. */
  function LoadGameData(r: Reader, h: Header): (res: Result<Step<Header>, Error>)
    ensures res.Success? ==> InRecord(r, res.value.r)
    ensures res.Success? ==> res.value.v == h.(gameData := res.value.v.gameData)
    ensures res.Success? && res.value.v.gameData != h.gameData ==>
              res.value.v.gameData.Some? && |res.value.v.gameData.value.currentCell| <= 64
              && |res.value.v.gameData.value.playerName| <= 32
  {
    var n :- IsNextSub(r, GMDT);
    if !n.v then Success(Step(n.r, h))
    else
      var s :- GetSubHeader(n.r);
      var health :- ReadF32(s);
      var maxHealth :- ReadF32(health.r);
      var hour :- ReadF32(maxHealth.r);
      var u1 := ReadCount(hour.r, 12);
      var cell := ReadCount(u1.r, 64);
      var u2 := ReadCount(cell.r, 4);
      var player := ReadCount(u2.r, 32);
      Success(Step(player.r, h.(gameData := Some(GameData(health.v, maxHealth.v, hour.v, u1.v, cell.v, u2.v, player.v)))))
  }

  /** An optional script block (SCRD or SCRS): its bytes are captured only
      when the sub-record is not empty; otherwise the previous value stays. */
  function LoadScriptBlock(r: Reader, name: Tag, previous: Option<seq<byte>>): (res: Result<Step<Option<seq<byte>>>, Error>)
    ensures res.Success? ==> InRecord(r, res.value.r)
    ensures r.ctx.leftRec <= 0 ==> res == Success(Step(r, previous))
    ensures res.Success? && res.value.v != previous ==>
              IsNextSub(r, name).Success? && GetSubHeader(IsNextSub(r, name).value.r).Success?
              && GetSubHeader(IsNextSub(r, name).value.r).value.ctx.leftSub > 0
  {
    var n :- IsNextSub(r, name);
    if !n.v then Success(Step(n.r, previous))
    else
      var s :- GetSubHeader(n.r);
      if s.ctx.leftSub > 0 then
        var b :- ReadBytes(s, I32OfU32(s.ctx.leftSub));
        Success(Step(b.r, Some(b.v)))
      else Success(Step(s, previous))
  }

  /** Everything after FORM, in order: HEDR, masters, GMDT, SCRD, SCRS. */
  function LoadRest(r: Reader, h: Header): (res: Result<Step<Header>, Error>)
    ensures res.Success? ==> InRecord(r, res.value.r)
    ensures res.Success? ==> res.value.v.formatVersion == h.formatVersion
    ensures res.Success? ==> |res.value.v.masters| >= |h.masters|
  {
    var a :- LoadHedr(r, h);
    var m :- LoadMasters(a.r, a.v.masters);
    var g :- LoadGameData(m.r, a.v.(masters := m.v));
    var c :- LoadScriptBlock(g.r, SCRD, g.v.scrd);
    var d :- LoadScriptBlock(c.r, SCRS, g.v.scrs);
    InRecordTransitive(r, a.r, m.r);
    InRecordTransitive(r, m.r, g.r);
    InRecordTransitive(r, g.r, c.r);
    InRecordTransitive(r, c.r, d.r);
    Success(Step(d.r, g.v.(scrd := c.v, scrs := d.v)))
  }

  /** `Header.Load` as the library writes it. */
  function LoadAsWritten(r: Reader, h: Header): (res: Result<Step<Header>, Error>)
    ensures res.Success? ==> Later(r, res.value.r) && res.value.r.version == res.value.v.formatVersion
  {
    var f :- LoadFormAsWritten(r, h);
    var rest :- LoadRest(f.r, f.v);
    Success(rest)
  }

  /** `Header.Load` with the absent-FORM default restored. */
  function Load(r: Reader, h: Header): (res: Result<Step<Header>, Error>)
    ensures res.Success? ==> Later(r, res.value.r) && res.value.r.version == res.value.v.formatVersion
    ensures r.ctx.leftRec <= 0 ==> res.Success? && res.value.v.formatVersion == DEFAULT_FORMAT_VERSION
  {
    var f :- LoadForm(r, h);
    var rest :- LoadRest(f.r, f.v);
    Success(rest)
  }

  /** `open` up to the header's body: the stream is opened afresh (clearing
      the context) and its first record must be TES3. */
  function OpenHeaderRecord(bytes: seq<byte>, name: string, r: Reader): (res: Result<Reader, Error>)
    ensures res.Success? ==> res.value.data == bytes && res.value.ctx.fileName == name
    ensures res.Success? ==> |bytes| >= 16 && U32Of(bytes[..4]) == TES3
    ensures res.Success? ==> res.value.ctx.leftRec == U32Of(bytes[4..8]) && res.value.pos == 16
  {
    var r0 := OpenRaw(bytes, name, r);
    var n :- GetRecordName(r0);
    if n.v != TES3 then Failure(NotContentFile)
    else GetRecHeader(n.r)
  }

  /** `open`: the header record's body is loaded into a blanked header;
      `asWritten` selects the library's FORM handling. */
  function OpenWith(bytes: seq<byte>, name: string, r: Reader, h: Header, asWritten: bool): (res: Result<(Reader, Header), Error>)
    ensures res.Success? ==> res.value.0.data == bytes && res.value.0.version == res.value.1.formatVersion
    ensures res.Success? ==> OpenHeaderRecord(bytes, name, r).Success?
  {
    var r1 :- OpenHeaderRecord(bytes, name, r);
    var loaded :- if asWritten then LoadAsWritten(r1, Blank(h)) else Load(r1, Blank(h));
    Success((loaded.r, loaded.v))
  }

  function Open(bytes: seq<byte>, name: string, r: Reader, h: Header): (res: Result<(Reader, Header), Error>)
    ensures res.Success? ==> res.value.0.data == bytes && res.value.0.version == res.value.1.formatVersion
    ensures res.Success? ==> |bytes| >= 16 && U32Of(bytes[..4]) == TES3
  {
    OpenWith(bytes, name, r, h, false)
  }

  /** A file whose header record is empty has no FORM. As written it is then
      read at the current content version left by `blank`, not at the default. */
  lemma EmptyHeaderVersion(r: Reader, h: Header)
    ensures var bytes := LE32(TES3) + LE32(0) + LE32(0) + LE32(0);
            OpenWith(bytes, "", r, h, true).Success?
            && OpenWith(bytes, "", r, h, true).value.1.formatVersion == CURRENT_CONTENT_FORMAT_VERSION
            && Open(bytes, "", r, h).Success?
            && Open(bytes, "", r, h).value.1.formatVersion == DEFAULT_FORMAT_VERSION
  {
    EmptyHeaderRecord(r);
  }

  /** The sixteen bytes of an empty TES3 record open as a header record
      with nothing in it. */
  lemma EmptyHeaderRecord(r: Reader)
    ensures var bytes := LE32(TES3) + LE32(0) + LE32(0) + LE32(0);
            OpenHeaderRecord(bytes, "", r).Success? && OpenHeaderRecord(bytes, "", r).value.ctx.leftRec == 0
  {
    var bytes := LE32(TES3) + LE32(0) + LE32(0) + LE32(0);
    var r0 := OpenRaw(bytes, "", r);
    assert bytes[..4] == LE32(TES3);
    U32RoundTrip(TES3);
    U32RoundTrip(0);
    assert bytes[4..8] == LE32(0) && bytes[12..16] == LE32(0);
    var r1 := GetRecordName(r0).value.r;
    assert r1.pos == 4;
  }
}

=== FILE: ingredient.dfy ===
/** Ingredients (`INGR`): up to four magic effects, each with the skill or
    attribute it acts on. Loading repairs broken data: a skill or attribute
    is kept only for the effects that act on one. */
module Ingredients {
  import opened Bytes
  import opened Wrappers
  import opened Errors
  import opened Tags
  import opened RefIds
  import opened EsmReader
  import opened RoundTrip

  /** One entry per effect slot. */
  type Four = s: seq<i32> | |s| == 4 witness [0, 0, 0, 0]

  /** `IRDT`: the weight is an opaque 32-bit float; an effect of -1 means none. */
  datatype IngredientData = IngredientData(weight: u32, value: i32, effects: Four, skills: Four, attributes: Four)

  datatype Ingredient = Ingredient(
    flags: u32, id: Option<RefId>, script: Option<RefId>, name: string, model: string, icon: string,
    data: IngredientData)

  const NEW_INGREDIENT: Ingredient :=
    Ingredient(0, None, None, "", "", "", IngredientData(0, 0, [0, 0, 0, 0], [0, 0, 0, 0], [0, 0, 0, 0]))

  /** The effects that act on an attribute: drain, fortify, restore, damage
      and absorb attribute. */
  const ATTRIBUTE_EFFECTS: set<int> := {85, 22, 17, 79, 74}

  /** The effects that act on a skill: drain, fortify, restore, damage and
      absorb skill. */
  const SKILL_EFFECTS: set<int> := {89, 26, 21, 83, 78}

  /** The repaired data: the reference definition of the load-time fix. */
  function Normalised(d: IngredientData): (n: IngredientData)
    ensures n.weight == d.weight && n.value == d.value && n.effects == d.effects
    ensures forall i :: 0 <= i < 4 ==>
              n.attributes[i] == (if d.effects[i] in ATTRIBUTE_EFFECTS then d.attributes[i] else -1)
    ensures forall i :: 0 <= i < 4 ==>
              n.skills[i] == (if d.effects[i] in SKILL_EFFECTS then d.skills[i] else -1)
    ensures forall i :: 0 <= i < 4 ==> n.skills[i] == -1 || n.attributes[i] == -1
  {
    d.(attributes := seq(4, i requires 0 <= i < 4 => if d.effects[i] in ATTRIBUTE_EFFECTS then d.attributes[i] else -1),
       skills := seq(4, i requires 0 <= i < 4 => if d.effects[i] in SKILL_EFFECTS then d.skills[i] else -1))
  }

  /** Repairing twice is repairing once. */
  lemma NormalisedIdempotent(d: IngredientData)
    ensures Normalised(Normalised(d)) == Normalised(d)
  {
  }

  /** The repair as the library performs it: one pass over the four slots. */
  method Normalise(d: IngredientData) returns (n: IngredientData)
    ensures n == Normalised(d)
  {
    var skills := d.skills;
    var attributes := d.attributes;
    var i := 0;
    while i < 4
      invariant 0 <= i <= 4 && |skills| == 4 && |attributes| == 4
      invariant forall k :: 0 <= k < i ==> attributes[k] == Normalised(d).attributes[k]
      invariant forall k :: i <= k < 4 ==> attributes[k] == d.attributes[k]
      invariant forall k :: 0 <= k < i ==> skills[k] == Normalised(d).skills[k]
      invariant forall k :: i <= k < 4 ==> skills[k] == d.skills[k]
    {
      if d.effects[i] !in ATTRIBUTE_EFFECTS {
        attributes := attributes[i := -1];
      }
      if d.effects[i] !in SKILL_EFFECTS {
        skills := skills[i := -1];
      }
      i := i + 1;
    }
    n := d.(skills := skills, attributes := attributes);
  }

  function ReadFour(r: Reader): (res: Result<Step<Four>, Error>)
    ensures res.Success? ==> res.value.r == r.(pos := r.pos + 16)
  {
    var a :- ReadI32(r);
    var b :- ReadI32(a.r);
    var c :- ReadI32(b.r);
    var d :- ReadI32(c.r);
    Success(Step(d.r, [a.v, b.v, c.v, d.v]))
  }

  /** `IRDT`: 56 bytes after the size, whatever the size says. */
  function ReadData(r1: Reader): (res: Result<Step<IngredientData>, Error>)
    ensures res.Success? ==> Consumed(r1, res.value.r) && GetSubHeader(r1).Success?
    ensures res.Success? ==> res.value.r.pos == GetSubHeader(r1).value.pos + 56
  {
    var h :- GetSubHeader(r1);
    var w :- ReadF32(h);
    var v :- ReadI32(w.r);
    var e :- ReadFour(v.r);
    var s :- ReadFour(e.r);
    var a :- ReadFour(s.r);
    Success(Step(a.r, IngredientData(w.v, v.v, e.v, s.v, a.v)))
  }

  /** The loop state: the ingredient so far, which required sub-records were
      seen, and the deleted mark. */
  datatype Scan = Scan(ingredient: Ingredient, hasName: bool, hasData: bool, deleted: bool)

  function RefField(r1: Reader, sc: Scan): (res: Result<Step<Scan>, Error>)
    requires r1.ctx.subName in {NAME, SCRI}
    ensures res.Success? ==> Consumed(r1, res.value.r) && GetRefId(r1).Success?
    ensures res.Success? && r1.ctx.subName == NAME ==>
              res.value.v == sc.(ingredient := sc.ingredient.(id := Some(GetRefId(r1).value.v)), hasName := true)
    ensures res.Success? && r1.ctx.subName == SCRI ==>
              res.value.v == sc.(ingredient := sc.ingredient.(script := Some(GetRefId(r1).value.v)))
  {
    var x :- GetRefId(r1);
    Success(Step(x.r, if r1.ctx.subName == NAME then sc.(ingredient := sc.ingredient.(id := Some(x.v)), hasName := true)
                      else sc.(ingredient := sc.ingredient.(script := Some(x.v)))))
  }

  function TextField(r1: Reader, sc: Scan): (res: Result<Step<Scan>, Error>)
    requires r1.ctx.subName in {MODL, FNAM, ITEX}
    ensures res.Success? ==> Consumed(r1, res.value.r) && GetHString(r1).Success?
    ensures res.Success? ==> var s := GetHString(r1).value.v;
              res.value.v == sc.(ingredient := if r1.ctx.subName == MODL then sc.ingredient.(model := s)
                                               else if r1.ctx.subName == FNAM then sc.ingredient.(name := s)
                                               else sc.ingredient.(icon := s))
  {
    var s :- GetHString(r1);
    var t := r1.ctx.subName;
    Success(Step(s.r, sc.(ingredient := if t == MODL then sc.ingredient.(model := s.v)
                                        else if t == FNAM then sc.ingredient.(name := s.v)
                                        else sc.ingredient.(icon := s.v))))
  }

  function DataField(r1: Reader, sc: Scan): (res: Result<Step<Scan>, Error>)
    ensures res.Success? ==> Consumed(r1, res.value.r) && ReadData(r1).Success?
    ensures res.Success? ==> res.value.v == sc.(ingredient := sc.ingredient.(data := ReadData(r1).value.v), hasData := true)
  {
    var d :- ReadData(r1);
    Success(Step(d.r, sc.(ingredient := sc.ingredient.(data := d.v), hasData := true)))
  }

  lemma TagsDistinct()
    ensures NAME != SCRI && NAME != MODL && NAME != FNAM && NAME != ITEX && NAME != IRDT && NAME != DELE
    ensures SCRI != MODL && SCRI != FNAM && SCRI != ITEX && SCRI != IRDT && SCRI != DELE
    ensures MODL != FNAM && MODL != ITEX && MODL != IRDT && MODL != DELE
    ensures FNAM != ITEX && FNAM != IRDT && FNAM != DELE && ITEX != IRDT && ITEX != DELE && IRDT != DELE
  {
  }

  /** One sub-record; an unknown name fails. */
  function Field(r1: Reader, sc: Scan): (res: Result<Step<Scan>, Error>)
    ensures res.Success? ==> Consumed(r1, res.value.r)
    ensures res.Success? ==> (res.value.v.hasName <==> sc.hasName || r1.ctx.subName == NAME)
    ensures res.Success? ==> (res.value.v.hasData <==> sc.hasData || r1.ctx.subName == IRDT)
    ensures res.Success? ==> (res.value.v.deleted <==> sc.deleted || r1.ctx.subName == DELE)
    ensures r1.ctx.subName == IRDT ==> res == DataField(r1, sc)
    ensures r1.ctx.subName !in {NAME, SCRI, MODL, FNAM, ITEX, IRDT, DELE} ==>
              res == Failure(UnknownSubrecord(r1.ctx.subName))
  {
    TagsDistinct();
    var t := r1.ctx.subName;
    if t == NAME || t == SCRI then RefField(r1, sc)
    else if t == MODL || t == FNAM || t == ITEX then TextField(r1, sc)
    else if t == IRDT then DataField(r1, sc)
    else if t == DELE then
      var r2 :- SkipHSub(r1);
      Success(Step(r2, sc.(deleted := true)))
    else Failure(UnknownSubrecord(t))
  }

  function LoadFields(r: Reader, sc: Scan): (res: Result<Step<Scan>, Error>)
    ensures res.Success? ==> InRecord(r, res.value.r) && res.value.r.ctx.leftRec <= 0
    ensures res.Success? ==> (sc.hasName ==> res.value.v.hasName) && (sc.hasData ==> res.value.v.hasData)
                             && (sc.deleted ==> res.value.v.deleted)
    ensures !HasMoreSubs(r) ==> res == Success(Step(r, sc))
    decreases r.ctx.leftRec
  {
    if !HasMoreSubs(r) then Success(Step(r, sc))
    else
      var r1 :- GetSubName(r);
      var f :- Field(r1, sc);
      LoadFields(f.r, f.v)
  }

  /** `Load`: `NAME` is required, and so is `IRDT` unless the record is
      deleted; then the data is repaired, even for a deleted record. */
  function Load(r: Reader, ing: Ingredient): (res: Result<Step<(Ingredient, bool)>, Error>)
    ensures res.Success? ==> InRecord(r, res.value.r) && res.value.r.ctx.leftRec <= 0
    ensures var body := LoadFields(r, Scan(ing.(flags := r.recordFlags), false, false, false));
            (res.Success? <==> body.Success? && body.value.v.hasName && (body.value.v.hasData || body.value.v.deleted))
            && (body.Success? && !body.value.v.hasName ==> res == Failure(MissingSubrecord(NAME)))
            && (body.Success? && body.value.v.hasName && !body.value.v.hasData && !body.value.v.deleted
                ==> res == Failure(MissingSubrecord(IRDT)))
            && (res.Success? ==> res.value.v.1 == body.value.v.deleted
                                 && res.value.v.0 == body.value.v.ingredient.(data := res.value.v.0.data))
    ensures res.Success? ==> Normalised(res.value.v.0.data) == res.value.v.0.data
    ensures res.Success? ==>
              res.value.v.0.data == Normalised(LoadFields(r, Scan(ing.(flags := r.recordFlags), false, false, false)).value.v.ingredient.data)
  {
    var body :- LoadFields(r, Scan(ing.(flags := r.recordFlags), false, false, false));
    var sc := body.v;
    if !sc.hasName then Failure(MissingSubrecord(NAME))
    else if !sc.hasData && !sc.deleted then Failure(MissingSubrecord(IRDT))
    else
      NormalisedIdempotent(sc.ingredient.data);
      Success(Step(body.r, (sc.ingredient.(data := Normalised(sc.ingredient.data)), sc.deleted)))
  }

  // Round trips.

  function FourBytes(q: Four): (b: seq<byte>)
    ensures |b| == 16
  {
    LE32(U32OfI32(q[0])) + LE32(U32OfI32(q[1])) + LE32(U32OfI32(q[2])) + LE32(U32OfI32(q[3]))
  }

  /** The `IRDT` payload in field order. */
  function DataBytes(d: IngredientData): (b: seq<byte>)
    ensures |b| == 56
  {
    LE32(d.weight) + LE32(U32OfI32(d.value)) + FourBytes(d.effects) + FourBytes(d.skills) + FourBytes(d.attributes)
  }

  lemma FourRoundTrip(r: Reader, q: Four)
    requires At(r, FourBytes(q))
    ensures ReadFour(r).Success? && ReadFour(r).value.v == q
  {
    var a := LE32(U32OfI32(q[0]));
    var b := LE32(U32OfI32(q[1]));
    var c := LE32(U32OfI32(q[2]));
    var d := LE32(U32OfI32(q[3]));
    AtSplit(r, a + b + c, d);
    AtSplit(r, a + b, c);
    AtSplit(r, a, b);
    AtI32(r, q[0]);
    AtI32(r.(pos := r.pos + 4), q[1]);
    AtI32(r.(pos := r.pos + 8), q[2]);
    AtI32(r.(pos := r.pos + 12), q[3]);
  }

  /** `IRDT` as it is laid out reads back unchanged. */
  lemma DataRoundTrip(r1: Reader, d: IngredientData)
    requires At(r1, LE32(56) + DataBytes(d)) && r1.ctx.leftRec >= 60
    ensures ReadData(r1).Success? && ReadData(r1).value.v == d
    ensures ReadData(r1).value.r.pos == r1.pos + 60
  {
    SizeAt(r1, DataBytes(d));
    var h := GetSubHeader(r1).value;
    DataParts(h, d);
  }

  lemma DataParts(h: Reader, d: IngredientData)
    requires At(h, DataBytes(d))
    ensures ReadF32(h) == Success(Step(h.(pos := h.pos + 4), d.weight))
    ensures ReadI32(h.(pos := h.pos + 4)) == Success(Step(h.(pos := h.pos + 8), d.value))
    ensures ReadFour(h.(pos := h.pos + 8)).Success? && ReadFour(h.(pos := h.pos + 8)).value.v == d.effects
    ensures ReadFour(h.(pos := h.pos + 24)).Success? && ReadFour(h.(pos := h.pos + 24)).value.v == d.skills
    ensures ReadFour(h.(pos := h.pos + 40)).Success? && ReadFour(h.(pos := h.pos + 40)).value.v == d.attributes
  {
    var w := LE32(d.weight);
    var v := LE32(U32OfI32(d.value));
    var e := FourBytes(d.effects);
    var s := FourBytes(d.skills);
    var a := FourBytes(d.attributes);
    AtSplit(h, w + v + e + s, a);
    AtSplit(h, w + v + e, s);
    AtSplit(h, w + v, e);
    AtSplit(h, w, v);
    AtU32(h, d.weight);
    AtI32(h.(pos := h.pos + 4), d.value);
    FourRoundTrip(h.(pos := h.pos + 8), d.effects);
    FourRoundTrip(h.(pos := h.pos + 24), d.skills);
    FourRoundTrip(h.(pos := h.pos + 40), d.attributes);
  }
}

=== FILE: layout.dfy ===
/** Fixed layouts: a run of fields of known widths, read one after the other
    with fixed-width reads, and the bytes the writer emits for them. The NPC
    data block, AI data and travel destinations are such layouts. */
module Layout {
  import opened Bytes
  import opened Wrappers
  import opened Errors
  import opened EsmReader
  import opened RoundTrip

  /** The bytes of the fields, in order. */
  function Concat(parts: seq<seq<byte>>): (b: seq<byte>)
  {
    if parts == [] then [] else parts[0] + Concat(parts[1..])
  }

  function Sum(ws: seq<nat>): nat
  {
    if ws == [] then 0 else ws[0] + Sum(ws[1..])
  }

  /** The same sum taken by position, which a fixed list of widths
      unfolds without slicing. */
  function SumFrom(ws: seq<nat>, i: nat): nat
    decreases |ws| - i
  {
    if i >= |ws| then 0 else ws[i] + SumFrom(ws, i + 1)
  }

  lemma {:induction false} SumFromIs(ws: seq<nat>, i: nat)
    requires i <= |ws|
    ensures Sum(ws[i..]) == SumFrom(ws, i)
    decreases |ws| - i
  {
    if i < |ws| {
      assert ws[i..][1..] == ws[i + 1..];
      SumFromIs(ws, i + 1);
    }
  }

  /** Each field has its declared width. */
  predicate Fits(parts: seq<seq<byte>>, ws: seq<nat>)
  {
    |parts| == |ws| && forall k :: 0 <= k < |ws| ==> |parts[k]| == ws[k]
  }

  lemma {:induction false} ConcatLength(parts: seq<seq<byte>>, ws: seq<nat>)
    requires Fits(parts, ws)
    ensures |Concat(parts)| == Sum(ws)
    decreases |ws|
  {
    if ws != [] {
      assert Fits(parts[1..], ws[1..]) by {
        forall k | 0 <= k < |ws| - 1 ensures |parts[1..][k]| == ws[1..][k] {
          assert parts[1..][k] == parts[k + 1];
        }
      }
      ConcatLength(parts[1..], ws[1..]);
    }
  }

  /** The fields read in turn: it fails exactly when the stream ends before
      the last field, and otherwise returns fields of the declared widths that
      together are the bytes at the cursor. */
  function ReadParts(r: Reader, ws: seq<nat>): (res: Result<Step<seq<seq<byte>>>, Error>)
    ensures res.Success? <==> r.pos + Sum(ws) <= |r.data|
    ensures res.Success? ==> Fits(res.value.v, ws) && res.value.r == r.(pos := r.pos + Sum(ws))
    ensures res.Success? ==> Concat(res.value.v) == r.data[r.pos..r.pos + Sum(ws)]
    ensures res.Failure? ==> res.error == EndOfStream
    decreases |ws|
  {
    if ws == [] then
      var a :- ReadExact(r, 0);
      Success(Step(a.r, []))
    else
      var a :- ReadExact(r, ws[0]);
      var rest :- ReadParts(a.r, ws[1..]);
      var parts := [a.v] + rest.v;
      assert parts[1..] == rest.v;
      assert Concat(parts) == a.v + Concat(rest.v);
      assert r.data[r.pos..r.pos + Sum(ws)] == a.v + Concat(rest.v);
      Success(Step(rest.r, parts))
  }

  /** Reading back fields that are at the cursor gives those fields. */
  lemma {:induction false} ReadPartsAt(r: Reader, parts: seq<seq<byte>>, ws: seq<nat>)
    requires Fits(parts, ws) && At(r, Concat(parts))
    ensures ReadParts(r, ws) == Success(Step(r.(pos := r.pos + Sum(ws)), parts))
    decreases |ws|
  {
    ConcatLength(parts, ws);
    if ws != [] {
      AtSplit(r, parts[0], Concat(parts[1..]));
      var r1 := r.(pos := r.pos + ws[0]);
      assert Fits(parts[1..], ws[1..]) by {
        forall k | 0 <= k < |ws| - 1 ensures |parts[1..][k]| == ws[1..][k] {
          assert parts[1..][k] == parts[k + 1];
        }
      }
      ReadPartsAt(r1, parts[1..], ws[1..]);
      assert r1.(pos := r1.pos + Sum(ws[1..])) == r.(pos := r.pos + Sum(ws));
      assert [parts[0]] + parts[1..] == parts;
    }
  }
}

=== FILE: levelled.dfy ===
/** The levelled lists, LEVI (items) and LEVC (creatures): an identifier,
    flags, the chance that nothing is chosen, and the entries, each an
    identifier with the level from which it may be chosen. */
module LevelledLists {
  import opened Bytes
  import opened Wrappers
  import opened Errors
  import opened Tags
  import opened RefIds
  import opened FormatVersions
  import opened EsmReader
  import W = EsmWriter
  import RoundTrip

  datatype Kind = Items | Creatures

  /** The record's tag. */
  function RecordTag(k: Kind): Tag
  {
    match k
    case Items => LEVI
    case Creatures => LEVC
  }

  /** The sub-record that names each entry (`sRecName`). */
  function EntryTag(k: Kind): Tag
  {
    match k
    case Items => INAM
    case Creatures => CNAM
  }

  datatype LevelItem = LevelItem(id: RefId, level: u16)

  /** A field never loaded is `None` (the library's null). */
  datatype LevelledList = LevelledList(recordFlags: u32, id: Option<RefId>, flags: i32, chanceNone: byte, items: seq<LevelItem>)

  const NEW_LIST: LevelledList := LevelledList(0, None, 0, 0, [])

  /** `n` entries, each the entry sub-record and an INTV holding the level. */
  function ReadItems(r: Reader, k: Kind, n: nat): (res: Result<Step<seq<LevelItem>>, Error>)
    ensures res.Success? ==> InRecord(r, res.value.r) && |res.value.v| == n
    ensures res.Success? && n > 0 ==> Consumed(r, res.value.r)
    decreases n
  {
    if n == 0 then Success(Step(r, []))
    else
      var x :- GetHNRefId(r, EntryTag(k));
      var l :- GetHNU16(x.r, INTV);
      var rest :- ReadItems(l.r, k, n - 1);
      Success(Step(rest.r, [LevelItem(x.v, l.v)] + rest.v))
  }

  /** INDX: the count, then exactly that many entries, which replace the
      whole list. A negative count fails (`CollectionsMarshal.SetCount`). */
  function ReadList(r1: Reader, k: Kind): (res: Result<Step<seq<LevelItem>>, Error>)
    ensures res.Success? ==> Consumed(r1, res.value.r)
    ensures res.Success? ==>
              GetSubHeader(r1).Success? && ReadI32(GetSubHeader(r1).value).Success?
              && |res.value.v| == ReadI32(GetSubHeader(r1).value).value.v
    ensures (GetSubHeader(r1).Success? && ReadI32(GetSubHeader(r1).value).Success?
             && ReadI32(GetSubHeader(r1).value).value.v < 0) ==> res == Failure(NegativeCount)
  {
    var h :- GetSubHeader(r1);
    var c :- ReadI32(h);
    if c.v < 0 then Failure(NegativeCount)
    else
      var items :- ReadItems(c.r, k, c.v);
      InRecordTransitive(r1, c.r, items.r);
      Success(Step(items.r, items.v))
  }

  /** What the loop has gathered: the record and whether NAME, INDX and
      DELE were seen. */
  datatype ListScan = ListScan(list: LevelledList, hasName: bool, hasList: bool, deleted: bool)

  /** A scan that has seen NAME holds an identifier. */
  predicate Marked(sc: ListScan)
  {
    sc.hasName ==> sc.list.id.Some?
  }

  /** `r2` is `r1` later in the same record, or at its end after a skip. */
  predicate Advanced(r1: Reader, r2: Reader)
  {
    SameFile(r1, r2) && r2.ctx.leftFile == r1.ctx.leftFile && r2.ctx.recName == r1.ctx.recName
    && r2.recordFlags == r1.recordFlags && (r2.ctx.leftRec < r1.ctx.leftRec || r2.ctx.leftRec == 0)
  }

  const LIST_TAGS: set<Tag> := {NAME, DATA, NNAM, INDX, DELE}

  /** DATA and NNAM: the flags word and the chance byte, whatever the size. */
  function DataField(r1: Reader, l: LevelledList): (res: Result<Step<LevelledList>, Error>)
    requires r1.ctx.subName in {DATA, NNAM}
    ensures res.Success? ==> Consumed(r1, res.value.r)
    ensures res.Success? && r1.ctx.subName == DATA ==> res.value.v == l.(flags := res.value.v.flags)
    ensures res.Success? && r1.ctx.subName == NNAM ==> res.value.v == l.(chanceNone := res.value.v.chanceNone)
  {
    var h :- GetSubHeader(r1);
    if r1.ctx.subName == DATA then
      var v :- ReadI32(h);
      Success(Step(v.r, l.(flags := v.v)))
    else
      var v :- ReadU8(h);
      Success(Step(v.r, l.(chanceNone := v.v)))
  }

  /** One sub-record of the loop, after its name was read. A sub-record the
      loader does not know ends the record early, emptying the list, when
      no list was read yet; after a list it fails. */
  function LoadField(r1: Reader, k: Kind, sc: ListScan): (res: Result<Step<ListScan>, Error>)
    ensures res.Success? ==> Advanced(r1, res.value.r) && res.value.v.list.recordFlags == sc.list.recordFlags
    ensures res.Success? ==> (sc.hasName ==> res.value.v.hasName) && (sc.deleted ==> res.value.v.deleted)
    ensures res.Success? && Marked(sc) ==> Marked(res.value.v)
    ensures r1.ctx.subName !in LIST_TAGS && !sc.hasList ==>
              res == Success(Step(SkipRecord(r1), sc.(list := sc.list.(items := []))))
    ensures r1.ctx.subName !in LIST_TAGS && sc.hasList ==> res == Failure(UnknownSubrecord(r1.ctx.subName))
    ensures r1.ctx.subName == INDX ==>
              (res.Success? <==> ReadList(r1, k).Success?)
              && (res.Success? ==> res.value.v == sc.(list := sc.list.(items := ReadList(r1, k).value.v), hasList := true))
  {
    var t := r1.ctx.subName;
    var l := sc.list;
    if t == NAME then
      var x :- GetRefId(r1);
      Success(Step(x.r, sc.(list := l.(id := Some(x.v)), hasName := true)))
    else if t == DATA || t == NNAM then
      var d :- DataField(r1, l);
      Success(Step(d.r, sc.(list := d.v)))
    else if t == INDX then
      var items :- ReadList(r1, k);
      Success(Step(items.r, sc.(list := l.(items := items.v), hasList := true)))
    else if t == DELE then
      var r2 :- SkipHSub(r1);
      Success(Step(r2, sc.(deleted := true)))
    else if !sc.hasList then Success(Step(SkipRecord(r1), sc.(list := l.(items := []))))
    else Failure(UnknownSubrecord(t))
  }

  /** The sub-record loop, until the record is used up. */
  function LoadSubs(r: Reader, k: Kind, sc: ListScan): (res: Result<Step<ListScan>, Error>)
    ensures res.Success? ==> InRecord(r, res.value.r) && res.value.r.ctx.leftRec <= 0
    ensures res.Success? ==> res.value.v.list.recordFlags == sc.list.recordFlags
    ensures res.Success? ==> (sc.hasName ==> res.value.v.hasName) && (sc.deleted ==> res.value.v.deleted)
    ensures res.Success? && Marked(sc) ==> Marked(res.value.v)
    ensures !HasMoreSubs(r) ==> res == Success(Step(r, sc))
    decreases r.ctx.leftRec
  {
    if !HasMoreSubs(r) then Success(Step(r, sc))
    else
      var r1 :- GetSubName(r);
      var f :- LoadField(r1, k, sc);
      assert InRecord(r, f.r) && f.r.ctx.leftRec < r.ctx.leftRec;
      var rest := LoadSubs(f.r, k, f.v);
      if rest.Success? then
        InRecordTransitive(r, f.r, rest.value.r);
        rest
      else rest
  }

  /** `LevelledListBase.Load`: NAME is required, even for a deleted record.
      The list the object held is kept unless an INDX, or an unknown
      sub-record before one, replaces it. */
  function Load(r: Reader, k: Kind, l: LevelledList): (res: Result<Step<(LevelledList, bool)>, Error>)
    ensures res.Success? ==> InRecord(r, res.value.r) && res.value.r.ctx.leftRec <= 0
    ensures res.Success? ==> res.value.v.0.id.Some? && res.value.v.0.recordFlags == r.recordFlags
    ensures var loop := LoadSubs(r, k, ListScan(l.(recordFlags := r.recordFlags), false, false, false));
            (res.Success? <==> loop.Success? && loop.value.v.hasName)
            && (loop.Failure? ==> res == Failure(loop.error))
    ensures var loop := LoadSubs(r, k, ListScan(l.(recordFlags := r.recordFlags), false, false, false));
            loop.Success? ==>
              (!loop.value.v.hasName ==> res == Failure(MissingSubrecord(NAME)))
              && (loop.value.v.hasName ==> res == Success(Step(loop.value.r, (loop.value.v.list, loop.value.v.deleted))))
  {
    var sc :- LoadSubs(r, k, ListScan(l.(recordFlags := r.recordFlags), false, false, false));
    if !sc.v.hasName then Failure(MissingSubrecord(NAME))
    else Success(Step(sc.r, (sc.v.list, sc.v.deleted)))
  }

  /** An unknown sub-record before any INDX ends the record: the rest is
      skipped, the list is emptied, and the loop stops there. */
  lemma UnknownEndsRecord(r: Reader, k: Kind, sc: ListScan)
    requires HasMoreSubs(r) && !sc.hasList && GetSubName(r).Success?
    requires GetSubName(r).value.ctx.subName !in LIST_TAGS
    ensures LoadSubs(r, k, sc) == Success(Step(SkipRecord(GetSubName(r).value), sc.(list := sc.list.(items := []))))
  {
  }

  // Round trips.

  /** One entry as a file holds it from version 24 on. */
  function EntryBytes(k: Kind, it: LevelItem): (b: seq<byte>)
  {
    W.SubRecordBytes(EntryTag(k), W.RefIdWire(it.id, false)) + W.SubRecordBytes(INTV, LE16(it.level))
  }

  function ItemsBytes(k: Kind, items: seq<LevelItem>): (b: seq<byte>)
  {
    if items == [] then [] else EntryBytes(k, items[0]) + ItemsBytes(k, items[1..])
  }

  predicate AllCanonical(items: seq<LevelItem>)
  {
    forall i :: 0 <= i < |items| ==> RoundTrip.Canonical(items[i].id)
  }

  /** An entry's identifier at the cursor reads back, and what follows
      is at the cursor after it. */
  lemma IdAt(r: Reader, t: Tag, x: RefId, rest: seq<byte>)
    requires r.version > MAX_STRING_REF_ID_FORMAT_VERSION && r.mapping.None? && RoundTrip.Canonical(x)
    requires RoundTrip.At(r, W.SubRecordBytes(t, W.RefIdWire(x, false)) + rest)
    requires !r.ctx.subCached && r.ctx.leftRec >= 8 + |W.RefIdWire(x, false)|
    ensures var g := GetHNRefId(r, t);
            g.Success? && g.value.v == x
            && g.value.r.pos == r.pos + 8 + |W.RefIdWire(x, false)|
            && g.value.r.ctx.leftRec == r.ctx.leftRec - 8 - |W.RefIdWire(x, false)|
            && !g.value.r.ctx.subCached && SameFile(r, g.value.r)
            && RoundTrip.At(g.value.r, rest)
  {
    var a := W.SubRecordBytes(t, W.RefIdWire(x, false));
    RoundTrip.AtSplit(r, a, rest);
    RoundTrip.HNRefIdStep(r, t, x);
    RoundTrip.AtMoved(r.(pos := r.pos + |a|), GetHNRefId(r, t).value.r, rest);
  }

  /** An entry's level at the cursor reads back, and what follows is at the
      cursor after it. */
  lemma LevelAt(r: Reader, v: u16, rest: seq<byte>)
    requires RoundTrip.At(r, W.SubRecordBytes(INTV, LE16(v)) + rest)
    requires !r.ctx.subCached && r.ctx.leftRec >= 10
    ensures var g := GetHNU16(r, INTV);
            g.Success? && g.value.v == v
            && g.value.r.pos == r.pos + 10 && g.value.r.ctx.leftRec == r.ctx.leftRec - 10
            && !g.value.r.ctx.subCached && SameFile(r, g.value.r)
            && RoundTrip.At(g.value.r, rest)
  {
    var a := W.SubRecordBytes(INTV, LE16(v));
    RoundTrip.AtSplit(r, a, rest);
    RoundTrip.HNU16Step(r, INTV, v);
    RoundTrip.AtMoved(r.(pos := r.pos + |a|), GetHNU16(r, INTV).value.r, rest);
  }

  /** The first entry of laid-out entries: what it reads as, where the
      cursor ends up, and that the other entries follow there. */
  lemma FirstEntryAt(r: Reader, k: Kind, items: seq<LevelItem>) returns (l: Reader)
    requires items != [] && r.version > MAX_STRING_REF_ID_FORMAT_VERSION && r.mapping.None? && AllCanonical(items)
    requires RoundTrip.At(r, ItemsBytes(k, items))
    requires !r.ctx.subCached && r.ctx.leftRec >= |ItemsBytes(k, items)|
    ensures var x := GetHNRefId(r, EntryTag(k));
            x.Success? && x.value.v == items[0].id
            && GetHNU16(x.value.r, INTV).Success? && GetHNU16(x.value.r, INTV).value == Step(l, items[0].level)
    ensures |ItemsBytes(k, items)| == |EntryBytes(k, items[0])| + |ItemsBytes(k, items[1..])|
    ensures l.pos == r.pos + |EntryBytes(k, items[0])| && l.ctx.leftRec == r.ctx.leftRec - |EntryBytes(k, items[0])|
    ensures !l.ctx.subCached && l.version == r.version && l.mapping == r.mapping
    ensures RoundTrip.At(l, ItemsBytes(k, items[1..])) && AllCanonical(items[1..])
  {
    var it := items[0];
    var b := W.SubRecordBytes(INTV, LE16(it.level));
    var rest := ItemsBytes(k, items[1..]);
    var a := W.SubRecordBytes(EntryTag(k), W.RefIdWire(it.id, false));
    assert ItemsBytes(k, items) == EntryBytes(k, it) + rest;
    assert EntryBytes(k, it) == a + b;
    Associative(a, b, rest);
    IdAt(r, EntryTag(k), it.id, b + rest);
    var x := GetHNRefId(r, EntryTag(k)).value;
    LevelAt(x.r, it.level, rest);
    l := GetHNU16(x.r, INTV).value.r;
    assert l.pos == r.pos + |a| + |b|;
    assert AllCanonical(items[1..]) by {
      forall i | 0 <= i < |items| - 1 ensures RoundTrip.Canonical(items[1..][i].id) {
        assert items[1..][i] == items[i + 1];
      }
    }
  }

  lemma Associative(a: seq<byte>, b: seq<byte>, c: seq<byte>)
    ensures (a + b) + c == a + (b + c)
  {
  }

  /** Entries laid out in a record read back as themselves, and the cursor
      ends after them with the record counter charged for them. */
  lemma {:induction false} ReadItemsAt(r: Reader, k: Kind, items: seq<LevelItem>)
    requires r.version > MAX_STRING_REF_ID_FORMAT_VERSION && r.mapping.None? && AllCanonical(items)
    requires RoundTrip.At(r, ItemsBytes(k, items))
    requires !r.ctx.subCached && r.ctx.leftRec >= |ItemsBytes(k, items)|
    ensures var res := ReadItems(r, k, |items|);
            res.Success? && res.value.v == items
            && res.value.r.pos == r.pos + |ItemsBytes(k, items)|
            && res.value.r.ctx.leftRec == r.ctx.leftRec - |ItemsBytes(k, items)|
            && !res.value.r.ctx.subCached
    decreases |items|
  {
    if items != [] {
      var l := FirstEntryAt(r, k, items);
      ReadItemsAt(l, k, items[1..]);
      ReadItemsStep(r, k, |items|);
      var rest := ReadItems(l, k, |items| - 1).value;
      assert ReadItems(r, k, |items|) == Success(Step(rest.r, [LevelItem(items[0].id, items[0].level)] + rest.v));
      assert [LevelItem(items[0].id, items[0].level)] + items[1..] == items;
    }
  }

  /** One turn of the entry loop. */
  lemma ReadItemsStep(r: Reader, k: Kind, n: nat)
    requires n > 0 && GetHNRefId(r, EntryTag(k)).Success?
    requires var x := GetHNRefId(r, EntryTag(k)).value;
             GetHNU16(x.r, INTV).Success? && ReadItems(GetHNU16(x.r, INTV).value.r, k, n - 1).Success?
    ensures var x := GetHNRefId(r, EntryTag(k)).value;
            var l := GetHNU16(x.r, INTV).value;
            var rest := ReadItems(l.r, k, n - 1).value;
            ReadItems(r, k, n) == Success(Step(rest.r, [LevelItem(x.v, l.v)] + rest.v))
  {
  }

  /** An INDX sub-record holding the count, followed by the entries, loads
      exactly those entries. */
  lemma ListAt(r1: Reader, k: Kind, items: seq<LevelItem>)
    requires r1.version > MAX_STRING_REF_ID_FORMAT_VERSION && r1.mapping.None? && AllCanonical(items)
    requires |items| < 0x8000_0000
    requires RoundTrip.At(r1, LE32(4) + LE32(|items|) + ItemsBytes(k, items))
    requires r1.ctx.leftRec >= 8 + |ItemsBytes(k, items)|
    requires !r1.ctx.subCached
    ensures ReadList(r1, k).Success? && ReadList(r1, k).value.v == items
  {
    RoundTrip.AtSplit(r1, LE32(4) + LE32(|items|), ItemsBytes(k, items));
    RoundTrip.SizeAt(r1, LE32(|items|));
    var h := GetSubHeader(r1).value;
    RoundTrip.AtU32(h, |items|);
    var c := ReadI32(h).value;
    assert c.v == |items|;
    RoundTrip.AtMoved(r1.(pos := r1.pos + 8), c.r, ItemsBytes(k, items));
    ReadItemsAt(c.r, k, items);
  }
}

=== FILE: loaders.dfy ===
/** The typed loader that `Records.Read` runs on a record it keeps typed:
    each record type this model decodes goes to its own `Load`, starting
    from a new record as the library's constructor leaves it; every other
    type stands for a decoder this model leaves out and keeps its body as
    bytes. */
module Loaders {
  import opened Bytes
  import opened Wrappers
  import opened Errors
  import opened Tags
  import opened RefIds
  import opened FormatVersions
  import opened EsmReader
  import opened RoundTrip
  import W = EsmWriter
  import Records
  import Npcs
  import Factions
  import Skills
  import MagicEffects
  import Regions
  import Ingredients
  import LevelledLists
  import Cells
  import Dialogues
  import DialInfos

  /** A record as the loader hands it back. */
  datatype Loaded =
    | NpcRecord(npc: Npcs.Npc)
    | FactionRecord(faction: Factions.Faction)
    | SkillRecord(skill: Skills.Skill)
    | MagicEffectRecord(effect: MagicEffects.MagicEffect)
    | RegionRecord(region: Regions.Region)
    | IngredientRecord(ingredient: Ingredients.Ingredient)
    | LevelledListRecord(list: LevelledLists.LevelledList)
    | CellRecord(cell: Cells.Cell)
    | DialogueRecord(dialogue: Dialogues.Dialogue)
    | InfoRecord(info: DialInfos.Info)
    | OpaqueRecord(bytes: seq<byte>)

  /** The record types whose decoders are part of this model. */
  predicate Decoded(k: Records.Kind)
  {
    || k == Records.Npc || k == Records.Faction || k == Records.Skill || k == Records.MagicEffect
    || k == Records.Region || k == Records.Ingredient || k == Records.ItemLevList
    || k == Records.CreatureLevList || k == Records.Cell || k == Records.Dialogue || k == Records.DialInfo
  }

  /** A loaded value is the record of its type: a decoded type yields its own
      record, any other type its body's bytes. */
  predicate Fits(k: Records.Kind, l: Loaded)
  {
    match l
    case NpcRecord(_) => k == Records.Npc
    case FactionRecord(_) => k == Records.Faction
    case SkillRecord(_) => k == Records.Skill
    case MagicEffectRecord(_) => k == Records.MagicEffect
    case RegionRecord(_) => k == Records.Region
    case IngredientRecord(_) => k == Records.Ingredient
    case LevelledListRecord(_) => k == Records.ItemLevList || k == Records.CreatureLevList
    case CellRecord(_) => k == Records.Cell
    case DialogueRecord(_) => k == Records.Dialogue
    case InfoRecord(_) => k == Records.DialInfo
    case OpaqueRecord(_) => !Decoded(k)
  }

  /** A record type whose decoder this model leaves out: its body is kept as
      bytes, as a raw record keeps it. A reader already past its record's end
      has nothing to keep and fails as a negative byte count does. */
  function Opaque(r: Reader): (res: Result<Step<(Loaded, bool)>, Error>)
    ensures res.Success? ==> InRecord(r, res.value.r) && res.value.r.ctx.leftRec == 0
    ensures res.Success? ==> res.value.v.0.OpaqueRecord? && !res.value.v.1
    ensures r.ctx.leftRec < 0 ==> res == Failure(NegativeCount)
    ensures 0 <= r.ctx.leftRec < 0x8000_0000 ==>
              res.Success? && res.value.v.0 == OpaqueRecord(Ahead(r, r.ctx.leftRec))
              && res.value.r.pos == r.pos + |Ahead(r, r.ctx.leftRec)|
  {
    if r.ctx.leftRec < 0 then Failure(NegativeCount)
    else
      var raw :- Records.RawLoad(r);
      Success(Step(raw.r, (OpaqueRecord(raw.v.0), raw.v.1)))
  }

  /** The shape every decoder's outcome has: the reader stays in its record
      and is left at or past its end, with a record of the decoder's type. */
  predicate Decodes(k: Records.Kind, r: Reader, res: Result<Step<(Loaded, bool)>, Error>)
  {
    res.Success? ==> InRecord(r, res.value.r) && res.value.r.ctx.leftRec <= 0 && Fits(k, res.value.v.0)
  }

  /** The characters and what classifies them: NPCs, factions, skills and
      magic effects. */
  function LoadActor(k: Records.Kind, r: Reader): (res: Result<Step<(Loaded, bool)>, Error>)
    requires k == Records.Npc || k == Records.Faction || k == Records.Skill || k == Records.MagicEffect
    ensures Decodes(k, r, res)
  {
    if k == Records.Npc then
      var l :- Npcs.Load(r, Npcs.NEW_NPC);
      Success(Step(l.r, (NpcRecord(l.v.0), l.v.1)))
    else if k == Records.Faction then
      var l :- Factions.Load(r, Factions.NEW_FACTION);
      Success(Step(l.r, (FactionRecord(l.v.0), l.v.1)))
    else if k == Records.Skill then
      var l :- Skills.Load(r, Skills.NEW_SKILL);
      Success(Step(l.r, (SkillRecord(l.v), false)))
    else
      var l :- MagicEffects.Load(r, MagicEffects.NEW_MAGIC_EFFECT);
      Success(Step(l.r, (MagicEffectRecord(l.v), false)))
  }

  /** Regions, ingredients and the two kinds of levelled list. */
  function LoadItem(k: Records.Kind, r: Reader): (res: Result<Step<(Loaded, bool)>, Error>)
    requires k == Records.Region || k == Records.Ingredient || k == Records.ItemLevList || k == Records.CreatureLevList
    ensures Decodes(k, r, res)
  {
    if k == Records.Region then
      var l :- Regions.Load(r, Regions.NEW_REGION);
      Success(Step(l.r, (RegionRecord(l.v.0), l.v.1)))
    else if k == Records.Ingredient then
      var l :- Ingredients.Load(r, Ingredients.NEW_INGREDIENT);
      Success(Step(l.r, (IngredientRecord(l.v.0), l.v.1)))
    else
      var which := if k == Records.ItemLevList then LevelledLists.Items else LevelledLists.Creatures;
      var l :- LevelledLists.Load(r, which, LevelledLists.NEW_LIST);
      Success(Step(l.r, (LevelledListRecord(l.v.0), l.v.1)))
  }

  /** Cells, dialogue topics and the responses under them. */
  function LoadPlace(k: Records.Kind, r: Reader): (res: Result<Step<(Loaded, bool)>, Error>)
    requires k == Records.Cell || k == Records.Dialogue || k == Records.DialInfo
    ensures Decodes(k, r, res)
  {
    if k == Records.Cell then
      var l :- Cells.Load(r, Cells.NEW_CELL);
      Success(Step(l.r, (CellRecord(l.v.0), l.v.1)))
    else if k == Records.Dialogue then
      var l :- Dialogues.Load(r, Dialogues.NEW_DIALOGUE);
      Success(Step(l.r, (DialogueRecord(l.v.0), l.v.1)))
    else
      var l :- DialInfos.Load(r, DialInfos.NEW_INFO);
      Success(Step(l.r, (InfoRecord(l.v.0), l.v.1)))
  }

  /** A record type this model decodes, sent to its decoder. */
  function LoadDecoded(k: Records.Kind, r: Reader): (res: Result<Step<(Loaded, bool)>, Error>)
    requires Decoded(k)
    ensures Decodes(k, r, res)
  {
    if k == Records.Npc || k == Records.Faction || k == Records.Skill || k == Records.MagicEffect then LoadActor(k, r)
    else if k == Records.Region || k == Records.Ingredient || k == Records.ItemLevList || k == Records.CreatureLevList then
      LoadItem(k, r)
    else LoadPlace(k, r)
  }

  /** `record.Load(this)` on the record `RecordBase.Create` made for the
      record's type, with the record flags already set: a type this model
      decodes goes to its own decoder, any other keeps its body as bytes. */
  function Load(k: Records.Kind, r: Reader): (res: Result<Step<(Loaded, bool)>, Error>)
    ensures Decodes(k, r, res)
    ensures !Decoded(k) && res.Success? ==> !res.value.v.1
    ensures !Decoded(k) && 0 <= r.ctx.leftRec < 0x8000_0000 ==>
              res.Success? && res.value.v.0 == OpaqueRecord(Ahead(r, r.ctx.leftRec))
  {
    if Decoded(k) then LoadDecoded(k, r) else Opaque(r)
  }

  /** The loader never leaves its record, so `Records.Read` may run it. */
  lemma LoadStaysInRecord()
    ensures Records.StaysInRecord(Load)
  {
    forall k, r | Load(k, r).Success?
      ensures InRecord(r, Load(k, r).value.r)
    {
    }
  }

  // Reading a file back.

  /** A file made of records, read through this loader with every record
      captured raw, reads back as the records' names, flags and bodies. */
  lemma ReadCapturedFile(r: Reader, records: seq<(Tag, u32, seq<byte>)>)
    requires Records.FileAt(r, records)
    ensures Records.StaysInRecord(Load)
    ensures Records.Read(r, Records.CAPTURE_ALL, Load) == Success(Records.Captured(records))
  {
    LoadStaysInRecord();
    Records.ReadCaptured(r, records, Load);
  }
}

=== FILE: magic_effect.dfy ===
/** The MGEF record: a magic effect is named by its index, its school is a
    position in a table of six magic skills, and files of format version 0
    get most of their flags from a built-in table. */
module MagicEffects {
  import opened Bytes
  import opened Wrappers
  import opened Errors
  import opened Tags
  import opened RefIds
  import opened FormatVersions
  import opened EsmReader
  import Skills
  import RoundTrip
  import W = EsmWriter

  // Flags.

  const ALLOW_SPELLMAKING: bv32 := 0x200
  const ALLOW_ENCHANTING: bv32 := 0x400
  const NEGATIVE_LIGHT: bv32 := 0x800

  /** The flags a file may set; every other flag is fixed by the effect. */
  const MODIFIABLE: bv32 := 0xE00

  lemma ModifiableFlags()
    ensures MODIFIABLE == ALLOW_SPELLMAKING | ALLOW_ENCHANTING | NEGATIVE_LIGHT
  {
  }

  /** The fixed flags of the 143 original effects, one constant per line of
      the library's table. */
  const ROW_0: seq<bv32> := [0x11c8, 0x11c0, 0x11c8, 0x11e0, 0x11e0, 0x11e0, 0x11e0]
  const ROW_1: seq<bv32> := [0x11d0, 0x11c0, 0x11c0, 0x11e0, 0x11c0, 0x11184, 0x11184, 0x1f0, 0x1f0, 0x1f0, 0x11d2, 0x11f0, 0x11d0]
  const ROW_2: seq<bv32> := [0x11d0, 0x11d1, 0x1d2, 0x1f0, 0x1d0, 0x1d0, 0x1d1, 0x1f0, 0x11d0, 0x11d0, 0x11d0, 0x11d0, 0x11d0, 0x11d0]
  const ROW_3: seq<bv32> := [0x11d0, 0x11d0, 0x11d0, 0x1d0, 0x1d0, 0x11c8, 0x31c0, 0x11c0, 0x11c0, 0x11c0, 0x1180, 0x11d8, 0x11d8]
  const ROW_4: seq<bv32> := [0x11d0, 0x11d0, 0x11180, 0x11180, 0x11180, 0x11180, 0x11180, 0x11180, 0x11180, 0x11180, 0x11c4, 0x111b8]
  const ROW_5: seq<bv32> := [0x1040, 0x104c, 0x104c, 0x104c, 0x104c, 0x1040, 0x1040, 0x1040, 0x11c0, 0x11c0, 0x1cc, 0x1cc, 0x1cc, 0x1cc]
  const ROW_6: seq<bv32> := [0x1cc, 0x1c2, 0x1c0, 0x1c0, 0x1c0, 0x1c1, 0x11c2, 0x11c0, 0x11c0, 0x11c0, 0x11c1, 0x11c0, 0x21192, 0x20190]
  const ROW_7: seq<bv32> := [0x20190, 0x20190, 0x21191, 0x11c0, 0x11c0, 0x11c0, 0x11c0, 0x11c0, 0x11c0, 0x11c0, 0x11c0, 0x11c0, 0x11c0]
  const ROW_8: seq<bv32> := [0x1c0, 0x11190, 0x9048, 0x9048, 0x9048, 0x9048, 0x9048, 0x9048, 0x9048, 0x9048, 0x9048, 0x9048, 0x9048]
  const ROW_9: seq<bv32> := [0x9048, 0x9048, 0x9048, 0x9048, 0x11c0, 0x1180, 0x1180, 0x5048, 0x5048, 0x5048, 0x5048, 0x5048, 0x5048]
  const ROW_10: seq<bv32> := [0x1188, 0x5048, 0x5048, 0x5048, 0x5048, 0x5048, 0x1048, 0x104c, 0x1048, 0x40, 0x11c8, 0x1048, 0x1048]
  const ROW_11: seq<bv32> := [0x1048, 0x1048, 0x1048, 0x1048]

  const HARDCODED_FLAGS: seq<bv32> :=
    ROW_0 + ROW_1 + ROW_2 + ROW_3 + ROW_4 + ROW_5 + ROW_6 + ROW_7 + ROW_8 + ROW_9 + ROW_10 + ROW_11

  /** No table entry carries a modifiable flag. */
  predicate FixedOnly(s: seq<bv32>)
  {
    forall j :: 0 <= j < |s| ==> s[j] & MODIFIABLE == 0
  }

  lemma AppendFixedOnly(a: seq<bv32>, b: seq<bv32>)
    requires FixedOnly(a) && FixedOnly(b)
    ensures FixedOnly(a + b)
  {
    forall j | 0 <= j < |a + b| ensures (a + b)[j] & MODIFIABLE == 0 {
      if j < |a| { assert (a + b)[j] == a[j]; } else { assert (a + b)[j] == b[j - |a|]; }
    }
  }

  lemma Row0FixedOnly() ensures FixedOnly(ROW_0) {}
  lemma Row1FixedOnly() ensures FixedOnly(ROW_1) {}
  lemma Row2FixedOnly() ensures FixedOnly(ROW_2) {}
  lemma Row3FixedOnly() ensures FixedOnly(ROW_3) {}
  lemma Row4FixedOnly() ensures FixedOnly(ROW_4) {}
  lemma Row5FixedOnly() ensures FixedOnly(ROW_5) {}
  lemma Row6FixedOnly() ensures FixedOnly(ROW_6) {}
  lemma Row7FixedOnly() ensures FixedOnly(ROW_7) {}
  lemma Row8FixedOnly() ensures FixedOnly(ROW_8) {}
  lemma Row9FixedOnly() ensures FixedOnly(ROW_9) {}
  lemma Row10FixedOnly() ensures FixedOnly(ROW_10) {}
  lemma Row11FixedOnly() ensures FixedOnly(ROW_11) {}

  /** The table has one entry per original effect and none of them sets a
      flag a file may change. */
  lemma HardcodedFixedOnly()
    ensures |HARDCODED_FLAGS| == 143 && FixedOnly(HARDCODED_FLAGS)
  {
    Row0FixedOnly(); Row1FixedOnly(); Row2FixedOnly(); Row3FixedOnly();
    Row4FixedOnly(); Row5FixedOnly(); Row6FixedOnly(); Row7FixedOnly();
    Row8FixedOnly(); Row9FixedOnly(); Row10FixedOnly(); Row11FixedOnly();
    AppendFixedOnly(ROW_0, ROW_1);
    AppendFixedOnly(ROW_0 + ROW_1, ROW_2);
    AppendFixedOnly(ROW_0 + ROW_1 + ROW_2, ROW_3);
    AppendFixedOnly(ROW_0 + ROW_1 + ROW_2 + ROW_3, ROW_4);
    AppendFixedOnly(ROW_0 + ROW_1 + ROW_2 + ROW_3 + ROW_4, ROW_5);
    AppendFixedOnly(ROW_0 + ROW_1 + ROW_2 + ROW_3 + ROW_4 + ROW_5, ROW_6);
    AppendFixedOnly(ROW_0 + ROW_1 + ROW_2 + ROW_3 + ROW_4 + ROW_5 + ROW_6, ROW_7);
    AppendFixedOnly(ROW_0 + ROW_1 + ROW_2 + ROW_3 + ROW_4 + ROW_5 + ROW_6 + ROW_7, ROW_8);
    AppendFixedOnly(ROW_0 + ROW_1 + ROW_2 + ROW_3 + ROW_4 + ROW_5 + ROW_6 + ROW_7 + ROW_8, ROW_9);
    AppendFixedOnly(ROW_0 + ROW_1 + ROW_2 + ROW_3 + ROW_4 + ROW_5 + ROW_6 + ROW_7 + ROW_8 + ROW_9, ROW_10);
    AppendFixedOnly(ROW_0 + ROW_1 + ROW_2 + ROW_3 + ROW_4 + ROW_5 + ROW_6 + ROW_7 + ROW_8 + ROW_9 + ROW_10, ROW_11);
  }

  /** The fixed flags of effect `index`: its table entry, or none when the
      index is outside the table. */
  function FixedFlags(index: i32): (f: bv32)
    ensures f & MODIFIABLE == 0
  {
    HardcodedFixedOnly();
    if 0 <= index < |HARDCODED_FLAGS| then HARDCODED_FLAGS[index] else 0
  }

  /** The format-0 correction: the file's modifiable flags are kept, and
      every other flag is replaced by the effect's fixed flags. */
  function MergeHardcoded(flags: bv32, index: i32): (merged: bv32)
    ensures merged & MODIFIABLE == flags & MODIFIABLE
    ensures merged & !MODIFIABLE == FixedFlags(index)
    ensures 0 <= index < 143 ==> merged & !MODIFIABLE == HARDCODED_FLAGS[index]
    ensures !(0 <= index < 143) ==> merged & !MODIFIABLE == 0
  {
    HardcodedFixedOnly();
    (flags & MODIFIABLE) | FixedFlags(index)
  }

  /** Correcting twice is correcting once. */
  lemma MergeIdempotent(flags: bv32, index: i32)
    ensures MergeHardcoded(MergeHardcoded(flags, index), index) == MergeHardcoded(flags, index)
  {
    var m := MergeHardcoded(flags, index);
    assert m & MODIFIABLE == flags & MODIFIABLE;
  }

  /** The correction depends on the file's flags only through the modifiable ones. */
  lemma MergeIgnoresFixedBits(f1: bv32, f2: bv32, index: i32)
    requires f1 & MODIFIABLE == f2 & MODIFIABLE
    ensures MergeHardcoded(f1, index) == MergeHardcoded(f2, index)
  {
  }

  // Identifiers.

  /** The identifier of effect `index`: empty for -1, an index identifier of
      the MGEF type carrying the index's bit pattern otherwise. */
  function IndexToRefId(index: i32): (id: RefId)
    ensures id.Empty? <==> index == -1
    ensures !id.Empty? ==> id == Index(MGEF, U32OfI32(index))
  {
    if index == -1 then Empty else Index(MGEF, U32OfI32(index))
  }

  /** Different effects get different identifiers. */
  lemma IndexToRefIdInjective(a: i32, b: i32)
    requires IndexToRefId(a) == IndexToRefId(b)
    ensures a == b
  {
    if a != -1 && b != -1 {
      SignedRoundTrips(0, a, 0, 0);
      SignedRoundTrips(0, b, 0, 0);
    }
  }

  /** The six magic schools, in the order of their indices. */
  const SCHOOLS: seq<RefId> := [
    Str("Alteration"), Str("Conjuration"), Str("Destruction"),
    Str("Illusion"), Str("Mysticism"), Str("Restoration")]

  /** Each school is the skill of the same name. */
  lemma SchoolsAreSkills()
    ensures forall k :: 0 <= k < |SCHOOLS| ==> SCHOOLS[k] in Skills.SKILLS
  {
    assert SCHOOLS[0] == Skills.SKILLS[11];
    assert SCHOOLS[1] == Skills.SKILLS[13];
    assert SCHOOLS[2] == Skills.SKILLS[10];
    assert SCHOOLS[3] == Skills.SKILLS[12];
    assert SCHOOLS[4] == Skills.SKILLS[14];
    assert SCHOOLS[5] == Skills.SKILLS[15];
  }

  lemma SchoolsDistinct()
    ensures forall j, k :: 0 <= j < k < |SCHOOLS| ==> SCHOOLS[j] != SCHOOLS[k]
  {
  }

  /** `indexToSkillRefId`: the school with index `index`, or the empty
      identifier outside [0, 6). */
  function SchoolOfIndex(index: i32): (id: RefId)
    ensures id.Empty? <==> index < 0 || index >= 6
    ensures !id.Empty? ==> id in SCHOOLS
  {
    if index < 0 || index >= |SCHOOLS| then Empty else SCHOOLS[index]
  }

  /** `skillRefIdToIndex`: the position of a school, or -1. */
  function IndexOfSchool(id: RefId): (i: int)
    ensures -1 <= i < 6
    ensures i == -1 <==> id !in SCHOOLS
    ensures i >= 0 ==> SCHOOLS[i] == id
  {
    Skills.Find(SCHOOLS, id, 0)
  }

  /** The two school conversions are inverse: every school index survives
      the trip through its identifier, and every school identifier the trip
      through its index. */
  lemma SchoolIndexRoundTrip(index: i32)
    requires 0 <= index < 6
    ensures IndexOfSchool(SchoolOfIndex(index)) == index
  {
    SchoolsDistinct();
    Skills.FindDistinct(SCHOOLS, index);
  }

  lemma SchoolRefIdRoundTrip(id: RefId)
    ensures IndexOfSchool(id) >= 0 <==> id in SCHOOLS
    ensures id in SCHOOLS ==> SchoolOfIndex(IndexOfSchool(id)) == id
  {
  }

  // The record.

  /** The MEDT block. Floats are kept as their bit patterns. */
  datatype EffectData = EffectData(
    school: RefId, baseCost: u32, flags: bv32,
    red: i32, green: i32, blue: i32,
    unknown1: u32, speed: u32, unknown2: u32)

  const MEDT_SIZE: nat := 36

  /** The nine MEDT fields, as `Save` writes them one after another. */
  function EncodeData(d: EffectData): (b: seq<byte>)
    ensures |b| == MEDT_SIZE
  {
    Words(FieldWords(d))
  }

  /** The nine MEDT fields as 32-bit words, in file order. */
  function FieldWords(d: EffectData): (vs: seq<u32>)
    ensures |vs| == 9
  {
    [U32OfI32(IndexOfSchool(d.school)), d.baseCost, d.flags as int,
     U32OfI32(d.red), U32OfI32(d.green), U32OfI32(d.blue),
     d.unknown1, d.speed, d.unknown2]
  }

  /** The nine MEDT fields, as `Load` reads them; the school index becomes
      its identifier. */
  function DecodeData(b: seq<byte>): (d: EffectData)
    requires |b| == MEDT_SIZE
    ensures d.school.Empty? || d.school in SCHOOLS
  {
    EffectData(SchoolOfIndex(I32OfU32(WordAt(b, 0))), WordAt(b, 1), WordAt(b, 2) as bv32,
               I32OfU32(WordAt(b, 3)), I32OfU32(WordAt(b, 4)), I32OfU32(WordAt(b, 5)),
               WordAt(b, 6), WordAt(b, 7), WordAt(b, 8))
  }

  /** A school the loader can produce: one of the six, or none. */
  predicate KnownSchool(id: RefId)
  {
    id.Empty? || id in SCHOOLS
  }

  /** MEDT encoding and decoding are inverse when the school is one the
      loader can produce. */
  lemma DataRoundTrip(d: EffectData)
    requires KnownSchool(d.school)
    ensures DecodeData(EncodeData(d)) == d
  {
    WordsAll(FieldWords(d));
    SignedRoundTrips(0, IndexOfSchool(d.school), 0, 0);
    SignedRoundTrips(0, d.red, 0, 0);
    SignedRoundTrips(0, d.green, 0, 0);
    SignedRoundTrips(0, d.blue, 0, 0);
  }

  /** Text fields the library leaves null until they are loaded are empty
      strings here; the identifier fields keep the null as None. */
  datatype MagicEffect = MagicEffect(
    id: RefId, recordFlags: u32, index: i32, data: EffectData,
    icon: string, particle: string, description: string,
    area: Option<RefId>, hit: Option<RefId>, bolt: Option<RefId>, casting: Option<RefId>,
    areaSound: Option<RefId>, hitSound: Option<RefId>, castSound: Option<RefId>, boltSound: Option<RefId>)

  /** A magic effect as the dispatch table creates it. */
  const NEW_MAGIC_EFFECT: MagicEffect :=
    MagicEffect(Empty, 0, 0, EffectData(Empty, 0, 0, 0, 0, 0, 0, 0, 0), "", "", "",
                None, None, None, None, None, None, None, None)

  /** The sub-records that may follow MEDT. */
  const TAIL_TAGS: set<Tag> := {ITEX, PTEX, BSND, CSND, HSND, ASND, CVFX, BVFX, HVFX, AVFX, DESC}

  /** The sub-record loop after MEDT: textures, sounds, visual effects and
      the description, in any order; any other sub-record fails. */
  function LoadTail(r: Reader, m: MagicEffect): (res: Result<Step<MagicEffect>, Error>)
    ensures res.Success? ==> InRecord(r, res.value.r) && res.value.r.ctx.leftRec <= 0
    ensures res.Success? ==>
              res.value.v.id == m.id && res.value.v.index == m.index
              && res.value.v.data == m.data && res.value.v.recordFlags == m.recordFlags
    ensures HasMoreSubs(r) && GetSubName(r).Success? && GetSubName(r).value.ctx.subName !in TAIL_TAGS ==>
              res == Failure(UnknownSubrecord(GetSubName(r).value.ctx.subName))
    decreases r.ctx.leftRec
  {
    if !HasMoreSubs(r) then Success(Step(r, m))
    else
      var r1 :- GetSubName(r);
      var f :- TailField(r1, m, r1.ctx.subName);
      LoadTail(f.r, f.v)
  }

  /** One sub-record after MEDT, stored into the field its name selects. */
  function TailField(r: Reader, m: MagicEffect, n: Tag): (res: Result<Step<MagicEffect>, Error>)
    ensures res.Success? ==> Consumed(r, res.value.r)
    ensures res.Success? ==>
              res.value.v.id == m.id && res.value.v.index == m.index
              && res.value.v.data == m.data && res.value.v.recordFlags == m.recordFlags
    ensures n !in TAIL_TAGS ==> res == Failure(UnknownSubrecord(n))
  {
    if n == ITEX then
      var s :- GetHString(r);
      Success(Step(s.r, m.(icon := s.v)))
    else if n == PTEX then
      var s :- GetHString(r);
      Success(Step(s.r, m.(particle := s.v)))
    else if n == DESC then
      var s :- GetHString(r);
      Success(Step(s.r, m.(description := s.v)))
    else if n == BSND then
      var x :- GetRefId(r);
      Success(Step(x.r, m.(boltSound := Some(x.v))))
    else if n == CSND then
      var x :- GetRefId(r);
      Success(Step(x.r, m.(castSound := Some(x.v))))
    else if n == HSND then
      var x :- GetRefId(r);
      Success(Step(x.r, m.(hitSound := Some(x.v))))
    else if n == ASND then
      var x :- GetRefId(r);
      Success(Step(x.r, m.(areaSound := Some(x.v))))
    else if n == CVFX then
      var x :- GetRefId(r);
      Success(Step(x.r, m.(casting := Some(x.v))))
    else if n == BVFX then
      var x :- GetRefId(r);
      Success(Step(x.r, m.(bolt := Some(x.v))))
    else if n == HVFX then
      var x :- GetRefId(r);
      Success(Step(x.r, m.(hit := Some(x.v))))
    else if n == AVFX then
      var x :- GetRefId(r);
      Success(Step(x.r, m.(area := Some(x.v))))
    else Failure(UnknownSubrecord(n))
  }

  /** The two leading sub-records: the INDX index and the MEDT block, read
      as nine fields in a row after the MEDT header. */
  function LoadHead(r: Reader): (res: Result<Step<(i32, EffectData)>, Error>)
    ensures res.Success? ==> Consumed(r, res.value.r)
    ensures res.Success? ==> KnownSchool(res.value.v.1.school)
  {
    var ix :- GetHNI32(r, INDX);
    var r1 :- GetSubNameIs(ix.r, MEDT);
    var h :- GetSubHeader(r1);
    var p :- ReadExact(h, MEDT_SIZE);
    Success(Step(p.r, (ix.v, DecodeData(p.v))))
  }

  /** `MagicEffect.Load`. The identifier is derived from the index; in
      files of format version 0 the flags are corrected from the table;
      any unknown sub-record after MEDT fails. */
  function Load(r: Reader, m: MagicEffect): (res: Result<Step<MagicEffect>, Error>)
    ensures res.Success? ==> InRecord(r, res.value.r) && res.value.r.ctx.leftRec <= 0
    ensures LoadHead(r).Failure? ==> res == Failure(LoadHead(r).error)
    ensures res.Success? <==>
              LoadHead(r).Success?
              && (var head := LoadHead(r).value;
                  var index := head.v.0;
                  var start := m.(id := IndexToRefId(index), recordFlags := r.recordFlags, index := index,
                                  data := VersionData(r.version, head.v.1, index));
                  LoadTail(head.r, start).Success?)
    ensures res.Success? ==>
              var e := res.value.v;
              var head := LoadHead(r);
              head.Success? && e.index == head.value.v.0 && e.id == IndexToRefId(e.index)
              && e.recordFlags == r.recordFlags && e.data == VersionData(r.version, head.value.v.1, e.index)
  {
    var head :- LoadHead(r);
    var index := head.v.0;
    var raw := head.v.1;
    var data := VersionData(r.version, raw, index);
    LoadTail(head.r, m.(id := IndexToRefId(index), recordFlags := r.recordFlags, index := index, data := data))
  }

  /** The MEDT block as `Load` keeps it: corrected from the table in
      format version 0, as read otherwise. */
  function VersionData(version: u32, raw: EffectData, index: i32): (d: EffectData)
    ensures d.school == raw.school
    ensures version == DEFAULT_FORMAT_VERSION ==>
              d == raw.(flags := d.flags)
              && d.flags & MODIFIABLE == raw.flags & MODIFIABLE
              && d.flags & !MODIFIABLE == FixedFlags(index)
    ensures version != DEFAULT_FORMAT_VERSION ==> d == raw
  {
    if version == DEFAULT_FORMAT_VERSION then raw.(flags := MergeHardcoded(raw.flags, index)) else raw
  }

  // Saving.

  /** The bytes `Save` begins with: INDX and MEDT. */
  function HeadBytes(index: i32, d: EffectData): (b: seq<byte>)
  {
    W.SubRecordBytes(INDX, LE32(U32OfI32(index))) + W.SubRecordBytes(MEDT, EncodeData(d))
  }

  /** The leading sub-records read back as the index and block written,
      when the school is one the loader can produce. */
  lemma HeadRoundTrip(r: Reader, index: i32, d: EffectData)
    requires KnownSchool(d.school)
    requires RoundTrip.At(r, HeadBytes(index, d))
    requires !r.ctx.subCached && r.ctx.leftRec >= |HeadBytes(index, d)|
    ensures LoadHead(r).Success? && LoadHead(r).value.v == (index, d)
    ensures LoadHead(r).value.r.pos == r.pos + |HeadBytes(index, d)|
    ensures LoadHead(r).value.r.ctx.leftRec == r.ctx.leftRec - |HeadBytes(index, d)|
  {
    var a := W.SubRecordBytes(INDX, LE32(U32OfI32(index)));
    var b := W.SubRecordBytes(MEDT, EncodeData(d));
    RoundTrip.AtSplit(r, a, b);
    RoundTrip.HNU32RoundTrip(r, INDX, U32OfI32(index));
    SignedRoundTrips(0, index, 0, 0);
    var r1 := GetHNI32(r, INDX).value.r;
    RoundTrip.SubRecordRoundTrip(r1, MEDT, EncodeData(d));
    DataRoundTrip(d);
  }

  /** An optional identifier as the library writes it: nothing when empty,
      and a null reference error when the field was never loaded. */
  function WriteOptionalAsWritten(w: W.Writer, name: Tag, x: Option<RefId>): (res: Result<W.Writer, Error>)
    requires W.Valid(w)
    ensures x.None? ==> res == Failure(NullReference)
    ensures x.Some? ==> res == W.WriteHNOCRefId(w, name, x.value)
  {
    match x
    case None => Failure(NullReference)
    case Some(v) => W.WriteHNOCRefId(w, name, v)
  }

  /** The same with a field that was never loaded treated as empty. */
  function WriteOptional(w: W.Writer, name: Tag, x: Option<RefId>): (res: Result<W.Writer, Error>)
    requires W.Valid(w)
    ensures x.None? || x.value.Empty? ==> res == Success(w)
    ensures x.Some? ==> res == W.WriteHNOCRefId(w, name, x.value)
  {
    match x
    case None => Success(w)
    case Some(v) => W.WriteHNOCRefId(w, name, v)
  }

  /** The eight identifier fields in the order `Save` writes them. */
  function SavedIds(m: MagicEffect): (ids: seq<(Tag, Option<RefId>)>)
    ensures |ids| == 8 && ids[0] == (BSND, m.boltSound)
  {
    [(BSND, m.boltSound), (CSND, m.castSound), (HSND, m.hitSound), (ASND, m.areaSound),
     (CVFX, m.casting), (BVFX, m.bolt), (HVFX, m.hit), (AVFX, m.area)]
  }

  /** Writes identifier fields in order, stopping at the first failure. With
      `asWritten` a field never loaded is the library's null reference error;
      otherwise only a writer inside a sub-record, or an identifier with no
      text form up to version 23, can fail. */
  function WriteIds(w: W.Writer, ids: seq<(Tag, Option<RefId>)>, asWritten: bool): (res: Result<W.Writer, Error>)
    requires W.Valid(w)
    ensures res.Success? ==> W.Valid(res.value) && W.Extends(w, res.value)
    ensures asWritten && |ids| > 0 && ids[0].1.None? ==> res == Failure(NullReference)
    ensures !asWritten && |w.frames| <= 1 && w.version > MAX_STRING_REF_ID_FORMAT_VERSION ==> res.Success?
    decreases |ids|
  {
    if ids == [] then Success(w)
    else
      var w1 :- WriteId(w, ids[0].0, ids[0].1, asWritten);
      WriteIds(w1, ids[1..], asWritten)
  }

  /** One identifier field, the library's way or the corrected way. */
  function WriteId(w: W.Writer, name: Tag, x: Option<RefId>, asWritten: bool): (res: Result<W.Writer, Error>)
    requires W.Valid(w)
    ensures res.Success? ==> W.Valid(res.value) && W.Extends(w, res.value)
    ensures asWritten && x.None? ==> res == Failure(NullReference)
    ensures !asWritten && |w.frames| <= 1 && w.version > MAX_STRING_REF_ID_FORMAT_VERSION ==> res.Success?
  {
    if asWritten then WriteOptionalAsWritten(w, name, x) else WriteOptional(w, name, x)
  }

  /** The first four writes of `Save`: INDX, MEDT and the two textures. */
  function SaveHead(w: W.Writer, m: MagicEffect): (res: Result<W.Writer, Error>)
    requires W.Valid(w)
    ensures res.Failure? <==> |w.frames| > 1
    ensures res.Success? ==> W.Valid(res.value) && W.Extends(w, res.value)
    ensures res.Success? ==> w.out + HeadBytes(m.index, m.data) <= res.value.out
  {
    var w1 :- W.WriteHNT(w, INDX, LE32(U32OfI32(m.index)));
    var w2 := W.WriteHNT(w1, MEDT, EncodeData(m.data)).value;
    W.EmitTwice(w, W.SubRecordBytes(INDX, LE32(U32OfI32(m.index))), W.SubRecordBytes(MEDT, EncodeData(m.data)));
    var w4 := SaveTextures(w2, m.icon, m.particle).value;
    Success(w4)
  }

  /** ITEX and PTEX, each only when non-empty. */
  function SaveTextures(w: W.Writer, icon: string, particle: string): (res: Result<W.Writer, Error>)
    requires W.Valid(w)
    ensures |w.frames| <= 1 ==> res.Success?
    ensures res.Success? ==> W.Valid(res.value) && W.Extends(w, res.value)
  {
    var w1 :- W.WriteHNOCString(w, ITEX, icon);
    var w2 :- W.WriteHNOCString(w1, PTEX, particle);
    Success(w2)
  }

  /** `MagicEffect.Save`, with `asWritten` choosing the library's treatment
      of identifier fields never loaded: INDX, MEDT, the two textures, the
      eight identifiers and DESC, each optional one only when non-empty. */
  function SaveWith(w: W.Writer, m: MagicEffect, asWritten: bool): (res: Result<W.Writer, Error>)
    requires W.Valid(w)
    ensures |w.frames| > 1 ==> res.Failure?
    ensures res.Success? ==> W.Valid(res.value) && W.Extends(w, res.value)
    ensures res.Success? ==> w.out + HeadBytes(m.index, m.data) <= res.value.out
    ensures asWritten && |w.frames| <= 1 && m.boltSound.None? ==> res == Failure(NullReference)
    ensures !asWritten && |w.frames| <= 1 && w.version > MAX_STRING_REF_ID_FORMAT_VERSION ==> res.Success?
  {
    var w4 :- SaveHead(w, m);
    SaveTail(w4, m, asWritten)
  }

  /** The eight identifiers, then DESC. */
  function SaveTail(w: W.Writer, m: MagicEffect, asWritten: bool): (res: Result<W.Writer, Error>)
    requires W.Valid(w)
    ensures res.Success? ==> W.Valid(res.value) && W.Extends(w, res.value)
    ensures asWritten && m.boltSound.None? ==> res == Failure(NullReference)
    ensures !asWritten && |w.frames| <= 1 && w.version > MAX_STRING_REF_ID_FORMAT_VERSION ==> res.Success?
  {
    var w5 :- WriteIds(w, SavedIds(m), asWritten);
    var w6 :- W.WriteHNOString(w5, DESC, m.description);
    assert w.out <= w5.out <= w6.out;
    Success(w6)
  }

  function SaveAsWritten(w: W.Writer, m: MagicEffect): (res: Result<W.Writer, Error>)
    requires W.Valid(w)
    ensures |w.frames| <= 1 && m.boltSound.None? ==> res == Failure(NullReference)
    ensures res.Success? ==> w.out + HeadBytes(m.index, m.data) <= res.value.out
  {
    SaveWith(w, m, true)
  }

  /** The corrected save: inside an open record it fails only when an
      identifier has no text form up to version 23. */
  function Save(w: W.Writer, m: MagicEffect): (res: Result<W.Writer, Error>)
    requires W.Valid(w)
    ensures |w.frames| <= 1 && w.version > MAX_STRING_REF_ID_FORMAT_VERSION ==> res.Success?
    ensures |w.frames| > 1 ==> res.Failure?
    ensures res.Success? ==> W.Valid(res.value) && W.Extends(w, res.value)
    ensures res.Success? ==> w.out + HeadBytes(m.index, m.data) <= res.value.out
  {
    SaveWith(w, m, false)
  }

  /** What `Save` writes first, `Load` reads back: a reader placed where
      the record's body begins gets the index and the MEDT block again. */
  lemma SaveLoadHead(w: W.Writer, m: MagicEffect, r: Reader)
    requires W.Valid(w) && Save(w, m).Success? && KnownSchool(m.data.school)
    requires Save(w, m).value.out <= r.data && r.pos == |w.out|
    requires !r.ctx.subCached && r.ctx.leftRec >= |HeadBytes(m.index, m.data)|
    ensures LoadHead(r).Success? && LoadHead(r).value.v == (m.index, m.data)
  {
    RoundTrip.PrefixAt(w.out, HeadBytes(m.index, m.data), r);
    HeadRoundTrip(r, m.index, m.data);
  }

  /** A record with only INDX and MEDT loads, leaving its identifier fields
      unloaded; the library's save then fails on the first of them, while
      the corrected save writes the record. */
  lemma HeadOnlyRecordSaveFails(r: Reader, index: i32, d: EffectData, w: W.Writer)
    requires KnownSchool(d.school)
    requires RoundTrip.At(r, HeadBytes(index, d))
    requires !r.ctx.subCached && r.ctx.leftRec == |HeadBytes(index, d)|
    requires W.Valid(w) && |w.frames| == 1 && w.version > MAX_STRING_REF_ID_FORMAT_VERSION
    ensures Load(r, NEW_MAGIC_EFFECT).Success?
    ensures SaveAsWritten(w, Load(r, NEW_MAGIC_EFFECT).value.v) == Failure(NullReference)
    ensures Save(w, Load(r, NEW_MAGIC_EFFECT).value.v).Success?
  {
    HeadRoundTrip(r, index, d);
  }
}

=== FILE: npc.dfy ===
/** The NPC_ record: identifiers, names, the NPDT statistics block in its
    full (52-byte) or auto-calculated (12-byte) form, the FLAG word that
    packs the flags with the blood type, and the lists an actor carries:
    inventory, spells, travel destinations and AI packages. */
module Npcs {
  import opened Bytes
  import opened Wrappers
  import opened Errors
  import opened Tags
  import opened RefIds
  import opened FormatVersions
  import opened EsmReader
  import W = EsmWriter
  import RoundTrip
  import opened Layout
  import Ai = AiPackages

  // The statistics block.

  /** Which NPDT form the record holds; `Unset` writes no NPDT at all. */
  datatype NpdtType = Unset | Autocalculated | Full

  datatype Npdt = Npdt(
    level: i16, attributes: seq<byte>, skills: seq<byte>, unknown1: i8,
    health: u16, mana: u16, fatigue: u16,
    disposition: byte, reputation: byte, rank: byte, unknown2: i8, gold: i32)

  const ATTRIBUTE_COUNT: nat := 8
  const SKILL_COUNT: nat := 27

  /** The library's arrays have fixed lengths: eight attributes, 27 skills. */
  predicate WellFormed(d: Npdt)
  {
    |d.attributes| == ATTRIBUTE_COUNT && |d.skills| == SKILL_COUNT
  }

  /** `blankNpdt`: every field zero. */
  const BLANK_NPDT: Npdt := Npdt(0, Zeros(8), Zeros(27), 0, 0, 0, 0, 0, 0, 0, 0, 0)

  /** The fields of the 52-byte form, in order: level, attributes, skills,
      unknown byte, health, mana, fatigue, disposition, reputation, rank,
      unknown byte, gold. */
  const FULL_WIDTHS: seq<nat> := [2, 8, 27, 1, 2, 2, 2, 1, 1, 1, 1, 4]

  /** The 12-byte form: level, disposition, reputation, rank, three bytes of
      padding, gold. */
  const AUTO_WIDTHS: seq<nat> := [2, 1, 1, 1, 3, 4]

  /** The widths add up to the sizes the loader dispatches on. */
  lemma WidthSums()
    ensures Sum(FULL_WIDTHS) == 52 && Sum(AUTO_WIDTHS) == 12
  {
    var a := AUTO_WIDTHS;
    assert SumFrom(a, 6) == 0;
    assert SumFrom(a, 4) == 7;
    assert SumFrom(a, 2) == 9;
    assert SumFrom(a, 0) == 12;
    SumFromIs(a, 0);
    var f := FULL_WIDTHS;
    assert SumFrom(f, 12) == 0;
    assert SumFrom(f, 10) == 5;
    assert SumFrom(f, 8) == 7;
    assert SumFrom(f, 6) == 10;
    assert SumFrom(f, 4) == 14;
    assert SumFrom(f, 2) == 42;
    assert SumFrom(f, 0) == 52;
    SumFromIs(f, 0);
    assert a[0..] == a && f[0..] == f;
  }

  function FullOf(p: seq<seq<byte>>): (d: Npdt)
    requires Fits(p, FULL_WIDTHS)
    ensures WellFormed(d)
  {
    Npdt(I16OfU16(U16Of(p[0])), p[1], p[2], I8OfU8(p[3][0]),
         U16Of(p[4]), U16Of(p[5]), U16Of(p[6]),
         p[7][0], p[8][0], p[9][0], I8OfU8(p[10][0]), I32OfU32(U32Of(p[11])))
  }

  function FullParts(d: Npdt): (p: seq<seq<byte>>)
    ensures WellFormed(d) ==> Fits(p, FULL_WIDTHS)
  {
    [LE16(U16OfI16(d.level)), d.attributes, d.skills, [U8OfI8(d.unknown1)],
     LE16(d.health), LE16(d.mana), LE16(d.fatigue),
     [d.disposition], [d.reputation], [d.rank], [U8OfI8(d.unknown2)], LE32(U32OfI32(d.gold))]
  }

  /** The 12-byte form read into a blanked block: only level, disposition,
      reputation, rank and gold come from the record. */
  function AutoOf(p: seq<seq<byte>>): (d: Npdt)
    requires Fits(p, AUTO_WIDTHS)
    ensures WellFormed(d)
    ensures d.attributes == Zeros(8) && d.skills == Zeros(27)
    ensures d.unknown1 == 0 && d.unknown2 == 0 && d.health == 0 && d.mana == 0 && d.fatigue == 0
  {
    BLANK_NPDT.(level := I16OfU16(U16Of(p[0])), disposition := p[1][0], reputation := p[2][0],
                rank := p[3][0], gold := I32OfU32(U32Of(p[5])))
  }

  function AutoParts(d: Npdt): (p: seq<seq<byte>>)
    ensures Fits(p, AUTO_WIDTHS)
  {
    [LE16(U16OfI16(d.level)), [d.disposition], [d.reputation], [d.rank], Zeros(3), LE32(U32OfI32(d.gold))]
  }

  lemma LE16Of(b: seq<byte>)
    requires |b| == 2
    ensures LE16(U16Of(b)) == b
  {
    ToFromLE(b);
  }

  lemma LE32Of(b: seq<byte>)
    requires |b| == 4
    ensures LE32(U32Of(b)) == b
  {
    ToFromLE(b);
  }

  lemma SignedBytes(u: byte, v: i8)
    ensures U8OfI8(I8OfU8(u)) == u && I8OfU8(U8OfI8(v)) == v
  {
  }

  /** The 52-byte form loses nothing: decoding what is encoded gives the
      block back, and encoding what is decoded gives the bytes back. */
  lemma FullRoundTrip(d: Npdt)
    requires WellFormed(d)
    ensures FullOf(FullParts(d)) == d
  {
    U16RoundTrip(d.health);
    U16RoundTrip(d.mana);
    U16RoundTrip(d.fatigue);
    U16RoundTrip(U16OfI16(d.level));
    U32RoundTrip(U32OfI32(d.gold));
    SignedRoundTrips(0, d.gold, 0, d.level);
    SignedBytes(0, d.unknown1);
    SignedBytes(0, d.unknown2);
  }

  lemma FullBytesRoundTrip(p: seq<seq<byte>>)
    requires Fits(p, FULL_WIDTHS)
    ensures FullParts(FullOf(p)) == p
  {
    var d := FullOf(p);
    LE16Of(p[0]);
    LE16Of(p[4]);
    LE16Of(p[5]);
    LE16Of(p[6]);
    LE32Of(p[11]);
    SignedRoundTrips(U32Of(p[11]), 0, U16Of(p[0]), 0);
    SignedBytes(p[3][0], 0);
    SignedBytes(p[10][0], 0);
    assert [p[3][0]] == p[3] && [p[7][0]] == p[7] && [p[8][0]] == p[8];
    assert [p[9][0]] == p[9] && [p[10][0]] == p[10];
  }

  /** The 12-byte form keeps level, disposition, reputation, rank and gold
      and zeroes everything else. */
  lemma AutoRoundTrip(d: Npdt)
    ensures AutoOf(AutoParts(d))
            == BLANK_NPDT.(level := d.level, disposition := d.disposition, reputation := d.reputation,
                           rank := d.rank, gold := d.gold)
  {
    U16RoundTrip(U16OfI16(d.level));
    U32RoundTrip(U32OfI32(d.gold));
    SignedRoundTrips(0, d.gold, 0, d.level);
  }

  /** The NPDT payload the save writes for each form. */
  function NpdtPayload(t: NpdtType, d: Npdt): (b: Option<seq<byte>>)
    ensures b.None? <==> t == Unset
    ensures t == Autocalculated ==> |b.value| == 12
    ensures t == Full && WellFormed(d) ==> |b.value| == 52
  {
    match t
    case Unset => None
    case Autocalculated =>
      WidthSums();
      ConcatLength(AutoParts(d), AUTO_WIDTHS);
      Some(Concat(AutoParts(d)))
    case Full =>
      if WellFormed(d) then WidthSums(); ConcatLength(FullParts(d), FULL_WIDTHS); Some(Concat(FullParts(d)))
      else Some(Concat(FullParts(d)))
  }

  // The FLAG word.

  /** The flags are the low byte of the word; the blood type is the second
      byte shifted right by two. */
  function FlagsOf(v: i32): (fb: (byte, i32))
    ensures 0 <= fb.1 < 64
  {
    var u := U32OfI32(v);
    (u % 256, (u / 256) % 256 / 4)
  }

  /** What the save writes: the blood type shifted left by ten plus the
      flags, in 32-bit arithmetic. */
  function FlagWord(flags: byte, blood: i32): i32
  {
    WrapI32(blood * 1024 + flags)
  }

  /** A blood type below 64 survives the trip through the FLAG word, and so
      do the flags. */
  lemma FlagRoundTrip(flags: byte, blood: i32)
    requires 0 <= blood < 64
    ensures FlagsOf(FlagWord(flags, blood)) == (flags, blood)
  {
    var x := blood * 1024 + flags;
    assert 0 <= x < 0x1_0000;
    assert U32OfI32(WrapI32(x)) == x;
    FlagParts(flags, blood);
  }

  lemma FlagParts(flags: byte, blood: int)
    requires 0 <= blood < 64
    ensures (blood * 1024 + flags) % 256 == flags
    ensures ((blood * 1024 + flags) / 256) % 256 / 4 == blood
  {
    var x := blood * 1024 + flags;
    assert x == (blood * 4) * 256 + flags;
    assert x / 256 == blood * 4;
    assert (blood * 4) % 256 == blood * 4;
  }

  /** A loaded word is written back unchanged exactly when it has nothing
      in its top two bytes and nothing in the two bits the blood type shift
      drops. */
  lemma FlagWordKeeps(v: i32)
    ensures FlagWord(FlagsOf(v).0, FlagsOf(v).1) == v <==> 0 <= v < 0x1_0000 && (v / 256) % 4 == 0
  {
    var u := U32OfI32(v);
    var b := (u / 256) % 256 / 4;
    assert FlagsOf(v) == (u % 256, b);
    assert 0 <= b * 1024 + u % 256 < 0x1_0000;
    assert FlagWord(u % 256, b) == b * 1024 + u % 256;
    KeptBits(u);
  }

  /** The bits the FLAG word keeps: bytes 0 and 1 except bits 8 and 9. */
  lemma KeptBits(u: nat)
    ensures ((u / 256) % 256 / 4) * 1024 + u % 256 == u <==> u < 0x1_0000 && (u / 256) % 4 == 0
  {
    var q := u / 256;
    var f := u % 256;
    assert u == q * 256 + f;
    var k := q % 256 / 4;
    assert k * 4 <= q % 256 <= q;
    if u < 0x1_0000 && q % 4 == 0 {
      assert q < 256;
      assert k * 4 == q;
    }
    if k * 1024 + f == u {
      assert k * 4 == q;
    }
  }

  // AI data.

  datatype AiData = AiData(hello: u16, fight: byte, flee: byte, alarm: byte, services: i32)

  /** `AIData.Blank`. */
  const BLANK_AI: AiData := AiData(0, 0, 0, 0, 0)

  /** Hello, fight, flee, alarm, three bytes of padding, services. */
  const AI_WIDTHS: seq<nat> := [2, 1, 1, 1, 3, 4]

  function AiDataOf(p: seq<seq<byte>>): AiData
    requires Fits(p, AI_WIDTHS)
  {
    AiData(U16Of(p[0]), p[1][0], p[2][0], p[3][0], I32OfU32(U32Of(p[5])))
  }

  function AiDataParts(a: AiData): (p: seq<seq<byte>>)
    ensures Fits(p, AI_WIDTHS)
  {
    [LE16(a.hello), [a.fight], [a.flee], [a.alarm], Zeros(3), LE32(U32OfI32(a.services))]
  }

  /** The AIDT block survives a write and a read; the padding is not kept. */
  lemma AiDataRoundTrip(a: AiData)
    ensures AiDataOf(AiDataParts(a)) == a
  {
    U16RoundTrip(a.hello);
    U32RoundTrip(U32OfI32(a.services));
    SignedRoundTrips(0, a.services, 0, 0);
  }

  // The record.

  datatype Item = Item(count: i32, item: RefId)

  /** A travel destination: six floats (position and rotation, as bit
      patterns) and the cell name, empty when none was given. */
  datatype Dest = Dest(pos: seq<u32>, cellName: string)

  /** An identifier field the record never loaded is `None` (the library's
      null); a string field never loaded is empty. */
  datatype Npc = Npc(
    recordFlags: u32,
    id: Option<RefId>, model: string, name: string,
    race: Option<RefId>, cls: Option<RefId>, faction: Option<RefId>,
    head: Option<RefId>, hair: Option<RefId>, script: Option<RefId>,
    npdtType: NpdtType, npdt: Npdt, bloodType: i32, flags: byte,
    inventory: seq<Item>, spells: seq<RefId>, aiData: AiData,
    transport: seq<Dest>, packages: seq<Ai.Package>)

  /** An NPC as the dispatch table creates it. */
  const NEW_NPC: Npc := Npc(0, None, "", "", None, None, None, None, None, None, Unset, BLANK_NPDT, 0, 0,
                            [], [], BLANK_AI, [], [])

  /** The sub-records holding one identifier each. */
  const ID_TAGS: set<Tag> := {NAME, RNAM, CNAM, ANAM, BNAM, KNAM, SCRI}

  /** Every sub-record the loader accepts. */
  const NPC_TAGS: set<Tag> := ID_TAGS + {MODL, FNAM, NPDT, FLAG, NPCS, NPCO, AIDT, DODT, DNAM, CNDT, DELE} + Ai.PACKAGE_TAGS

  /** The identifier field a tag names. */
  function IdOf(n: Npc, t: Tag): Option<RefId>
    requires t in ID_TAGS
  {
    if t == NAME then n.id
    else if t == RNAM then n.race
    else if t == CNAM then n.cls
    else if t == ANAM then n.faction
    else if t == BNAM then n.head
    else if t == KNAM then n.hair
    else n.script
  }

  /** The record with its identifier fields cleared: what a write to one of
      them leaves alone. */
  function NonIds(n: Npc): Npc
  {
    n.(id := None, race := None, cls := None, faction := None, head := None, hair := None, script := None)
  }

  // Loading, one sub-record at a time.

  /** One identifier sub-record: the field the tag names gets the
      identifier read, and nothing else changes. */
  function IdField(r1: Reader, n: Npc): (res: Result<Step<Npc>, Error>)
    requires r1.ctx.subName in ID_TAGS
    ensures res.Success? <==> GetRefId(r1).Success?
    ensures res.Success? ==> Consumed(r1, res.value.r) && res.value.r == GetRefId(r1).value.r
    ensures res.Success? ==> IdOf(res.value.v, r1.ctx.subName) == Some(GetRefId(r1).value.v)
    ensures res.Success? ==> NonIds(res.value.v) == NonIds(n)
    ensures res.Success? ==> forall t :: t in ID_TAGS && t != r1.ctx.subName ==> IdOf(res.value.v, t) == IdOf(n, t)
    ensures res.Success? && r1.ctx.subName == NAME ==> res.value.v == n.(id := Some(GetRefId(r1).value.v))
  {
    var x :- GetRefId(r1);
    Success(Step(x.r, SetId(n, r1.ctx.subName, x.v)))
  }

  /** Sets the identifier field a tag names, leaving every other field alone. */
  function SetId(n: Npc, t: Tag, x: RefId): (n2: Npc)
    requires t in ID_TAGS
    ensures IdOf(n2, t) == Some(x) && NonIds(n2) == NonIds(n)
    ensures forall t2 :: t2 in ID_TAGS && t2 != t ==> IdOf(n2, t2) == IdOf(n, t2)
    ensures t == NAME ==> n2 == n.(id := Some(x))
  {
    var v := Some(x);
    if t == NAME then n.(id := v)
    else if t == RNAM then n.(race := v)
    else if t == CNAM then n.(cls := v)
    else if t == ANAM then n.(faction := v)
    else if t == BNAM then n.(head := v)
    else if t == KNAM then n.(hair := v)
    else n.(script := v)
  }

  /** NPDT: the form follows from the sub-record's size, 52 or 12 bytes;
      any other size fails. */
  function ReadNpdt(r1: Reader): (res: Result<Step<(NpdtType, Npdt)>, Error>)
    ensures res.Success? ==> Consumed(r1, res.value.r)
    ensures res.Success? ==> res.value.v.0 != Unset && WellFormed(res.value.v.1)
    ensures GetSubHeader(r1).Success? ==>
              var size := GetSubHeader(r1).value.ctx.leftSub;
              (size != 52 && size != 12 ==> res == Failure(InvalidValue(NPDT, size)))
              && (size == 52 ==> res == ReadFull(GetSubHeader(r1).value))
              && (size == 12 ==> res == ReadAuto(GetSubHeader(r1).value))
  {
    var h :- GetSubHeader(r1);
    if h.ctx.leftSub == 52 then ReadFull(h)
    else if h.ctx.leftSub == 12 then ReadAuto(h)
    else Failure(InvalidValue(NPDT, h.ctx.leftSub))
  }

  /** The 52-byte form, after the sub-record header. */
  function ReadFull(h: Reader): (res: Result<Step<(NpdtType, Npdt)>, Error>)
    ensures res.Success? ==> InRecord(h, res.value.r) && res.value.r.ctx == h.ctx
    ensures res.Success? ==> res.value.v.0 == Full && WellFormed(res.value.v.1)
    ensures res.Success? <==> h.pos + 52 <= |h.data|
  {
    WidthSums();
    var p :- ReadParts(h, FULL_WIDTHS);
    Success(Step(p.r, (Full, FullOf(p.v))))
  }

  /** The 12-byte form, after the sub-record header. */
  function ReadAuto(h: Reader): (res: Result<Step<(NpdtType, Npdt)>, Error>)
    ensures res.Success? ==> InRecord(h, res.value.r) && res.value.r.ctx == h.ctx
    ensures res.Success? ==> res.value.v.0 == Autocalculated && WellFormed(res.value.v.1)
    ensures res.Success? <==> h.pos + 12 <= |h.data|
  {
    WidthSums();
    var p :- ReadParts(h, AUTO_WIDTHS);
    Success(Step(p.r, (Autocalculated, AutoOf(p.v))))
  }

  /** FLAG: a 32-bit word, whatever the sub-record's size. */
  function ReadFlags(r1: Reader): (res: Result<Step<(byte, i32)>, Error>)
    ensures res.Success? ==> Consumed(r1, res.value.r)
    ensures res.Success? ==> GetSubHeader(r1).Success? && ReadI32(GetSubHeader(r1).value).Success?
                             && res.value.v == FlagsOf(ReadI32(GetSubHeader(r1).value).value.v)
  {
    var h :- GetSubHeader(r1);
    var v :- ReadI32(h);
    Success(Step(v.r, FlagsOf(v.v)))
  }

  /** NPDT, FLAG and AIDT: the blocks with a fixed layout. */
  function DataField(r1: Reader, n: Npc): (res: Result<Step<Npc>, Error>)
    requires r1.ctx.subName in {NPDT, FLAG, AIDT}
    ensures res.Success? ==> Consumed(r1, res.value.r)
    ensures res.Success? && r1.ctx.subName == NPDT ==>
              ReadNpdt(r1).Success? && res.value.v == n.(npdtType := ReadNpdt(r1).value.v.0, npdt := ReadNpdt(r1).value.v.1)
    ensures res.Success? && r1.ctx.subName == FLAG ==>
              ReadFlags(r1).Success? && res.value.v == n.(flags := ReadFlags(r1).value.v.0, bloodType := ReadFlags(r1).value.v.1)
    ensures res.Success? && r1.ctx.subName == AIDT ==> res.value.v == n.(aiData := res.value.v.aiData)
  {
    var t := r1.ctx.subName;
    if t == NPDT then
      var d :- ReadNpdt(r1);
      Success(Step(d.r, n.(npdtType := d.v.0, npdt := d.v.1)))
    else if t == FLAG then
      var f :- ReadFlags(r1);
      Success(Step(f.r, n.(flags := f.v.0, bloodType := f.v.1)))
    else
      var h :- GetSubHeader(r1);
      var p :- ReadParts(h, AI_WIDTHS);
      Success(Step(p.r, n.(aiData := AiDataOf(p.v))))
  }

  /** NPCS appends a spell; NPCO appends an item: a count, then the
      identifier, fixed at 32 bytes up to version 23. */
  function ListField(r1: Reader, n: Npc): (res: Result<Step<Npc>, Error>)
    requires r1.ctx.subName in {NPCS, NPCO}
    ensures res.Success? ==> Consumed(r1, res.value.r)
    ensures res.Success? && r1.ctx.subName == NPCS ==>
              GetRefId(r1).Success? && res.value.v == n.(spells := n.spells + [GetRefId(r1).value.v])
    ensures res.Success? && r1.ctx.subName == NPCO ==>
              |res.value.v.inventory| == |n.inventory| + 1 && res.value.v == n.(inventory := n.inventory + [res.value.v.inventory[|n.inventory|]])
  {
    if r1.ctx.subName == NPCS then
      var x :- GetRefId(r1);
      Success(Step(x.r, n.(spells := n.spells + [x.v])))
    else
      var h :- GetSubHeader(r1);
      var c :- ReadI32(h);
      var x :- GetMaybeFixedRefIdSize(c.r, 32);
      Success(Step(x.r, n.(inventory := n.inventory + [Item(c.v, x.v)])))
  }

  /** `Transport.Add`: DODT appends a destination; DNAM names the cell of
      the last one, and is read and dropped when there is none. */
  function TransportField(r1: Reader, n: Npc): (res: Result<Step<Npc>, Error>)
    requires r1.ctx.subName in {DODT, DNAM}
    ensures res.Success? ==> Consumed(r1, res.value.r)
    ensures res.Success? && r1.ctx.subName == DODT ==>
              |res.value.v.transport| == |n.transport| + 1 && res.value.v.transport[..|n.transport|] == n.transport
              && res.value.v == n.(transport := res.value.v.transport)
    ensures res.Success? && r1.ctx.subName == DNAM ==>
              GetHString(r1).Success?
              && res.value.v == n.(transport := if n.transport == [] then [] else
                                     n.transport[..|n.transport| - 1] + [n.transport[|n.transport| - 1].(cellName := GetHString(r1).value.v)])
  {
    if r1.ctx.subName == DODT then
      var h :- GetSubHeader(r1);
      var p :- ReadF32s(h, 6);
      assert (n.transport + [Dest(p.v, "")])[..|n.transport|] == n.transport;
      Success(Step(p.r, n.(transport := n.transport + [Dest(p.v, "")])))
    else
      var s :- GetHString(r1);
      if n.transport == [] then Success(Step(s.r, n))
      else
        var last := |n.transport| - 1;
        Success(Step(s.r, n.(transport := n.transport[..last] + [n.transport[last].(cellName := s.v)])))
  }

  /** The AI packages and their CNDT cell names. */
  function PackageField(r1: Reader, n: Npc): (res: Result<Step<Npc>, Error>)
    requires r1.ctx.subName == CNDT || r1.ctx.subName in Ai.PACKAGE_TAGS
    ensures res.Success? ==> Consumed(r1, res.value.r)
    ensures res.Success? ==> Ai.Add(r1, n.packages).Success? && res.value.v == n.(packages := Ai.Add(r1, n.packages).value.v)
  {
    var p :- Ai.Add(r1, n.packages);
    Success(Step(p.r, n.(packages := p.v)))
  }

  /** One sub-record of the loop, after its name was read. */
  function LoadField(r1: Reader, n: Npc): (res: Result<Step<Npc>, Error>)
    ensures res.Success? ==> Consumed(r1, res.value.r) && res.value.v.recordFlags == n.recordFlags
    ensures r1.ctx.subName !in NPC_TAGS ==> res == Failure(UnknownSubrecord(r1.ctx.subName))
    ensures res.Success? && r1.ctx.subName == NAME ==> res.value.v.id.Some?
    ensures res.Success? && r1.ctx.subName != NAME ==> res.value.v.id == n.id
    ensures res.Success? && r1.ctx.subName == NPDT ==> res.value.v.npdtType != Unset && WellFormed(res.value.v.npdt)
    ensures res.Success? && r1.ctx.subName != NPDT ==> res.value.v.npdtType == n.npdtType && res.value.v.npdt == n.npdt
    ensures r1.ctx.subName in ID_TAGS ==> res == IdField(r1, n)
    ensures r1.ctx.subName == DELE ==> (res.Success? <==> SkipHSub(r1).Success?)
                                       && (res.Success? ==> res.value == Step(SkipHSub(r1).value, n))
  {
    var t := r1.ctx.subName;
    if t in ID_TAGS then IdField(r1, n)
    else if t == MODL || t == FNAM then
      var s :- GetHString(r1);
      Success(Step(s.r, if t == MODL then n.(model := s.v) else n.(name := s.v)))
    else if t in {NPDT, FLAG, AIDT} then DataField(r1, n)
    else if t in {NPCS, NPCO} then ListField(r1, n)
    else if t in {DODT, DNAM} then TransportField(r1, n)
    else if t == CNDT || t in Ai.PACKAGE_TAGS then PackageField(r1, n)
    else if t == DELE then
      var r2 :- SkipHSub(r1);
      Success(Step(r2, n))
    else Failure(UnknownSubrecord(t))
  }

  /** What the loop has gathered: the record and which of NAME, NPDT, FLAG
      and DELE it has seen. */
  datatype NpcScan = NpcScan(npc: Npc, hasName: bool, hasNpdt: bool, hasFlags: bool, deleted: bool)

  /** What a scan's marks promise about its record. */
  predicate Marked(sc: NpcScan)
  {
    (sc.hasName ==> sc.npc.id.Some?) && (sc.hasNpdt ==> sc.npc.npdtType != Unset && WellFormed(sc.npc.npdt))
  }

  /** The marks a sub-record sets, whether or not it is read successfully. */
  function Mark(sc: NpcScan, t: Tag): (sc2: NpcScan)
    ensures sc2.npc == sc.npc
  {
    sc.(hasName := sc.hasName || t == NAME, hasNpdt := sc.hasNpdt || t == NPDT,
        hasFlags := sc.hasFlags || t == FLAG, deleted := sc.deleted || t == DELE)
  }

  /** The sub-record loop, until the record is used up. A mark once set
      stays set. */
  function LoadSubs(r: Reader, sc: NpcScan): (res: Result<Step<NpcScan>, Error>)
    ensures res.Success? ==> InRecord(r, res.value.r) && res.value.r.ctx.leftRec <= 0
    ensures res.Success? ==> res.value.v.npc.recordFlags == sc.npc.recordFlags
    ensures res.Success? && Marked(sc) ==> Marked(res.value.v)
    ensures res.Success? ==> (sc.hasName ==> res.value.v.hasName) && (sc.hasNpdt ==> res.value.v.hasNpdt)
                             && (sc.hasFlags ==> res.value.v.hasFlags) && (sc.deleted ==> res.value.v.deleted)
    ensures !HasMoreSubs(r) ==> res == Success(Step(r, sc))
    decreases r.ctx.leftRec
  {
    if !HasMoreSubs(r) then Success(Step(r, sc))
    else
      var r1 :- GetSubName(r);
      var f :- LoadField(r1, sc.npc);
      LoadSubs(f.r, Mark(sc.(npc := f.v), r1.ctx.subName))
  }

  /** `Load` clears the lists and the AI data and takes the record flags;
      the other fields keep what the object held. */
  function Start(n: Npc, recordFlags: u32): (s: Npc)
    ensures s.inventory == [] && s.spells == [] && s.transport == [] && s.packages == [] && s.aiData == BLANK_AI
    ensures s.recordFlags == recordFlags && s.id == n.id && s.npdt == n.npdt && s.npdtType == n.npdtType
  {
    n.(recordFlags := recordFlags, inventory := [], spells := [], transport := [], packages := [], aiData := BLANK_AI)
  }

  /** `Npc.Load`: the record with its deleted flag. NAME is required; NPDT
      and FLAG are required unless the record is marked deleted. */
  function Load(r: Reader, n: Npc): (res: Result<Step<(Npc, bool)>, Error>)
    ensures res.Success? ==> InRecord(r, res.value.r) && res.value.r.ctx.leftRec <= 0
    ensures res.Success? ==> res.value.v.0.id.Some? && res.value.v.0.recordFlags == r.recordFlags
    ensures res.Success? && !res.value.v.1 ==> res.value.v.0.npdtType != Unset && WellFormed(res.value.v.0.npdt)
    ensures var loop := LoadSubs(r, NpcScan(Start(n, r.recordFlags), false, false, false, false));
            res.Success? <==> loop.Success? && loop.value.v.hasName
                              && (loop.value.v.deleted || (loop.value.v.hasNpdt && loop.value.v.hasFlags))
    ensures var loop := LoadSubs(r, NpcScan(Start(n, r.recordFlags), false, false, false, false));
            loop.Success? ==>
              (!loop.value.v.hasName ==> res == Failure(MissingSubrecord(NAME)))
              && (loop.value.v.hasName && !loop.value.v.deleted && !loop.value.v.hasNpdt ==> res == Failure(MissingSubrecord(NPDT)))
              && (loop.value.v.hasName && !loop.value.v.deleted && loop.value.v.hasNpdt && !loop.value.v.hasFlags ==>
                    res == Failure(MissingSubrecord(FLAG)))
              && (res.Success? ==> res.value.v == (loop.value.v.npc, loop.value.v.deleted))
  {
    var sc :- LoadSubs(r, NpcScan(Start(n, r.recordFlags), false, false, false, false));
    if !sc.v.hasName then Failure(MissingSubrecord(NAME))
    else if !sc.v.hasNpdt && !sc.v.deleted then Failure(MissingSubrecord(NPDT))
    else if !sc.v.hasFlags && !sc.v.deleted then Failure(MissingSubrecord(FLAG))
    else Success(Step(sc.r, (sc.v.npc, sc.v.deleted)))
  }

  // Saving.

  /** An identifier field that must be there: a field never loaded is a
      null reference. */
  function WriteRequired(w: W.Writer, t: Tag, x: Option<RefId>): (res: Result<W.Writer, Error>)
    requires W.Valid(w)
    ensures x.None? ==> res == Failure(NullReference)
    ensures x.Some? ==> res == W.WriteHNCRefId(w, t, x.value)
    ensures res.Success? ==> W.Valid(res.value) && W.Extends(w, res.value)
    ensures x.Some? && |w.frames| <= 1 && w.version > MAX_STRING_REF_ID_FORMAT_VERSION ==> res.Success?
  {
    match x
    case None => Failure(NullReference)
    case Some(v) => W.WriteHNCRefId(w, t, v)
  }

  /** SCRI is written only when not empty, but a field never loaded is
      still a null reference. */
  function WriteScript(w: W.Writer, x: Option<RefId>): (res: Result<W.Writer, Error>)
    requires W.Valid(w)
    ensures x.None? ==> res == Failure(NullReference)
    ensures x.Some? ==> res == W.WriteHNOCRefId(w, SCRI, x.value)
  {
    match x
    case None => Failure(NullReference)
    case Some(v) => W.WriteHNOCRefId(w, SCRI, v)
  }

  /** The identifier fields written in order; the first one never loaded fails. */
  function WriteIds(w: W.Writer, ids: seq<(Tag, Option<RefId>)>): (res: Result<W.Writer, Error>)
    requires W.Valid(w)
    ensures res.Success? ==> W.Valid(res.value) && W.Extends(w, res.value)
    ensures |ids| > 0 && ids[0].1.None? ==> res == Failure(NullReference)
    ensures |w.frames| <= 1 && w.version > MAX_STRING_REF_ID_FORMAT_VERSION && AllSet(ids) ==> res.Success?
    decreases |ids|
  {
    if ids == [] then Success(w)
    else
      var w1 :- WriteRequired(w, ids[0].0, ids[0].1);
      WriteIds(w1, ids[1..])
  }

  /** Every field in the list was loaded. */
  predicate AllSet(ids: seq<(Tag, Option<RefId>)>)
  {
    ids == [] || (ids[0].1.Some? && AllSet(ids[1..]))
  }

  /** The five identifier fields after the names, in the order saved. */
  function RequiredIds(n: Npc): (ids: seq<(Tag, Option<RefId>)>)
    ensures AllSet(ids) <==> n.race.Some? && n.cls.Some? && n.faction.Some? && n.head.Some? && n.hair.Some?
    ensures |ids| == 5 && ids[0] == (RNAM, n.race)
  {
    var ids := [(RNAM, n.race), (CNAM, n.cls), (ANAM, n.faction), (BNAM, n.head), (KNAM, n.hair)];
    assert AllSet(ids[4..]) <==> n.hair.Some? by { assert ids[4..][1..] == []; }
    assert AllSet(ids[3..]) <==> n.head.Some? && AllSet(ids[4..]) by { assert ids[3..][1..] == ids[4..]; }
    assert AllSet(ids[2..]) <==> n.faction.Some? && AllSet(ids[3..]) by { assert ids[2..][1..] == ids[3..]; }
    assert AllSet(ids[1..]) <==> n.cls.Some? && AllSet(ids[2..]) by { assert ids[1..][1..] == ids[2..]; }
    ids
  }

  /** Everything a live record writes before its inventory: the names,
      the identifiers, the NPDT block in its form, and FLAG. */
  function SaveBody(w: W.Writer, n: Npc): (res: Result<W.Writer, Error>)
    requires W.Valid(w)
    ensures res.Success? ==> W.Valid(res.value) && W.Extends(w, res.value)
    ensures (|w.frames| <= 1 && w.version > MAX_STRING_REF_ID_FORMAT_VERSION && n.race.Some? && n.cls.Some?
             && n.faction.Some? && n.head.Some? && n.hair.Some? && n.script.Some?) ==> res.Success?
    ensures |w.frames| <= 1 && n.race.None? ==> res == Failure(NullReference)
  {
    var w2 :- SaveNames(w, n.model, n.name);
    var w5 :- SaveRest(w2, n);
    Success(w5)
  }

  /** The identifiers, the NPDT block and FLAG. */
  function SaveRest(w: W.Writer, n: Npc): (res: Result<W.Writer, Error>)
    requires W.Valid(w)
    ensures res.Success? ==> W.Valid(res.value) && W.Extends(w, res.value)
    ensures (|w.frames| <= 1 && w.version > MAX_STRING_REF_ID_FORMAT_VERSION && n.race.Some? && n.cls.Some?
             && n.faction.Some? && n.head.Some? && n.hair.Some? && n.script.Some?) ==> res.Success?
    ensures n.race.None? ==> res == Failure(NullReference)
  {
    var w3 :- WriteIds(w, RequiredIds(n));
    assert w.out <= w3.out;
    SaveScriptData(w3, n)
  }

  /** SCRI, then the NPDT block and FLAG. */
  function SaveScriptData(w: W.Writer, n: Npc): (res: Result<W.Writer, Error>)
    requires W.Valid(w)
    ensures res.Success? ==> W.Valid(res.value) && W.Extends(w, res.value)
    ensures (|w.frames| <= 1 && w.version > MAX_STRING_REF_ID_FORMAT_VERSION && n.script.Some?) ==> res.Success?
  {
    var w4 :- WriteScript(w, n.script);
    assert w.out <= w4.out;
    SaveData(w4, n)
  }

  /** MODL and FNAM, each only when non-empty. */
  function SaveNames(w: W.Writer, model: string, name: string): (res: Result<W.Writer, Error>)
    requires W.Valid(w)
    ensures res.Failure? ==> |w.frames| > 1
    ensures |w.frames| <= 1 ==> res.Success? && |res.value.frames| <= 1
    ensures res.Success? ==> W.Valid(res.value) && W.Extends(w, res.value)
  {
    var w1 :- W.WriteHNOCString(w, MODL, model);
    var w2 :- W.WriteHNOCString(w1, FNAM, name);
    Success(w2)
  }

  /** NPDT in the record's form, then FLAG. */
  function SaveData(w: W.Writer, n: Npc): (res: Result<W.Writer, Error>)
    requires W.Valid(w)
    ensures res.Failure? <==> |w.frames| > 1
    ensures res.Success? ==> W.Valid(res.value) && W.Extends(w, res.value)
    ensures res.Success? ==>
              var flag := W.SubRecordBytes(FLAG, LE32(U32OfI32(FlagWord(n.flags, n.bloodType))));
              match NpdtPayload(n.npdtType, n.npdt)
              case None => res.value == W.Emit(w, flag)
              case Some(p) => res.value == W.Emit(W.Emit(w, W.SubRecordBytes(NPDT, p)), flag)
  {
    var w1 :- match NpdtPayload(n.npdtType, n.npdt)
              case None => Success(w)
              case Some(p) => W.WriteHNT(w, NPDT, p);
    W.WriteHNT(w1, FLAG, LE32(U32OfI32(FlagWord(n.flags, n.bloodType))))
  }

  /** `Npc.Save`: NAME, then for a deleted record only DELE. A live record
      always fails: after FLAG the library saves the inventory, and that
      save is not implemented. */
  function Save(w: W.Writer, n: Npc, deleted: bool): (res: Result<W.Writer, Error>)
    requires W.Valid(w)
    ensures n.id.None? ==> res == Failure(NullReference)
    ensures !deleted ==> res.Failure?
    ensures !deleted && |w.frames| <= 1 && w.version > MAX_STRING_REF_ID_FORMAT_VERSION && n.id.Some? && n.race.Some?
            && n.cls.Some? && n.faction.Some? && n.head.Some? && n.hair.Some? && n.script.Some? ==>
              res == Failure(NotImplemented)
    ensures deleted && |w.frames| <= 1 && w.version > MAX_STRING_REF_ID_FORMAT_VERSION && n.id.Some? ==>
              res == Success(W.Emit(w, DeletedBytes(n.id.value)))
  {
    var w1 :- WriteRequired(w, NAME, n.id);
    if deleted then
      if |w.frames| <= 1 && w.version > MAX_STRING_REF_ID_FORMAT_VERSION then
        W.EmitTwice(w, W.SubRecordBytes(NAME, W.RefIdWire(n.id.value, false)), W.SubRecordBytes(DELE, Zeros(4)));
        W.WriteDeleted(w1)
      else W.WriteDeleted(w1)
    else
      var w2 :- SaveBody(w1, n);
      Failure(NotImplemented)
  }

  /** The body of a deleted record: its NAME, then DELE. */
  function DeletedBytes(x: RefId): seq<byte>
  {
    W.SubRecordBytes(NAME, W.RefIdWire(x, false)) + W.SubRecordBytes(DELE, Zeros(4))
  }

  // Round trips.

  /** What the 12-byte form keeps of a block. */
  function AutoKept(d: Npdt): Npdt
  {
    BLANK_NPDT.(level := d.level, disposition := d.disposition, reputation := d.reputation, rank := d.rank, gold := d.gold)
  }

  /** An NPDT sub-record as the save writes it reads back in the same form:
      the full form as the block itself, the 12-byte form as what it keeps. */
  lemma NpdtRoundTrip(r1: Reader, t: NpdtType, d: Npdt)
    requires t != Unset && WellFormed(d)
    requires var p := NpdtPayload(t, d).value; At4(r1, p) && r1.ctx.leftRec >= 4 + |p|
    ensures ReadNpdt(r1).Success?
    ensures ReadNpdt(r1).value.v == (t, if t == Full then d else AutoKept(d))
  {
    var p := NpdtPayload(t, d).value;
    RoundTrip.SizeAt(r1, p);
    var h := GetSubHeader(r1).value;
    if t == Full {
      FullAt(h, d);
    } else {
      AutoAt(h, d);
    }
  }

  lemma FullAt(h: Reader, d: Npdt)
    requires WellFormed(d) && RoundTrip.At(h, Concat(FullParts(d)))
    ensures ReadFull(h).Success? && ReadFull(h).value.v == (Full, d)
  {
    ReadPartsAt(h, FullParts(d), FULL_WIDTHS);
    FullRoundTrip(d);
  }

  lemma AutoAt(h: Reader, d: Npdt)
    requires RoundTrip.At(h, Concat(AutoParts(d)))
    ensures ReadAuto(h).Success? && ReadAuto(h).value.v == (Autocalculated, AutoKept(d))
  {
    ReadPartsAt(h, AutoParts(d), AUTO_WIDTHS);
    AutoRoundTrip(d);
  }

  /** The cursor is at a sub-record's size field, and the payload follows. */
  predicate At4(r1: Reader, p: seq<byte>)
  {
    |p| < TWO_32 && RoundTrip.At(r1, LE32(|p|) + p)
  }

  /** FLAG as the save writes it reads back as the flags and the blood type. */
  lemma FlagsAtRoundTrip(r1: Reader, flags: byte, blood: i32)
    requires 0 <= blood < 64
    requires At4(r1, LE32(U32OfI32(FlagWord(flags, blood)))) && r1.ctx.leftRec >= 8
    ensures ReadFlags(r1).Success? && ReadFlags(r1).value.v == (flags, blood)
  {
    var p := LE32(U32OfI32(FlagWord(flags, blood)));
    RoundTrip.SizeAt(r1, p);
    RoundTrip.AtI32(GetSubHeader(r1).value, FlagWord(flags, blood));
    FlagRoundTrip(flags, blood);
  }

  /** A NAME sub-record from version 24 on: the loop step sets the
      identifier and moves past the sub-record. */
  lemma NameStep(r: Reader, x: RefId, n: Npc)
    requires r.version > MAX_STRING_REF_ID_FORMAT_VERSION && r.mapping.None? && RoundTrip.Canonical(x)
    requires RoundTrip.At(r, W.SubRecordBytes(NAME, W.RefIdWire(x, false)))
    requires !r.ctx.subCached && r.ctx.leftRec >= 8 + |W.RefIdWire(x, false)|
    ensures GetSubName(r).Success? && GetSubName(r).value.ctx.subName == NAME
    ensures var f := LoadField(GetSubName(r).value, n);
            f.Success? && f.value.v == n.(id := Some(x))
            && f.value.r.pos == r.pos + 8 + |W.RefIdWire(x, false)|
            && f.value.r.ctx.leftRec == r.ctx.leftRec - 8 - |W.RefIdWire(x, false)|
            && !f.value.r.ctx.subCached && SameFile(r, f.value.r)
            && f.value.r.ctx.leftFile == r.ctx.leftFile && f.value.r.recordFlags == r.recordFlags
  {
    RefIdAfterName(r, x);
  }

  /** The identifier a NAME sub-record holds, read after its name. */
  lemma RefIdAfterName(r: Reader, x: RefId)
    requires r.version > MAX_STRING_REF_ID_FORMAT_VERSION && r.mapping.None? && RoundTrip.Canonical(x)
    requires RoundTrip.At(r, W.SubRecordBytes(NAME, W.RefIdWire(x, false)))
    requires !r.ctx.subCached && r.ctx.leftRec >= 8 + |W.RefIdWire(x, false)|
    ensures GetSubName(r).Success? && GetSubName(r).value.ctx.subName == NAME
    ensures var g := GetRefId(GetSubName(r).value);
            g.Success? && g.value.v == x
            && g.value.r.pos == r.pos + 8 + |W.RefIdWire(x, false)|
            && g.value.r.ctx.leftRec == r.ctx.leftRec - 8 - |W.RefIdWire(x, false)|
            && !g.value.r.ctx.subCached && SameFile(r, g.value.r)
            && g.value.r.ctx.leftFile == r.ctx.leftFile && g.value.r.recordFlags == r.recordFlags
  {
    var p := W.RefIdWire(x, false);
    assert |p| <= 9 || (x.Str? && |p| == 1 + |x.value|);
    RoundTrip.SubRecordRoundTrip(r, NAME, p);
    var r1 := GetSubNameIs(r, NAME).value;
    var h := GetSubHeader(r1).value;
    RoundTrip.RefIdWireRoundTrip(h, x);
  }

  /** A DELE sub-record that ends the record: the loop marks the record
      deleted and stops. */
  lemma DeleteStep(r: Reader, sc: NpcScan)
    requires RoundTrip.At(r, W.SubRecordBytes(DELE, Zeros(4)))
    requires !r.ctx.subCached && r.ctx.leftRec == 12
    ensures LoadSubs(r, sc).Success? && LoadSubs(r, sc).value.v == Mark(sc, DELE)
  {
    RoundTrip.SubRecordRoundTrip(r, DELE, Zeros(4));
    var r1 := GetSubNameIs(r, DELE).value;
    var r2 := SkipHSub(r1).value;
    assert r2.ctx.leftRec == 0;
  }

  /** A deleted record as the save writes it loads back as deleted, with its
      identifier and the lists cleared. */
  lemma {:induction false} DeletedRoundTrip(r: Reader, x: RefId, n: Npc)
    requires r.version > MAX_STRING_REF_ID_FORMAT_VERSION && r.mapping.None? && RoundTrip.Canonical(x)
    requires RoundTrip.At(r, DeletedBytes(x))
    requires !r.ctx.subCached && r.ctx.leftRec == |DeletedBytes(x)|
    ensures Load(r, n).Success? && Load(r, n).value.v == (Start(n, r.recordFlags).(id := Some(x)), true)
  {
    DeletedSplit(r, x);
    var sc := NpcScan(Start(n, r.recordFlags), false, false, false, false);
    DeletedSubs(r, x, sc);
    LoadMarkedDeleted(r, n);
  }

  /** The two sub-records of a deleted record, one after the other. */
  lemma {:induction false} DeletedSplit(r: Reader, x: RefId)
    requires RoundTrip.At(r, DeletedBytes(x))
    ensures RoundTrip.At(r, W.SubRecordBytes(NAME, W.RefIdWire(x, false)))
    ensures RoundTrip.At(r.(pos := r.pos + |W.SubRecordBytes(NAME, W.RefIdWire(x, false))|), W.SubRecordBytes(DELE, Zeros(4)))
  {
    RoundTrip.AtSplit(r, W.SubRecordBytes(NAME, W.RefIdWire(x, false)), W.SubRecordBytes(DELE, Zeros(4)));
  }

  /** A loop that saw NAME and DELE makes the load succeed as deleted,
      whatever else is missing. */
  lemma {:induction false} LoadMarkedDeleted(r: Reader, n: Npc)
    requires LoadSubs(r, NpcScan(Start(n, r.recordFlags), false, false, false, false)).Success?
    requires LoadSubs(r, NpcScan(Start(n, r.recordFlags), false, false, false, false)).value.v.hasName
    requires LoadSubs(r, NpcScan(Start(n, r.recordFlags), false, false, false, false)).value.v.deleted
    ensures Load(r, n).Success?
    ensures Load(r, n).value.v == (LoadSubs(r, NpcScan(Start(n, r.recordFlags), false, false, false, false)).value.v.npc, true)
  {
  }

  /** The loop over a deleted record's two sub-records. */
  lemma {:induction false} DeletedSubs(r: Reader, x: RefId, sc: NpcScan)
    requires r.version > MAX_STRING_REF_ID_FORMAT_VERSION && r.mapping.None? && RoundTrip.Canonical(x)
    requires RoundTrip.At(r, W.SubRecordBytes(NAME, W.RefIdWire(x, false)))
    requires RoundTrip.At(r.(pos := r.pos + |W.SubRecordBytes(NAME, W.RefIdWire(x, false))|), W.SubRecordBytes(DELE, Zeros(4)))
    requires !r.ctx.subCached && r.ctx.leftRec == |DeletedBytes(x)|
    ensures LoadSubs(r, sc).Success?
    ensures LoadSubs(r, sc).value.v == Mark(Mark(sc.(npc := sc.npc.(id := Some(x))), NAME), DELE)
  {
    NameStep(r, x, sc.npc);
    var f := LoadField(GetSubName(r).value, sc.npc).value;
    RoundTrip.AtMoved(r.(pos := r.pos + |W.SubRecordBytes(NAME, W.RefIdWire(x, false))|), f.r, W.SubRecordBytes(DELE, Zeros(4)));
    DeleteStep(f.r, Mark(sc.(npc := f.v), NAME));
    LoadSubsStep(r, sc);
  }

  /** One turn of the loop. */
  lemma LoadSubsStep(r: Reader, sc: NpcScan)
    requires HasMoreSubs(r) && GetSubName(r).Success? && LoadField(GetSubName(r).value, sc.npc).Success?
    ensures var f := LoadField(GetSubName(r).value, sc.npc).value;
            LoadSubs(r, sc) == LoadSubs(f.r, Mark(sc.(npc := f.v), GetSubName(r).value.ctx.subName))
  {
  }

  /** Saving a deleted record and loading it again gives the identifier and
      the deleted flag back. */
  lemma SaveLoadDeleted(w: W.Writer, n: Npc, r: Reader, other: Npc)
    requires W.Valid(w) && |w.frames| <= 1 && w.version > MAX_STRING_REF_ID_FORMAT_VERSION
    requires n.id.Some? && RoundTrip.Canonical(n.id.value)
    requires Save(w, n, true).value.out <= r.data && r.pos == |w.out|
    requires r.version == w.version && r.mapping.None?
    requires !r.ctx.subCached && r.ctx.leftRec == |DeletedBytes(n.id.value)|
    ensures Load(r, other).Success? && Load(r, other).value.v.0.id == n.id && Load(r, other).value.v.1
  {
    RoundTrip.WrittenAt(w, Save(w, n, true).value, DeletedBytes(n.id.value), r);
    DeletedRoundTrip(r, n.id.value, other);
  }
}

=== FILE: reader.dfy ===
/** The reader: a cursor over the bytes of one content file, with the three
    remaining-byte counters of the cursor context (file, record, sub-record)
    and the one-slot look-ahead for sub-record names.

    Every operation is a pure function from a reader to a new reader and a
    value, or to the error the library would throw. */
module EsmReader {
  import opened Bytes
  import opened Wrappers
  import opened Errors
  import opened Tags
  import opened Text
  import opened RefIds
  import opened ReaderContext
  import opened FormatVersions

  /** `pos` may lie past the end: the library allows seeking there, and any
      later fixed-width read then fails. `version` is the format version of
      the file's header; `mapping` is the optional content-file mapping. */
  datatype Reader = Reader(
    data: seq<byte>,
    pos: nat,
    ctx: Context,
    recordFlags: u32,
    version: u32,
    mapping: Option<map<i32, i32>>)

  datatype Step<+T> = Step(r: Reader, v: T)

  function Avail(r: Reader): nat
  {
    if r.pos <= |r.data| then |r.data| - r.pos else 0
  }

  /** Up to `n` bytes from the cursor: fewer at the end of the stream, none past it. */
  function Ahead(r: Reader, n: nat): (b: seq<byte>)
    ensures |b| == Min(n, Avail(r))
    ensures r.pos + n <= |r.data| ==> b == r.data[r.pos..r.pos + n]
  {
    if r.pos <= |r.data| then r.data[r.pos..r.pos + Min(n, Avail(r))] else []
  }

  /** `r2` reads the same file with the same settings as `r`. */
  predicate SameFile(r: Reader, r2: Reader)
  {
    r2.data == r.data && r2.version == r.version && r2.mapping == r.mapping
  }

  /** `r2` is `r` later in the same record: the file counter, the record's
      name and flags are unchanged and the record counter has not grown. */
  predicate InRecord(r: Reader, r2: Reader)
  {
    SameFile(r, r2) && r2.ctx.leftFile == r.ctx.leftFile && r2.ctx.recName == r.ctx.recName
    && r2.recordFlags == r.recordFlags && r2.ctx.leftRec <= r.ctx.leftRec
  }

  /** `r2` is `r` after at least one sub-record header more. */
  predicate Consumed(r: Reader, r2: Reader)
  {
    InRecord(r, r2) && r2.ctx.leftRec < r.ctx.leftRec
  }

  lemma InRecordTransitive(r1: Reader, r2: Reader, r3: Reader)
    requires InRecord(r1, r2) && InRecord(r2, r3)
    ensures InRecord(r1, r3)
    ensures Consumed(r1, r2) || Consumed(r2, r3) ==> Consumed(r1, r3)
  {
  }

  // The physical stream.

  /** A fixed-width read: it fails unless all `n` bytes are there. */
  function ReadExact(r: Reader, n: nat): (res: Result<Step<seq<byte>>, Error>)
    ensures res.Success? <==> r.pos + n <= |r.data|
    ensures res.Success? ==> res.value.r == r.(pos := r.pos + n) && res.value.v == r.data[r.pos..r.pos + n]
    ensures res.Failure? ==> res.error == EndOfStream
  {
    if r.pos + n <= |r.data| then Success(Step(r.(pos := r.pos + n), r.data[r.pos..r.pos + n]))
    else Failure(EndOfStream)
  }

  function ReadU8(r: Reader): (res: Result<Step<byte>, Error>)
    ensures res.Success? <==> r.pos + 1 <= |r.data|
    ensures res.Success? ==> res.value.r == r.(pos := r.pos + 1) && res.value.v == r.data[r.pos]
  {
    var s :- ReadExact(r, 1);
    Success(Step(s.r, s.v[0]))
  }

  function ReadU16(r: Reader): (res: Result<Step<u16>, Error>)
    ensures res.Success? <==> r.pos + 2 <= |r.data|
    ensures res.Success? ==> res.value.r == r.(pos := r.pos + 2) && res.value.v == U16Of(r.data[r.pos..r.pos + 2])
  {
    var s :- ReadExact(r, 2);
    Success(Step(s.r, U16Of(s.v)))
  }

  function ReadU32(r: Reader): (res: Result<Step<u32>, Error>)
    ensures res.Success? <==> r.pos + 4 <= |r.data|
    ensures res.Success? ==> res.value.r == r.(pos := r.pos + 4) && res.value.v == U32Of(r.data[r.pos..r.pos + 4])
  {
    var s :- ReadExact(r, 4);
    Success(Step(s.r, U32Of(s.v)))
  }

  function ReadI32(r: Reader): (res: Result<Step<i32>, Error>)
    ensures res.Success? <==> r.pos + 4 <= |r.data|
    ensures res.Success? ==> res.value.r == r.(pos := r.pos + 4) && res.value.v == I32OfU32(U32Of(r.data[r.pos..r.pos + 4]))
  {
    var s :- ReadU32(r);
    Success(Step(s.r, I32OfU32(s.v)))
  }

  function ReadU64(r: Reader): (res: Result<Step<u64>, Error>)
    ensures res.Success? <==> r.pos + 8 <= |r.data|
    ensures res.Success? ==> res.value.r == r.(pos := r.pos + 8) && res.value.v == U64Of(r.data[r.pos..r.pos + 8])
  {
    var s :- ReadExact(r, 8);
    Success(Step(s.r, U64Of(s.v)))
  }

  function ReadI8(r: Reader): (res: Result<Step<i8>, Error>)
    ensures res.Success? <==> r.pos + 1 <= |r.data|
    ensures res.Success? ==> res.value.r == r.(pos := r.pos + 1) && res.value.v == I8OfU8(r.data[r.pos])
  {
    var s :- ReadU8(r);
    Success(Step(s.r, I8OfU8(s.v)))
  }

  function ReadI16(r: Reader): (res: Result<Step<i16>, Error>)
    ensures res.Success? <==> r.pos + 2 <= |r.data|
    ensures res.Success? ==> res.value.r == r.(pos := r.pos + 2) && res.value.v == I16OfU16(U16Of(r.data[r.pos..r.pos + 2]))
  {
    var s :- ReadU16(r);
    Success(Step(s.r, I16OfU16(s.v)))
  }

  /** Four bytes read as an opaque float: the model keeps the bit pattern. */
  function ReadF32(r: Reader): (res: Result<Step<u32>, Error>)
    ensures res.Success? <==> r.pos + 4 <= |r.data|
    ensures res.Success? ==> res.value.r == r.(pos := r.pos + 4) && res.value.v == U32Of(r.data[r.pos..r.pos + 4])
    ensures res == ReadU32(r)
  {
    ReadU32(r)
  }

  /** `n` floats in a row. */
  function ReadF32s(r: Reader, n: nat): (res: Result<Step<seq<u32>>, Error>)
    ensures res.Success? <==> n == 0 || r.pos + 4 * n <= |r.data|
    ensures res.Success? ==> |res.value.v| == n && res.value.r == r.(pos := r.pos + 4 * n)
    ensures res.Success? && n > 0 ==> res.value.v == WordsOf(r.data[r.pos..r.pos + 4 * n])
    decreases n
  {
    if n == 0 then Success(Step(r, []))
    else
      var f :- ReadF32(r);
      var rest :- ReadF32s(f.r, n - 1);
      ghost var b := r.data[r.pos..r.pos + 4 * n];
      assert b[..4] == r.data[r.pos..r.pos + 4];
      assert b[4..] == r.data[r.pos + 4..r.pos + 4 * n];
      Success(Step(rest.r, [f.v] + rest.v))
  }

  /** Up to `n` bytes: fewer when the stream ends first. */
  function ReadCount(r: Reader, n: nat): (res: Step<seq<byte>>)
    ensures |res.v| == Min(n, Avail(r)) && res.v == Ahead(r, n)
    ensures res.r == r.(pos := r.pos + |res.v|)
  {
    var b := Ahead(r, n);
    Step(r.(pos := r.pos + |b|), b)
  }

  /** `BinaryReader.ReadBytes`: a negative count is rejected; at the end of
      the stream the read comes back short. */
  function ReadBytes(r: Reader, count: int): (res: Result<Step<seq<byte>>, Error>)
    ensures res.Failure? <==> count < 0
    ensures res.Success? ==> res.value == ReadCount(r, count)
  {
    if count < 0 then Failure(NegativeCount) else Success(ReadCount(r, count))
  }

  /** A forward seek; the position may pass the end of the stream. */
  function SkipBytes(r: Reader, n: nat): (r2: Reader)
    ensures r2 == r.(pos := r.pos + n)
  {
    r.(pos := r.pos + n)
  }

  // Records.

  function HasMoreRecs(r: Reader): (b: bool)
    ensures b <==> r.ctx.leftFile > 0
  {
    r.ctx.leftFile > 0
  }

  function HasMoreSubs(r: Reader): (b: bool)
    ensures b <==> r.ctx.leftRec > 0
  {
    r.ctx.leftRec > 0
  }

  /** The name of the next record. It fails when the file is used up or the
      previous record has unread bytes; a record that was over-read (a
      negative record counter) is first backed out of. */
  function GetRecordName(r: Reader): (res: Result<Step<Tag>, Error>)
    ensures r.ctx.leftFile <= 0 ==> res == Failure(NoMoreRecords)
    ensures r.ctx.leftFile > 0 && r.ctx.leftRec > 0 ==> res == Failure(UnreadRecordBytes)
    ensures res.Success? ==> r.ctx.leftFile > 0 && r.ctx.leftRec <= 0
    ensures res.Success? ==> SameFile(r, res.value.r) && res.value.r.ctx.recName == res.value.v
    ensures res.Success? ==> res.value.r.ctx.leftFile == r.ctx.leftFile - 4 && !res.value.r.ctx.subCached
    ensures res.Success? ==> res.value.r.ctx.leftRec == r.ctx.leftRec && res.value.r.ctx.leftSub == r.ctx.leftSub
    ensures res.Success? && r.ctx.leftRec == 0 ==>
              r.pos + 4 <= |r.data| && res.value.r.pos == r.pos + 4 && res.value.v == U32Of(r.data[r.pos..r.pos + 4])
  {
    if !HasMoreRecs(r) then Failure(NoMoreRecords)
    else if HasMoreSubs(r) then Failure(UnreadRecordBytes)
    else
      var r1 :- if r.ctx.leftRec < 0 then SeekBack(r, -r.ctx.leftRec) else Success(r);
      var s :- ReadU32(r1);
      var c := s.r.ctx;
      Success(Step(s.r.(ctx := c.(recName := s.v, leftFile := c.leftFile - 4, subCached := false)), s.v))
  }

  /** A backward seek from the current position. */
  function SeekBack(r: Reader, n: nat): (res: Result<Reader, Error>)
    ensures res.Success? <==> n <= r.pos
    ensures res.Success? ==> res.value == r.(pos := r.pos - n)
  {
    if n > r.pos then Failure(SeekBeforeBegin) else Success(r.(pos := r.pos - n))
  }

  /** The rest of a record header: size, an unused word, flags. The size
      must fit in what is left of the file. */
  function GetRecHeader(r: Reader): (res: Result<Reader, Error>)
    ensures r.ctx.leftFile < 12 ==> res == Failure(TruncatedRecordHeader)
    ensures r.ctx.leftFile >= 12 && r.ctx.leftRec > 0 ==> res == Failure(UnreadRecordBytes)
    ensures res.Success? <==>
              r.ctx.leftFile >= 12 && r.ctx.leftRec <= 0 && r.pos + 12 <= |r.data|
              && U32Of(r.data[r.pos..r.pos + 4]) <= r.ctx.leftFile - 12
    ensures res.Success? ==> SameFile(r, res.value) && res.value.pos == r.pos + 12
    ensures res.Success? ==> res.value.ctx.leftRec == U32Of(r.data[r.pos..r.pos + 4])
    ensures res.Success? ==> res.value.recordFlags == U32Of(r.data[r.pos + 8..r.pos + 12])
    ensures res.Success? ==> res.value.ctx.leftFile == r.ctx.leftFile - 12 - res.value.ctx.leftRec >= 0
    ensures res.Success? ==> res.value.ctx == r.ctx.(leftRec := res.value.ctx.leftRec, leftFile := res.value.ctx.leftFile)
  {
    if r.ctx.leftFile < 12 then Failure(TruncatedRecordHeader)
    else if r.ctx.leftRec > 0 then Failure(UnreadRecordBytes)
    else
      var size :- ReadU32(r);
      var unused :- ReadU32(size.r);
      var flags :- ReadU32(unused.r);
      var left := r.ctx.leftFile - 12;
      if left < size.v then Failure(SizeMismatch(left, size.v))
      else Success(flags.r.(recordFlags := flags.v, ctx := r.ctx.(leftRec := size.v, leftFile := left - size.v)))
  }

  /** Seek past the rest of the record: the counter is taken as its low 32
      bits, as the library's unsigned cast does. */
  function SkipRecord(r: Reader): (r2: Reader)
    ensures 0 <= r.ctx.leftRec < TWO_32 ==> r2.pos == r.pos + r.ctx.leftRec
    ensures r2.ctx.leftRec == 0 && !r2.ctx.subCached
    ensures SameFile(r, r2) && r2.ctx.leftFile == r.ctx.leftFile && r2.recordFlags == r.recordFlags
    ensures r2.ctx == r.ctx.(leftRec := 0, subCached := false)
  {
    var r1 := SkipBytes(r, r.ctx.leftRec % TWO_32);
    r1.(ctx := r1.ctx.(leftRec := 0, subCached := false))
  }

  /** Everything left of the record, as raw bytes; the counters are cleared
      first. The count is the record counter cast to a 32-bit `int`. */
  function GetRawRecord(r: Reader): (res: Result<Step<seq<byte>>, Error>)
    ensures 0 <= r.ctx.leftRec < 0x8000_0000 ==> res.Success?
    ensures -0x8000_0000 <= r.ctx.leftRec < 0 ==> res == Failure(NegativeCount)
    ensures res.Success? ==> res.value.r.ctx == r.ctx.(leftRec := 0, leftSub := 0, subCached := false)
    ensures 0 <= r.ctx.leftRec < 0x8000_0000 ==> res.value.v == Ahead(r, r.ctx.leftRec)
    ensures res.Success? ==> SameFile(r, res.value.r) && res.value.r.recordFlags == r.recordFlags
    ensures res.Success? ==>
              res.value.r == r.(pos := r.pos + |res.value.v|, ctx := r.ctx.(leftRec := 0, leftSub := 0, subCached := false))
  {
    var r1 := r.(ctx := r.ctx.(leftRec := 0, leftSub := 0, subCached := false));
    ReadBytes(r1, WrapI32(r.ctx.leftRec))
  }

  // Sub-records.

  /** The next sub-record name, unless one is cached: then the cached name is
      used and nothing is read. */
  function GetSubName(r: Reader): (res: Result<Reader, Error>)
    ensures r.ctx.subCached ==> res == Success(r.(ctx := r.ctx.(subCached := false)))
    ensures !r.ctx.subCached ==> (res.Success? <==> r.pos + 4 <= |r.data|)
    ensures !r.ctx.subCached && res.Success? ==>
              res.value == r.(pos := r.pos + 4, ctx := r.ctx.(subName := U32Of(r.data[r.pos..r.pos + 4]), leftRec := r.ctx.leftRec - 4))
    ensures res.Success? ==> InRecord(r, res.value) && !res.value.ctx.subCached
  {
    if r.ctx.subCached then Success(r.(ctx := r.ctx.(subCached := false)))
    else
      var s :- ReadU32(r);
      Success(s.r.(ctx := s.r.ctx.(subName := s.v, leftRec := s.r.ctx.leftRec - 4)))
  }

  /** Whether the next sub-record is `name`. With no record bytes left it
      answers no without reading; otherwise it reads the name and keeps it
      cached when it is not `name`. */
  function IsNextSub(r: Reader, name: Tag): (res: Result<Step<bool>, Error>)
    ensures r.ctx.leftRec <= 0 ==> res == Success(Step(r, false))
    ensures res.Success? ==> InRecord(r, res.value.r)
    ensures res.Success? && r.ctx.leftRec > 0 ==>
              res.value.v == (res.value.r.ctx.subName == name) && res.value.r.ctx.subCached == !res.value.v
  {
    if !HasMoreSubs(r) then Success(Step(r, false))
    else
      var r1 :- GetSubName(r);
      var cached := r1.ctx.subName != name;
      Success(Step(r1.(ctx := r1.ctx.(subCached := cached)), !cached))
  }

  /** After a no from `IsNextSub`, the next `GetSubName` hands back the same
      name without moving. */
  lemma IsNextSubKeepsMismatch(r: Reader, name: Tag)
    requires r.ctx.leftRec > 0
    requires IsNextSub(r, name).Success? && !IsNextSub(r, name).value.v
    ensures var r1 := IsNextSub(r, name).value.r;
            GetSubName(r1) == Success(r1.(ctx := r1.ctx.(subCached := false)))
            && r1.ctx.subName != name
  {
  }

  /** Asking twice for the same name reads once. */
  lemma IsNextSubTwice(r: Reader, name: Tag)
    requires r.ctx.leftRec > 0
    requires IsNextSub(r, name).Success? && !IsNextSub(r, name).value.v
    ensures var r1 := IsNextSub(r, name).value.r;
            IsNextSub(r1, name) == Success(Step(r1, false))
  {
    var r1 := IsNextSub(r, name).value.r;
    if r1.ctx.leftRec > 0 {
      assert GetSubName(r1) == Success(r1.(ctx := r1.ctx.(subCached := false)));
    }
  }

  /** The next sub-record must be `name`. */
  function GetSubNameIs(r: Reader, name: Tag): (res: Result<Reader, Error>)
    ensures res.Success? ==> InRecord(r, res.value) && res.value.ctx.subName == name && !res.value.ctx.subCached
    ensures res.Success? <==> GetSubName(r).Success? && GetSubName(r).value.ctx.subName == name
  {
    var r1 :- GetSubName(r);
    if r1.ctx.subName != name then Failure(UnexpectedSubrecord(name, r1.ctx.subName)) else Success(r1)
  }

  /** The size of the current sub-record. The record counter pays for the
      size field and the whole payload at once. */
  function GetSubHeader(r: Reader): (res: Result<Reader, Error>)
    ensures r.ctx.leftRec < 4 ==> res == Failure(TruncatedSubRecordHeader)
    ensures res.Success? <==> r.ctx.leftRec >= 4 && r.pos + 4 <= |r.data|
    ensures res.Success? ==> res.value.ctx.leftSub == U32Of(r.data[r.pos..r.pos + 4])
    ensures res.Success? ==> res.value.ctx.leftRec == r.ctx.leftRec - 4 - res.value.ctx.leftSub
    ensures res.Success? ==> res.value == r.(pos := r.pos + 4, ctx := res.value.ctx)
    ensures res.Success? ==> res.value.ctx == r.ctx.(leftSub := res.value.ctx.leftSub, leftRec := res.value.ctx.leftRec)
    ensures res.Success? ==> Consumed(r, res.value)
  {
    if r.ctx.leftRec < 4 then Failure(TruncatedSubRecordHeader)
    else
      var s :- ReadU32(r);
      Success(s.r.(ctx := s.r.ctx.(leftSub := s.v, leftRec := s.r.ctx.leftRec - 4 - s.v)))
  }

  /** Name, size, then a skip over the payload. */
  function SkipHSub(r: Reader): (res: Result<Reader, Error>)
    ensures res.Success? ==> Consumed(r, res.value)
    ensures res.Success? <==> GetSubHeader(r).Success?
    ensures res.Success? ==> res.value.pos == r.pos + 4 + res.value.ctx.leftSub
  {
    var r1 :- GetSubHeader(r);
    Success(SkipBytes(r1, r1.ctx.leftSub))
  }

  /** The sub-record name is read again by the next `GetSubName`. */
  function CacheSubName(r: Reader): (r2: Reader)
    ensures r2.ctx.subCached && InRecord(r, r2) && r2.pos == r.pos && r2.ctx.leftRec == r.ctx.leftRec
    ensures r2.ctx.subName == r.ctx.subName
  {
    r.(ctx := r.ctx.(subCached := true))
  }

  // Strings.

  /** Up to `size` bytes, decoded up to the first nul. The size is cast to a
      32-bit `int`, so a size of 2^31 or more is a negative count. */
  function GetString(r: Reader, size: u32): (res: Result<Step<string>, Error>)
    ensures res.Success? <==> size < 0x8000_0000
    ensures res.Success? ==> res.value.r == r.(pos := r.pos + Min(size, Avail(r)))
    ensures res.Success? ==> res.value.v == DecodeText(TakeUntilNul(Ahead(r, size)))
    ensures res.Success? ==> InRecord(r, res.value.r) && res.value.r.ctx == r.ctx
  {
    var b :- ReadBytes(r, I32OfU32(size));
    Success(Step(b.r, DecodeText(TakeUntilNul(b.v))))
  }

  /** A string that is fixed-width up to version 22 and carries its own
      length after that; the length must fit in the sub-record. */
  function GetMaybeFixedStringSize(r: Reader, size: u32): (res: Result<Step<string>, Error>)
    ensures r.version <= MAX_LIMITED_SIZE_STRINGS_FORMAT_VERSION ==> res == GetString(r, size)
    ensures r.version > MAX_LIMITED_SIZE_STRINGS_FORMAT_VERSION && r.pos + 4 <= |r.data| ==>
              res == (if U32Of(r.data[r.pos..r.pos + 4]) > r.ctx.leftSub
                      then Failure(SizeMismatch(r.ctx.leftSub, U32Of(r.data[r.pos..r.pos + 4])))
                      else GetString(r.(pos := r.pos + 4), U32Of(r.data[r.pos..r.pos + 4])))
    ensures res.Success? ==> InRecord(r, res.value.r) && res.value.r.ctx == r.ctx
  {
    if r.version > MAX_LIMITED_SIZE_STRINGS_FORMAT_VERSION then
      var n :- ReadU32(r);
      if n.v > r.ctx.leftSub then Failure(SizeMismatch(r.ctx.leftSub, n.v))
      else GetString(n.r, n.v)
    else GetString(r, size)
  }

  /** Whether the byte at the cursor is a nul (at the end of the stream it is not). */
  predicate PeekNul(r: Reader)
  {
    r.pos < |r.data| && r.data[r.pos] == 0
  }

  /** A string filling the current sub-record. Up to version 23 an empty
      sub-record followed by a nul byte inside the record is read as the empty
      string and the nul is consumed. */
  function GetHString(r: Reader): (res: Result<Step<string>, Error>)
    ensures res.Success? ==> Consumed(r, res.value.r)
    ensures GetSubHeader(r).Failure? ==> res.Failure?
    ensures GetSubHeader(r).Success? ==>
              var h := GetSubHeader(r).value;
              if r.version <= MAX_STRING_REF_ID_FORMAT_VERSION && h.ctx.leftSub == 0 && h.ctx.leftRec > 0 && PeekNul(h)
              then res == Success(Step(h.(pos := h.pos + 1, ctx := h.ctx.(leftRec := h.ctx.leftRec - 1)), ""))
              else res == GetString(h, h.ctx.leftSub)
  {
    var h :- GetSubHeader(r);
    if r.version > MAX_STRING_REF_ID_FORMAT_VERSION then GetString(h, h.ctx.leftSub)
    else if h.ctx.leftSub == 0 && HasMoreSubs(h) && PeekNul(h) then
      Success(Step(h.(pos := h.pos + 1, ctx := h.ctx.(leftRec := h.ctx.leftRec - 1)), ""))
    else GetString(h, h.ctx.leftSub)
  }

  function GetHNString(r: Reader, name: Tag): (res: Result<Step<string>, Error>)
    ensures res.Success? ==> Consumed(r, res.value.r)
    ensures res.Success? ==> GetSubNameIs(r, name).Success? && res == GetHString(GetSubNameIs(r, name).value)
  {
    var r1 :- GetSubNameIs(r, name);
    GetHString(r1)
  }

  // Reference identifiers.

  /** Content-file remapping of a form identifier. None stands for the
      library's `false`: a loaded content file the mapping does not know. */
  function ApplyContentFileMapping(mapping: Option<map<i32, i32>>, f: FormId): (g: Option<FormId>)
    ensures mapping.None? || !HasContentFile(f) ==> g == Some(f)
    ensures mapping.Some? && HasContentFile(f) ==>
              (g.None? <==> f.contentFile !in mapping.value)
              && (g.Some? ==> g.value == FormId(f.index, mapping.value[f.contentFile]))
  {
    if mapping.Some? && HasContentFile(f) then
      if f.contentFile !in mapping.value then None else Some(f.(contentFile := mapping.value[f.contentFile]))
    else Some(f)
  }

  /** What a form identifier read from the wire becomes: the empty identifier
      when it is unmapped or zero/unset, the identifier itself when it names a
      content file, and an error when it is a session-generated one. */
  function ResolveFormId(mapping: Option<map<i32, i32>>, f: FormId): (res: Result<RefId, Error>)
    ensures res.Success? && res.value.Form? ==> HasContentFile(res.value.id) && !IsZeroOrUnset(res.value.id)
    ensures ApplyContentFileMapping(mapping, f).None? ==> res == Success(Empty)
    ensures ApplyContentFileMapping(mapping, f).Some? ==>
              var g := ApplyContentFileMapping(mapping, f).value;
              (IsZeroOrUnset(g) ==> res == Success(Empty))
              && (!IsZeroOrUnset(g) && HasContentFile(g) ==> res == Success(Form(g)))
              && (!IsZeroOrUnset(g) && !HasContentFile(g) ==> res == Failure(GeneratedFormId))
  {
    match ApplyContentFileMapping(mapping, f)
    case None => Success(Empty)
    case Some(g) =>
      if IsZeroOrUnset(g) then Success(Empty)
      else if HasContentFile(g) then Success(Form(g))
      else Failure(GeneratedFormId)
  }

  /** The tagged wire form of a reference identifier in a payload of `size` bytes. */
  function GetRefIdImpl(r: Reader, size: u32): (res: Result<Step<RefId>, Error>)
    ensures res.Success? ==> InRecord(r, res.value.r) && res.value.r.ctx == r.ctx
  {
    var t :- ReadU8(r);
    match TypeOfByte(t.v)
    case None => Failure(UnsupportedRefIdType(t.v))
    case Some(k) => GetRefIdPayload(t.r, k, size)
  }

  /** The payload after the type byte; `size` still counts the type byte. */
  function GetRefIdPayload(r: Reader, k: RefIdType, size: u32): (res: Result<Step<RefId>, Error>)
    ensures res.Success? ==> InRecord(r, res.value.r) && res.value.r.ctx == r.ctx
  {
    match k
    case EmptyType => Success(Step(r, Empty))
    case SizedString => GetSizedStringRefId(r, size)
    case UnsizedString =>
      if size < 1 then Failure(SizeMismatch(1, size))
      else
        var s :- GetString(r, size - 1);
        Success(Step(s.r, StringRefId(s.v)))
    case FormIdType =>
      var index :- ReadU32(r);
      var cf :- ReadI32(index.r);
      var id :- ResolveFormId(r.mapping, FormId(index.v, cf.v));
      Success(Step(cf.r, id))
    case GeneratedType =>
      var n :- ReadU64(r);
      Success(Step(n.r, Generated(n.v)))
    case IndexType =>
      // the record type is read as an `int` and cast to the unsigned tag
      var recordType :- ReadI32(r);
      var value :- ReadU32(recordType.r);
      Success(Step(value.r, Index(U32OfI32(recordType.v), value.v)))
    case ExteriorCellType =>
      var x :- ReadI32(r);
      var y :- ReadI32(x.r);
      Success(Step(y.r, ExteriorCell(x.v, y.v)))
  }

  /** A length-prefixed string identifier: the length must fit in what the
      payload has left after the type byte and the length itself. */
  function GetSizedStringRefId(r: Reader, size: u32): (res: Result<Step<RefId>, Error>)
    ensures res.Success? ==> InRecord(r, res.value.r) && res.value.r.ctx == r.ctx
  {
    if size < 5 then Failure(SizeMismatch(5, size))
    else
      var n :- ReadU32(r);
      if n.v > size - 5 then Failure(SizeMismatch(size - 5, n.v))
      else
        var s :- GetString(n.r, n.v);
        Success(Step(s.r, StringRefId(s.v)))
  }

  /** The decoder's error cases: an unknown type byte, a payload too short
      for its type, and a string length running past the payload. */
  lemma RefIdImplErrors(r: Reader, size: u32)
    requires r.pos < |r.data|
    ensures r.data[r.pos] >= 7 ==> GetRefIdImpl(r, size) == Failure(UnsupportedRefIdType(r.data[r.pos]))
    ensures r.data[r.pos] == 1 && size < 5 ==> GetRefIdImpl(r, size).Failure?
    ensures r.data[r.pos] == 2 && size < 1 ==> GetRefIdImpl(r, size).Failure?
    ensures (r.pos + 5 <= |r.data| && r.data[r.pos] == 1 && size >= 5
              && U32Of(r.data[r.pos + 1..r.pos + 5]) > size - 5) ==> GetRefIdImpl(r, size).Failure?
    ensures GetRefIdImpl(r, size).Success? ==> r.data[r.pos] < 7
  {
    var r1 := r.(pos := r.pos + 1);
    assert ReadU8(r) == Success(Step(r1, r.data[r.pos]));
    if r.pos + 5 <= |r.data| && r.data[r.pos] == 1 && size >= 5 {
      assert ReadU32(r1).value.v == U32Of(r.data[r.pos + 1..r.pos + 5]);
    }
  }

  /** A reference identifier of `size` bytes: a plain string up to version 23. */
  function GetRefIdSized(r: Reader, size: u32): (res: Result<Step<RefId>, Error>)
    ensures res.Success? ==> InRecord(r, res.value.r) && res.value.r.ctx == r.ctx
    ensures r.version <= MAX_STRING_REF_ID_FORMAT_VERSION ==>
              (res.Success? <==> size < 0x8000_0000)
              && (res.Success? ==> res.value.r == GetString(r, size).value.r
                                   && res.value.v == StringRefId(GetString(r, size).value.v))
    ensures r.version > MAX_STRING_REF_ID_FORMAT_VERSION ==> res == GetRefIdImpl(r, size)
  {
    if r.version <= MAX_STRING_REF_ID_FORMAT_VERSION then
      var s :- GetString(r, size);
      Success(Step(s.r, StringRefId(s.v)))
    else GetRefIdImpl(r, size)
  }

  /** A reference identifier filling the current sub-record. */
  function GetRefId(r: Reader): (res: Result<Step<RefId>, Error>)
    ensures res.Success? ==> Consumed(r, res.value.r)
    ensures r.version <= MAX_STRING_REF_ID_FORMAT_VERSION && res.Success? ==>
              GetHString(r).Success? && res.value.r == GetHString(r).value.r
              && res.value.v == StringRefId(GetHString(r).value.v)
    ensures (r.version > MAX_STRING_REF_ID_FORMAT_VERSION && res.Success?) ==>
              GetSubHeader(r).Success?
              && res == GetRefIdImpl(GetSubHeader(r).value, GetSubHeader(r).value.ctx.leftSub)
  {
    if r.version <= MAX_STRING_REF_ID_FORMAT_VERSION then
      var s :- GetHString(r);
      Success(Step(s.r, StringRefId(s.v)))
    else
      var h :- GetSubHeader(r);
      GetRefIdImpl(h, h.ctx.leftSub)
  }

  function GetHNRefId(r: Reader, name: Tag): (res: Result<Step<RefId>, Error>)
    ensures res.Success? ==> Consumed(r, res.value.r)
    ensures res.Success? ==> GetSubNameIs(r, name).Success? && res == GetRefId(GetSubNameIs(r, name).value)
  {
    var r1 :- GetSubNameIs(r, name);
    GetRefId(r1)
  }

  /** An optional named reference identifier: Empty when the next sub-record is another one. */
  function GetHNORefId(r: Reader, name: Tag): (res: Result<Step<RefId>, Error>)
    ensures res.Success? ==> InRecord(r, res.value.r)
    ensures IsNextSub(r, name).Success? && !IsNextSub(r, name).value.v ==>
              res == Success(Step(IsNextSub(r, name).value.r, Empty))
  {
    var n :- IsNextSub(r, name);
    if n.v then GetRefId(n.r) else Success(Step(n.r, Empty))
  }

  /** A reference identifier stored as a possibly fixed-width string up to
      version 23, and in tagged form filling the sub-record after that. */
  function GetMaybeFixedRefIdSize(r: Reader, size: u32): (res: Result<Step<RefId>, Error>)
    ensures res.Success? ==> InRecord(r, res.value.r) && res.value.r.ctx == r.ctx
    ensures r.version > MAX_STRING_REF_ID_FORMAT_VERSION ==> res == GetRefIdImpl(r, r.ctx.leftSub)
    ensures r.version <= MAX_STRING_REF_ID_FORMAT_VERSION ==>
              (res.Success? <==> GetMaybeFixedStringSize(r, size).Success?)
              && (res.Success? ==> res.value.v == StringRefId(GetMaybeFixedStringSize(r, size).value.v))
  {
    if r.version <= MAX_STRING_REF_ID_FORMAT_VERSION then
      var s :- GetMaybeFixedStringSize(r, size);
      Success(Step(s.r, StringRefId(s.v)))
    else GetRefIdImpl(r, r.ctx.leftSub)
  }

  // Typed sub-records: name, size, then a fixed-width value. The size is not
  // compared with the value's width.

  function GetHNU32(r: Reader, name: Tag): (res: Result<Step<u32>, Error>)
    ensures res.Success? ==> Consumed(r, res.value.r)
    ensures res.Success? ==> GetSubNameIs(r, name).Success? && GetSubHeader(GetSubNameIs(r, name).value).Success?
    ensures res.Success? ==> var h := GetSubHeader(GetSubNameIs(r, name).value).value;
              res == ReadU32(h)
  {
    var r1 :- GetSubNameIs(r, name);
    var h :- GetSubHeader(r1);
    ReadU32(h)
  }

  function GetHNI32(r: Reader, name: Tag): (res: Result<Step<i32>, Error>)
    ensures res.Success? ==> Consumed(r, res.value.r)
    ensures res.Success? ==> GetHNU32(r, name).Success? && res.value.v == I32OfU32(GetHNU32(r, name).value.v)
  {
    var s :- GetHNU32(r, name);
    Success(Step(s.r, I32OfU32(s.v)))
  }

  function GetHNU64(r: Reader, name: Tag): (res: Result<Step<u64>, Error>)
    ensures res.Success? ==> Consumed(r, res.value.r)
    ensures res.Success? ==> GetSubNameIs(r, name).Success? && GetSubHeader(GetSubNameIs(r, name).value).Success?
    ensures res.Success? ==> res == ReadU64(GetSubHeader(GetSubNameIs(r, name).value).value)
  {
    var r1 :- GetSubNameIs(r, name);
    var h :- GetSubHeader(r1);
    ReadU64(h)
  }

  function GetHNU16(r: Reader, name: Tag): (res: Result<Step<u16>, Error>)
    ensures res.Success? ==> Consumed(r, res.value.r)
    ensures GetSubNameIs(r, name).Failure? ==> res.Failure?
  {
    var r1 :- GetSubNameIs(r, name);
    var h :- GetSubHeader(r1);
    ReadU16(h)
  }

  /** A u16 sub-record read by name is the value at the front of its payload. */
  lemma GetHNU16Value(r: Reader, name: Tag)
    requires GetHNU16(r, name).Success?
    ensures GetSubNameIs(r, name).Success? && GetSubHeader(GetSubNameIs(r, name).value).Success?
    ensures var h := GetSubHeader(GetSubNameIs(r, name).value).value;
            h.pos + 2 <= |h.data| && GetHNU16(r, name).value.v == U16Of(h.data[h.pos..h.pos + 2])
            && GetHNU16(r, name).value.r == h.(pos := h.pos + 2)
  {
  }

  /** An optional typed sub-record: None when the next sub-record is another one. */
  function GetHNOU32(r: Reader, name: Tag): (res: Result<Step<Option<u32>>, Error>)
    ensures res.Success? ==> InRecord(r, res.value.r)
    ensures res.Success? && res.value.v.Some? ==> Consumed(r, res.value.r)
    ensures r.ctx.leftRec <= 0 ==> res == Success(Step(r, None))
  {
    var n :- IsNextSub(r, name);
    if !n.v then Success(Step(n.r, None))
    else
      var h :- GetSubHeader(n.r);
      var v :- ReadU32(h);
      Success(Step(v.r, Some(v.v)))
  }

  /** The payload of the current sub-record after its header, as raw bytes. */
  function GetSubPayload(r: Reader): (res: Result<Step<seq<byte>>, Error>)
    ensures res.Success? ==> Consumed(r, res.value.r)
    ensures res.Success? ==> |res.value.v| == res.value.r.ctx.leftSub
    ensures res.Success? <==> GetSubHeader(r).Success? && r.pos + 4 + GetSubHeader(r).value.ctx.leftSub <= |r.data|
  {
    var h :- GetSubHeader(r);
    var b :- ReadExact(h, h.ctx.leftSub);
    Success(Step(b.r, b.v))
  }

  // Saving and restoring the cursor.

  function GetContext(r: Reader): (res: Step<Context>)
    ensures res.v.filePos == r.pos
    ensures res.v == r.ctx.(filePos := r.pos) && res.r == r.(ctx := res.v)
  {
    var c := r.ctx.(filePos := r.pos);
    Step(r.(ctx := c), c)
  }

  /** Install a saved context wholesale and seek to its position. When the
      context belongs to another file, that file (its bytes are a parameter)
      is opened first, which resets the header and with it the format version. */
  function RestoreContext(r: Reader, rc: Context, otherFile: seq<byte>): (res: Result<Reader, Error>)
    ensures res.Success? <==> rc.filePos >= 0
    ensures res.Success? ==> res.value.ctx == rc && res.value.pos == rc.filePos
    ensures res.Success? && r.ctx.fileName == rc.fileName ==> res.value == r.(ctx := rc, pos := rc.filePos)
    ensures res.Success? && r.ctx.fileName != rc.fileName ==>
              res.value.data == otherFile && res.value.version == CURRENT_CONTENT_FORMAT_VERSION
  {
    var r1 := if r.ctx.fileName != rc.fileName then OpenRaw(otherFile, rc.fileName, r) else r;
    if rc.filePos < 0 then Failure(SeekBeforeBegin)
    else Success(r1.(ctx := rc, pos := rc.filePos))
  }

  /** Saving a context and restoring it later, with nothing read in between,
      puts the reader back exactly where it was. */
  lemma SaveRestoreRoundTrip(r: Reader, anyFile: seq<byte>)
    ensures var s := GetContext(r);
            RestoreContext(s.r, s.v, anyFile) == Success(s.r)
  {
  }

  /** Close, then open a byte stream under a name: the context is cleared,
      the file counter is the stream length and the header goes back to its
      blank state. */
  function OpenRaw(bytes: seq<byte>, name: string, r: Reader): (r2: Reader)
    ensures r2.pos == 0 && r2.data == bytes && r2.ctx.fileName == name && r2.ctx.leftFile == |bytes|
    ensures r2.ctx.leftRec == 0 && r2.ctx.leftSub == 0 && !r2.ctx.subCached
    ensures r2.version == CURRENT_CONTENT_FORMAT_VERSION
    ensures r2.ctx.index == r.ctx.index && r2.ctx.parentFileIndices == r.ctx.parentFileIndices
  {
    var c := Cleared(r.ctx);
    Reader(bytes, 0, c.(fileName := name, leftFile := |bytes|), r.recordFlags, CURRENT_CONTENT_FORMAT_VERSION, r.mapping)
  }

  /** A reader as the library constructs it: nothing open. */
  const NEW_READER: Reader := Reader([], 0, INITIAL, 0, DEFAULT_FORMAT_VERSION, None)
}

=== FILE: records.dfy ===
/** The record table: which record type each record name stands for, and
    the loop that reads every record of a file, loading the known ones,
    capturing others as raw bytes, or skipping them, as the settings say. */
module Records {
  import opened Bytes
  import opened Wrappers
  import opened Errors
  import opened Tags
  import opened EsmReader
  import opened RoundTrip
  import W = EsmWriter

  /** The record types the library can load. */
  datatype Kind =
    GameSetting | Global | Class | Faction | Race | Sound | Skill | MagicEffect | Script | Region
    | BirthSign | LandTexture | Static | Door | Spell | Miscellaneous | Weapon | Container
    | Creature | Body | Light | Enchantment | Npc | Armor | Clothing | Repair | Activator
    | Apparatus | Lockpick | Probe | Ingredient | Book | Potion | ItemLevList | CreatureLevList
    | Cell | Land | Pathgrid | SoundGenerator | Dialogue | DialInfo | StartScript

  /** The name each record type is stored under. */
  function TagOf(k: Kind): Tag
  {
    match k
    case GameSetting => GMST
    case Global => GLOB
    case Class => CLAS
    case Faction => FACT
    case Race => RACE
    case Sound => SOUN
    case Skill => SKIL
    case MagicEffect => MGEF
    case Script => SCPT
    case Region => REGN
    case BirthSign => BSGN
    case LandTexture => LTEX
    case Static => STAT
    case Door => DOOR
    case Spell => SPEL
    case Miscellaneous => MISC
    case Weapon => WEAP
    case Container => CONT
    case Creature => CREA
    case Body => BODY
    case Light => LIGH
    case Enchantment => ENCH
    case Npc => NPC_
    case Armor => ARMO
    case Clothing => CLOT
    case Repair => REPA
    case Activator => ACTI
    case Apparatus => APPA
    case Lockpick => LOCK
    case Probe => PROB
    case Ingredient => INGR
    case Book => BOOK
    case Potion => ALCH
    case ItemLevList => LEVI
    case CreatureLevList => LEVC
    case Cell => CELL
    case Land => LAND
    case Pathgrid => PGRD
    case SoundGenerator => SNDG
    case Dialogue => DIAL
    case DialInfo => INFO
    case StartScript => SSCR
  }

  /** The fixed table of `Create`, split in four parts: a name none of the
      parts holds has no record type. */
  function KindOf(name: Tag): (k: Option<Kind>)
    ensures k.Some? ==> TagOf(k.value) == name
    ensures k.None? <==> forall j: Kind :: TagOf(j) != name
  {
    var a := KindOfA(name);
    if a.Some? then a else
    var b := KindOfB(name);
    if b.Some? then b else
    var c := KindOfC(name);
    if c.Some? then c else
    KindOfD(name)
  }

  const TAGS_A: set<Tag> := {GMST, GLOB, CLAS, FACT, RACE, SOUN, SKIL, MGEF, SCPT, REGN, BSGN}

  function KindOfA(name: Tag): (k: Option<Kind>)
    ensures k.Some? <==> name in TAGS_A
    ensures k.Some? ==> TagOf(k.value) == name
  {
    if name == GMST then Some(GameSetting)
    else if name == GLOB then Some(Global)
    else if name == CLAS then Some(Class)
    else if name == FACT then Some(Faction)
    else if name == RACE then Some(Race)
    else if name == SOUN then Some(Sound)
    else if name == SKIL then Some(Skill)
    else if name == MGEF then Some(MagicEffect)
    else if name == SCPT then Some(Script)
    else if name == REGN then Some(Region)
    else if name == BSGN then Some(BirthSign)
    else None
  }

  const TAGS_B: set<Tag> := {LTEX, STAT, DOOR, SPEL, MISC, WEAP, CONT, CREA, BODY, LIGH, ENCH}

  function KindOfB(name: Tag): (k: Option<Kind>)
    ensures k.Some? <==> name in TAGS_B
    ensures k.Some? ==> TagOf(k.value) == name
  {
    if name == LTEX then Some(LandTexture)
    else if name == STAT then Some(Static)
    else if name == DOOR then Some(Door)
    else if name == SPEL then Some(Spell)
    else if name == MISC then Some(Miscellaneous)
    else if name == WEAP then Some(Weapon)
    else if name == CONT then Some(Container)
    else if name == CREA then Some(Creature)
    else if name == BODY then Some(Body)
    else if name == LIGH then Some(Light)
    else if name == ENCH then Some(Enchantment)
    else None
  }

  const TAGS_C: set<Tag> := {NPC_, ARMO, CLOT, REPA, ACTI, APPA, LOCK, PROB, INGR, BOOK, ALCH}

  function KindOfC(name: Tag): (k: Option<Kind>)
    ensures k.Some? <==> name in TAGS_C
    ensures k.Some? ==> TagOf(k.value) == name
  {
    if name == NPC_ then Some(Npc)
    else if name == ARMO then Some(Armor)
    else if name == CLOT then Some(Clothing)
    else if name == REPA then Some(Repair)
    else if name == ACTI then Some(Activator)
    else if name == APPA then Some(Apparatus)
    else if name == LOCK then Some(Lockpick)
    else if name == PROB then Some(Probe)
    else if name == INGR then Some(Ingredient)
    else if name == BOOK then Some(Book)
    else if name == ALCH then Some(Potion)
    else None
  }

  const TAGS_D: set<Tag> := {LEVI, LEVC, CELL, LAND, PGRD, SNDG, DIAL, INFO, SSCR}

  function KindOfD(name: Tag): (k: Option<Kind>)
    ensures k.Some? <==> name in TAGS_D
    ensures k.Some? ==> TagOf(k.value) == name
  {
    if name == LEVI then Some(ItemLevList)
    else if name == LEVC then Some(CreatureLevList)
    else if name == CELL then Some(Cell)
    else if name == LAND then Some(Land)
    else if name == PGRD then Some(Pathgrid)
    else if name == SNDG then Some(SoundGenerator)
    else if name == DIAL then Some(Dialogue)
    else if name == INFO then Some(DialInfo)
    else if name == SSCR then Some(StartScript)
    else None
  }

  /** A new record: its type name is the name asked for. */
  datatype Created = Created(rtype: Tag, kind: Kind)

  /** `Create`: a blank record of the type a name stands for; None for a
      name the table does not hold. */
  function Create(name: Tag): (res: Option<Created>)
    ensures res.None? <==> KindOf(name).None?
    ensures res.Some? ==> res.value.rtype == name && TagOf(res.value.kind) == name
  {
    match KindOf(name)
    case None => None
    case Some(k) => Some(Created(name, k))
  }

  /** Two names create records of the same type only when they are the same name. */
  lemma CreateInjective(a: Tag, b: Tag)
    requires Create(a).Some? && Create(b).Some? && Create(a).value.kind == Create(b).value.kind
    ensures a == b
  {
  }

  // Reading a file.

  /** What to read. `keep`, when present, lists the record names to load;
      the others are captured raw or skipped. Without it every known record
      is loaded and an unknown one is skipped, captured raw or rejected. */
  datatype Settings = Settings(keep: Option<set<Tag>>, skippedToRaw: bool, skipUnknown: bool, unknownToRaw: bool)

  datatype Decision = Skip | LoadTyped(kind: Kind) | LoadRaw | Reject

  /** What the read loop does with a record of the given name. */
  function Decide(s: Settings, name: Tag): (d: Decision)
    ensures d.LoadTyped? ==> KindOf(name) == Some(d.kind) && (s.keep.None? || name in s.keep.value)
    ensures s.keep.None? && KindOf(name).Some? ==> d.LoadTyped?
    ensures s.keep.Some? && name in s.keep.value && KindOf(name).Some? ==> d.LoadTyped?
    ensures s.keep.Some? && name !in s.keep.value ==> d == (if s.skippedToRaw then LoadRaw else Skip)
    ensures d == Reject <==>
              KindOf(name).None? && (s.keep.None? ==> !s.skipUnknown && !s.unknownToRaw)
              && (s.keep.Some? ==> name in s.keep.value)
    ensures s.keep.None? && KindOf(name).None? ==>
              d == (if s.skipUnknown then Skip else if s.unknownToRaw then LoadRaw else Reject)
  {
    match s.keep
    case None =>
      if KindOf(name).Some? then LoadTyped(KindOf(name).value)
      else if s.skipUnknown then Skip
      else if s.unknownToRaw then LoadRaw
      else Reject
    case Some(keep) =>
      if name in keep then
        if KindOf(name).Some? then LoadTyped(KindOf(name).value) else Reject
      else if s.skippedToRaw then LoadRaw
      else Skip
  }

  /** A loaded record: a typed value or the raw bytes of its body. */
  datatype Body<T> = Typed(kind: Kind, value: T) | Raw(bytes: seq<byte>)

  /** One record of the result, with the flags of its header. */
  datatype Entry<T> = Entry(rtype: Tag, flags: u32, deleted: bool, body: Body<T>)

  /** A record type's loader stays inside the record it is given, as every
      record loader here does. */
  ghost predicate StaysInRecord<T>(load: (Kind, Reader) -> Result<Step<(T, bool)>, Error>)
  {
    forall k, r :: load(k, r).Success? ==> InRecord(r, load(k, r).value.r)
  }

  /** An entry the settings allow: a typed record only for a known name the
      settings ask for, a raw one only where the decision says so, and a raw
      record is never deleted. */
  predicate Admitted<T>(s: Settings, e: Entry<T>)
  {
    match e.body
    case Typed(k, _) => Decide(s, e.rtype) == LoadTyped(k)
    case Raw(_) => Decide(s, e.rtype) == LoadRaw && !e.deleted
  }

  /** `RawRecord.Load`: everything left of the record, never deleted. */
  function RawLoad(r: Reader): (res: Result<Step<(seq<byte>, bool)>, Error>)
    ensures res.Success? ==> !res.value.v.1 && SameFile(r, res.value.r) && res.value.r.recordFlags == r.recordFlags
    ensures res.Success? ==> res.value.r.ctx == r.ctx.(leftRec := 0, leftSub := 0, subCached := false)
    ensures 0 <= r.ctx.leftRec < 0x8000_0000 ==> res.Success? && res.value.v.0 == Ahead(r, r.ctx.leftRec)
    ensures res.Success? ==> res.value.r.pos == r.pos + |res.value.v.0|
  {
    var raw :- GetRawRecord(r);
    Success(Step(raw.r, (raw.v, false)))
  }

  /** `RawRecord.Save`: the captured bytes, as they are. */
  function RawSave(w: W.Writer, bytes: seq<byte>): (res: W.Writer)
    ensures res.out == w.out + bytes
  {
    W.WriteBytes(w, bytes, 0).value
  }

  /** A raw record saves back exactly the bytes it was loaded from. */
  lemma RawRoundTrip(r: Reader, b: seq<byte>, w: W.Writer)
    requires At(r, b) && r.ctx.leftRec == |b| < 0x8000_0000
    ensures RawLoad(r).Success? && RawLoad(r).value.v == (b, false)
    ensures RawSave(w, RawLoad(r).value.v.0) == W.Emit(w, b)
  {
    AheadAt(r, b);
  }

  /** One turn of the loop of `Read`: the next record's name and header,
      then the record skipped, rejected, captured raw or loaded. */
  function ReadRecord<T>(r: Reader, s: Settings, load: (Kind, Reader) -> Result<Step<(T, bool)>, Error>)
    : (res: Result<Step<Option<Entry<T>>>, Error>)
    requires StaysInRecord(load) && HasMoreRecs(r)
    ensures res.Success? ==> SameFile(r, res.value.r) && 0 <= res.value.r.ctx.leftFile < r.ctx.leftFile
    ensures res.Success? && res.value.v.Some? ==> Admitted(s, res.value.v.value)
    ensures res.Success? && res.value.v.None? ==> Decide(s, res.value.r.ctx.recName) == Skip
  {
    var n :- GetRecordName(r);
    var h :- GetRecHeader(n.r);
    match Decide(s, n.v)
    case Skip => Success(Step(SkipRecord(h), None))
    case Reject => Failure(UnknownRecord(n.v))
    case LoadRaw =>
      var raw :- RawLoad(h);
      Success(Step(raw.r, Some(Entry(n.v, h.recordFlags, raw.v.1, Raw(raw.v.0)))))
    case LoadTyped(k) =>
      var l :- load(k, h);
      Success(Step(l.r, Some(Entry(n.v, h.recordFlags, l.v.1, Typed(k, l.v.0)))))
  }

  /** The loop of `Read`: record after record until the file is used up. */
  function ReadAll<T>(r: Reader, s: Settings, load: (Kind, Reader) -> Result<Step<(T, bool)>, Error>,
                      acc: seq<Entry<T>>): (res: Result<Step<seq<Entry<T>>>, Error>)
    requires StaysInRecord(load)
    ensures res.Success? ==> acc <= res.value.v && !HasMoreRecs(res.value.r)
    ensures res.Success? && (forall i :: 0 <= i < |acc| ==> Admitted(s, acc[i])) ==>
              forall i :: 0 <= i < |res.value.v| ==> Admitted(s, res.value.v[i])
    ensures !HasMoreRecs(r) ==> res == Success(Step(r, acc))
    decreases if r.ctx.leftFile > 0 then r.ctx.leftFile else 0
  {
    if !HasMoreRecs(r) then Success(Step(r, acc))
    else
      var one :- ReadRecord(r, s, load);
      match one.v
      case None => ReadAll(one.r, s, load, acc)
      case Some(e) => ReadAll(one.r, s, load, acc + [e])
  }

  /** `Read`: every record of the file in order. */
  function Read<T>(r: Reader, s: Settings, load: (Kind, Reader) -> Result<Step<(T, bool)>, Error>)
    : (res: Result<seq<Entry<T>>, Error>)
    requires StaysInRecord(load)
    ensures res.Success? ==> forall i :: 0 <= i < |res.value| ==> Admitted(s, res.value[i])
    ensures !HasMoreRecs(r) ==> res == Success([])
  {
    var all :- ReadAll(r, s, load, []);
    Success(all.v)
  }

  // Reading a file back.

  /** Settings that keep no record typed and every record raw: an empty
      keep-list, with the records it leaves out kept as bytes. */
  const CAPTURE_ALL: Settings := Settings(Some({}), true, false, false)

  /** The entries a list of records reads back as when each is kept raw. */
  function Captured<T>(records: seq<(Tag, u32, seq<byte>)>): (es: seq<Entry<T>>)
    ensures |es| == |records|
    decreases |records|
  {
    if records == [] then []
    else [Entry(records[0].0, records[0].1, false, Raw(records[0].2))] + Captured(records[1..])
  }

  /** A reader at the start of the given records, which make up the rest of
      the file, each body short enough to be read as one raw block. */
  predicate FileAt(r: Reader, records: seq<(Tag, u32, seq<byte>)>)
  {
    At(r, W.FileBytes(records)) && r.ctx.leftRec == 0 && r.ctx.leftFile == |W.FileBytes(records)|
    && forall i :: 0 <= i < |records| ==> |records[i].2| < 0x8000_0000
  }

  /** The first record of a file splits off its bytes. */
  lemma {:induction false} FirstRecordAt(r: Reader, records: seq<(Tag, u32, seq<byte>)>)
    requires records != [] && At(r, W.FileBytes(records))
    ensures var rb := W.RecordBytes(records[0].0, records[0].1, records[0].2);
            At(r, rb) && At(r.(pos := r.pos + |rb|), W.FileBytes(records[1..]))
            && |W.FileBytes(records)| == |rb| + |W.FileBytes(records[1..])|
  {
    var rb := W.RecordBytes(records[0].0, records[0].1, records[0].2);
    assert W.FileBytes(records) == rb + W.FileBytes(records[1..]);
    AtSplit(r, rb, W.FileBytes(records[1..]));
  }

  /** The header of the first record of such a file reads back: the reader
      then stands at the record's body, with the rest of the file after it. */
  lemma {:induction false} CapturedHeader(r: Reader, records: seq<(Tag, u32, seq<byte>)>)
    requires records != [] && FileAt(r, records)
    ensures var n := GetRecordName(r);
            n.Success? && n.value.v == records[0].0 && GetRecHeader(n.value.r).Success?
            && var h := GetRecHeader(n.value.r).value;
               h.recordFlags == records[0].1 && h.ctx.leftRec == |records[0].2|
               && h.ctx.leftFile == |W.FileBytes(records[1..])| && At(h, records[0].2)
               && At(h.(pos := h.pos + |records[0].2|), W.FileBytes(records[1..]))
  {
    var (name, flags, body) := records[0];
    FirstRecordAt(r, records);
    RecordHeaderRoundTrip(r, name, flags, body);
    var h := GetRecHeader(GetRecordName(r).value.r).value;
    assert h.pos + |body| == r.pos + |W.RecordBytes(name, flags, body)|;
  }

  /** The body of such a record, read raw, is the record's body, and the
      reader then stands at the next record. */
  lemma {:induction false} CapturedBody(h: Reader, body: seq<byte>, rest: seq<(Tag, u32, seq<byte>)>)
    requires At(h, body) && h.ctx.leftRec == |body| < 0x8000_0000
    requires h.ctx.leftFile == |W.FileBytes(rest)| && At(h.(pos := h.pos + |body|), W.FileBytes(rest))
    requires forall i :: 0 <= i < |rest| ==> |rest[i].2| < 0x8000_0000
    ensures RawLoad(h).Success? && RawLoad(h).value.v == (body, false) && FileAt(RawLoad(h).value.r, rest)
  {
    RawRoundTrip(h, body, W.NEW_WRITER);
    var raw := RawLoad(h).value;
    assert raw.r.data == h.data && raw.r.pos == h.pos + |body|;
  }

  /** With these settings every record is kept raw. */
  lemma CaptureAllRaw(name: Tag)
    ensures Decide(CAPTURE_ALL, name) == LoadRaw
  {
  }

  /** One record of such a file, read with every record captured raw: its
      name, flags and body come back, and the reader stands at the next one. */
  lemma {:induction false} CapturedStep<T>(r: Reader, records: seq<(Tag, u32, seq<byte>)>,
                                           load: (Kind, Reader) -> Result<Step<(T, bool)>, Error>)
    requires records != [] && FileAt(r, records) && StaysInRecord(load)
    ensures var one := ReadRecord(r, CAPTURE_ALL, load);
            one.Success?
            && one.value.v == Some(Entry(records[0].0, records[0].1, false, Raw(records[0].2)))
            && FileAt(one.value.r, records[1..])
  {
    var rest := records[1..];
    assert forall i :: 0 <= i < |rest| ==> rest[i] == records[i + 1];
    CapturedHeader(r, records);
    var n := GetRecordName(r).value;
    var h := GetRecHeader(n.r).value;
    CapturedBody(h, records[0].2, rest);
    CaptureAllRaw(n.v);
    var raw := RawLoad(h).value;
    assert ReadRecord(r, CAPTURE_ALL, load) == Success(Step(raw.r, Some(Entry(n.v, h.recordFlags, false, Raw(raw.v.0)))));
  }

  /** A record the loop keeps is appended and the loop goes on after it. */
  lemma ReadAllStep<T>(r: Reader, s: Settings, load: (Kind, Reader) -> Result<Step<(T, bool)>, Error>, acc: seq<Entry<T>>)
    requires StaysInRecord(load) && HasMoreRecs(r)
    requires ReadRecord(r, s, load).Success? && ReadRecord(r, s, load).value.v.Some?
    ensures var one := ReadRecord(r, s, load).value;
            ReadAll(r, s, load, acc) == ReadAll(one.r, s, load, acc + [one.v.value])
  {
  }

  lemma CapturedDone<T>(r: Reader, records: seq<(Tag, u32, seq<byte>)>,
                                           load: (Kind, Reader) -> Result<Step<(T, bool)>, Error>, acc: seq<Entry<T>>)
    requires records == [] && FileAt(r, records) && StaysInRecord(load)
    ensures ReadAll(r, CAPTURE_ALL, load, acc).Success?
    ensures ReadAll(r, CAPTURE_ALL, load, acc).value.v == acc + Captured(records)
  {
      assert !HasMoreRecs(r);
      assert Captured<T>(records) == [];
      assert acc + Captured(records) == acc;
  }

  /** The loop of `Read` over such a file: every record comes back raw, in order. */
  lemma {:induction false} CapturedLoop<T>(r: Reader, records: seq<(Tag, u32, seq<byte>)>,
                                           load: (Kind, Reader) -> Result<Step<(T, bool)>, Error>, acc: seq<Entry<T>>)
    requires FileAt(r, records) && StaysInRecord(load)
    ensures ReadAll(r, CAPTURE_ALL, load, acc).Success?
    ensures ReadAll(r, CAPTURE_ALL, load, acc).value.v == acc + Captured(records)
    decreases |records|
  {
    if records == [] {
      CapturedDone(r, records, load, acc);
    } else {
      CapturedStep(r, records, load);
      var one := ReadRecord(r, CAPTURE_ALL, load).value;
      ReadAllStep(r, CAPTURE_ALL, load, acc);
      CapturedLoop(one.r, records[1..], load, acc + [one.v.value]);
      CapturedAppend(acc, records);
    }
  }

  /** The entries of a list of records are those of its first record, then the rest's. */
  lemma CapturedAppend<T>(acc: seq<Entry<T>>, records: seq<(Tag, u32, seq<byte>)>)
    requires records != []
    ensures acc + [Entry(records[0].0, records[0].1, false, Raw(records[0].2))] + Captured(records[1..])
            == acc + Captured(records)
  {
    var e := Entry(records[0].0, records[0].1, false, Raw(records[0].2));
    assert Captured<T>(records) == [e] + Captured(records[1..]);
    assert acc + [e] + Captured(records[1..]) == acc + ([e] + Captured(records[1..]));
  }

  /** A file made of records, read with every record captured raw, reads back
      as the records' names, flags and bodies, in order and none missing,
      whatever the typed loader. */
  lemma ReadCaptured<T>(r: Reader, records: seq<(Tag, u32, seq<byte>)>,
                        load: (Kind, Reader) -> Result<Step<(T, bool)>, Error>)
    requires FileAt(r, records) && StaysInRecord(load)
    ensures Read(r, CAPTURE_ALL, load) == Success(Captured(records))
  {
    CapturedLoop(r, records, load, []);
    var all := ReadAll(r, CAPTURE_ALL, load, []);
    assert all.value.v == Captured(records);
    assert Read(r, CAPTURE_ALL, load) == Success(all.value.v);
  }
}

=== FILE: refids.dfy ===
/** Reference identifiers: the closed union of the ways a record names
    another record, with the equality, hashing and display form of each
    variant. */
module RefIds {
  import opened Bytes
  import opened Wrappers
  import opened Errors
  import opened Bits
  import opened Text
  import opened Tags

  /** A numeric form identifier: an index inside a content file. A negative
      content file marks an identifier generated by the running session. */
  datatype FormId = FormId(index: u32, contentFile: i32)

  const DEFAULT_FORM_ID: FormId := FormId(0, -1)

  predicate HasContentFile(f: FormId)
  {
    f.contentFile >= 0
  }

  predicate IsZeroOrUnset(f: FormId)
  {
    f.index == 0 && (f.contentFile == 0 || f.contentFile == -1)
  }

  /** The variant discriminant, as stored in the type byte on the wire. */
  datatype RefIdType = EmptyType | SizedString | UnsizedString | FormIdType | GeneratedType | IndexType | ExteriorCellType

  function TypeByte(t: RefIdType): (b: byte)
    ensures b < 7
  {
    match t
    case EmptyType => 0
    case SizedString => 1
    case UnsizedString => 2
    case FormIdType => 3
    case GeneratedType => 4
    case IndexType => 5
    case ExteriorCellType => 6
  }

  /** The discriminant a type byte names; any byte above 6 names none. */
  function TypeOfByte(b: byte): (t: Option<RefIdType>)
    ensures t.Some? <==> b < 7
    ensures t.Some? ==> TypeByte(t.value) == b
  {
    if b == 0 then Some(EmptyType)
    else if b == 1 then Some(SizedString)
    else if b == 2 then Some(UnsizedString)
    else if b == 3 then Some(FormIdType)
    else if b == 4 then Some(GeneratedType)
    else if b == 5 then Some(IndexType)
    else if b == 6 then Some(ExteriorCellType)
    else None
  }

  lemma TypeByteRoundTrip(t: RefIdType)
    ensures TypeOfByte(TypeByte(t)) == Some(t)
  {
  }

  datatype RefId =
    | Empty
    | Str(value: string)
    | Form(id: FormId)
    | Generated(number: u64)
    | Index(recordType: Tag, indexValue: u32)
    | ExteriorCell(x: i32, y: i32)

  /** The discriminant each variant reports. A string identifier always
      reports the sized form: the unsized form exists only on the wire. */
  function TypeOf(r: RefId): (t: RefIdType)
    ensures t != UnsizedString
    ensures (t == EmptyType) == r.Empty?
  {
    match r
    case Empty => EmptyType
    case Str(_) => SizedString
    case Form(_) => FormIdType
    case Generated(_) => GeneratedType
    case Index(_, _) => IndexType
    case ExteriorCell(_, _) => ExteriorCellType
  }

  /** The string factory `RefId.StringRefId` the readers call: a string
      identifier, where the empty string is the empty identifier. RefId.cs
      declares no such factory; the normalisation follows the format's
      description of identifiers. */
  function StringRefId(s: string): (r: RefId)
    ensures r.Empty? <==> s == ""
    ensures r.Str? ==> r.value == s
  {
    if s == "" then Empty else Str(s)
  }

  // Equality. `other` is None for a null reference.

  /** The variant equality: each variant equals only a value of its own
      discriminant and class whose fields match. */
  function Equals(self: RefId, other: Option<RefId>): (b: bool)
    ensures b ==> other.Some? && TypeOf(other.value) == TypeOf(self)
    ensures b <==> other == Some(self)
  {
    match self
    case Empty => other.Some? && TypeOf(other.value) == EmptyType
    case Str(v) => other.Some? && TypeOf(other.value) == SizedString && other.value.Str? && other.value.value == v
    case Form(f) => other.Some? && TypeOf(other.value) == FormIdType && other.value.Form? && other.value.id == f
    case Generated(n) => other.Some? && TypeOf(other.value) == GeneratedType && other.value.Generated? && other.value.number == n
    case Index(t, v) =>
      other.Some? && TypeOf(other.value) == IndexType && other.value.Index?
      && other.value.recordType == t && other.value.indexValue == v
    case ExteriorCell(x, y) =>
      other.Some? && TypeOf(other.value) == ExteriorCellType && other.value.ExteriorCell?
      && other.value.x == x && other.value.y == y
  }

  /** The variant equality is exactly equality of values, and nothing equals null. */
  lemma EqualsIsValueEquality(a: RefId, other: Option<RefId>)
    ensures Equals(a, other) <==> other == Some(a)
  {
  }

  /** The empty identifier and an unset form identifier are different values. */
  lemma EmptyIsNotUnsetFormId(f: FormId)
    requires IsZeroOrUnset(f)
    ensures !Equals(Empty, Some(Form(f))) && !Equals(Form(f), Some(Empty))
  {
  }

  /** The dictionary comparer. `sameObject` says whether the two references
      are to one object, which for values means they are equal. */
  function ComparerEquals(x: Option<RefId>, y: Option<RefId>, sameObject: bool): (b: bool)
    requires sameObject ==> x == y
    ensures b <==> x == y
  {
    if sameObject || (x.None? && y.None?) then true
    else if x.None? then false
    else if y.None? then false
    else if TypeOf(x.value) != TypeOf(y.value) then false
    else Equals(x.value, y)
  }

  /** The comparer agrees with value equality whatever the object identity,
      so a dictionary keyed by it finds a key by value. */
  lemma ComparerIsValueEquality(x: Option<RefId>, y: Option<RefId>, sameObject: bool)
    requires sameObject ==> x == y
    ensures ComparerEquals(x, y, sameObject) <==> x == y
  {
    if !sameObject && x.Some? && y.Some? && TypeOf(x.value) == TypeOf(y.value) {
      EqualsIsValueEquality(x.value, y);
    }
  }

  lemma ComparerDifferentTypes(x: RefId, y: RefId, sameObject: bool)
    requires sameObject ==> x == y
    requires TypeOf(x) != TypeOf(y)
    ensures !ComparerEquals(Some(x), Some(y), sameObject)
  {
  }

  // Hashing. A signed 64-bit value is handled as its two's-complement bit pattern.

  /** `(long)hi << 32`: the low 32 bits of `hi` move to the upper half. */
  function ShiftHigh(hi: int): (r: u64)
  {
    (hi % TWO_32) * TWO_32
  }

  /** `(long)hi << 32 | lo` as the library writes it: `lo` is an `int` or a
      `uint` widened to 64 bits, so a negative `lo` is sign-extended. */
  function PackWritten(hi: int, lo: int): (r: nat)
    requires -0x8000_0000 <= lo < TWO_32
  {
    Or(ShiftHigh(hi), lo % TWO_64)
  }

  /** The packing with the low operand taken as its 32-bit pattern. */
  function PackLow(hi: int, lo: int): (r: u64)
    requires -0x8000_0000 <= lo < TWO_32
  {
    ShiftHigh(hi) + lo % TWO_32
  }

  lemma SplitWord(h: nat, l: nat)
    requires h < TWO_32 && l < TWO_32
    ensures (h * TWO_32 + l) / TWO_32 == h && (h * TWO_32 + l) % TWO_32 == l
  {
  }

  /** The corrected packing keeps both halves: distinct pairs of 32-bit values pack apart. */
  lemma PackLowInjective(h1: int, l1: int, h2: int, l2: int)
    requires -0x8000_0000 <= l1 < TWO_32 && -0x8000_0000 <= l2 < TWO_32
    requires PackLow(h1, l1) == PackLow(h2, l2)
    ensures h1 % TWO_32 == h2 % TWO_32 && l1 % TWO_32 == l2 % TWO_32
  {
    SplitWord(h1 % TWO_32, l1 % TWO_32);
    SplitWord(h2 % TWO_32, l2 % TWO_32);
  }

  /** For a non-negative low operand the written packing is the corrected one. */
  lemma PackWrittenNonNegative(hi: int, lo: int)
    requires 0 <= lo < TWO_32
    ensures PackWritten(hi, lo) == PackLow(hi, lo)
  {
    Pow2Values();
    var a := hi % TWO_32;
    assert lo % TWO_64 == lo;
    assert ShiftHigh(hi) == a * Pow2(32);
    OrDisjoint(a, lo, 32);
    assert PackWritten(hi, lo) == Or(a * Pow2(32), lo);
    assert lo % TWO_32 == lo;
    assert PackLow(hi, lo) == a * Pow2(32) + lo;
  }

  /** For a negative low operand the sign extension fills the upper half with
      ones and the high operand is lost. */
  lemma {:induction false} PackWrittenNegative(hi: int, lo: int)
    requires -0x8000_0000 <= lo < 0
    ensures PackWritten(hi, lo) == lo % TWO_64
  {
    Pow2Values();
    var h, l := hi % TWO_32, lo % TWO_32;
    assert lo % TWO_64 == (TWO_32 - 1) * TWO_32 + l;
    OrShift(h, TWO_32 - 1, l, 32);
    OrOnes(h, 32);
  }

  /** `long.GetHashCode()` and `ulong.GetHashCode()`: the xor of the two halves. */
  function LongHash(bits: u64): (r: i32)
  {
    Pow2Values();
    XorBound(bits % TWO_32, bits / TWO_32, 32);
    I32OfU32(Xor(bits % TWO_32, bits / TWO_32))
  }

  /** The key whose 64-bit hash each variant reports, as the library writes it. */
  function HashKeyWritten(r: RefId): (k: Option<u64>)
    requires !r.Str?
    ensures k.None? <==> r.Empty?
    ensures r.Generated? || r.Index? ==> k == HashKey(r)
    ensures r.Form? && r.id.contentFile >= 0 ==> k == HashKey(r)
    ensures r.ExteriorCell? && r.y >= 0 ==> k == HashKey(r)
  {
    match r
    case Empty => None
    case Form(f) =>
      PackWrittenBound(f.index, f.contentFile);
      Some(PackWritten(f.index, f.contentFile))
    case Generated(n) => Some(n)
    case Index(t, v) =>
      PackWrittenNonNegative(t, v);
      Some(PackWritten(t, v))
    case ExteriorCell(x, y) =>
      PackWrittenBound(x, y);
      Some(PackWritten(x, y))
  }

  lemma PackWrittenBound(hi: int, lo: int)
    requires -0x8000_0000 <= lo < TWO_32
    ensures PackWritten(hi, lo) < TWO_64
    ensures 0 <= lo ==> PackWritten(hi, lo) == PackLow(hi, lo)
  {
    if lo < 0 {
      PackWrittenNegative(hi, lo);
    } else {
      PackWrittenNonNegative(hi, lo);
    }
  }

  /** `GetHashCode` of each variant. String hashing belongs to the runtime
      and is a parameter. */
  function HashCode(r: RefId, stringHash: string -> i32): (h: i32)
    ensures r.Empty? ==> h == 0
  {
    if r.Str? then stringHash(r.value)
    else
      var k := HashKeyWritten(r);
      if k.None? then 0 else LongHash(k.value)
  }

  lemma IndexKeyPacksLow(t: Tag, v: u32)
    ensures HashKeyWritten(Index(t, v)) == Some(PackLow(t, v))
  {
    PackWrittenNonNegative(t, v);
  }

  /** The index variant's key keeps both the record type and the value. */
  lemma IndexKeyInjective(t1: Tag, v1: u32, t2: Tag, v2: u32)
    requires HashKeyWritten(Index(t1, v1)) == HashKeyWritten(Index(t2, v2))
    ensures t1 == t2 && v1 == v2
  {
    IndexKeyPacksLow(t1, v1);
    IndexKeyPacksLow(t2, v2);
    assert PackLow(t1, v1) == PackLow(t2, v2);
    PackLowInjective(t1, v1, t2, v2);
    WordModSelf(t1);
    WordModSelf(t2);
    WordModSelf(v1);
    WordModSelf(v2);
  }

  lemma WordModSelf(x: u32)
    ensures x % TWO_32 == x
  {
  }

  /** An exterior cell with a negative `y` hashes independently of `x`. */
  lemma ExteriorCellKeyIgnoresX(x1: i32, x2: i32, y: i32)
    requires y < 0
    ensures HashKeyWritten(ExteriorCell(x1, y)) == HashKeyWritten(ExteriorCell(x2, y))
    ensures HashCode(ExteriorCell(x1, y), s => 0) == HashCode(ExteriorCell(x2, y), s => 0)
  {
    PackWrittenNegative(x1, y);
    PackWrittenNegative(x2, y);
  }

  /** Every form identifier with the default content file -1 hashes alike. */
  lemma FormIdKeyIgnoresIndex(i1: u32, i2: u32)
    ensures HashKeyWritten(Form(FormId(i1, -1))) == HashKeyWritten(Form(FormId(i2, -1)))
  {
    PackWrittenNegative(i1, -1);
    PackWrittenNegative(i2, -1);
  }

  /** The hash key with the corrected packing. */
  function HashKey(r: RefId): (k: Option<u64>)
    requires !r.Str?
    ensures r.Empty? <==> k.None?
  {
    match r
    case Empty => None
    case Form(f) => Some(PackLow(f.index, f.contentFile))
    case Generated(n) => Some(n)
    case Index(t, v) => Some(PackLow(t, v))
    case ExteriorCell(x, y) => Some(PackLow(x, y))
  }

  /** With the corrected packing, values of one variant share a key only when equal. */
  lemma HashKeyInjective(a: RefId, b: RefId)
    requires !a.Str? && !b.Str? && TypeOf(a) == TypeOf(b)
    requires HashKey(a) == HashKey(b)
    ensures a == b
  {
    match a
    case Form(f) => PairKeyInjective(f.index, f.contentFile, b.id.index, b.id.contentFile);
    case Index(t, v) => PackLowInjective(t, v, b.recordType, b.indexValue);
    case ExteriorCell(x, y) => PairKeyInjective(x, y, b.x, b.y);
    case _ =>
  }

  lemma PairKeyInjective(h1: int, l1: i32, h2: int, l2: i32)
    requires -0x8000_0000 <= h1 < TWO_32 && -0x8000_0000 <= h2 < TWO_32
    requires (0 <= h1 < TWO_32 && 0 <= h2 < TWO_32) || (h1 < 0x8000_0000 && h2 < 0x8000_0000)
    requires PackLow(h1, l1) == PackLow(h2, l2)
    ensures h1 == h2 && l1 == l2
  {
    PackLowInjective(h1, l1, h2, l2);
    SignedFromPattern(l1, l2);
  }

  lemma SignedFromPattern(a: i32, b: i32)
    requires a % TWO_32 == b % TWO_32
    ensures a == b
  {
  }

  // Display forms.

  /** How far below -1 a negative content file lies: 0 for -1. */
  function Unset(contentFile: i32): nat
    requires contentFile < 0
  {
    -(contentFile as int) - 1
  }

  /** The display form of a form identifier: `0x` and the hex of
      `index | contentFile << 24` for a loaded content file (whose index must
      then fit in 24 bits), otherwise `@0x` and the hex of
      `index | (-contentFile - 1) << 32`. */
  function FormIdText(f: FormId): (r: Result<string, Error>)
    ensures r.Failure? <==> f.contentFile >= 0 && f.index >= 0x100_0000
    ensures r.Success? && f.contentFile >= 0 ==> r.value == "0x" + Hex(f.contentFile * 0x100_0000 + f.index)
    ensures r.Success? && f.contentFile < 0 ==> r.value == "@0x" + Hex(Unset(f.contentFile) * TWO_32 + f.index)
  {
    Pow2Values();
    if f.contentFile >= 0 then
      // index & 0xff000000 is nonzero exactly when the index needs more than 24 bits
      if f.index >= 0x100_0000 then Failure(InvalidFormIdIndex)
      else
        OrDisjoint(f.contentFile, f.index, 24);
        Success("0x" + Hex(Or(f.contentFile * Pow2(24), f.index)))
    else
      OrDisjoint(Unset(f.contentFile), f.index, 32);
      Success("@0x" + Hex(Or(Unset(f.contentFile) * Pow2(32), f.index)))
  }

  lemma Split24(c: nat, i: nat)
    requires i < 0x100_0000
    ensures (c * 0x100_0000 + i) / 0x100_0000 == c && (c * 0x100_0000 + i) % 0x100_0000 == i
  {
  }

  lemma Split32(c: nat, i: nat)
    requires i < TWO_32
    ensures (c * TWO_32 + i) / TWO_32 == c && (c * TWO_32 + i) % TWO_32 == i
  {
  }

  /** The display form of a form identifier names it uniquely. */
  lemma FormIdTextInjective(f: FormId, g: FormId)
    requires FormIdText(f).Success? && FormIdText(f) == FormIdText(g)
    ensures f == g
  {
    var s := FormIdText(f).value;
    assert (f.contentFile < 0) == (s[0] == '@');
    assert (g.contentFile < 0) == (s[0] == '@');
    if f.contentFile >= 0 {
      LoadedTextInjective(f, g);
    } else {
      UnsetTextInjective(f, g);
    }
  }

  lemma LoadedTextInjective(f: FormId, g: FormId)
    requires f.contentFile >= 0 && g.contentFile >= 0
    requires FormIdText(f).Success? && FormIdText(f) == FormIdText(g)
    ensures f == g
  {
    var s := FormIdText(f).value;
    var vf, vg := f.contentFile * 0x100_0000 + f.index, g.contentFile * 0x100_0000 + g.index;
    assert s[2..] == Hex(vf) && s[2..] == Hex(vg);
    NatToStringInjective(vf, vg, 16);
    Split24(f.contentFile, f.index);
    Split24(g.contentFile, g.index);
  }

  lemma UnsetTextInjective(f: FormId, g: FormId)
    requires f.contentFile < 0 && g.contentFile < 0
    requires FormIdText(f) == FormIdText(g)
    ensures f == g
  {
    var s := FormIdText(f).value;
    var vf, vg := Unset(f.contentFile) * TWO_32 + f.index, Unset(g.contentFile) * TWO_32 + g.index;
    assert s[3..] == Hex(vf) && s[3..] == Hex(vg);
    NatToStringInjective(vf, vg, 16);
    Split32(Unset(f.contentFile), f.index);
    Split32(Unset(g.contentFile), g.index);
  }

  /** `ToString` of each variant; only a form identifier can fail. */
  function ToText(r: RefId): (s: Result<string, Error>)
    ensures r.Empty? ==> s == Success("")
    ensures r.Str? ==> s == Success(r.value)
    ensures s.Failure? <==> r.Form? && FormIdText(r.id).Failure?
  {
    match r
    case Empty => Success("")
    case Str(v) => Success(v)
    case Form(f) => FormIdText(f)
    case Generated(n) => Success("0x" + Hex(n))
    case Index(t, v) => Success(ToMagic(t) + ":0x" + Hex(v))
    case ExteriorCell(x, y) => Success("#" + Decimal(x) + " " + Decimal(y))
  }

  /** The position of the first space, or the length when there is none. */
  function FirstSpace(s: string): (n: nat)
    ensures n <= |s|
  {
    if |s| == 0 || s[0] == ' ' then 0 else 1 + FirstSpace(s[1..])
  }

  lemma {:induction false} FirstSpaceOf(a: string, b: string)
    requires ' ' !in a
    ensures FirstSpace(a + " " + b) == |a|
  {
    if |a| > 0 {
      assert (a + " " + b)[1..] == a[1..] + " " + b;
      assert a[0] in a;
      FirstSpaceOf(a[1..], b);
    }
  }

  lemma SplitAtSpace(a: string, b: string, c: string, d: string)
    requires ' ' !in a && ' ' !in c
    requires a + " " + b == c + " " + d
    ensures a == c && b == d
  {
    FirstSpaceOf(a, b);
    FirstSpaceOf(c, d);
    assert a == (a + " " + b)[..|a|];
    assert c == (c + " " + d)[..|c|];
    assert b == (a + " " + b)[|a| + 1..];
    assert d == (c + " " + d)[|c| + 1..];
  }

  lemma DecimalHasNoSpace(x: int)
    ensures ' ' !in Decimal(x)
  {
    var m: nat := if x < 0 then -x else x;
    NatToStringRoundTrip(m, 10);
  }

  /** The `#x y` form names an exterior cell uniquely. */
  lemma ExteriorCellTextInjective(x1: i32, y1: i32, x2: i32, y2: i32)
    requires ToText(ExteriorCell(x1, y1)) == ToText(ExteriorCell(x2, y2))
    ensures x1 == x2 && y1 == y2
  {
    ExteriorCellForm(x1, y1);
    ExteriorCellForm(x2, y2);
    DropFirst("#", Decimal(x1) + " " + Decimal(y1), Decimal(x2) + " " + Decimal(y2));
    DecimalHasNoSpace(x1);
    DecimalHasNoSpace(x2);
    SplitAtSpace(Decimal(x1), Decimal(y1), Decimal(x2), Decimal(y2));
    DecimalInjective(x1, x2);
    DecimalInjective(y1, y2);
  }

  lemma ExteriorCellForm(x: i32, y: i32)
    ensures ToText(ExteriorCell(x, y)) == Success("#" + (Decimal(x) + " " + Decimal(y)))
  {
    assert "#" + Decimal(x) + " " + Decimal(y) == "#" + (Decimal(x) + " " + Decimal(y));
  }

  lemma DropFirst(p: string, a: string, b: string)
    requires p + a == p + b
    ensures a == b
  {
    assert a == (p + a)[|p|..];
    assert b == (p + b)[|p|..];
  }

  /** The `TAG:0xhex` form names an index identifier uniquely when the tag is ASCII. */
  lemma IndexTextInjective(t1: Tag, v1: u32, t2: Tag, v2: u32)
    requires IsAsciiTag(t1) && IsAsciiTag(t2)
    requires ToText(Index(t1, v1)) == ToText(Index(t2, v2))
    ensures t1 == t2 && v1 == v2
  {
    var s1 := ToMagic(t1) + ":0x" + Hex(v1);
    var s2 := ToMagic(t2) + ":0x" + Hex(v2);
    assert ToMagic(t1) == s1[..4] && ToMagic(t2) == s2[..4];
    assert Hex(v1) == s1[7..] && Hex(v2) == s2[7..];
    MagicRoundTrip(t1);
    MagicRoundTrip(t2);
    NatToStringInjective(v1, v2, 16);
  }

  /** The hex form names a generated identifier uniquely. */
  lemma GeneratedTextInjective(n1: u64, n2: u64)
    requires ToText(Generated(n1)) == ToText(Generated(n2))
    ensures n1 == n2
  {
    assert Hex(n1) == ToText(Generated(n1)).value[2..];
    assert Hex(n2) == ToText(Generated(n2)).value[2..];
    NatToStringInjective(n1, n2, 16);
  }
}

=== FILE: region.dfy ===
/** Regions (`REGN`): the weather probabilities, the map colour, the
    creature list used while sleeping, and the ambient sounds. */
module Regions {
  import opened Bytes
  import opened Wrappers
  import opened Errors
  import opened Tags
  import opened RefIds
  import opened FormatVersions
  import opened EsmReader
  import opened RoundTrip
  import W = EsmWriter

  /** An ambient sound and its chance of playing. */
  datatype Sound = Sound(sound: RefId, chance: byte)

  /** The weather holds ten probabilities: clear, cloudy, foggy, overcast,
      rain, thunder, ash, blight, snow and blizzard. A null name or
      identifier is None; a null string is the empty string. */
  datatype Region = Region(
    flags: u32, id: Option<RefId>, name: string, sleepList: Option<RefId>,
    weather: seq<byte>, mapColor: i32, sounds: seq<Sound>)

  const NEW_REGION: Region := Region(0, None, "", None, Zeros(10), 0, [])

  /** Files before the cold-weather entries hold eight probabilities. */
  const OLD_WEATHER_SIZE := 8
  const WEATHER_SIZE := 10

  /** The probabilities an eight- or ten-byte `WEAT` payload stands for:
      snow and blizzard are zero when the payload leaves them out. */
  function Weather(b: seq<byte>): (w: seq<byte>)
    requires |b| == OLD_WEATHER_SIZE || |b| == WEATHER_SIZE
    ensures |w| == WEATHER_SIZE && w[..|b|] == b
    ensures |b| == OLD_WEATHER_SIZE ==> w[8] == 0 && w[9] == 0
  {
    if |b| == WEATHER_SIZE then b else b + [0, 0]
  }

  /** `WEAT`: ten bytes, or eight in the older layout; any other size fails. */
  function WeatherField(r1: Reader, reg: Region): (res: Result<Step<Region>, Error>)
    ensures res.Success? ==> Consumed(r1, res.value.r)
    ensures res.Success? ==> GetSubHeader(r1).Success?
    ensures GetSubHeader(r1).Success? && GetSubHeader(r1).value.ctx.leftSub !in {8, 10} ==>
              res == Failure(InvalidValue(WEAT, GetSubHeader(r1).value.ctx.leftSub))
    ensures res.Success? ==> var h := GetSubHeader(r1).value;
              h.ctx.leftSub in {8, 10} && h.pos + h.ctx.leftSub <= |h.data|
              && res.value.v == reg.(weather := Weather(h.data[h.pos..h.pos + h.ctx.leftSub]))
              && res.value.r.pos == h.pos + h.ctx.leftSub
  {
    var h :- GetSubHeader(r1);
    var size := h.ctx.leftSub;
    if size == WEATHER_SIZE || size == OLD_WEATHER_SIZE then
      var b :- ReadExact(h, size);
      Success(Step(b.r, reg.(weather := Weather(b.v))))
    else Failure(InvalidValue(WEAT, size))
  }

  /** `SNAM`: a sound identifier, stored as a 32-byte string in older files,
      then its chance; each is appended to the list. */
  function SoundField(r1: Reader, reg: Region): (res: Result<Step<Region>, Error>)
    ensures res.Success? ==> Consumed(r1, res.value.r)
    ensures res.Success? ==> |res.value.v.sounds| == |reg.sounds| + 1 && res.value.v.sounds[..|reg.sounds|] == reg.sounds
                             && res.value.v == reg.(sounds := res.value.v.sounds)
    ensures res.Success? ==> GetSubHeader(r1).Success?
    ensures res.Success? ==> var h := GetSubHeader(r1).value;
              GetMaybeFixedRefIdSize(h, 32).Success?
              && res.value.v.sounds[|reg.sounds|].sound == GetMaybeFixedRefIdSize(h, 32).value.v
  {
    var h :- GetSubHeader(r1);
    var s :- GetMaybeFixedRefIdSize(h, 32);
    var c :- ReadU8(s.r);
    Success(Step(c.r, reg.(sounds := reg.sounds + [Sound(s.v, c.v)])))
  }

  /** `CNAM`: the map colour, read without checking the size. */
  function ColorField(r1: Reader, reg: Region): (res: Result<Step<Region>, Error>)
    ensures res.Success? ==> Consumed(r1, res.value.r) && GetSubHeader(r1).Success?
    ensures res.Success? ==> var h := GetSubHeader(r1).value;
              ReadI32(h).Success? && res.value.r.pos == h.pos + 4 && res.value.v == reg.(mapColor := ReadI32(h).value.v)
  {
    var h :- GetSubHeader(r1);
    var c :- ReadI32(h);
    Success(Step(c.r, reg.(mapColor := c.v)))
  }

  function IdField(r1: Reader, reg: Region): (res: Result<Step<Region>, Error>)
    requires r1.ctx.subName in {NAME, BNAM}
    ensures res.Success? ==> Consumed(r1, res.value.r) && GetRefId(r1).Success?
    ensures res.Success? && r1.ctx.subName == NAME ==> res.value.v == reg.(id := Some(GetRefId(r1).value.v))
    ensures res.Success? && r1.ctx.subName == BNAM ==> res.value.v == reg.(sleepList := Some(GetRefId(r1).value.v))
  {
    var x :- GetRefId(r1);
    Success(Step(x.r, if r1.ctx.subName == NAME then reg.(id := Some(x.v)) else reg.(sleepList := Some(x.v))))
  }

  function NameField(r1: Reader, reg: Region): (res: Result<Step<Region>, Error>)
    ensures res.Success? ==> Consumed(r1, res.value.r) && GetHString(r1).Success?
    ensures res.Success? ==> res.value.v == reg.(name := GetHString(r1).value.v)
  {
    var s :- GetHString(r1);
    Success(Step(s.r, reg.(name := s.v)))
  }

  /** The loop state: the region so far, whether `NAME` was seen, and the
      deleted mark. */
  datatype Scan = Scan(region: Region, hasName: bool, deleted: bool)

  lemma TagsDistinct()
    ensures NAME != FNAM && NAME != WEAT && NAME != BNAM && NAME != CNAM && NAME != SNAM && NAME != DELE
    ensures FNAM != WEAT && FNAM != BNAM && FNAM != CNAM && FNAM != SNAM && FNAM != DELE
    ensures WEAT != BNAM && WEAT != CNAM && WEAT != SNAM && WEAT != DELE
    ensures BNAM != CNAM && BNAM != SNAM && BNAM != DELE && CNAM != SNAM && CNAM != DELE && SNAM != DELE
  {
  }

  /** One sub-record; only `NAME` marks the name as seen, and an unknown
      name fails. */
  function Field(r1: Reader, sc: Scan): (res: Result<Step<Scan>, Error>)
    ensures res.Success? ==> Consumed(r1, res.value.r)
    ensures res.Success? ==> (res.value.v.hasName <==> sc.hasName || r1.ctx.subName == NAME)
    ensures res.Success? ==> (res.value.v.deleted <==> sc.deleted || r1.ctx.subName == DELE)
    ensures res.Success? && r1.ctx.subName != SNAM ==> res.value.v.region.sounds == sc.region.sounds
    ensures res.Success? ==> sc.region.sounds <= res.value.v.region.sounds
    ensures r1.ctx.subName == NAME ==> res.Success? == IdField(r1, sc.region).Success?
    ensures r1.ctx.subName == WEAT ==> res.Success? == WeatherField(r1, sc.region).Success?
    ensures r1.ctx.subName == WEAT && res.Success? ==> res.value.v.region == WeatherField(r1, sc.region).value.v
    ensures r1.ctx.subName !in {NAME, FNAM, WEAT, BNAM, CNAM, SNAM, DELE} ==>
              res == Failure(UnknownSubrecord(r1.ctx.subName))
  {
    TagsDistinct();
    var t := r1.ctx.subName;
    if t == NAME || t == BNAM then
      var f :- IdField(r1, sc.region);
      Success(Step(f.r, sc.(region := f.v, hasName := sc.hasName || t == NAME)))
    else if t == FNAM then
      var f :- NameField(r1, sc.region);
      Success(Step(f.r, sc.(region := f.v)))
    else if t == WEAT then
      var f :- WeatherField(r1, sc.region);
      Success(Step(f.r, sc.(region := f.v)))
    else if t == CNAM then
      var f :- ColorField(r1, sc.region);
      Success(Step(f.r, sc.(region := f.v)))
    else if t == SNAM then
      var f :- SoundField(r1, sc.region);
      Success(Step(f.r, sc.(region := f.v)))
    else if t == DELE then
      var r2 :- SkipHSub(r1);
      Success(Step(r2, sc.(deleted := true)))
    else Failure(UnknownSubrecord(t))
  }

  function LoadFields(r: Reader, sc: Scan): (res: Result<Step<Scan>, Error>)
    ensures res.Success? ==> InRecord(r, res.value.r) && res.value.r.ctx.leftRec <= 0
    ensures res.Success? ==> (sc.hasName ==> res.value.v.hasName) && (sc.deleted ==> res.value.v.deleted)
    ensures res.Success? ==> sc.region.sounds <= res.value.v.region.sounds
    ensures !HasMoreSubs(r) ==> res == Success(Step(r, sc))
    decreases r.ctx.leftRec
  {
    if !HasMoreSubs(r) then Success(Step(r, sc))
    else
      var r1 :- GetSubName(r);
      var f :- Field(r1, sc);
      LoadFields(f.r, f.v)
  }

  /** `Load`: the sound list is cleared first, the other fields are
      overwritten only by the sub-records present, and a record without
      `NAME` fails. */
  function Load(r: Reader, reg: Region): (res: Result<Step<(Region, bool)>, Error>)
    ensures res.Success? ==> InRecord(r, res.value.r) && res.value.r.ctx.leftRec <= 0
    ensures var body := LoadFields(r, Scan(reg.(flags := r.recordFlags, sounds := []), false, false));
            (res.Success? <==> body.Success? && body.value.v.hasName)
            && (body.Success? && !body.value.v.hasName ==> res == Failure(MissingSubrecord(NAME)))
            && (res.Success? ==> res.value.v == (body.value.v.region, body.value.v.deleted))
  {
    var body :- LoadFields(r, Scan(reg.(flags := r.recordFlags, sounds := []), false, false));
    if !body.v.hasName then Failure(MissingSubrecord(NAME))
    else Success(Step(body.r, (body.v.region, body.v.deleted)))
  }

  // Round trips.

  /** The weather as either layout writes it reads back, padded with zeros. */
  lemma WeatherRoundTrip(r1: Reader, reg: Region, b: seq<byte>)
    requires |b| == OLD_WEATHER_SIZE || |b| == WEATHER_SIZE
    requires At(r1, LE32(|b|) + b) && r1.ctx.leftRec >= 4 + |b|
    ensures WeatherField(r1, reg).Success?
    ensures WeatherField(r1, reg).value.v == reg.(weather := Weather(b))
    ensures WeatherField(r1, reg).value.r.pos == r1.pos + 4 + |b|
  {
    SizeAt(r1, b);
  }

  /** A weather payload of any other size is rejected, whatever its bytes. */
  lemma WeatherSizeRejected(r1: Reader, reg: Region, b: seq<byte>)
    requires |b| < TWO_32 && |b| != OLD_WEATHER_SIZE && |b| != WEATHER_SIZE
    requires At(r1, LE32(|b|) + b) && r1.ctx.leftRec >= 4 + |b|
    ensures WeatherField(r1, reg) == Failure(InvalidValue(WEAT, |b|))
  {
    SizeAt(r1, b);
  }

  /** A record that holds only the deleted marker has no name and fails. */
  lemma DeletedOnlyFails(r: Reader, reg: Region)
    requires At(r, W.SubRecordBytes(DELE, Zeros(4)))
    requires !r.ctx.subCached && r.ctx.leftRec == 12
    ensures Load(r, reg) == Failure(MissingSubrecord(NAME))
  {
    SubRecordRoundTrip(r, DELE, Zeros(4));
    var sc := Scan(reg.(flags := r.recordFlags, sounds := []), false, false);
    var r1 := GetSubName(r).value;
    var f := Field(r1, sc).value;
    assert !HasMoreSubs(f.r);
  }

  /** A record that holds only its identifier loads as that identifier with
      the previous sound list gone and every other field kept. */
  lemma NameOnlyClearsSounds(r: Reader, reg: Region, x: RefId)
    requires r.version > MAX_STRING_REF_ID_FORMAT_VERSION && r.mapping.None? && Canonical(x)
    requires At(r, W.SubRecordBytes(NAME, W.RefIdWire(x, false)))
    requires !r.ctx.subCached && r.ctx.leftRec == 8 + |W.RefIdWire(x, false)|
    ensures Load(r, reg).Success?
    ensures Load(r, reg).value.v == (reg.(flags := r.recordFlags, id := Some(x), sounds := []), false)
  {
    HNRefIdStep(r, NAME, x);
    var sc := Scan(reg.(flags := r.recordFlags, sounds := []), false, false);
    var r1 := GetSubName(r).value;
    assert GetRefId(r1) == GetHNRefId(r, NAME);
    var f := Field(r1, sc).value;
    assert !HasMoreSubs(f.r);
  }
}

=== FILE: roundtrip.dfy ===
/** What the writer emits, the reader reads back: record framing,
    sub-record framing, strings, fixed-width values and reference identifiers. */
module RoundTrip {
  import opened Bytes
  import opened Wrappers
  import opened Tags
  import opened Text
  import opened RefIds
  import opened FormatVersions
  import opened EsmReader
  import W = EsmWriter

  /** The bytes at the cursor start with `b`. */
  predicate At(r: Reader, b: seq<byte>)
  {
    r.pos + |b| <= |r.data| && r.data[r.pos..r.pos + |b|] == b
  }

  lemma AtSplit(r: Reader, a: seq<byte>, b: seq<byte>)
    requires At(r, a + b)
    ensures At(r, a) && At(r.(pos := r.pos + |a|), b)
  {
    assert r.data[r.pos..r.pos + |a|] == (a + b)[..|a|];
    assert r.data[r.pos + |a|..r.pos + |a| + |b|] == (a + b)[|a|..];
  }

  /** Only the bytes and the position matter. */
  lemma AtMoved(r: Reader, r2: Reader, b: seq<byte>)
    requires At(r, b) && r2.data == r.data && r2.pos == r.pos
    ensures At(r2, b)
  {
  }

  /** A sub-record's size field followed by its payload, read after the
      name: the size is the payload's length and the payload follows. */
  lemma SizeAt(r1: Reader, p: seq<byte>)
    requires |p| < TWO_32 && At(r1, LE32(|p|) + p) && r1.ctx.leftRec >= 4 + |p|
    ensures GetSubHeader(r1).Success?
    ensures var h := GetSubHeader(r1).value;
            h.ctx.leftSub == |p| && h.pos == r1.pos + 4 && h.ctx.leftRec == r1.ctx.leftRec - 4 - |p| && At(h, p)
  {
    AtSplit(r1, LE32(|p|), p);
    AtU32(r1, |p|);
  }

  lemma AtU32(r: Reader, v: u32)
    requires At(r, LE32(v))
    ensures ReadU32(r) == Success(Step(r.(pos := r.pos + 4), v))
  {
    U32RoundTrip(v);
  }

  /** A string with no nul and only single-byte characters: the strings the
      text encoding carries unchanged. */
  predicate PlainText(s: string)
  {
    Representable(s) && forall i :: 0 <= i < |s| ==> s[i] != 0 as char
  }

  lemma PlainTextRecovered(s: string, pad: nat)
    requires PlainText(s)
    ensures DecodeText(TakeUntilNul(EncodeText(s) + Zeros(pad))) == s
  {
    var e := EncodeText(s);
    assert forall i :: 0 <= i < |e| ==> e[i] != 0;
    TakeUntilNulPadded(e, pad);
    DecodeEncode(s);
  }

  // Records.

  /** The rest of a record header: size, unused word, flags. */
  lemma RecHeaderRoundTrip(r: Reader, flags: u32, body: seq<byte>)
    requires |body| < TWO_32 && r.ctx.leftRec <= 0 && r.ctx.leftFile >= 12 + |body|
    requires At(r, LE32(|body|) + LE32(0) + LE32(flags) + body)
    ensures GetRecHeader(r).Success?
    ensures var h := GetRecHeader(r).value;
            h.pos == r.pos + 12 && h.ctx.leftRec == |body| && h.recordFlags == flags
            && h.ctx.leftFile == r.ctx.leftFile - 12 - |body| && At(h, body)
  {
    AtSplit(r, LE32(|body|) + LE32(0) + LE32(flags), body);
    AtSplit(r, LE32(|body|) + LE32(0), LE32(flags));
    AtSplit(r, LE32(|body|), LE32(0));
    AtU32(r, |body|);
    AtU32(r.(pos := r.pos + 4), 0);
    AtU32(r.(pos := r.pos + 8), flags);
  }

  /** Dropping the first of five parts. */
  lemma AtDropFirst(r: Reader, a: seq<byte>, b: seq<byte>, c: seq<byte>, d: seq<byte>, e: seq<byte>)
    requires At(r, a + b + c + d + e)
    ensures At(r, a) && At(r.(pos := r.pos + |a|), b + c + d + e)
  {
    assert a + b + c + d + e == a + (b + c + d + e);
    AtSplit(r, a, b + c + d + e);
  }

  /** A record header as the writer frames it reads back as the record's
      name, its body size and its flags, with the body's bytes taken out of
      the file counter. */
  lemma RecordHeaderRoundTrip(r: Reader, name: Tag, flags: u32, body: seq<byte>)
    requires At(r, W.RecordBytes(name, flags, body))
    requires r.ctx.leftRec == 0 && |body| < TWO_32 && r.ctx.leftFile >= 16 + |body|
    ensures GetRecordName(r).Success? && GetRecordName(r).value.v == name
    ensures var r1 := GetRecordName(r).value.r;
            GetRecHeader(r1).Success?
            && GetRecHeader(r1).value.pos == r.pos + 16
            && GetRecHeader(r1).value.ctx.leftRec == |body|
            && GetRecHeader(r1).value.recordFlags == flags
            && GetRecHeader(r1).value.ctx.leftFile == r.ctx.leftFile - 16 - |body|
            && At(GetRecHeader(r1).value, body)
  {
    assert |body| % TWO_32 == |body|;
    AtDropFirst(r, LE32(name), LE32(|body|), LE32(0), LE32(flags), body);
    AtU32(r, name);
    var r1 := GetRecordName(r).value.r;
    assert r1.pos == r.pos + 4;
    RecHeaderRoundTrip(r1, flags, body);
  }

  // Sub-records.

  /** A sub-record as the writer frames it: the expected name is accepted,
      the size is the payload's length and the payload follows. */
  lemma SubRecordRoundTrip(r: Reader, name: Tag, p: seq<byte>)
    requires At(r, W.SubRecordBytes(name, p))
    requires !r.ctx.subCached && |p| < TWO_32 && r.ctx.leftRec >= 8 + |p|
    ensures GetSubNameIs(r, name).Success?
    ensures var h := GetSubHeader(GetSubNameIs(r, name).value);
            h.Success? && h.value.pos == r.pos + 8 && h.value.ctx.leftSub == |p|
            && h.value.ctx.leftRec == r.ctx.leftRec - 8 - |p| && At(h.value, p)
            && h.value.ctx.leftFile == r.ctx.leftFile && SameFile(r, h.value) && !h.value.ctx.subCached
            && h.value.recordFlags == r.recordFlags && h.value.ctx.recName == r.ctx.recName
  {
    assert |p| % TWO_32 == |p|;
    AtSplit(r, LE32(name) + LE32(|p|), p);
    AtSplit(r, LE32(name), LE32(|p|));
    AtU32(r, name);
    var r1 := GetSubNameIs(r, name).value;
    AtU32(r1, |p|);
  }

  /** Reading a payload that is all there, up to `n` bytes. */
  lemma AheadAt(r: Reader, p: seq<byte>)
    requires At(r, p)
    ensures Ahead(r, |p|) == p
  {
  }

  /** A string written as a named sub-record, unpadded or padded to a fixed
      width, reads back as the same string in every format version. */
  lemma HNStringRoundTrip(r: Reader, name: Tag, s: string, size: int)
    requires PlainText(s) && 0 <= size < 0x8000_0000 && (size == 0 ==> |s| < 0x8000_0000) && (size > 0 ==> |s| <= size)
    requires At(r, W.SubRecordBytes(name, W.HStringBytes(s, size)))
    requires !r.ctx.subCached && r.ctx.leftRec >= 8 + |W.HStringBytes(s, size)|
    ensures GetHNString(r, name).Success?
    ensures GetHNString(r, name).value.v == s
    ensures var r2 := GetHNString(r, name).value.r;
            r2.pos == r.pos + 8 + |W.HStringBytes(s, size)| && r2.ctx.leftRec == r.ctx.leftRec - 8 - |W.HStringBytes(s, size)|
  {
    var p := W.HStringBytes(s, size);
    SubRecordRoundTrip(r, name, p);
    var r1 := GetSubNameIs(r, name).value;
    var h := GetSubHeader(r1).value;
    assert h.ctx.leftSub == |p| >= 1;
    AheadAt(h, p);
    if s == "" && size == 0 {
      assert p == [0];
      assert TakeUntilNul(p) == [];
    } else if size > 0 {
      assert p == EncodeText(s) + Zeros(size - |s|);
      PlainTextRecovered(s, size - |s|);
    } else {
      assert p == EncodeText(s) + Zeros(0);
      PlainTextRecovered(s, 0);
    }
    assert GetString(h, h.ctx.leftSub).Success?;
  }

  /** A nul-terminated string reads back as the same string. */
  lemma HNCStringRoundTrip(r: Reader, name: Tag, s: string)
    requires PlainText(s) && |s| < 0x7FFF_FFFF
    requires At(r, W.SubRecordBytes(name, EncodeText(s) + [0]))
    requires !r.ctx.subCached && r.ctx.leftRec >= 9 + |s|
    ensures GetHNString(r, name).Success?
    ensures GetHNString(r, name).value.v == s
  {
    var p := EncodeText(s) + [0];
    SubRecordRoundTrip(r, name, p);
    var h := GetSubHeader(GetSubNameIs(r, name).value).value;
    AheadAt(h, p);
    assert p == EncodeText(s) + Zeros(1);
    PlainTextRecovered(s, 1);
  }

  /** A 32-bit value written as a named sub-record reads back unchanged. */
  lemma HNU32RoundTrip(r: Reader, name: Tag, v: u32)
    requires At(r, W.SubRecordBytes(name, LE32(v)))
    requires !r.ctx.subCached && r.ctx.leftRec >= 12
    ensures GetHNU32(r, name).Success? && GetHNU32(r, name).value.v == v
    ensures GetHNU32(r, name).value.r.pos == r.pos + 12
    ensures GetHNU32(r, name).value.r.ctx.leftRec == r.ctx.leftRec - 12
  {
    SubRecordRoundTrip(r, name, LE32(v));
    var h := GetSubHeader(GetSubNameIs(r, name).value).value;
    AtU32(h, v);
  }

  // Reference identifiers.

  /** The identifiers whose tagged form reads back as themselves when no
      content-file mapping is installed: a string identifier needs plain
      text, and a form identifier must name a loaded content file and not
      be the zero identifier. */
  predicate Canonical(x: RefId)
  {
    match x
    case Str(v) => v != "" && PlainText(v) && |v| < 0x7FFF_FFFF
    case Form(f) => HasContentFile(f) && !IsZeroOrUnset(f)
    case _ => true
  }

  lemma AtI32(r: Reader, v: i32)
    requires At(r, LE32(U32OfI32(v)))
    ensures ReadI32(r) == Success(Step(r.(pos := r.pos + 4), v))
  {
    AtU32(r, U32OfI32(v));
    SignedRoundTrips(U32OfI32(v), v, 0, 0);
  }

  lemma AtU64(r: Reader, v: u64)
    requires At(r, LE64(v))
    ensures ReadU64(r) == Success(Step(r.(pos := r.pos + 8), v))
  {
    U64RoundTrip(v);
  }

  /** A leading byte reads back, and the rest follows it. */
  lemma AtByte(r: Reader, x: byte, rest: seq<byte>)
    requires At(r, [x] + rest)
    ensures ReadU8(r) == Success(Step(r.(pos := r.pos + 1), x))
    ensures At(r.(pos := r.pos + 1), rest)
  {
    AtSplit(r, [x], rest);
    assert r.data[r.pos] == r.data[r.pos..r.pos + 1][0];
  }

  /** Once the type byte is known, the decoder reads the payload after it. */
  lemma ImplAfterType(r: Reader, k: RefIdType, size: u32)
    requires ReadU8(r) == Success(Step(r.(pos := r.pos + 1), TypeByte(k)))
    ensures GetRefIdImpl(r, size) == GetRefIdPayload(r.(pos := r.pos + 1), k, size)
  {
    TypeByteRoundTrip(k);
  }

  lemma FormPayloadRoundTrip(r: Reader, f: FormId, size: u32)
    requires r.mapping.None? && HasContentFile(f) && !IsZeroOrUnset(f)
    requires At(r, LE32(f.index) + LE32(U32OfI32(f.contentFile)))
    ensures GetRefIdPayload(r, FormIdType, size) == Success(Step(r.(pos := r.pos + 8), Form(f)))
  {
    AtSplit(r, LE32(f.index), LE32(U32OfI32(f.contentFile)));
    AtU32(r, f.index);
    AtI32(r.(pos := r.pos + 4), f.contentFile);
  }

  lemma IndexPayloadRoundTrip(r: Reader, t: Tag, v: u32, size: u32)
    requires At(r, LE32(t) + LE32(v))
    ensures GetRefIdPayload(r, IndexType, size) == Success(Step(r.(pos := r.pos + 8), Index(t, v)))
  {
    AtSplit(r, LE32(t), LE32(v));
    AtU32(r, t);
    SignedRoundTrips(t, 0, 0, 0);
    AtU32(r.(pos := r.pos + 4), v);
  }

  lemma CellPayloadRoundTrip(r: Reader, x: i32, y: i32, size: u32)
    requires At(r, LE32(U32OfI32(x)) + LE32(U32OfI32(y)))
    ensures GetRefIdPayload(r, ExteriorCellType, size) == Success(Step(r.(pos := r.pos + 8), ExteriorCell(x, y)))
  {
    AtSplit(r, LE32(U32OfI32(x)), LE32(U32OfI32(y)));
    AtI32(r, x);
    AtI32(r.(pos := r.pos + 4), y);
  }

  lemma GeneratedPayloadRoundTrip(r: Reader, n: u64, size: u32)
    requires At(r, LE64(n))
    ensures GetRefIdPayload(r, GeneratedType, size) == Success(Step(r.(pos := r.pos + 8), Generated(n)))
  {
    AtU64(r, n);
  }

  /** A plain text of `n` bytes read as a string of `n` bytes. */
  lemma TextAt(r: Reader, v: string)
    requires PlainText(v) && |v| < 0x8000_0000
    requires At(r, EncodeText(v))
    ensures GetString(r, |v|) == Success(Step(r.(pos := r.pos + |v|), v))
  {
    AheadAt(r, EncodeText(v));
    assert EncodeText(v) == EncodeText(v) + Zeros(0);
    PlainTextRecovered(v, 0);
  }

  lemma UnsizedPayloadRoundTrip(r: Reader, v: string)
    requires v != "" && PlainText(v) && |v| < 0x7FFF_FFFF
    requires At(r, EncodeText(v))
    ensures GetRefIdPayload(r, UnsizedString, 1 + |v|) == Success(Step(r.(pos := r.pos + |v|), Str(v)))
  {
    TextAt(r, v);
  }

  lemma SizedPayloadRoundTrip(r: Reader, v: string)
    requires v != "" && PlainText(v) && |v| < 0x7FFF_FFFF
    requires At(r, LE32(|v|) + EncodeText(v))
    ensures GetRefIdPayload(r, SizedString, 5 + |v|) == Success(Step(r.(pos := r.pos + 4 + |v|), Str(v)))
  {
    SizedPartsAt(r, v);
    SizedStringOf(r, v);
    SizedPayloadIs(r, 5 + |v|);
  }

  lemma SizedPartsAt(r: Reader, v: string)
    requires PlainText(v) && |v| < 0x7FFF_FFFF
    requires At(r, LE32(|v|) + EncodeText(v))
    ensures ReadU32(r) == Success(Step(r.(pos := r.pos + 4), |v|))
    ensures GetString(r.(pos := r.pos + 4), |v|) == Success(Step(r.(pos := r.pos + 4 + |v|), v))
  {
    AtSplit(r, LE32(|v|), EncodeText(v));
    AtU32(r, |v|);
    var r4 := r.(pos := r.pos + 4);
    TextAt(r4, v);
    assert r4.(pos := r4.pos + |v|) == r.(pos := r.pos + 4 + |v|);
  }

  lemma SizedPayloadIs(r: Reader, size: u32)
    ensures GetRefIdPayload(r, SizedString, size) == GetSizedStringRefId(r, size)
  {
  }

  lemma SizedStringOf(r: Reader, v: string)
    requires v != "" && |v| < 0x7FFF_FFFF
    requires ReadU32(r) == Success(Step(r.(pos := r.pos + 4), |v|))
    requires GetString(r.(pos := r.pos + 4), |v|) == Success(Step(r.(pos := r.pos + 4 + |v|), v))
    ensures GetSizedStringRefId(r, 5 + |v|) == Success(Step(r.(pos := r.pos + 4 + |v|), Str(v)))
  {
  }

  /** The payload of every canonical identifier's unsized tagged form, with
      the type byte counted in the size, reads back as the identifier. */
  lemma PayloadRoundTrip(r: Reader, x: RefId)
    requires r.mapping.None? && Canonical(x)
    requires At(r, W.RefIdPayload(x, false))
    ensures var p := W.RefIdPayload(x, false);
            GetRefIdPayload(r, W.WireType(x, false), 1 + |p|) == Success(Step(r.(pos := r.pos + |p|), x))
  {
    match x
    case Empty =>
    case Str(v) => UnsizedPayloadRoundTrip(r, v);
    case Form(f) => FormPayloadRoundTrip(r, f, 9);
    case Generated(n) => GeneratedPayloadRoundTrip(r, n, 9);
    case Index(t, v) => IndexPayloadRoundTrip(r, t, v, 9);
    case ExteriorCell(a, b) => CellPayloadRoundTrip(r, a, b, 9);
  }

  /** Every canonical identifier's unsized tagged form, read with its own
      length as the payload size, is the identifier again. */
  lemma {:induction false} RefIdWireRoundTrip(r: Reader, x: RefId)
    requires r.mapping.None? && Canonical(x)
    requires At(r, W.RefIdWire(x, false))
    ensures GetRefIdImpl(r, |W.RefIdWire(x, false)|) == Success(Step(r.(pos := r.pos + |W.RefIdWire(x, false)|), x))
  {
    var k := W.WireType(x, false);
    var p := W.RefIdPayload(x, false);
    assert W.RefIdWire(x, false) == [TypeByte(k)] + p;
    AtByte(r, TypeByte(k), p);
    ImplAfterType(r, k, 1 + |p|);
    var r1 := r.(pos := r.pos + 1);
    PayloadRoundTrip(r1, x);
    assert r1.(pos := r1.pos + |p|) == r.(pos := r.pos + |W.RefIdWire(x, false)|);
  }

  /** The length-prefixed form of a string identifier reads back too. */
  lemma RefIdSizedStringRoundTrip(r: Reader, v: string)
    requires v != "" && PlainText(v) && |v| < 0x7FFF_FFFF
    requires At(r, W.RefIdWire(Str(v), true))
    ensures GetRefIdImpl(r, 5 + |v|) == Success(Step(r.(pos := r.pos + 5 + |v|), Str(v)))
  {
    SizedWireAt(r, v);
    ImplAfterType(r, SizedString, 5 + |v|);
    var r1 := r.(pos := r.pos + 1);
    SizedPayloadRoundTrip(r1, v);
    assert r1.(pos := r1.pos + 4 + |v|) == r.(pos := r.pos + 5 + |v|);
  }

  lemma SizedWireAt(r: Reader, v: string)
    requires |v| < 0x7FFF_FFFF
    requires At(r, W.RefIdWire(Str(v), true))
    ensures ReadU8(r) == Success(Step(r.(pos := r.pos + 1), TypeByte(SizedString)))
    ensures At(r.(pos := r.pos + 1), LE32(|v|) + EncodeText(v))
  {
    var p := LE32(|v|) + EncodeText(v);
    assert |v| % TWO_32 == |v|;
    assert W.RefIdWire(Str(v), true) == [TypeByte(SizedString)] + p;
    AtByte(r, TypeByte(SizedString), p);
  }

  /** A named reference identifier sub-record, from version 24 on, reads back
      as the identifier. */
  lemma HNRefIdRoundTrip(r: Reader, name: Tag, x: RefId)
    requires r.version > MAX_STRING_REF_ID_FORMAT_VERSION && r.mapping.None? && Canonical(x)
    requires At(r, W.SubRecordBytes(name, W.RefIdWire(x, false)))
    requires !r.ctx.subCached && r.ctx.leftRec >= 8 + |W.RefIdWire(x, false)|
    ensures GetHNRefId(r, name).Success? && GetHNRefId(r, name).value.v == x
  {
    var p := W.RefIdWire(x, false);
    assert |p| <= 9 || (x.Str? && |p| == 1 + |x.value|);
    SubRecordRoundTrip(r, name, p);
    var h := GetSubHeader(GetSubNameIs(r, name).value).value;
    RefIdWireRoundTrip(h, x);
  }

  /** The same, with where the cursor ends up: past the sub-record, with
      the record counter charged for all of it. */
  lemma HNRefIdStep(r: Reader, name: Tag, x: RefId)
    requires r.version > MAX_STRING_REF_ID_FORMAT_VERSION && r.mapping.None? && Canonical(x)
    requires At(r, W.SubRecordBytes(name, W.RefIdWire(x, false)))
    requires !r.ctx.subCached && r.ctx.leftRec >= 8 + |W.RefIdWire(x, false)|
    ensures var g := GetHNRefId(r, name);
            g.Success? && g.value.v == x
            && g.value.r.pos == r.pos + 8 + |W.RefIdWire(x, false)|
            && g.value.r.ctx.leftRec == r.ctx.leftRec - 8 - |W.RefIdWire(x, false)|
            && !g.value.r.ctx.subCached && SameFile(r, g.value.r)
            && g.value.r.ctx.leftFile == r.ctx.leftFile && g.value.r.recordFlags == r.recordFlags
  {
    var p := W.RefIdWire(x, false);
    assert |p| <= 9 || (x.Str? && |p| == 1 + |x.value|);
    SubRecordRoundTrip(r, name, p);
    var r1 := GetSubNameIs(r, name).value;
    var h := GetSubHeader(r1).value;
    RefIdWireRoundTrip(h, x);
  }

  /** A 16-bit value written as a named sub-record reads back unchanged. */
  lemma HNU16Step(r: Reader, name: Tag, v: u16)
    requires At(r, W.SubRecordBytes(name, LE16(v)))
    requires !r.ctx.subCached && r.ctx.leftRec >= 10
    ensures var g := GetHNU16(r, name);
            g.Success? && g.value.v == v
            && g.value.r.pos == r.pos + 10 && g.value.r.ctx.leftRec == r.ctx.leftRec - 10
            && !g.value.r.ctx.subCached && SameFile(r, g.value.r)
            && g.value.r.ctx.leftFile == r.ctx.leftFile && g.value.r.recordFlags == r.recordFlags
  {
    SubRecordRoundTrip(r, name, LE16(v));
    var h := GetSubHeader(GetSubNameIs(r, name).value).value;
    U16RoundTrip(v);
  }

  /** Up to version 23 a reference identifier is stored as its text, and a
      string identifier or the empty one reads back as itself. */
  lemma HNRefIdTextRoundTrip(r: Reader, name: Tag, x: RefId)
    requires r.version <= MAX_STRING_REF_ID_FORMAT_VERSION
    requires x.Empty? || (x.Str? && Canonical(x))
    requires At(r, W.SubRecordBytes(name, W.HRefIdBytes(r.version, x).value))
    requires !r.ctx.subCached && r.ctx.leftRec >= 8 + |W.HRefIdBytes(r.version, x).value|
    ensures GetHNRefId(r, name).Success? && GetHNRefId(r, name).value.v == x
  {
    var s := ToText(x).value;
    assert W.HRefIdBytes(r.version, x).value == W.HStringBytes(s, 0);
    HNStringRoundTrip(r, name, s, 0);
    var r1 := GetSubNameIs(r, name).value;
    assert GetHNString(r, name) == GetHString(r1);
  }

  // End to end: a sub-record written into an open record and read back.

  /** A reader over a stream beginning with `pre + b`, positioned after `pre`. */
  lemma PrefixAt(pre: seq<byte>, b: seq<byte>, r: Reader)
    requires pre + b <= r.data && r.pos == |pre|
    ensures At(r, b)
  {
    assert r.data[r.pos..r.pos + |b|] == (pre + b)[|pre|..];
  }

  /** The reader over the bytes a writer produced, positioned where one write began. */
  lemma WrittenAt(before: W.Writer, after: W.Writer, b: seq<byte>, r: Reader)
    requires after == W.Emit(before, b)
    requires after.out <= r.data && r.pos == |before.out|
    ensures At(r, b)
  {
    assert r.data[r.pos..r.pos + |b|] == after.out[|before.out|..];
  }

  /** Whatever `writeHNString` appends, `getHNString` reads back. */
  lemma WriteThenReadHNString(w: W.Writer, name: Tag, s: string, r: Reader)
    requires W.Valid(w) && |w.frames| == 1 && PlainText(s) && |s| < 0x8000_0000
    requires W.WriteHNString(w, name, s, 0).Success?
    requires var out := W.WriteHNString(w, name, s, 0).value.out;
             out <= r.data && r.pos == |w.out|
    requires !r.ctx.subCached && r.ctx.leftRec >= 8 + |W.HStringBytes(s, 0)|
    ensures GetHNString(r, name) .Success? && GetHNString(r, name).value.v == s
  {
    WrittenAt(w, W.WriteHNString(w, name, s, 0).value, W.SubRecordBytes(name, W.HStringBytes(s, 0)), r);
    HNStringRoundTrip(r, name, s, 0);
  }

  /** Whatever `writeHNRefId` appends from version 24 on, `getHNRefId` reads back. */
  lemma WriteThenReadHNRefId(w: W.Writer, name: Tag, x: RefId, r: Reader)
    requires W.Valid(w) && |w.frames| == 1 && Canonical(x) && w.version > MAX_STRING_REF_ID_FORMAT_VERSION
    requires r.version == w.version && r.mapping.None?
    requires W.WriteHNRefId(w, name, x).Success?
    requires var out := W.WriteHNRefId(w, name, x).value.out;
             out <= r.data && r.pos == |w.out|
    requires !r.ctx.subCached && r.ctx.leftRec >= 8 + |W.RefIdWire(x, false)|
    ensures GetHNRefId(r, name).Success? && GetHNRefId(r, name).value.v == x
  {
    WrittenAt(w, W.WriteHNRefId(w, name, x).value, W.SubRecordBytes(name, W.RefIdWire(x, false)), r);
    HNRefIdRoundTrip(r, name, x);
  }
}

=== FILE: skills.dfy ===
/** The skill table and the SKIL record: a skill is named by its position
    in the fixed table of 27 skills, and the record stores that position. */
module Skills {
  import opened Bytes
  import opened Wrappers
  import opened Errors
  import opened Tags
  import opened RefIds
  import opened EsmReader

  /** The skills in index order, each named by a string identifier. */
  const SKILLS: seq<RefId> := [
    Str("Block"), Str("Armorer"), Str("MediumArmor"), Str("HeavyArmor"), Str("BluntWeapon"),
    Str("LongBlade"), Str("Axe"), Str("Spear"), Str("Athletics"), Str("Enchant"),
    Str("Destruction"), Str("Alteration"), Str("Illusion"), Str("Conjuration"), Str("Mysticism"),
    Str("Restoration"), Str("Alchemy"), Str("Unarmored"), Str("Security"), Str("Sneak"),
    Str("Acrobatics"), Str("LightArmor"), Str("ShortBlade"), Str("Marksman"), Str("Mercantile"),
    Str("Speechcraft"), Str("HandToHand")]

  const SKILL_COUNT: nat := 27

  // Searching a table of identifiers.

  /** The first position at or after `from` where `table` holds `id`, or -1. */
  function Find(table: seq<RefId>, id: RefId, from: nat): (i: int)
    ensures -1 <= i < |table|
    ensures i >= 0 ==> from <= i && table[i] == id && forall k :: from <= k < i ==> table[k] != id
    ensures i == -1 <==> forall k :: from <= k < |table| ==> table[k] != id
    decreases |table| - from
  {
    if from >= |table| then -1
    else if table[from] == id then from
    else Find(table, id, from + 1)
  }

  /** A table without repeats gives each entry back its own position. */
  lemma FindDistinct(table: seq<RefId>, i: nat)
    requires i < |table|
    requires forall j, k :: 0 <= j < k < |table| ==> table[j] != table[k]
    ensures Find(table, table[i], 0) == i
  {
  }

  // The skill table.

  /** A number telling the skill names apart: length, first and second
      character. */
  function NameKey(id: RefId): int
  {
    if id.Str? && |id.value| >= 2 then |id.value| * 0x10000 + id.value[0] as int * 0x100 + id.value[1] as int
    else -1
  }

  /** The position in the table of the skill whose name has key `k`. */
  function KeyPosition(k: int): int
  {
    if k == 0x5426C then 0
    else if k == 0x74172 then 1
    else if k == 0xB4D65 then 2
    else if k == 0xA4865 then 3
    else if k == 0xB426C then 4
    else if k == 0x94C6F then 5
    else if k == 0x34178 then 6
    else if k == 0x55370 then 7
    else if k == 0x94174 then 8
    else if k == 0x7456E then 9
    else if k == 0xB4465 then 10
    else if k == 0xA416C then 11
    else if k == 0x8496C then 12
    else if k == 0xB436F then 13
    else if k == 0x94D79 then 14
    else if k == 0xB5265 then 15
    else if k == 0x7416C then 16
    else if k == 0x9556E then 17
    else if k == 0x85365 then 18
    else if k == 0x5536E then 19
    else if k == 0xA4163 then 20
    else if k == 0xA4C69 then 21
    else if k == 0xA5368 then 22
    else if k == 0x84D61 then 23
    else if k == 0xA4D65 then 24
    else if k == 0xB5370 then 25
    else if k == 0xA4861 then 26
    else -1
  }

  lemma SkillKeyOf(i: int)
    requires 0 <= i < |SKILLS|
    ensures KeyPosition(NameKey(SKILLS[i])) == i && SKILLS[i].Str?
  {
  }

  /** No skill appears twice in the table. */
  lemma SkillsDistinct()
    ensures |SKILLS| == SKILL_COUNT
    ensures forall j, k :: 0 <= j < k < |SKILLS| ==> SKILLS[j] != SKILLS[k]
  {
    forall j, k | 0 <= j < k < |SKILLS|
      ensures SKILLS[j] != SKILLS[k]
    {
      SkillKeyOf(j);
      SkillKeyOf(k);
    }
  }

  /** The identifier of skill `index`, or the empty identifier outside the table. */
  function IndexToRefId(index: int): (id: RefId)
    ensures id.Empty? <==> index < 0 || index >= SKILL_COUNT
    ensures !id.Empty? ==> id in SKILLS
  {
    if index < 0 || index >= |SKILLS| then Empty
    else
      SkillKeyOf(index);
      SKILLS[index]
  }

  /** The position of a skill identifier in the table, or -1 when it names no skill. */
  function RefIdToIndex(id: RefId): (i: int)
    ensures -1 <= i < SKILL_COUNT
    ensures i == -1 <==> id !in SKILLS
    ensures i >= 0 ==> SKILLS[i] == id
  {
    Find(SKILLS, id, 0)
  }

  /** The two conversions are inverse on the table: a valid index survives
      the trip through its identifier, and an identifier that names a skill
      survives the trip through its index. */
  lemma IndexRoundTrip(index: int)
    requires 0 <= index < SKILL_COUNT
    ensures RefIdToIndex(IndexToRefId(index)) == index
  {
    SkillsDistinct();
    FindDistinct(SKILLS, index);
  }

  lemma RefIdRoundTrip(id: RefId)
    ensures RefIdToIndex(id) >= 0 <==> id in SKILLS
    ensures id in SKILLS ==> IndexToRefId(RefIdToIndex(id)) == id
  {
  }

  // The SKIL record.

  /** The SKDT block: governing attribute, specialisation and four use
      values (floats, kept as their bit patterns). */
  datatype SkillData = SkillData(attribute: i32, specialization: i32, useValue: seq<u32>)

  datatype Skill = Skill(id: RefId, recordFlags: u32, data: SkillData, description: string)

  /** A skill as the dispatch table creates it. */
  const NEW_SKILL: Skill := Skill(Empty, 0, SkillData(0, 0, [0, 0, 0, 0]), "")

  /** What the sub-record loop has gathered: the fields, the last INDX value
      if one was seen, and whether SKDT was seen. */
  datatype SkillScan = SkillScan(skill: Skill, index: Option<i32>, hasData: bool)

  /** The sub-record loop: INDX, SKDT and DESC in any order and number;
      any other sub-record fails. */
  function LoadSubs(r: Reader, sc: SkillScan): (res: Result<Step<SkillScan>, Error>)
    ensures res.Success? ==> InRecord(r, res.value.r) && res.value.r.ctx.leftRec <= 0
    ensures res.Success? && sc.index.Some? ==> res.value.v.index.Some?
    ensures res.Success? && sc.hasData ==> res.value.v.hasData
    ensures res.Success? ==> res.value.v.skill.id == sc.skill.id && res.value.v.skill.recordFlags == sc.skill.recordFlags
    decreases r.ctx.leftRec
  {
    if !HasMoreSubs(r) then Success(Step(r, sc))
    else
      var r1 :- GetSubName(r);
      var n := r1.ctx.subName;
      if n == INDX then
        var h :- GetSubHeader(r1);
        var v :- ReadI32(h);
        LoadSubs(v.r, sc.(index := Some(v.v)))
      else if n == SKDT then
        var h :- GetSubHeader(r1);
        var a :- ReadI32(h);
        var s :- ReadI32(a.r);
        var u :- ReadF32s(s.r, 4);
        LoadSubs(u.r, sc.(skill := sc.skill.(data := SkillData(a.v, s.v, u.v)), hasData := true))
      else if n == DESC then
        var d :- GetHString(r1);
        LoadSubs(d.r, sc.(skill := sc.skill.(description := d.v)))
      else Failure(UnknownSubrecord(n))
  }

  /** `Skill.Load`: INDX must be present and name a skill, and SKDT must be
      present; the identifier is the skill's table entry. */
  function Load(r: Reader, s: Skill): (res: Result<Step<Skill>, Error>)
    ensures res.Success? ==> InRecord(r, res.value.r) && res.value.r.ctx.leftRec <= 0
    ensures res.Success? ==> res.value.v.id in SKILLS && res.value.v.recordFlags == r.recordFlags
    ensures res.Success? ==>
              var loop := LoadSubs(r, SkillScan(s.(recordFlags := r.recordFlags), None, false));
              loop.Success? && loop.value.v.index.Some? && loop.value.v.hasData
              && RefIdToIndex(res.value.v.id) == loop.value.v.index.value
    ensures var loop := LoadSubs(r, SkillScan(s.(recordFlags := r.recordFlags), None, false));
            res.Success? <==> loop.Success? && loop.value.v.index.Some? && 0 <= loop.value.v.index.value < SKILL_COUNT
                              && loop.value.v.hasData
    ensures var loop := LoadSubs(r, SkillScan(s.(recordFlags := r.recordFlags), None, false));
            loop.Success? ==>
              (loop.value.v.index.None? ==> res == Failure(MissingSubrecord(INDX)))
              && (loop.value.v.index.Some? && !(0 <= loop.value.v.index.value < SKILL_COUNT) ==>
                    res == Failure(InvalidValue(INDX, loop.value.v.index.value)))
              && (loop.value.v.index.Some? && 0 <= loop.value.v.index.value < SKILL_COUNT && !loop.value.v.hasData ==>
                    res == Failure(MissingSubrecord(SKDT)))
  {
    var sc :- LoadSubs(r, SkillScan(s.(recordFlags := r.recordFlags), None, false));
    if sc.v.index.None? then Failure(MissingSubrecord(INDX))
    else if sc.v.index.value < 0 || sc.v.index.value >= SKILL_COUNT then Failure(InvalidValue(INDX, sc.v.index.value))
    else if !sc.v.hasData then Failure(MissingSubrecord(SKDT))
    else
      IndexRoundTrip(sc.v.index.value);
      Success(Step(sc.r, sc.v.skill.(id := IndexToRefId(sc.v.index.value))))
  }
}

=== FILE: tags.dfy ===
/** Four-character codes: the record and sub-record names of the format.

    A name is stored as a 32-bit little-endian integer whose bytes are the
    name's characters, first character in the lowest byte. */
module Tags {
  import opened Bytes
  import opened Wrappers
  import opened Errors
  import opened Bits

  type Tag = u32

  /** The expression the library evaluates for the characters of a name. */
  function Pack(c0: nat, c1: nat, c2: nat, c3: nat): nat
  {
    Or(Or(Or(Shl32(c3, 24), Shl32(c2, 16)), Shl32(c1, 8)), c0)
  }

  /** For characters that fit in a byte, the packing is the little-endian value. */
  lemma PackBytes(c0: byte, c1: byte, c2: byte, c3: byte)
    ensures Pack(c0, c1, c2, c3) == FromLE([c0, c1, c2, c3])
  {
    var x := PackHigh(c2, c3);
    var y := PackMiddle(x, c1);
    PackLowest(y, c0);
    FromLE4(c0, c1, c2, c3);
  }

  /** The two high characters. */
  lemma PackHigh(c2: byte, c3: byte) returns (x: nat)
    ensures x == c3 * 0x100 + c2 && x < 0x1_0000
    ensures Or(Shl32(c3, 24), Shl32(c2, 16)) == x * 0x1_0000
  {
    Pow2Values();
    assert Shl32(c3, 24) == c3 * 0x100_0000;
    assert Shl32(c2, 16) == c2 * 0x1_0000;
    x := c3 * 0x100 + c2;
    OrDisjoint(c3, c2 * 0x1_0000, 24);
  }

  /** The second character under the two high ones. */
  lemma PackMiddle(x: nat, c1: byte) returns (y: nat)
    requires x < 0x1_0000
    ensures y == x * 0x100 + c1 && y < 0x100_0000
    ensures Or(x * 0x1_0000, Shl32(c1, 8)) == y * 0x100
  {
    Pow2Values();
    assert Shl32(c1, 8) == c1 * 0x100;
    y := x * 0x100 + c1;
    OrDisjoint(x, c1 * 0x100, 16);
  }

  /** The first character in the lowest byte. */
  lemma PackLowest(y: nat, c0: byte)
    ensures Or(y * 0x100, c0) == y * 0x100 + c0
  {
    Pow2Values();
    OrDisjoint(y, c0, 8);
  }

  lemma FromLE4(c0: byte, c1: byte, c2: byte, c3: byte)
    ensures FromLE([c0, c1, c2, c3]) == c0 + 256 * (c1 + 256 * (c2 + 256 * c3))
  {
    var b: seq<byte> := [c0, c1, c2, c3];
    assert b[3..][1..] == [];
    assert FromLE(b[3..]) == c3;
    assert b[2..][1..] == b[3..];
    assert FromLE(b[2..]) == c2 + 256 * c3;
    assert b[1..][1..] == b[2..];
    assert FromLE(b[1..]) == c1 + 256 * (c2 + 256 * c3);
  }

  /** The tag for a four-character name. A name of any other length is
      rejected; each character is widened to 32 bits and shifted into place. */
  function FourCC(s: string): (r: Result<Tag, Error>)
    ensures r.Success? <==> |s| == 4
  {
    if |s| != 4 then Failure(InvalidTagLength)
    else Success(Pack(s[0] as int, s[1] as int, s[2] as int, s[3] as int) % TWO_32)
  }

  /** For a name whose characters fit in a byte, the tag is the name's bytes read as a little-endian integer. */
  lemma FourCCBytes(s: string)
    requires |s| == 4 && forall i :: 0 <= i < 4 ==> s[i] as int < 0x100
    ensures FourCC(s) == Success(U32Of([s[0] as int, s[1] as int, s[2] as int, s[3] as int]))
  {
    assert s[0] as int < 0x100 && s[1] as int < 0x100 && s[2] as int < 0x100 && s[3] as int < 0x100;
    var b: seq<byte> := [s[0] as int, s[1] as int, s[2] as int, s[3] as int];
    var v := PackWord(b[0], b[1], b[2], b[3]);
    assert FourCC(s) == Success(Pack(b[0], b[1], b[2], b[3]) % TWO_32);
  }

  /** The packed value of four bytes is a 32-bit word: their little-endian value. */
  lemma PackWord(c0: byte, c1: byte, c2: byte, c3: byte) returns (v: nat)
    ensures v == Pack(c0, c1, c2, c3) && v < TWO_32 && v % TWO_32 == v
    ensures v == U32Of([c0, c1, c2, c3])
  {
    var b: seq<byte> := [c0, c1, c2, c3];
    PackBytes(c0, c1, c2, c3);
    FromLEBound(b);
    Pow256Widths();
    v := FromLE(b);
  }

  /** ASCII decoding of one byte: bytes above 127 become `?`. */
  function AsciiChar(b: byte): char
  {
    if b < 0x80 then b as char else '?'
  }

  /** The four characters of a tag, as ASCII. */
  function ToMagic(t: Tag): (s: string)
    ensures |s| == 4
    ensures forall i :: 0 <= i < 4 ==> (LE32(t)[i] < 0x80 ==> s[i] as int == LE32(t)[i])
    ensures forall i :: 0 <= i < 4 ==> (LE32(t)[i] >= 0x80 ==> s[i] == '?')
  {
    var b := LE32(t);
    [AsciiChar(b[0]), AsciiChar(b[1]), AsciiChar(b[2]), AsciiChar(b[3])]
  }

  predicate IsAsciiTag(t: Tag)
  {
    forall i :: 0 <= i < 4 ==> LE32(t)[i] < 0x80
  }

  predicate IsAsciiName(s: string)
  {
    |s| == 4 && forall i :: 0 <= i < 4 ==> s[i] as int < 0x80
  }

  /** A tag whose bytes are ASCII is recovered from its name. */
  lemma MagicRoundTrip(t: Tag)
    requires IsAsciiTag(t)
    ensures IsAsciiName(ToMagic(t))
    ensures FourCC(ToMagic(t)) == Success(t)
  {
    var s := ToMagic(t);
    var b := LE32(t);
    assert [s[0] as int, s[1] as int, s[2] as int, s[3] as int] == b;
    FourCCBytes(s);
    U32RoundTrip(t);
  }

  /** An ASCII name is recovered from its tag. */
  lemma FourCCRoundTrip(s: string)
    requires IsAsciiName(s)
    ensures FourCC(s).Success? && ToMagic(FourCC(s).value) == s
  {
    var b: seq<byte> := [s[0] as int, s[1] as int, s[2] as int, s[3] as int];
    FourCCBytes(s);
    LE32RoundTrip(b);
    assert LE32(FourCC(s).value) == b;
  }

  lemma FourCCInjective(s1: string, s2: string)
    requires IsAsciiName(s1) && IsAsciiName(s2)
    requires FourCC(s1) == FourCC(s2)
    ensures s1 == s2
  {
    FourCCRoundTrip(s1);
    FourCCRoundTrip(s2);
  }

  /** The tag of a four-character ASCII name as a number: the first
      character is the lowest byte. */
  lemma NameValue(a: char, b: char, c: char, d: char)
    requires a as int < 0x80 && b as int < 0x80 && c as int < 0x80 && d as int < 0x80
    ensures FourCC([a, b, c, d]) == Success(a as int + 0x100 * (b as int) + 0x1_0000 * (c as int)
                                            + 0x100_0000 * (d as int))
  {
    FourCCBytes([a, b, c, d]);
    FromLE4(a as int, b as int, c as int, d as int);
  }

  /** The named constants TES3 to CSND are the tags of their names. */
  lemma TagConstantsA()
    ensures FourCC("TES3") == Success(TES3)
    ensures FourCC("TES4") == Success(TES4)
    ensures FourCC("FORM") == Success(FORM)
    ensures FourCC("HEDR") == Success(HEDR)
    ensures FourCC("MAST") == Success(MAST)
    ensures FourCC("DATA") == Success(DATA)
    ensures FourCC("GMDT") == Success(GMDT)
    ensures FourCC("SCRD") == Success(SCRD)
    ensures FourCC("SCRS") == Success(SCRS)
    ensures FourCC("GMST") == Success(GMST)
    ensures FourCC("FNAM") == Success(FNAM)
    ensures FourCC("STRV") == Success(STRV)
    ensures FourCC("INTV") == Success(INTV)
    ensures FourCC("FLTV") == Success(FLTV)
    ensures FourCC("STTV") == Success(STTV)
    ensures FourCC("NAME") == Success(NAME)
    ensures FourCC("GLOB") == Success(GLOB)
    ensures FourCC("DELE") == Success(DELE)
    ensures FourCC("CLAS") == Success(CLAS)
    ensures FourCC("CLDT") == Success(CLDT)
    ensures FourCC("DESC") == Success(DESC)
    ensures FourCC("FACT") == Success(FACT)
    ensures FourCC("RNAM") == Success(RNAM)
    ensures FourCC("FADT") == Success(FADT)
    ensures FourCC("ANAM") == Success(ANAM)
    ensures FourCC("RACE") == Success(RACE)
    ensures FourCC("RADT") == Success(RADT)
    ensures FourCC("NPCS") == Success(NPCS)
    ensures FourCC("SOUN") == Success(SOUN)
    ensures FourCC("SKIL") == Success(SKIL)
    ensures FourCC("INDX") == Success(INDX)
    ensures FourCC("SKDT") == Success(SKDT)
    ensures FourCC("MGEF") == Success(MGEF)
    ensures FourCC("MEDT") == Success(MEDT)
    ensures FourCC("ITEX") == Success(ITEX)
    ensures FourCC("PTEX") == Success(PTEX)
    ensures FourCC("BSND") == Success(BSND)
    ensures FourCC("CSND") == Success(CSND)
  {
    NameValue('T', 'E', 'S', '3');
    NameValue('T', 'E', 'S', '4');
    NameValue('F', 'O', 'R', 'M');
    NameValue('H', 'E', 'D', 'R');
    NameValue('M', 'A', 'S', 'T');
    NameValue('D', 'A', 'T', 'A');
    NameValue('G', 'M', 'D', 'T');
    NameValue('S', 'C', 'R', 'D');
    NameValue('S', 'C', 'R', 'S');
    NameValue('G', 'M', 'S', 'T');
    NameValue('F', 'N', 'A', 'M');
    NameValue('S', 'T', 'R', 'V');
    NameValue('I', 'N', 'T', 'V');
    NameValue('F', 'L', 'T', 'V');
    NameValue('S', 'T', 'T', 'V');
    NameValue('N', 'A', 'M', 'E');
    NameValue('G', 'L', 'O', 'B');
    NameValue('D', 'E', 'L', 'E');
    NameValue('C', 'L', 'A', 'S');
    NameValue('C', 'L', 'D', 'T');
    NameValue('D', 'E', 'S', 'C');
    NameValue('F', 'A', 'C', 'T');
    NameValue('R', 'N', 'A', 'M');
    NameValue('F', 'A', 'D', 'T');
    NameValue('A', 'N', 'A', 'M');
    NameValue('R', 'A', 'C', 'E');
    NameValue('R', 'A', 'D', 'T');
    NameValue('N', 'P', 'C', 'S');
    NameValue('S', 'O', 'U', 'N');
    NameValue('S', 'K', 'I', 'L');
    NameValue('I', 'N', 'D', 'X');
    NameValue('S', 'K', 'D', 'T');
    NameValue('M', 'G', 'E', 'F');
    NameValue('M', 'E', 'D', 'T');
    NameValue('I', 'T', 'E', 'X');
    NameValue('P', 'T', 'E', 'X');
    NameValue('B', 'S', 'N', 'D');
    NameValue('C', 'S', 'N', 'D');
  }

  /** The named constants HSND to AI_T are the tags of their names. */
  lemma TagConstantsB()
    ensures FourCC("HSND") == Success(HSND)
    ensures FourCC("ASND") == Success(ASND)
    ensures FourCC("CVFX") == Success(CVFX)
    ensures FourCC("BVFX") == Success(BVFX)
    ensures FourCC("HVFX") == Success(HVFX)
    ensures FourCC("AVFX") == Success(AVFX)
    ensures FourCC("SCPT") == Success(SCPT)
    ensures FourCC("SCHD") == Success(SCHD)
    ensures FourCC("SCVR") == Success(SCVR)
    ensures FourCC("SCDT") == Success(SCDT)
    ensures FourCC("SCTX") == Success(SCTX)
    ensures FourCC("REGN") == Success(REGN)
    ensures FourCC("WEAT") == Success(WEAT)
    ensures FourCC("BNAM") == Success(BNAM)
    ensures FourCC("CNAM") == Success(CNAM)
    ensures FourCC("SNAM") == Success(SNAM)
    ensures FourCC("BSGN") == Success(BSGN)
    ensures FourCC("TNAM") == Success(TNAM)
    ensures FourCC("LTEX") == Success(LTEX)
    ensures FourCC("STAT") == Success(STAT)
    ensures FourCC("MODL") == Success(MODL)
    ensures FourCC("DOOR") == Success(DOOR)
    ensures FourCC("SCRI") == Success(SCRI)
    ensures FourCC("SPEL") == Success(SPEL)
    ensures FourCC("ENAM") == Success(ENAM)
    ensures FourCC("SPDT") == Success(SPDT)
    ensures FourCC("MISC") == Success(MISC)
    ensures FourCC("MCDT") == Success(MCDT)
    ensures FourCC("WEAP") == Success(WEAP)
    ensures FourCC("WPDT") == Success(WPDT)
    ensures FourCC("CONT") == Success(CONT)
    ensures FourCC("CNDT") == Success(CNDT)
    ensures FourCC("FLAG") == Success(FLAG)
    ensures FourCC("NPCO") == Success(NPCO)
    ensures FourCC("CREA") == Success(CREA)
    ensures FourCC("ATTR") == Success(ATTR)
    ensures FourCC("AI_W") == Success(AI_W)
    ensures FourCC("AI_T") == Success(AI_T)
  {
    NameValue('H', 'S', 'N', 'D');
    NameValue('A', 'S', 'N', 'D');
    NameValue('C', 'V', 'F', 'X');
    NameValue('B', 'V', 'F', 'X');
    NameValue('H', 'V', 'F', 'X');
    NameValue('A', 'V', 'F', 'X');
    NameValue('S', 'C', 'P', 'T');
    NameValue('S', 'C', 'H', 'D');
    NameValue('S', 'C', 'V', 'R');
    NameValue('S', 'C', 'D', 'T');
    NameValue('S', 'C', 'T', 'X');
    NameValue('R', 'E', 'G', 'N');
    NameValue('W', 'E', 'A', 'T');
    NameValue('B', 'N', 'A', 'M');
    NameValue('C', 'N', 'A', 'M');
    NameValue('S', 'N', 'A', 'M');
    NameValue('B', 'S', 'G', 'N');
    NameValue('T', 'N', 'A', 'M');
    NameValue('L', 'T', 'E', 'X');
    NameValue('S', 'T', 'A', 'T');
    NameValue('M', 'O', 'D', 'L');
    NameValue('D', 'O', 'O', 'R');
    NameValue('S', 'C', 'R', 'I');
    NameValue('S', 'P', 'E', 'L');
    NameValue('E', 'N', 'A', 'M');
    NameValue('S', 'P', 'D', 'T');
    NameValue('M', 'I', 'S', 'C');
    NameValue('M', 'C', 'D', 'T');
    NameValue('W', 'E', 'A', 'P');
    NameValue('W', 'P', 'D', 'T');
    NameValue('C', 'O', 'N', 'T');
    NameValue('C', 'N', 'D', 'T');
    NameValue('F', 'L', 'A', 'G');
    NameValue('N', 'P', 'C', 'O');
    NameValue('C', 'R', 'E', 'A');
    NameValue('A', 'T', 'T', 'R');
    NameValue('A', 'I', '_', 'W');
    NameValue('A', 'I', '_', 'T');
  }

  /** The named constants AI_F to NNAM are the tags of their names. */
  lemma TagConstantsC()
    ensures FourCC("AI_F") == Success(AI_F)
    ensures FourCC("AI_E") == Success(AI_E)
    ensures FourCC("AI_A") == Success(AI_A)
    ensures FourCC("DODT") == Success(DODT)
    ensures FourCC("DNAM") == Success(DNAM)
    ensures FourCC("NPDT") == Success(NPDT)
    ensures FourCC("XSCL") == Success(XSCL)
    ensures FourCC("AIDT") == Success(AIDT)
    ensures FourCC("BODY") == Success(BODY)
    ensures FourCC("BYDT") == Success(BYDT)
    ensures FourCC("LIGH") == Success(LIGH)
    ensures FourCC("LHDT") == Success(LHDT)
    ensures FourCC("ENCH") == Success(ENCH)
    ensures FourCC("ENDT") == Success(ENDT)
    ensures FourCC("NPC_") == Success(NPC_)
    ensures FourCC("KNAM") == Success(KNAM)
    ensures FourCC("ARMO") == Success(ARMO)
    ensures FourCC("AODT") == Success(AODT)
    ensures FourCC("CLOT") == Success(CLOT)
    ensures FourCC("CTDT") == Success(CTDT)
    ensures FourCC("REPA") == Success(REPA)
    ensures FourCC("RIDT") == Success(RIDT)
    ensures FourCC("ACTI") == Success(ACTI)
    ensures FourCC("APPA") == Success(APPA)
    ensures FourCC("AADT") == Success(AADT)
    ensures FourCC("LOCK") == Success(LOCK)
    ensures FourCC("LKDT") == Success(LKDT)
    ensures FourCC("PROB") == Success(PROB)
    ensures FourCC("PBDT") == Success(PBDT)
    ensures FourCC("INGR") == Success(INGR)
    ensures FourCC("IRDT") == Success(IRDT)
    ensures FourCC("BOOK") == Success(BOOK)
    ensures FourCC("BKDT") == Success(BKDT)
    ensures FourCC("TEXT") == Success(TEXT)
    ensures FourCC("ALCH") == Success(ALCH)
    ensures FourCC("ALDT") == Success(ALDT)
    ensures FourCC("LEVI") == Success(LEVI)
    ensures FourCC("NNAM") == Success(NNAM)
  {
    NameValue('A', 'I', '_', 'F');
    NameValue('A', 'I', '_', 'E');
    NameValue('A', 'I', '_', 'A');
    NameValue('D', 'O', 'D', 'T');
    NameValue('D', 'N', 'A', 'M');
    NameValue('N', 'P', 'D', 'T');
    NameValue('X', 'S', 'C', 'L');
    NameValue('A', 'I', 'D', 'T');
    NameValue('B', 'O', 'D', 'Y');
    NameValue('B', 'Y', 'D', 'T');
    NameValue('L', 'I', 'G', 'H');
    NameValue('L', 'H', 'D', 'T');
    NameValue('E', 'N', 'C', 'H');
    NameValue('E', 'N', 'D', 'T');
    NameValue('N', 'P', 'C', '_');
    NameValue('K', 'N', 'A', 'M');
    NameValue('A', 'R', 'M', 'O');
    NameValue('A', 'O', 'D', 'T');
    NameValue('C', 'L', 'O', 'T');
    NameValue('C', 'T', 'D', 'T');
    NameValue('R', 'E', 'P', 'A');
    NameValue('R', 'I', 'D', 'T');
    NameValue('A', 'C', 'T', 'I');
    NameValue('A', 'P', 'P', 'A');
    NameValue('A', 'A', 'D', 'T');
    NameValue('L', 'O', 'C', 'K');
    NameValue('L', 'K', 'D', 'T');
    NameValue('P', 'R', 'O', 'B');
    NameValue('P', 'B', 'D', 'T');
    NameValue('I', 'N', 'G', 'R');
    NameValue('I', 'R', 'D', 'T');
    NameValue('B', 'O', 'O', 'K');
    NameValue('B', 'K', 'D', 'T');
    NameValue('T', 'E', 'X', 'T');
    NameValue('A', 'L', 'C', 'H');
    NameValue('A', 'L', 'D', 'T');
    NameValue('L', 'E', 'V', 'I');
    NameValue('N', 'N', 'A', 'M');
  }

  /** The named constants LEVC to SLFD are the tags of their names. */
  lemma TagConstantsD()
    ensures FourCC("LEVC") == Success(LEVC)
    ensures FourCC("INAM") == Success(INAM)
    ensures FourCC("CELL") == Success(CELL)
    ensures FourCC("WHGT") == Success(WHGT)
    ensures FourCC("AMBI") == Success(AMBI)
    ensures FourCC("RGNN") == Success(RGNN)
    ensures FourCC("NAM5") == Success(NAM5)
    ensures FourCC("NAM0") == Success(NAM0)
    ensures FourCC("LAND") == Success(LAND)
    ensures FourCC("VNML") == Success(VNML)
    ensures FourCC("VHGT") == Success(VHGT)
    ensures FourCC("WNAM") == Success(WNAM)
    ensures FourCC("VCLR") == Success(VCLR)
    ensures FourCC("VTEX") == Success(VTEX)
    ensures FourCC("FRMR") == Success(FRMR)
    ensures FourCC("MVRF") == Success(MVRF)
    ensures FourCC("PGRD") == Success(PGRD)
    ensures FourCC("PGRP") == Success(PGRP)
    ensures FourCC("PGRC") == Success(PGRC)
    ensures FourCC("NAM9") == Success(NAM9)
    ensures FourCC("XSOL") == Success(XSOL)
    ensures FourCC("XCHG") == Success(XCHG)
    ensures FourCC("UNAM") == Success(UNAM)
    ensures FourCC("SNDG") == Success(SNDG)
    ensures FourCC("DIAL") == Success(DIAL)
    ensures FourCC("ID__") == Success(ID__)
    ensures FourCC("INFO") == Success(INFO)
    ensures FourCC("PNAM") == Success(PNAM)
    ensures FourCC("ONAM") == Success(ONAM)
    ensures FourCC("QSTN") == Success(QSTN)
    ensures FourCC("QSTF") == Success(QSTF)
    ensures FourCC("QSTR") == Success(QSTR)
    ensures FourCC("SSCR") == Success(SSCR)
    ensures FourCC("SLCS") == Success(SLCS)
    ensures FourCC("SLSD") == Success(SLSD)
    ensures FourCC("SLLD") == Success(SLLD)
    ensures FourCC("SLFD") == Success(SLFD)
  {
    NameValue('L', 'E', 'V', 'C');
    NameValue('I', 'N', 'A', 'M');
    NameValue('C', 'E', 'L', 'L');
    NameValue('W', 'H', 'G', 'T');
    NameValue('A', 'M', 'B', 'I');
    NameValue('R', 'G', 'N', 'N');
    NameValue('N', 'A', 'M', '5');
    NameValue('N', 'A', 'M', '0');
    NameValue('L', 'A', 'N', 'D');
    NameValue('V', 'N', 'M', 'L');
    NameValue('V', 'H', 'G', 'T');
    NameValue('W', 'N', 'A', 'M');
    NameValue('V', 'C', 'L', 'R');
    NameValue('V', 'T', 'E', 'X');
    NameValue('F', 'R', 'M', 'R');
    NameValue('M', 'V', 'R', 'F');
    NameValue('P', 'G', 'R', 'D');
    NameValue('P', 'G', 'R', 'P');
    NameValue('P', 'G', 'R', 'C');
    NameValue('N', 'A', 'M', '9');
    NameValue('X', 'S', 'O', 'L');
    NameValue('X', 'C', 'H', 'G');
    NameValue('U', 'N', 'A', 'M');
    NameValue('S', 'N', 'D', 'G');
    NameValue('D', 'I', 'A', 'L');
    NameValue('I', 'D', '_', '_');
    NameValue('I', 'N', 'F', 'O');
    NameValue('P', 'N', 'A', 'M');
    NameValue('O', 'N', 'A', 'M');
    NameValue('Q', 'S', 'T', 'N');
    NameValue('Q', 'S', 'T', 'F');
    NameValue('Q', 'S', 'T', 'R');
    NameValue('S', 'S', 'C', 'R');
    NameValue('S', 'L', 'C', 'S');
    NameValue('S', 'L', 'S', 'D');
    NameValue('S', 'L', 'L', 'D');
    NameValue('S', 'L', 'F', 'D');
  }

  // The names of the format.
  const TES3: Tag := 0x33534554
  const TES4: Tag := 0x34534554
  const FORM: Tag := 0x4D524F46
  const HEDR: Tag := 0x52444548
  const MAST: Tag := 0x5453414D
  const DATA: Tag := 0x41544144
  const GMDT: Tag := 0x54444D47
  const SCRD: Tag := 0x44524353
  const SCRS: Tag := 0x53524353
  const GMST: Tag := 0x54534D47
  const FNAM: Tag := 0x4D414E46
  const STRV: Tag := 0x56525453
  const INTV: Tag := 0x56544E49
  const FLTV: Tag := 0x56544C46
  const STTV: Tag := 0x56545453
  const NAME: Tag := 0x454D414E
  const GLOB: Tag := 0x424F4C47
  const DELE: Tag := 0x454C4544
  const CLAS: Tag := 0x53414C43
  const CLDT: Tag := 0x54444C43
  const DESC: Tag := 0x43534544
  const FACT: Tag := 0x54434146
  const RNAM: Tag := 0x4D414E52
  const FADT: Tag := 0x54444146
  const ANAM: Tag := 0x4D414E41
  const RACE: Tag := 0x45434152
  const RADT: Tag := 0x54444152
  const NPCS: Tag := 0x5343504E
  const SOUN: Tag := 0x4E554F53
  const SKIL: Tag := 0x4C494B53
  const INDX: Tag := 0x58444E49
  const SKDT: Tag := 0x54444B53
  const MGEF: Tag := 0x4645474D
  const MEDT: Tag := 0x5444454D
  const ITEX: Tag := 0x58455449
  const PTEX: Tag := 0x58455450
  const BSND: Tag := 0x444E5342
  const CSND: Tag := 0x444E5343
  const HSND: Tag := 0x444E5348
  const ASND: Tag := 0x444E5341
  const CVFX: Tag := 0x58465643
  const BVFX: Tag := 0x58465642
  const HVFX: Tag := 0x58465648
  const AVFX: Tag := 0x58465641
  const SCPT: Tag := 0x54504353
  const SCHD: Tag := 0x44484353
  const SCVR: Tag := 0x52564353
  const SCDT: Tag := 0x54444353
  const SCTX: Tag := 0x58544353
  const REGN: Tag := 0x4E474552
  const WEAT: Tag := 0x54414557
  const BNAM: Tag := 0x4D414E42
  const CNAM: Tag := 0x4D414E43
  const SNAM: Tag := 0x4D414E53
  const BSGN: Tag := 0x4E475342
  const TNAM: Tag := 0x4D414E54
  const LTEX: Tag := 0x5845544C
  const STAT: Tag := 0x54415453
  const MODL: Tag := 0x4C444F4D
  const DOOR: Tag := 0x524F4F44
  const SCRI: Tag := 0x49524353
  const SPEL: Tag := 0x4C455053
  const ENAM: Tag := 0x4D414E45
  const SPDT: Tag := 0x54445053
  const MISC: Tag := 0x4353494D
  const MCDT: Tag := 0x5444434D
  const WEAP: Tag := 0x50414557
  const WPDT: Tag := 0x54445057
  const CONT: Tag := 0x544E4F43
  const CNDT: Tag := 0x54444E43
  const FLAG: Tag := 0x47414C46
  const NPCO: Tag := 0x4F43504E
  const CREA: Tag := 0x41455243
  const ATTR: Tag := 0x52545441
  const AI_W: Tag := 0x575F4941
  const AI_T: Tag := 0x545F4941
  const AI_F: Tag := 0x465F4941
  const AI_E: Tag := 0x455F4941
  const AI_A: Tag := 0x415F4941
  const DODT: Tag := 0x54444F44
  const DNAM: Tag := 0x4D414E44
  const NPDT: Tag := 0x5444504E
  const XSCL: Tag := 0x4C435358
  const AIDT: Tag := 0x54444941
  const BODY: Tag := 0x59444F42
  const BYDT: Tag := 0x54445942
  const LIGH: Tag := 0x4847494C
  const LHDT: Tag := 0x5444484C
  const ENCH: Tag := 0x48434E45
  const ENDT: Tag := 0x54444E45
  const NPC_: Tag := 0x5F43504E
  const KNAM: Tag := 0x4D414E4B
  const ARMO: Tag := 0x4F4D5241
  const AODT: Tag := 0x54444F41
  const CLOT: Tag := 0x544F4C43
  const CTDT: Tag := 0x54445443
  const REPA: Tag := 0x41504552
  const RIDT: Tag := 0x54444952
  const ACTI: Tag := 0x49544341
  const APPA: Tag := 0x41505041
  const AADT: Tag := 0x54444141
  const LOCK: Tag := 0x4B434F4C
  const LKDT: Tag := 0x54444B4C
  const PROB: Tag := 0x424F5250
  const PBDT: Tag := 0x54444250
  const INGR: Tag := 0x52474E49
  const IRDT: Tag := 0x54445249
  const BOOK: Tag := 0x4B4F4F42
  const BKDT: Tag := 0x54444B42
  const TEXT: Tag := 0x54584554
  const ALCH: Tag := 0x48434C41
  const ALDT: Tag := 0x54444C41
  const LEVI: Tag := 0x4956454C
  const NNAM: Tag := 0x4D414E4E
  const LEVC: Tag := 0x4356454C
  const INAM: Tag := 0x4D414E49
  const CELL: Tag := 0x4C4C4543
  const WHGT: Tag := 0x54474857
  const AMBI: Tag := 0x49424D41
  const RGNN: Tag := 0x4E4E4752
  const NAM5: Tag := 0x354D414E
  const NAM0: Tag := 0x304D414E
  const LAND: Tag := 0x444E414C
  const VNML: Tag := 0x4C4D4E56
  const VHGT: Tag := 0x54474856
  const WNAM: Tag := 0x4D414E57
  const VCLR: Tag := 0x524C4356
  const VTEX: Tag := 0x58455456
  const FRMR: Tag := 0x524D5246
  const MVRF: Tag := 0x4652564D
  const PGRD: Tag := 0x44524750
  const PGRP: Tag := 0x50524750
  const PGRC: Tag := 0x43524750
  const NAM9: Tag := 0x394D414E
  const XSOL: Tag := 0x4C4F5358
  const XCHG: Tag := 0x47484358
  const UNAM: Tag := 0x4D414E55
  const SNDG: Tag := 0x47444E53
  const DIAL: Tag := 0x4C414944
  const ID__: Tag := 0x5F5F4449
  const INFO: Tag := 0x4F464E49
  const PNAM: Tag := 0x4D414E50
  const ONAM: Tag := 0x4D414E4F
  const QSTN: Tag := 0x4E545351
  const QSTF: Tag := 0x46545351
  const QSTR: Tag := 0x52545351
  const SSCR: Tag := 0x52435353
  const SLCS: Tag := 0x53434C53
  const SLSD: Tag := 0x44534C53
  const SLLD: Tag := 0x444C4C53
  const SLFD: Tag := 0x44464C53
}

=== FILE: text.dfy ===
/** Text as the content files store it, and the number formatting used by
    the reference-identifier display forms.

    The library decodes strings with one of three 8-bit code pages chosen by
    the caller. This model fixes one stand-in code page: byte `b` is the
    character with code `b`, and a character above 255 encodes to `?`, as
    .NET's single-byte encoders do for unmappable characters. */
module Text {
  import opened Bytes

  const QUESTION_MARK: byte := 0x3F

  function DecodeText(b: seq<byte>): (s: string)
    ensures |s| == |b|
    ensures forall i :: 0 <= i < |b| ==> s[i] as int == b[i]
  {
    seq(|b|, i requires 0 <= i < |b| => b[i] as char)
  }

  /** True when every character survives the stand-in code page. */
  predicate Representable(s: string)
  {
    forall i :: 0 <= i < |s| ==> s[i] as int < 0x100
  }

  function EncodeText(s: string): (b: seq<byte>)
    ensures |b| == |s|
    ensures forall i :: 0 <= i < |s| && s[i] as int < 0x100 ==> b[i] == s[i] as int
    ensures forall i :: 0 <= i < |s| && s[i] as int >= 0x100 ==> b[i] == QUESTION_MARK
  {
    seq(|s|, i requires 0 <= i < |s| => if s[i] as int < 0x100 then s[i] as int else QUESTION_MARK)
  }

  lemma DecodeEncode(s: string)
    requires Representable(s)
    ensures DecodeText(EncodeText(s)) == s
  {
  }

  lemma EncodeDecode(b: seq<byte>)
    ensures EncodeText(DecodeText(b)) == b
  {
  }

  /** The bytes before the first nul: what `TakeWhile(b => b != 0)` keeps. */
  function TakeUntilNul(b: seq<byte>): (t: seq<byte>)
    ensures t <= b
    ensures forall i :: 0 <= i < |t| ==> t[i] != 0
    ensures |t| < |b| ==> b[|t|] == 0
  {
    if |b| == 0 || b[0] == 0 then [] else [b[0]] + TakeUntilNul(b[1..])
  }

  lemma {:induction false} TakeUntilNulPadded(t: seq<byte>, pad: nat)
    requires forall i :: 0 <= i < |t| ==> t[i] != 0
    ensures TakeUntilNul(t + Zeros(pad)) == t
  {
    if |t| > 0 {
      assert (t + Zeros(pad))[1..] == t[1..] + Zeros(pad);
      TakeUntilNulPadded(t[1..], pad);
    } else if pad > 0 {
      assert (t + Zeros(pad))[0] == 0;
    }
  }

  // Number formatting (C# "{v}" and "{v:x}").

  const DIGITS: string := "0123456789abcdef"

  function DigitChar(d: nat): char
    requires d < 16
  {
    DIGITS[d]
  }

  /** The value of a digit character, or -1 for a character that is no digit. */
  function DigitValue(c: char): (v: int)
    ensures -1 <= v < 16
    ensures 0 <= v ==> DIGITS[v] == c
  {
    if '0' <= c <= '9' then c as int - '0' as int
    else if 'a' <= c <= 'f' then c as int - 'a' as int + 10
    else -1
  }

  lemma DigitValueOfChar(d: nat)
    requires d < 16
    ensures DigitValue(DigitChar(d)) == d
  {
  }

  /** `n` in base `base` without leading zeros; zero is "0". */
  function NatToString(n: nat, base: nat): (s: string)
    requires 2 <= base <= 16
    ensures |s| > 0
    decreases n
  {
    if n < base then [DigitChar(n)] else NatToString(n / base, base) + [DigitChar(n % base)]
  }

  predicate IsDigits(s: string, base: nat)
  {
    |s| > 0 && forall i :: 0 <= i < |s| ==> 0 <= DigitValue(s[i]) < base
  }

  /** The number a digit string denotes; the last digit is the least significant. */
  function DigitsValue(s: string, base: nat): nat
    requires IsDigits(s, base)
  {
    var last := DigitValue(s[|s| - 1]);
    if |s| == 1 then last else DigitsValue(s[..|s| - 1], base) * base + last
  }

  lemma {:induction false} IsDigitsSnoc(p: string, c: char, base: nat)
    requires IsDigits(p, base) && 0 <= DigitValue(c) < base
    ensures IsDigits(p + [c], base)
    ensures (p + [c])[..|p|] == p
  {
    var s := p + [c];
    forall i | 0 <= i < |s|
      ensures 0 <= DigitValue(s[i]) < base
    {
      if i < |p| {
        assert s[i] == p[i];
      }
    }
  }

  lemma DivMod(n: nat, base: nat)
    requires 2 <= base
    ensures n == (n / base) * base + n % base
    ensures 0 <= n % base < base
    ensures n >= base ==> n / base < n
  {
  }

  /** Reading the digits back gives the number that was formatted. */
  lemma {:induction false} NatToStringRoundTrip(n: nat, base: nat)
    requires 2 <= base <= 16
    ensures IsDigits(NatToString(n, base), base)
    ensures DigitsValue(NatToString(n, base), base) == n
    decreases n
  {
    if n < base {
      DigitValueOfChar(n);
    } else {
      var q, d := n / base, n % base;
      DivMod(n, base);
      var p := NatToString(q, base);
      NatToStringRoundTrip(q, base);
      DigitValueOfChar(d);
      var s := p + [DigitChar(d)];
      IsDigitsSnoc(p, DigitChar(d), base);
      assert NatToString(n, base) == s;
      assert s[|s| - 1] == DigitChar(d);
      assert DigitsValue(s, base) == DigitsValue(p, base) * base + d;
    }
  }

  lemma NatToStringInjective(a: nat, b: nat, base: nat)
    requires 2 <= base <= 16
    requires NatToString(a, base) == NatToString(b, base)
    ensures a == b
  {
    NatToStringRoundTrip(a, base);
    NatToStringRoundTrip(b, base);
  }

  function Hex(n: nat): (s: string)
    ensures |s| > 0
  {
    NatToString(n, 16)
  }

  /** C#'s decimal rendering of a signed integer. */
  function Decimal(x: int): (s: string)
    ensures |s| > 0
  {
    if x < 0 then "-" + NatToString(-x, 10) else NatToString(x, 10)
  }

  lemma DecimalInjective(a: int, b: int)
    requires Decimal(a) == Decimal(b)
    ensures a == b
  {
    var ma: nat := if a < 0 then -a else a;
    var mb: nat := if b < 0 then -b else b;
    NatToStringRoundTrip(ma, 10);
    NatToStringRoundTrip(mb, 10);
    var sa, sb := NatToString(ma, 10), NatToString(mb, 10);
    assert (a < 0) == (Decimal(a)[0] == '-') by {
      if a >= 0 { assert Decimal(a)[0] == sa[0]; }
    }
    assert (b < 0) == (Decimal(b)[0] == '-') by {
      if b >= 0 { assert Decimal(b)[0] == sb[0]; }
    }
    if a < 0 {
      assert Decimal(a)[1..] == sa;
      assert Decimal(b)[1..] == sb;
    }
    NatToStringInjective(ma, mb, 10);
  }
}

=== FILE: variant.dfy ===
/** The typed value of a game setting, a global, a dialogue condition or a
    script local (the library's `Variant`). The format decides which
    sub-record names the value's type and which types are allowed. */
module Variants {
  import opened Bytes
  import opened Wrappers
  import opened Errors
  import opened Tags
  import opened Text
  import opened EsmReader
  import opened RoundTrip
  import W = EsmWriter

  /** The value types. `NoValue` is the library's `None`: a game setting
      that carries no value at all. */
  datatype VarType = Unknown | NoValue | Short | Int | Long | Float | String

  datatype Format = Global | Gmst | Info | Local

  /** A value as read. Floats are kept as their bit pattern. An integer
      global is stored as a float and `Truncated` keeps that float's bits:
      the float-to-integer cast that follows is not modelled. */
  datatype Value = Blank | Integer(n: int) | Real(bits: u32) | Truncated(bits: u32) | Text(s: string)

  datatype Variant = Variant(vtype: VarType, value: Value)

  // The type tables.

  /** The type letter of a global's `FNAM` sub-record. */
  function GlobalType(typeId: string): (t: Option<VarType>)
    ensures t.Some? <==> typeId == "s" || typeId == "l" || typeId == "f"
  {
    if typeId == "s" then Some(Short)
    else if typeId == "l" then Some(Long)
    else if typeId == "f" then Some(Float)
    else None
  }

  /** The letter a global of type `t` is stored with. */
  function GlobalLetter(t: VarType): (typeId: string)
    requires t == Short || t == Long || t == Float
    ensures |typeId| == 1
  {
    match t
    case Short => "s"
    case Long => "l"
    case _ => "f"
  }

  /** The sub-record name that carries a value of type `t` in a format that
      names the type by sub-record; None where the format has no such type. */
  function ValueTag(format: Format, t: VarType): (name: Option<Tag>)
    ensures format == Global ==> name.None?
    ensures t in {Unknown, NoValue, Long} ==> name.None?
  {
    match (format, t)
    case (Gmst, String) => Some(STRV)
    case (Gmst, Int) => Some(INTV)
    case (Gmst, Float) => Some(FLTV)
    case (Info, Int) => Some(INTV)
    case (Info, Float) => Some(FLTV)
    case (Local, Int) => Some(INTV)
    case (Local, Float) => Some(FLTV)
    case (Local, Short) => Some(STTV)
    case _ => None
  }

  lemma GlobalLetterRoundTrip(t: VarType)
    requires t == Short || t == Long || t == Float
    ensures GlobalType(GlobalLetter(t)) == Some(t)
  {
  }

  /** Distinct types of one format are carried by distinct sub-records. */
  lemma ValueTagInjective(format: Format, t1: VarType, t2: VarType)
    requires ValueTag(format, t1).Some? && ValueTag(format, t1) == ValueTag(format, t2)
    ensures t1 == t2
  {
  }

  // Reading.

  /** The type-selecting step of `Read`: a global reads its type letter
      from `FNAM`; a game setting with nothing left in the record has no
      value; otherwise the next sub-record's name is the type. */
  function ReadType(r: Reader, format: Format): (res: Result<Step<VarType>, Error>)
    ensures format == Global && GetHNString(r, FNAM).Success? ==>
              var s := GetHNString(r, FNAM).value;
              res == (if GlobalType(s.v).Some? then Success(Step(s.r, GlobalType(s.v).value)) else Failure(IllegalVariableType(s.v)))
    ensures format == Gmst && !HasMoreSubs(r) ==> res == Success(Step(r, NoValue))
    ensures format != Global && (format != Gmst || HasMoreSubs(r)) && GetSubName(r).Success? ==>
              var n := GetSubName(r).value;
              (forall t :: ValueTag(format, t) == Some(n.ctx.subName) ==> res == Success(Step(n, t)))
              && ((forall t :: ValueTag(format, t) != Some(n.ctx.subName)) ==> res == Failure(UnknownSubrecord(n.ctx.subName)))
    ensures res.Success? ==> InRecord(r, res.value.r) && res.value.v != Unknown
    ensures res.Success? && format != Gmst ==> res.value.v != NoValue
  {
    match format
    case Global =>
      var s :- GetHNString(r, FNAM);
      if s.v == "s" then Success(Step(s.r, Short))
      else if s.v == "l" then Success(Step(s.r, Long))
      else if s.v == "f" then Success(Step(s.r, Float))
      else Failure(IllegalVariableType(s.v))
    case Gmst =>
      if !HasMoreSubs(r) then Success(Step(r, NoValue))
      else
        var n :- GetSubName(r);
        var name := n.ctx.subName;
        if name == STRV then Success(Step(n, String))
        else if name == INTV then Success(Step(n, Int))
        else if name == FLTV then Success(Step(n, Float))
        else Failure(UnknownSubrecord(name))
    case Info =>
      var n :- GetSubName(r);
      var name := n.ctx.subName;
      if name == INTV then Success(Step(n, Int))
      else if name == FLTV then Success(Step(n, Float))
      else Failure(UnknownSubrecord(name))
    case Local =>
      var n :- GetSubName(r);
      var name := n.ctx.subName;
      if name == INTV then Success(Step(n, Int))
      else if name == FLTV then Success(Step(n, Float))
      else if name == STTV then Success(Step(n, Short))
      else Failure(UnknownSubrecord(name))
  }

  /** A string value: only a game setting may hold one. */
  function ReadStringValue(r: Reader, format: Format): (res: Result<Step<Value>, Error>)
    ensures format != Gmst ==> res == Failure(UnsupportedVariant)
    ensures format == Gmst ==> (res.Success? <==> GetHString(r).Success?)
    ensures res.Success? ==> res.value.v == Text(GetHString(r).value.v) && Consumed(r, res.value.r)
  {
    if format != Gmst then Failure(UnsupportedVariant)
    else
      var s :- GetHString(r);
      Success(Step(s.r, Text(s.v)))
  }

  /** An integer value. A global stores every integer as a float; a game
      setting and a dialogue condition hold only 32-bit integers; a local
      holds a 16-bit or a 32-bit one. */
  function ReadIntValue(r: Reader, format: Format, t: VarType): (res: Result<Step<Value>, Error>)
    ensures format == Global && GetHNU32(r, FLTV).Success? ==>
              res == (if t == Short || t == Long then Success(Step(GetHNU32(r, FLTV).value.r, Truncated(GetHNU32(r, FLTV).value.v)))
                      else Failure(UnsupportedVariant))
    ensures (format == Gmst || format == Info) && t != Int ==> res == Failure(UnsupportedVariant)
    ensures format == Local && t != Short && t != Int ==> res == Failure(UnsupportedVariant)
    ensures res.Success? && format != Global ==>
              GetSubHeader(r).Success?
              && (t == Int ==> ReadI32(GetSubHeader(r).value).Success?
                               && res.value.v == Integer(ReadI32(GetSubHeader(r).value).value.v))
              && (t == Short ==> ReadI16(GetSubHeader(r).value).Success?
                                 && res.value.v == Integer(ReadI16(GetSubHeader(r).value).value.v))
    ensures res.Success? ==> Consumed(r, res.value.r)
  {
    match format
    case Global =>
      var s :- GetHNU32(r, FLTV);
      if t == Short || t == Long then Success(Step(s.r, Truncated(s.v)))
      else Failure(UnsupportedVariant)
    case Gmst => ReadI32Value(r, t)
    case Info => ReadI32Value(r, t)
    case Local =>
      if t == Short then
        var h :- GetSubHeader(r);
        var s :- ReadI16(h);
        Success(Step(s.r, Integer(s.v)))
      else ReadI32Value(r, t)
  }

  function ReadI32Value(r: Reader, t: VarType): (res: Result<Step<Value>, Error>)
    ensures t != Int ==> res == Failure(UnsupportedVariant)
    ensures res.Success? ==> Consumed(r, res.value.r) && GetSubHeader(r).Success?
    ensures res.Success? ==> (ReadI32(GetSubHeader(r).value).Success?
              && res.value == Step(ReadI32(GetSubHeader(r).value).value.r, Integer(ReadI32(GetSubHeader(r).value).value.v)))
  {
    if t != Int then Failure(UnsupportedVariant)
    else
      var h :- GetSubHeader(r);
      var s :- ReadI32(h);
      Success(Step(s.r, Integer(s.v)))
  }

  /** A float value: a global names its `FLTV` sub-record, the others have
      read the name already. */
  function ReadFloatValue(r: Reader, format: Format): (res: Result<Step<Value>, Error>)
    ensures format == Global ==> (res.Success? <==> GetHNU32(r, FLTV).Success?)
    ensures format == Global && res.Success? ==> res.value.v == Real(GetHNU32(r, FLTV).value.v)
    ensures format != Global ==> (res.Success? <==> GetSubHeader(r).Success? && ReadU32(GetSubHeader(r).value).Success?)
    ensures format != Global && res.Success? ==> res.value.v == Real(ReadU32(GetSubHeader(r).value).value.v)
    ensures res.Success? ==> Consumed(r, res.value.r)
  {
    if format == Global then
      var s :- GetHNU32(r, FLTV);
      Success(Step(s.r, Real(s.v)))
    else
      var h :- GetSubHeader(r);
      var s :- ReadF32(h);
      Success(Step(s.r, Real(s.v)))
  }

  /** The value-reading step of `Read`, by the type the first step chose. */
  function ReadValue(r: Reader, format: Format, t: VarType): (res: Result<Step<Value>, Error>)
    ensures t == String ==> res == ReadStringValue(r, format)
    ensures t == Short || t == Int || t == Long ==> res == ReadIntValue(r, format, t)
    ensures t == Float ==> res == ReadFloatValue(r, format)
    ensures t == Unknown || t == NoValue ==> res == Success(Step(r, Blank))
  {
    match t
    case String => ReadStringValue(r, format)
    case Short => ReadIntValue(r, format, t)
    case Int => ReadIntValue(r, format, t)
    case Long => ReadIntValue(r, format, t)
    case Float => ReadFloatValue(r, format)
    case _ => Success(Step(r, Blank))
  }

  /** `Variant.Read`: the type, then the value it selects. */
  function Read(r: Reader, format: Format): (res: Result<Step<Variant>, Error>)
    ensures res.Success? <==> (ReadType(r, format).Success?
              && ReadValue(ReadType(r, format).value.r, format, ReadType(r, format).value.v).Success?)
    ensures res.Success? ==> res.value.v.vtype == ReadType(r, format).value.v && InRecord(r, res.value.r)
    ensures res.Success? ==> res.value.v.vtype == String ==> format == Gmst
    ensures res.Success? ==> (res.value.v.vtype == NoValue <==> res.value.v.value == Blank)
  {
    var t :- ReadType(r, format);
    var v :- ReadValue(t.r, format, t.v);
    InRecordTransitive(r, t.r, v.r);
    Success(Step(v.r, Variant(t.v, v.v)))
  }

  // A reference layout: the sub-records a variant of each format is stored as.

  /** The variants each format can hold, with the values their types carry. */
  predicate Storable(format: Format, v: Variant)
  {
    match v.value
    case Blank => format == Gmst && v.vtype == NoValue
    case Integer(n) =>
      (v.vtype == Int && ValueTag(format, Int).Some? && -0x8000_0000 <= n < 0x8000_0000)
      || (v.vtype == Short && format == Local && -0x8000 <= n < 0x8000)
    case Real(_) => v.vtype == Float
    case Truncated(_) => format == Global && (v.vtype == Short || v.vtype == Long)
    case Text(s) => format == Gmst && v.vtype == String && PlainText(s) && |s| < 0x8000_0000
  }

  /** The value sub-record's payload. */
  function Payload(v: Variant): (p: seq<byte>)
    requires v.value.Integer? ==> -0x8000_0000 <= v.value.n < 0x8000_0000
    requires v.value.Integer? && v.vtype == Short ==> -0x8000 <= v.value.n < 0x8000
  {
    match v.value
    case Blank => []
    case Integer(n) => if v.vtype == Short then LE16(U16OfI16(n)) else LE32(U32OfI32(n))
    case Real(b) => LE32(b)
    case Truncated(b) => LE32(b)
    case Text(s) => W.HStringBytes(s, 0)
  }

  function VariantBytes(format: Format, v: Variant): (b: seq<byte>)
    requires Storable(format, v)
  {
    if format == Global then
      W.SubRecordBytes(FNAM, W.HStringBytes(GlobalLetter(v.vtype), 0)) + W.SubRecordBytes(FLTV, Payload(v))
    else if v.vtype == NoValue then []
    else W.SubRecordBytes(ValueTag(format, v.vtype).value, Payload(v))
  }

  /** Every variant a format can hold reads back as itself from its layout. */
  lemma ReadRoundTrip(r: Reader, format: Format, v: Variant)
    requires Storable(format, v) && At(r, VariantBytes(format, v)) && !r.ctx.subCached
    requires if v.vtype == NoValue then r.ctx.leftRec <= 0 else r.ctx.leftRec >= |VariantBytes(format, v)|
    ensures Read(r, format).Success? && Read(r, format).value.v == v
  {
    if format == Global {
      GlobalRoundTrip(r, v);
    } else if v.vtype != NoValue {
      assert VariantBytes(format, v) == W.SubRecordBytes(ValueTag(format, v.vtype).value, Payload(v));
      var n := TypeAt(r, format, v.vtype, Payload(v));
      match v.value {
        case Integer(x) =>
          if v.vtype == Short {
            ShortAt(n, format, x);
          } else {
            IntAt(n, format, x);
          }
        case Real(b) =>
          RealAt(n, format, b);
        case Text(s) =>
          HNStringRoundTrip(r, STRV, s, 0);
      }
    }
  }

  /** A value sub-record selects its type and leaves the cursor on its size. */
  lemma TypeAt(r: Reader, format: Format, t: VarType, p: seq<byte>) returns (n: Reader)
    requires ValueTag(format, t).Some? && At(r, W.SubRecordBytes(ValueTag(format, t).value, p))
    requires !r.ctx.subCached && |p| < TWO_32 && r.ctx.leftRec >= 8 + |p|
    ensures ReadType(r, format) == Success(Step(n, t))
    ensures n == GetSubNameIs(r, ValueTag(format, t).value).value
    ensures GetSubHeader(n).Success? && GetSubHeader(n).value.ctx.leftSub == |p| && At(GetSubHeader(n).value, p)
  {
    var name := ValueTag(format, t).value;
    SubRecordRoundTrip(r, name, p);
    n := GetSubNameIs(r, name).value;
  }

  lemma IntAt(n: Reader, format: Format, x: i32)
    requires ValueTag(format, Int).Some?
    requires GetSubHeader(n).Success? && At(GetSubHeader(n).value, LE32(U32OfI32(x)))
    ensures ReadValue(n, format, Int).Success? && ReadValue(n, format, Int).value.v == Integer(x)
  {
    U32RoundTrip(U32OfI32(x));
  }

  lemma ShortAt(n: Reader, format: Format, x: i16)
    requires format == Local
    requires GetSubHeader(n).Success? && At(GetSubHeader(n).value, LE16(U16OfI16(x)))
    ensures ReadValue(n, format, Short).Success? && ReadValue(n, format, Short).value.v == Integer(x)
  {
    U16RoundTrip(U16OfI16(x));
  }

  lemma RealAt(n: Reader, format: Format, b: u32)
    requires format != Global
    requires GetSubHeader(n).Success? && At(GetSubHeader(n).value, LE32(b))
    ensures ReadValue(n, format, Float).Success? && ReadValue(n, format, Float).value.v == Real(b)
  {
    AtU32(GetSubHeader(n).value, b);
  }

  lemma GlobalRoundTrip(r: Reader, v: Variant)
    requires Storable(Global, v) && At(r, VariantBytes(Global, v)) && !r.ctx.subCached
    requires r.ctx.leftRec >= |VariantBytes(Global, v)|
    ensures Read(r, Global).Success? && Read(r, Global).value.v == v
  {
    var a := W.SubRecordBytes(FNAM, W.HStringBytes(GlobalLetter(v.vtype), 0));
    var b := W.SubRecordBytes(FLTV, LE32(v.value.bits));
    assert VariantBytes(Global, v) == a + b;
    AtSplit(r, a, b);
    var s := GlobalTypeAt(r, v.vtype);
    AtMoved(r.(pos := r.pos + |a|), s, b);
    HNU32RoundTrip(s, FLTV, v.value.bits);
  }

  /** The type letter of a global selects its type and leaves the cursor
      past the `FNAM` sub-record. */
  lemma GlobalTypeAt(r: Reader, t: VarType) returns (s: Reader)
    requires t == Short || t == Long || t == Float
    requires At(r, W.SubRecordBytes(FNAM, W.HStringBytes(GlobalLetter(t), 0))) && !r.ctx.subCached
    requires r.ctx.leftRec >= |W.SubRecordBytes(FNAM, W.HStringBytes(GlobalLetter(t), 0))|
    ensures ReadType(r, Global) == Success(Step(s, t))
    ensures s.data == r.data && s.pos == r.pos + |W.SubRecordBytes(FNAM, W.HStringBytes(GlobalLetter(t), 0))|
    ensures s.ctx.leftRec == r.ctx.leftRec - |W.SubRecordBytes(FNAM, W.HStringBytes(GlobalLetter(t), 0))|
    ensures !s.ctx.subCached
  {
    PlainLetter(t);
    HNStringRoundTrip(r, FNAM, GlobalLetter(t), 0);
    s := GetHNString(r, FNAM).value.r;
    GlobalLetterRoundTrip(t);
  }

  lemma PlainLetter(t: VarType)
    requires t == Short || t == Long || t == Float
    ensures PlainText(GlobalLetter(t))
  {
  }

  /** No format but the game setting's ever yields a string value. */
  lemma OnlySettingsHoldText(r: Reader, format: Format)
    requires format != Gmst && Read(r, format).Success?
    ensures !Read(r, format).value.v.value.Text?
  {
  }
}

=== FILE: wrappers.dfy ===
/** Failure-compatible datatypes shared by the decoder and the encoder.
    Every operation that can throw in the original library returns a `Result`;
    a `null` reference in the original library is an `Option`. */
module Wrappers {

  datatype Option<+T> = None | Some(value: T) {

    predicate IsFailure() {
      None?
    }

    function PropagateFailure<U>(): Option<U>
      requires None?
    {
      None
    }

    function Extract(): T
      requires Some?
    {
      value
    }

    function GetOr(default: T): T {
      match this
      case Some(v) => v
      case None => default
    }
  }

  datatype Result<+T, +E> = Success(value: T) | Failure(error: E) {

    predicate IsFailure() {
      Failure?
    }

    function PropagateFailure<U>(): Result<U, E>
      requires Failure?
    {
      Failure(error)
    }

    function Extract(): T
      requires Success?
    {
      value
    }
  }
}

=== FILE: writer.dfy ===
/** The writer: bytes appended to an output stream, with a stack of open
    frames (records and sub-records). Every byte written while a frame is
    open is counted into that frame's 32-bit size, and closing a frame
    patches the size field in its header. */
module EsmWriter {
  import opened Bytes
  import opened Wrappers
  import opened Errors
  import opened Tags
  import opened Text
  import opened RefIds
  import opened FormatVersions

  datatype FrameKind = RecordFrame | SubRecordFrame

  /** An open frame: its name, where its size field sits and the bytes
      counted into it so far, modulo 2^32 as the library's `uint` wraps. */
  datatype Frame = Frame(name: Tag, position: nat, size: u32, kind: FrameKind)

  /** `version` is the format version of the header being saved. */
  datatype Writer = Writer(out: seq<byte>, frames: seq<Frame>, version: u32, recordCount: int)

  /** The header bytes after a frame's size position that its size excludes:
      the size field itself, and for a record also the unused word and the flags. */
  function HeaderAfter(k: FrameKind): nat
  {
    match k
    case RecordFrame => 12
    case SubRecordFrame => 4
  }

  /** A frame's counter equals the bytes written after its header. */
  predicate FrameOk(f: Frame, len: nat)
  {
    f.position + HeaderAfter(f.kind) <= len && f.size == (len - f.position - HeaderAfter(f.kind)) % TWO_32
  }

  predicate Valid(w: Writer)
  {
    forall i :: 0 <= i < |w.frames| ==> FrameOk(w.frames[i], |w.out|)
  }

  const NEW_WRITER: Writer := Writer([], [], 0, 0)

  /** Every open frame counts `n` more bytes. */
  function Grow(frames: seq<Frame>, n: nat): (g: seq<Frame>)
    ensures |g| == |frames|
    ensures forall i :: 0 <= i < |g| ==>
              g[i].name == frames[i].name && g[i].position == frames[i].position && g[i].kind == frames[i].kind
  {
    seq(|frames|, i requires 0 <= i < |frames| => frames[i].(size := (frames[i].size + n) % TWO_32))
  }

  lemma ModAdd(a: int, n: nat)
    ensures (a % TWO_32 + n) % TWO_32 == (a + n) % TWO_32
  {
  }

  /** Counting twice is counting the sum. */
  lemma GrowTwice(frames: seq<Frame>, a: nat, b: nat)
    ensures Grow(Grow(frames, a), b) == Grow(frames, a + b)
  {
    forall i | 0 <= i < |frames|
      ensures Grow(Grow(frames, a), b)[i] == Grow(frames, a + b)[i]
    {
      ModAdd(frames[i].size + a, b);
    }
  }

  /** A counted write: the bytes go to the end of the stream and into every open frame. */
  function Emit(w: Writer, b: seq<byte>): (w2: Writer)
    ensures w2.out == w.out + b && w2.version == w.version && w2.recordCount == w.recordCount
    ensures w2.frames == Grow(w.frames, |b|)
    ensures Valid(w) ==> Valid(w2)
  {
    var w2 := w.(out := w.out + b, frames := Grow(w.frames, |b|));
    assert Valid(w) ==> Valid(w2) by {
      if Valid(w) {
        forall i | 0 <= i < |w2.frames| ensures FrameOk(w2.frames[i], |w2.out|) {
          var f := w.frames[i];
          assert FrameOk(f, |w.out|);
          ModAdd(|w.out| - f.position - HeaderAfter(f.kind), |b|);
        }
      }
    }
    w2
  }

  /** `w2` is `w` after more writes: the same frames are open and the
      output has only been appended to. */
  predicate Extends(w: Writer, w2: Writer)
  {
    |w2.frames| == |w.frames| && w2.version == w.version && w.out <= w2.out
  }

  lemma EmitTwice(w: Writer, a: seq<byte>, b: seq<byte>)
    ensures Emit(Emit(w, a), b) == Emit(w, a + b)
  {
    GrowTwice(w.frames, |a|, |b|);
    assert w.out + a + b == w.out + (a + b);
  }

  /** Overwrite the four bytes at `p`. */
  function Patch(out: seq<byte>, p: nat, v: seq<byte>): (o: seq<byte>)
    requires |v| == 4 && p + 4 <= |out|
    ensures |o| == |out| && o[..p] == out[..p] && o[p..p + 4] == v && o[p + 4..] == out[p + 4..]
  {
    out[..p] + v + out[p + 4..]
  }

  // Frames.

  /** A record header: the name, a size placeholder, the unused word, the flags. */
  function StartRecord(w: Writer, name: Tag, flags: u32): (w2: Writer)
    ensures w2.out == w.out + LE32(name) + LE32(0) + LE32(0) + LE32(flags)
    ensures |w2.frames| == |w.frames| + 1 && w2.frames[..|w.frames|] == Grow(w.frames, 16)
    ensures w2.frames[|w.frames|] == Frame(name, |w.out| + 4, 0, RecordFrame)
    ensures w2.recordCount == w.recordCount + 1 && w2.version == w.version
    ensures Valid(w) ==> Valid(w2)
  {
    var w1 := Emit(w, LE32(name) + LE32(0) + LE32(0) + LE32(flags));
    assert w1.out == w.out + LE32(name) + LE32(0) + LE32(0) + LE32(flags);
    w1.(frames := w1.frames + [Frame(name, |w.out| + 4, 0, RecordFrame)], recordCount := w.recordCount + 1)
  }

  /** A sub-record header: the name and a size placeholder. Sub-records may
      not nest, so at most the enclosing record may be open. */
  function StartSubRecord(w: Writer, name: Tag): (res: Result<Writer, Error>)
    ensures res.Failure? <==> |w.frames| > 1
    ensures res.Success? ==> res.value.out == w.out + LE32(name) + LE32(0)
    ensures res.Success? ==> |res.value.frames| == |w.frames| + 1 && res.value.frames[..|w.frames|] == Grow(w.frames, 8)
    ensures res.Success? ==> res.value.frames[|w.frames|] == Frame(name, |w.out| + 4, 0, SubRecordFrame)
    ensures res.Success? ==> res.value.version == w.version && res.value.recordCount == w.recordCount
    ensures res.Success? && Valid(w) ==> Valid(res.value)
  {
    if |w.frames| > 1 then Failure(WriterState)
    else
      var w1 := Emit(w, LE32(name) + LE32(0));
      Success(w1.(frames := w1.frames + [Frame(name, |w.out| + 4, 0, SubRecordFrame)]))
  }

  /** The guard as the library writes it: it refuses exactly the case it
      means to allow, a sub-record directly inside a record. */
  function StartSubRecordAsWritten(w: Writer, name: Tag): (res: Result<Writer, Error>)
    ensures res.Failure? <==> |w.frames| <= 1
    ensures res.Success? ==> res.value.out == w.out + LE32(name) + LE32(0)
  {
    if |w.frames| <= 1 then Failure(WriterState)
    else
      var w1 := Emit(w, LE32(name) + LE32(0));
      Success(w1.(frames := w1.frames + [Frame(name, |w.out| + 4, 0, SubRecordFrame)]))
  }

  /** With the guard as written, no sub-record can be started inside the one
      record that `save` has open. */
  lemma AsWrittenRejectsSubRecordInRecord(w: Writer, name: Tag, sub: Tag, flags: u32)
    requires w.frames == []
    ensures StartSubRecordAsWritten(StartRecord(w, name, flags), sub).Failure?
    ensures StartSubRecord(StartRecord(w, name, flags), sub).Success?
  {
  }

  /** Close the innermost frame: its name must match, and its counter is
      written, uncounted, into the size field of its header. */
  function EndRecord(w: Writer, name: Tag): (res: Result<Writer, Error>)
    requires Valid(w)
    ensures res.Failure? <==> |w.frames| == 0 || w.frames[|w.frames| - 1].name != name
    ensures res.Success? ==>
              var f := w.frames[|w.frames| - 1];
              f.position + 4 <= |w.out|
              && res.value.out == Patch(w.out, f.position, LE32((|w.out| - f.position - HeaderAfter(f.kind)) % TWO_32))
              && res.value.frames == w.frames[..|w.frames| - 1]
              && res.value.version == w.version && res.value.recordCount == w.recordCount
    ensures res.Success? ==> Valid(res.value)
  {
    if |w.frames| == 0 then Failure(WriterState)
    else
      var f := w.frames[|w.frames| - 1];
      assert FrameOk(f, |w.out|);
      if f.name != name then Failure(WriterState)
      else Success(w.(out := Patch(w.out, f.position, LE32(f.size)), frames := w.frames[..|w.frames| - 1]))
  }

  // Payload writes.

  /** `Write(byte[], length)`: with a positive length the value is padded with
      nuls to exactly that many bytes, and a longer value is refused. */
  function WriteBytes(w: Writer, value: seq<byte>, length: int): (res: Result<Writer, Error>)
    ensures res.Failure? <==> length > 0 && |value| > length
    ensures res.Success? && length > 0 ==> res.value == Emit(w, value + Zeros(length - |value|))
    ensures length <= 0 ==> res == Success(Emit(w, value))
  {
    if length > 0 then
      if |value| > length then Failure(ValueTooLong)
      else Success(Emit(w, value + Zeros(length - |value|)))
    else Success(Emit(w, value))
  }

  /** The payload of a string sub-record of width `size` (0 for "as long as
      the string"): the empty string with no width is a single nul. */
  function HStringBytes(s: string, size: int): (b: seq<byte>)
    requires size <= 0 || |s| <= size
    ensures size > 0 ==> |b| == size
    ensures size <= 0 ==> |b| == if s == "" && size == 0 then 1 else |s|
    ensures b[..|s|] == EncodeText(s)
    ensures forall i :: |s| <= i < |b| ==> b[i] == 0
  {
    if s == "" && size == 0 then [0]
    else if size > 0 then EncodeText(s) + Zeros(size - |s|)
    else EncodeText(s)
  }

  function WriteHString(w: Writer, s: string, size: int): (res: Result<Writer, Error>)
    ensures res.Failure? <==> size > 0 && |s| > size
    ensures res.Success? ==> res.value == Emit(w, HStringBytes(s, size))
  {
    if s == "" && size == 0 then Success(Emit(w, [0]))
    else WriteBytes(w, EncodeText(s), size)
  }

  /** A nul-terminated string: the encoded text and one nul, also when empty. */
  function WriteHCString(w: Writer, s: string): (w2: Writer)
    ensures w2 == Emit(w, EncodeText(s) + [0])
  {
    var w1 := WriteHString(w, s, 0).value;
    if s != "" then
      EmitTwice(w, EncodeText(s), [0]);
      Emit(w1, [0])
    else w1
  }

  /** A length-prefixed string. */
  function WriteStringWithSize(w: Writer, s: string): (res: Result<Writer, Error>)
    ensures res.Failure? <==> |s| >= TWO_32
    ensures res.Success? ==> res.value == Emit(w, LE32(|s|) + EncodeText(s))
  {
    var b := EncodeText(s);
    if |b| > 0xFFFF_FFFF then Failure(ValueTooLong)
    else
      EmitTwice(w, LE32(|b|), b);
      Success(Emit(Emit(w, LE32(|b|)), b))
  }

  /** Fixed-width up to version 22, length-prefixed after. */
  function WriteMaybeFixedSizeString(w: Writer, s: string, size: int): (res: Result<Writer, Error>)
    ensures w.version <= MAX_LIMITED_SIZE_STRINGS_FORMAT_VERSION ==> res == WriteBytes(w, EncodeText(s), size)
    ensures w.version > MAX_LIMITED_SIZE_STRINGS_FORMAT_VERSION ==> res == WriteStringWithSize(w, s)
  {
    if w.version <= MAX_LIMITED_SIZE_STRINGS_FORMAT_VERSION then WriteBytes(w, EncodeText(s), size)
    else WriteStringWithSize(w, s)
  }

  /** The bytes of a whole sub-record. */
  function SubRecordBytes(name: Tag, payload: seq<byte>): (b: seq<byte>)
    ensures |b| == 8 + |payload|
  {
    LE32(name) + LE32(|payload| % TWO_32) + payload
  }

  lemma PatchSubRecord(out: seq<byte>, n: seq<byte>, z: seq<byte>, p: seq<byte>, v: seq<byte>)
    requires |n| == 4 && |z| == 4 && |v| == 4
    ensures Patch(out + n + z + p, |out| + 4, v) == out + n + v + p
  {
    var all := out + n + z + p;
    assert all[..|out| + 4] == out + n;
    assert all[|out| + 8..] == p;
  }

  /** The state just before a sub-record is closed. */
  lemma OpenSubRecordState(w: Writer, name: Tag, p: seq<byte>)
    requires Valid(w) && |w.frames| <= 1
    ensures var w2 := Emit(StartSubRecord(w, name).value, p);
            Valid(w2) && |w2.frames| == |w.frames| + 1
            && w2.frames[|w.frames|] == Frame(name, |w.out| + 4, |p| % TWO_32, SubRecordFrame)
            && w2.frames[..|w.frames|] == Grow(w.frames, 8 + |p|)
            && w2.out == w.out + LE32(name) + LE32(0) + p
            && w2.version == w.version && w2.recordCount == w.recordCount
  {
    var w1 := StartSubRecord(w, name).value;
    var w2 := Emit(w1, p);
    var n := |w.frames|;
    assert w2.frames[n] == Grow(w1.frames, |p|)[n];
    GrowTwice(w.frames, 8, |p|);
    assert w2.frames[..n] == Grow(w1.frames[..n], |p|);
  }

  /** A sub-record opened, filled by one counted write and closed is the
      same as writing its header with the right size and its payload. */
  lemma SubRecordLayout(w: Writer, name: Tag, p: seq<byte>)
    requires Valid(w) && |w.frames| <= 1
    ensures var w1 := StartSubRecord(w, name).value;
            EndRecord(Emit(w1, p), name) == Success(Emit(w, SubRecordBytes(name, p)))
  {
    var w2 := Emit(StartSubRecord(w, name).value, p);
    OpenSubRecordState(w, name, p);
    var e := EndRecord(w2, name).value;
    PatchSubRecord(w.out, LE32(name), LE32(0), p, LE32(|p| % TWO_32));
    assert e.out == w.out + SubRecordBytes(name, p);
  }

  // Named sub-records.

  /** A sub-record holding `payload`: the typed `writeHNT` overloads are this
      with the value's little-endian bytes. */
  function WriteHNT(w: Writer, name: Tag, payload: seq<byte>): (res: Result<Writer, Error>)
    requires Valid(w)
    ensures res.Failure? <==> |w.frames| > 1
    ensures res.Success? ==> res.value == Emit(w, SubRecordBytes(name, payload))
  {
    var w1 :- StartSubRecord(w, name);
    SubRecordLayout(w, name, payload);
    EndRecord(Emit(w1, payload), name)
  }

  function WriteHNString(w: Writer, name: Tag, s: string, size: int): (res: Result<Writer, Error>)
    requires Valid(w)
    ensures res.Failure? <==> |w.frames| > 1 || (size > 0 && |s| > size)
    ensures res.Success? ==> res.value == Emit(w, SubRecordBytes(name, HStringBytes(s, size)))
  {
    var w1 :- StartSubRecord(w, name);
    var w2 :- WriteHString(w1, s, size);
    SubRecordLayout(w, name, HStringBytes(s, size));
    EndRecord(w2, name)
  }

  function WriteHNCString(w: Writer, name: Tag, s: string): (res: Result<Writer, Error>)
    requires Valid(w)
    ensures res.Failure? <==> |w.frames| > 1
    ensures res.Success? ==> res.value == Emit(w, SubRecordBytes(name, EncodeText(s) + [0]))
  {
    var w1 :- StartSubRecord(w, name);
    SubRecordLayout(w, name, EncodeText(s) + [0]);
    EndRecord(WriteHCString(w1, s), name)
  }

  /** Optional strings are written only when non-empty. */
  function WriteHNOString(w: Writer, name: Tag, s: string): (res: Result<Writer, Error>)
    requires Valid(w)
    ensures s == "" ==> res == Success(w)
    ensures s != "" ==> res == WriteHNString(w, name, s, 0)
  {
    if s != "" then WriteHNString(w, name, s, 0) else Success(w)
  }

  function WriteHNOCString(w: Writer, name: Tag, s: string): (res: Result<Writer, Error>)
    requires Valid(w)
    ensures s == "" ==> res == Success(w)
    ensures s != "" ==> res == WriteHNCString(w, name, s)
  {
    if s != "" then WriteHNCString(w, name, s) else Success(w)
  }

  /** The deleted marker: a DELE sub-record of four nuls. */
  function WriteDeleted(w: Writer): (res: Result<Writer, Error>)
    requires Valid(w)
    ensures res.Failure? <==> |w.frames| > 1
    ensures res.Success? ==> res.value == Emit(w, SubRecordBytes(DELE, Zeros(4)))
  {
    WriteHNString(w, DELE, "", 4)
  }

  // Reference identifiers.

  /** The type a reference identifier is tagged with on the wire: a string
      identifier written without its length is tagged as unsized. */
  function WireType(r: RefId, sized: bool): (t: RefIdType)
    ensures t == UnsizedString <==> r.Str? && !sized
  {
    if r.Str? && !sized then UnsizedString else TypeOf(r)
  }

  /** What follows the type byte. */
  function RefIdPayload(r: RefId, sized: bool): seq<byte>
  {
    match r
    case Empty => []
    case Str(v) => if sized then LE32(|v| % TWO_32) + EncodeText(v) else EncodeText(v)
    case Form(f) => LE32(f.index) + LE32(U32OfI32(f.contentFile))
    case Generated(n) => LE64(n)
    case Index(t, v) => LE32(t) + LE32(v)
    case ExteriorCell(x, y) => LE32(U32OfI32(x)) + LE32(U32OfI32(y))
  }

  /** The tagged wire form of a reference identifier; `sized` selects the
      length-prefixed string form. It is the inverse of the reader's decoder. */
  function RefIdWire(r: RefId, sized: bool): (b: seq<byte>)
    ensures |b| >= 1 && b[0] == TypeByte(WireType(r, sized))
  {
    [TypeByte(WireType(r, sized))] + RefIdPayload(r, sized)
  }

  /** Up to version 23 a reference identifier is its text. */
  function WriteHRefId(w: Writer, r: RefId): (res: Result<Writer, Error>)
    ensures w.version <= MAX_STRING_REF_ID_FORMAT_VERSION ==>
              (res.Failure? <==> ToText(r).Failure?)
              && (res.Success? ==> res.value == Emit(w, HStringBytes(ToText(r).value, 0)))
    ensures w.version > MAX_STRING_REF_ID_FORMAT_VERSION ==> res == Success(Emit(w, RefIdWire(r, false)))
  {
    if w.version <= MAX_STRING_REF_ID_FORMAT_VERSION then
      var s :- ToText(r);
      WriteHString(w, s, 0)
    else Success(Emit(w, RefIdWire(r, false)))
  }

  function WriteHCRefId(w: Writer, r: RefId): (res: Result<Writer, Error>)
    ensures w.version <= MAX_STRING_REF_ID_FORMAT_VERSION ==>
              (res.Failure? <==> ToText(r).Failure?)
              && (res.Success? ==> res.value == Emit(w, EncodeText(ToText(r).value) + [0]))
    ensures w.version > MAX_STRING_REF_ID_FORMAT_VERSION ==> res == Success(Emit(w, RefIdWire(r, false)))
  {
    if w.version <= MAX_STRING_REF_ID_FORMAT_VERSION then
      var s :- ToText(r);
      Success(WriteHCString(w, s))
    else Success(Emit(w, RefIdWire(r, false)))
  }

  /** The payload `WriteHRefId` produces. */
  function HRefIdBytes(version: u32, r: RefId): (b: Result<seq<byte>, Error>)
    ensures b.Failure? <==> version <= MAX_STRING_REF_ID_FORMAT_VERSION && ToText(r).Failure?
  {
    if version <= MAX_STRING_REF_ID_FORMAT_VERSION then
      var s :- ToText(r);
      Success(HStringBytes(s, 0))
    else Success(RefIdWire(r, false))
  }

  function WriteHNRefId(w: Writer, name: Tag, r: RefId): (res: Result<Writer, Error>)
    requires Valid(w)
    ensures res.Failure? <==> |w.frames| > 1 || HRefIdBytes(w.version, r).Failure?
    ensures res.Success? ==> res.value == Emit(w, SubRecordBytes(name, HRefIdBytes(w.version, r).value))
  {
    var w1 :- StartSubRecord(w, name);
    var w2 :- WriteHRefId(w1, r);
    SubRecordLayout(w, name, HRefIdBytes(w.version, r).value);
    EndRecord(w2, name)
  }

  /** The fixed-width variant: up to version 23 the text padded to `size`. */
  function WriteHNRefIdSized(w: Writer, name: Tag, r: RefId, size: int): (res: Result<Writer, Error>)
    requires Valid(w)
    ensures w.version <= MAX_STRING_REF_ID_FORMAT_VERSION ==>
              (res.Failure? <==> ToText(r).Failure? || WriteHNString(w, name, ToText(r).value, size).Failure?)
              && (res.Success? ==> res == WriteHNString(w, name, ToText(r).value, size))
    ensures w.version > MAX_STRING_REF_ID_FORMAT_VERSION ==> res == WriteHNRefId(w, name, r)
  {
    if w.version <= MAX_STRING_REF_ID_FORMAT_VERSION then
      var s :- ToText(r);
      WriteHNString(w, name, s, size)
    else WriteHNRefId(w, name, r)
  }

  function WriteHNCRefId(w: Writer, name: Tag, r: RefId): (res: Result<Writer, Error>)
    requires Valid(w)
    ensures res.Failure? <==> |w.frames| > 1 || (w.version <= MAX_STRING_REF_ID_FORMAT_VERSION && ToText(r).Failure?)
    ensures res.Success? && w.version > MAX_STRING_REF_ID_FORMAT_VERSION ==>
              res.value == Emit(w, SubRecordBytes(name, RefIdWire(r, false)))
    ensures res.Success? && w.version <= MAX_STRING_REF_ID_FORMAT_VERSION ==>
              res.value == Emit(w, SubRecordBytes(name, EncodeText(ToText(r).value) + [0]))
  {
    var w1 :- StartSubRecord(w, name);
    var w2 :- WriteHCRefId(w1, r);
    if w.version <= MAX_STRING_REF_ID_FORMAT_VERSION then
      SubRecordLayout(w, name, EncodeText(ToText(r).value) + [0]);
      EndRecord(w2, name)
    else
      SubRecordLayout(w, name, RefIdWire(r, false));
      EndRecord(w2, name)
  }

  /** Optional identifiers are written only when not empty. */
  function WriteHNORefId(w: Writer, name: Tag, r: RefId): (res: Result<Writer, Error>)
    requires Valid(w)
    ensures r.Empty? ==> res == Success(w)
    ensures !r.Empty? ==> res == WriteHNRefId(w, name, r)
  {
    if !r.Empty? then WriteHNRefId(w, name, r) else Success(w)
  }

  function WriteHNOCRefId(w: Writer, name: Tag, r: RefId): (res: Result<Writer, Error>)
    requires Valid(w)
    ensures r.Empty? ==> res == Success(w)
    ensures !r.Empty? ==> res == WriteHNCRefId(w, name, r)
  {
    if !r.Empty? then WriteHNCRefId(w, name, r) else Success(w)
  }

  /** A reference identifier inside a larger payload: the text at a fixed or
      prefixed width up to version 23, the sized tagged form after. */
  function WriteMaybeFixedSizeRefId(w: Writer, r: RefId, size: int): (res: Result<Writer, Error>)
    ensures w.version <= MAX_STRING_REF_ID_FORMAT_VERSION ==>
              (ToText(r).Failure? ==> res.Failure?)
              && (ToText(r).Success? ==> res == WriteMaybeFixedSizeString(w, ToText(r).value, size))
    ensures w.version > MAX_STRING_REF_ID_FORMAT_VERSION ==> res == Success(Emit(w, RefIdWire(r, true)))
  {
    if w.version <= MAX_STRING_REF_ID_FORMAT_VERSION then
      var s :- ToText(r);
      WriteMaybeFixedSizeString(w, s, size)
    else Success(Emit(w, RefIdWire(r, true)))
  }

  /** A form identifier sub-record: index and content file when wide, the
      index alone when narrow. */
  function WriteFormId(w: Writer, f: FormId, wide: bool, tag: Tag): (res: Result<Writer, Error>)
    requires Valid(w)
    ensures res.Failure? <==> |w.frames| > 1
    ensures res.Success? && wide ==> res.value == Emit(w, SubRecordBytes(tag, LE32(f.index) + LE32(U32OfI32(f.contentFile))))
    ensures res.Success? && !wide ==> res.value == Emit(w, SubRecordBytes(tag, LE32(f.index)))
  {
    if wide then WriteHNT(w, tag, LE32(f.index) + LE32(U32OfI32(f.contentFile)))
    else WriteHNT(w, tag, LE32(f.index))
  }

  // Whole records.

  function RecordBytes(name: Tag, flags: u32, body: seq<byte>): (b: seq<byte>)
    ensures |b| == 16 + |body|
  {
    LE32(name) + LE32(|body| % TWO_32) + LE32(0) + LE32(flags) + body
  }

  lemma PatchRecord(out: seq<byte>, n: seq<byte>, z: seq<byte>, u: seq<byte>, f: seq<byte>, body: seq<byte>, v: seq<byte>)
    requires |n| == 4 && |z| == 4 && |v| == 4
    ensures Patch(out + n + z + u + f + body, |out| + 4, v) == out + (n + v + u + f + body)
  {
    var all := out + n + z + u + f + body;
    assert all[..|out| + 4] == out + n;
    assert all[|out| + 8..] == u + f + body;
    assert (out + n) + v + (u + f + body) == out + (n + v + u + f + body);
  }

  /** A top-level record opened, filled by counted writes and closed is its
      header with the body's size, then the body. */
  lemma {:induction false} RecordLayout(w: Writer, name: Tag, flags: u32, body: seq<byte>)
    requires Valid(w) && w.frames == []
    ensures EndRecord(Emit(StartRecord(w, name, flags), body), name)
            == Success(Emit(w, RecordBytes(name, flags, body)).(recordCount := w.recordCount + 1))
  {
    var w1 := StartRecord(w, name, flags);
    var w2 := Emit(w1, body);
    assert |w2.frames| == 1 && w2.frames[0].name == name;
    assert w2.frames[0].position == |w.out| + 4 && w2.frames[0].kind == RecordFrame;
    var e := EndRecord(w2, name).value;
    assert w2.out == w.out + LE32(name) + LE32(0) + LE32(0) + LE32(flags) + body;
    assert |w2.out| - (|w.out| + 4) - 12 == |body|;
    PatchRecord(w.out, LE32(name), LE32(0), LE32(0), LE32(flags), body, LE32(|body| % TWO_32));
    assert e.out == w.out + RecordBytes(name, flags, body);
    var target := Emit(w, RecordBytes(name, flags, body)).(recordCount := w.recordCount + 1);
    assert target.frames == [] == e.frames;
  }

  lemma ConcatAssoc(a: seq<byte>, b: seq<byte>, c: seq<byte>)
    ensures a + b + c == a + (b + c)
  {
  }

  /** One whole record: its header, the body, the size patched in. */
  function SaveRecord(w: Writer, name: Tag, flags: u32, body: seq<byte>): (w2: Writer)
    requires Valid(w) && w.frames == []
    ensures w2 == Emit(w, RecordBytes(name, flags, body)).(recordCount := w.recordCount + 1)
    ensures Valid(w2) && w2.frames == []
  {
    RecordLayout(w, name, flags, body);
    EndRecord(Emit(StartRecord(w, name, flags), body), name).value
  }

  /** `save`: the header record, then every record, each framed. `bodies`
      stands for what each record's own `Save` writes. */
  function SaveRecords(w: Writer, records: seq<(Tag, u32, seq<byte>)>): (w2: Writer)
    requires Valid(w) && w.frames == []
    ensures Valid(w2) && w2.frames == [] && w2.version == w.version
    ensures w2.recordCount == w.recordCount + |records|
    ensures w2.out == w.out + FileBytes(records)
    decreases |records|
  {
    if records == [] then w
    else
      var w1 := SaveRecord(w, records[0].0, records[0].1, records[0].2);
      var w2 := SaveRecords(w1, records[1..]);
      ConcatAssoc(w.out, RecordBytes(records[0].0, records[0].1, records[0].2), FileBytes(records[1..]));
      w2
  }

  function FileBytes(records: seq<(Tag, u32, seq<byte>)>): seq<byte>
    decreases |records|
  {
    if records == [] then [] else RecordBytes(records[0].0, records[0].1, records[0].2) + FileBytes(records[1..])
  }

  /** `save` with the header record first. The header's own save is not
      part of this model: `headerSave` stands for it, given the record count
      that `save` stores in the header before writing it. */
  function Save(version: u32, headerSave: int -> seq<byte>, records: seq<(Tag, u32, seq<byte>)>): (w: Writer)
    ensures w.out == RecordBytes(TES3, 0, headerSave(|records|)) + FileBytes(records)
    ensures w.recordCount == |records| + 1 && w.frames == [] && w.version == version
  {
    var headerBody := headerSave(|records|);
    var w0 := NEW_WRITER.(version := version);
    var w1 := SaveRecords(w0, [(TES3, 0, headerBody)] + records);
    assert ([(TES3, 0 as u32, headerBody)] + records)[1..] == records;
    w1
  }
}
